=== FILE: README.md ===
# HSG Canvas — a Dafny model of its playback core

HSG Canvas drives a wall-mounted screen. It plays YouTube, internet radio and
RTMP/HLS streams on a small pool of long-running `mpv` processes controlled over
JSON IPC; it routes media to the local screen or to Chromecast devices, accepts
casts sent to it, follows Spotify Connect events, mirrors its state to Home
Assistant and runs Home Assistant automation rules, shows web pages as scrolled
screenshots, and draws a generated background with a split-flap clock.

This project models the decision-making part of that system in Dafny and proves
what it promises:

- `mpv_pools.dfy`, `mpv_controller.dfy`, `health_monitor.dfy`: the process pool
  (slot hand-out, release, allocation, restart and health-check accounting), the
  IPC controller (request-id counter, reconnect retry, reply correlation over a
  byte stream split into lines, property observation) and the health-monitor
  ticks. The pool of the older single-file server is `MpvPools.Pool.Legacy`.
- `output_targets.dfy`, `chromecast.dfy`, `cast_receiver.dfy`: the output-target
  registry and its routing, outgoing Chromecast sessions and the inbound cast
  receiver, including the SSDP search response.
- `websocket.dfy`, `spotify.dfy`, `audio.dfy`, `playback.dfy`, `homeassistant.dfy`,
  `hdmi_cec.dfy`, `stream.dfy`, `webcast.dfy`: the managers, each a class whose
  fields are the manager's state.
- `media.dfy`, `url.dfy`, `netloc.dfy`, `drm.dfy`, `display.dfy`, `framebuffer.dfy`:
  media-type classification, URL splitting, the host name of a network
  location, the DRM connector choice, display-mode detection and framebuffer
  pixel packing.
- `layout.dfy`, `splitflap.dfy`: placement of the background components and the
  split-flap clock's animation counters.
- `srsserver.dfy`: the parts of the older single-file server that are not copies
  of the modules above.
- `wrappers.dfy`, `text.dfy`, `numeric.dfy`: `Option`/`Result`, and the string
  and number operations of Python that the code relies on (`strip`, `split`,
  `lower`, `int()` of a float, clamping).

Everything the program learns from outside (a process starting, a socket
answering, a file being readable, an HTTP status, the clock) is a parameter of the
operation that learns it. What the program sends out (IPC commands, processes
handed back to a pool, broadcasts, effects of automation rules) is a result.
Python's `//` on the non-negative values used here is Dafny's `/`, `int()` of a
float is `Numeric.Trunc`, and truthiness is written out.

## Model

| member | source | states |
|---|---|---|
| Url.UrlSplit | utils/media.py:28-29 | `urlsplit`, the first half of `urlparse`: the netloc holds no '/', '?' or '#', the path no '?' or '#', the scheme is lower-case |
| Url.CutParams | utils/media.py:28-29 | `urlparse`'s removal of `;params`: the result is a prefix of the path followed by ';' or the whole path, keeps every '/', and holds no ';' after its last '/' |
| Url.UrlParse | utils/media.py:28-29 | `urlparse` without the params field: scheme, netloc, query and fragment as `urlsplit` gives them, and the path cut by CutParams for the schemes in `uses_params` (http, https, none and the rest) |
| Url.CutParamsSegment | utils/media.py:28-45 | `dir/name;params` loses `;params` when the name and the parameters hold no '/' (so `/a.mp3;s=1` is `/a.mp3` and the audio extension is seen) |
| Url.Unquote | managers/chromecast_manager.py:221 | `unquote`: never longer than its input, empty only for empty input, and the identity on text without '%' |
| Url.UnquoteQuoteAll | managers/chromecast_manager.py:221 | decoding the `%XX` form of ASCII text gives the text back |
| Url.DecodeComponent | managers/chromecast_manager.py:221 | the decoded name or value is non-empty when the raw one is, and plain text without '+' or '%' is unchanged |
| Url.PairValue | managers/chromecast_manager.py:221-222 | a piece with no '=' gives nothing; otherwise, split at its first '=', it gives the decoded value exactly when the raw value is non-empty and the decoded name is the key |
| Url.QueryFirst | managers/chromecast_manager.py:220-222 | `parse_qs(query)[key][0]`: a value found is non-empty and is FirstValue of the query's '&'-separated pieces |
| Url.FirstValue | managers/chromecast_manager.py:221-222 | the decoded value of the first piece that PairValue accepts, with no earlier piece accepted; none exactly when no piece is accepted |
| NetLoc.AfterLast | managers/audio_manager.py:256 | `rpartition(c)[2]`: the longest suffix without `c`, preceded by `c` when there is one, the whole text otherwise |
| NetLoc.HostInfo | managers/audio_manager.py:256 | the host part of `_hostinfo`: never holds '@'; without a '[' it is the text before the first ':' of what follows the last '@'; with one it holds no ']' |
| NetLoc.Hostname | managers/audio_manager.py:256 | none exactly when the host part is empty; otherwise as long as it, free of '@', and its lower-case form when it has no '%' zone |
| NetLoc.HttpNetloc | managers/audio_manager.py:255 | in `http://netloc` followed by nothing or a path, query or fragment, `urlparse` gives back exactly `netloc` |
| NetLoc.HostnamePlain | managers/audio_manager.py:256 | `[user@]host:port` names `host` in lower case |
| NetLoc.HostnameBracketed | managers/audio_manager.py:256 | `[user@][host]port` names the lower-cased bracketed address, its colons kept |
| NetLoc.HostnameZone | managers/audio_manager.py:256 | `[user@][addr%zone]port` lower-cases `addr` and keeps `zone` as written |
| Media.DetectMediaType | utils/media.py:9-59 | a hint containing "video" gives video, one containing only "audio" gives audio; otherwise a YouTube/Vimeo host gives video; audio exactly when the hint says audio, or (no video hint or host and) the `urlparse` path, parameters removed, has an audio extension, or no video extension and the URL an audio keyword |
| Media.VideoPatternsRedundant | utils/media.py:55-59 | the video-keyword test is dead: every input reaching it is classified video either way |
| Media.Mp3IsAudio | utils/media.py:42-45 | a `.mp3` path without hint or video host is audio, whatever keywords the URL carries |
| Display.ParseReal | managers/display_detector.py:73 | `float(refresh)` on a decimal: a string of digits (after stripping) reads as its integer value, text with neither digits only nor a '.' is refused, and a value read is never negative (the forms `float()` accepts beyond these are listed under "## Left out") |
| Display.ParseModeLine | managers/display_detector.py:66-81 | a mode line parses only if it contains 'x'; without '@' the refresh rate is 60 (the values read are stated by `Display.ModeLineRoundTrip`, `Display.ModeLineRateRoundTrip` and `Display.ModeLineOfParts`) |
| Display.ModeLineRoundTrip | managers/display_detector.py:66-81 | the line `<w>x<h>` parses to the mode (w, h, 60) |
| Display.ModeLineRateRoundTrip | managers/display_detector.py:66-81 | the line `<w>x<h>@<rate>Hz` parses to the mode (w, h, rate) |
| Display.ModeLineOfParts | managers/display_detector.py:66-81 | a stripped line with an 'x' that splits at '@' into a resolution and a refresh part gives the width and height `int()` reads from the resolution's two 'x'-parts and the refresh `float()` reads once "Hz" is removed |
| Display.ResolutionSplit | managers/display_detector.py:79 | `res_part.split('x')` of two digit strings joined by 'x' gives the two strings back |
| Display.RateLineAtSplit | managers/display_detector.py:71 | `mode_line.split('@')` of `<w>x<h>@<rate>Hz` gives the resolution part and the refresh part |
| Display.RateLineStripped | managers/display_detector.py:66-67 | a line `<digits>x…@…z` is left as it is by `strip()` and contains 'x' |
| Display.RateParse | managers/display_detector.py:72 | the refresh part `<rate>Hz` with "Hz" removed reads as the number rate |
| Display.DigitsDropHz | managers/display_detector.py:72 | removing "Hz" from `<digits>Hz` leaves the digits |
| Display.DigitsParse | managers/display_detector.py:79 | `int()` of a number's decimal text gives the number back |
| Display.FilterMap | managers/display_detector.py:49-81 | the shape of the two loops that keep some items and transform them: never more results than items |
| Display.FilterMapAppend | managers/display_detector.py:49-81 | keeping-and-transforming a concatenation is the concatenation of the results, so the file order is kept |
| Display.FilterMapMembers | managers/display_detector.py:49-81 | every item accepted contributes its value, and every value comes from an accepted item |
| Display.ParseModes | managers/display_detector.py:61-81 | the modes of a file, never more than its lines; with `Display.ParseModesMembers` and `Display.ParseModesAppend`, exactly the parseable lines, in file order |
| Display.ParseModesMembers | managers/display_detector.py:65-81 | every line that parses contributes its mode, and every mode comes from a line that parses to it |
| Display.ParseModesAppend | managers/display_detector.py:65-81 | the modes of two runs of lines are the modes of the first followed by those of the second |
| Display.ConnectedOf | managers/display_detector.py:49-62 | one record per contributing entry, never more than the entries; an entry contributes (`Contributes`) when it is `card0-`/`card1-`, both files exist and the stripped status is "connected"; membership and order are stated by `Display.ConnectedOfMembers` and `Display.ConnectedOfAppend` |
| Display.ConnectedOfMembers | managers/display_detector.py:49-62 | every contributing entry gives its record, and every record comes from a contributing entry |
| Display.ConnectedOfAppend | managers/display_detector.py:49-62 | the records of two listings run one after the other are the first listing's then the second's, so the listing order is kept |
| Display.Card0NameOf | managers/display_detector.py:59 | `ConnectorName`, `item.replace("card0-", "").replace("card1-", "")`, gives `n` back for `card0-<n>` |
| Display.Card1NameOf | managers/display_detector.py:59 | `ConnectorName` gives `n` back for `card1-<n>` |
| Display.CapabilitiesOf | managers/display_detector.py:83-87 | `connectors_data` has exactly the short names of the connected connectors; the entry kept is stated by `Display.CapabilitiesLastWins` |
| Display.CapabilitiesLastWins | managers/display_detector.py:83-87 | the entry of a name holds the modes and item of the last connector of that name, with status "connected": a later duplicate overwrites |
| Display.FirstWithRes | managers/display_detector.py:91-97 | finds a mode of the given resolution exactly when the connector offers it, and the mode found is one of its modes |
| Display.ScanConnector | managers/display_detector.py:89-97 | the best area never shrinks; after the scan no priority resolution the connector offers has a larger area; a change of best comes from this connector with its first matching mode's refresh rate |
| Display.FirstWithResAt | managers/display_detector.py:91-97 | the inner loop stops at the first mode of the resolution: that mode's refresh rate is the one kept |
| Display.SelectBest | managers/display_detector.py:26-102 | the optimal resolution is the fallback 640x480 or a priority resolution some connector offers, and no offered priority resolution has a larger area; the fallback keeps refresh 60 and "HDMI-A-1", otherwise the connector is the first one offering it and the refresh is its first mode of it |
| Display.PriorityAreasDistinct | managers/display_detector.py:31-45 | the priority resolutions have pairwise distinct areas, so "larger area" picks a unique winner |
| Display.KeyLeStep | managers/display_detector.py:110-111 | the (area, refresh) sort key is a total preorder |
| Display.MaxExists | managers/display_detector.py:110-111 | every non-empty set of modes has a largest element under the sort key |
| Display.SortModes | managers/display_detector.py:105-111 | `available_resolutions` is sorted descending by (area, refresh), duplicate-free, and holds exactly the modes given |
| Display.FirstYoutubeMode | managers/display_detector.py:157-163 | a mode returned is the first available mode (`FirstWithRes`) of the earliest YouTube resolution present; none is returned exactly when no YouTube resolution is available |
| Display.Detector.constructor | managers/display_detector.py:14-20 | detection runs on construction: an unreadable DRM directory gives no capabilities, the fallback 640x480@60 on "HDMI-A-1" and the single 640x480@60 mode; a listing gives what `DetectAllCapabilities` states for it |
| Display.Detector.DetectAllCapabilities | managers/display_detector.py:22-124 | on a listing: the capabilities are those of the connected connectors, the optimal resolution, refresh and connector satisfy `SelectBest`'s promise (the fallback, or the largest priority resolution offered, with its connector and first refresh rate), and the available modes are all their modes sorted descending and without duplicates; on failure the fallback values |
| Display.Detector.Width | managers/display_detector.py:131-134 | the optimal width |
| Display.Detector.Height | managers/display_detector.py:136-139 | the optimal height |
| Display.Detector.RefreshRate | managers/display_detector.py:141-144 | the optimal refresh rate |
| Display.Detector.ResolutionForContentType | managers/display_detector.py:155-166 | for "youtube" with a YouTube resolution present, the first available mode of the earliest one present; otherwise (another type, or none present) the optimal resolution and refresh rate |
| Drm.ConnectorAndDevice | utils/drm.py:10-35 | a known connector keeps its name and is on card1 exactly when its entry starts with "card1-", else card0; an unknown one gives HDMI-A-1 on card0 |
| Framebuffer.Field5 | managers/framebuffer_manager.py:106-108 | `(r >> 3) & 0x1F` and `(b >> 3) & 0x1F` give a 5-bit field |
| Framebuffer.Green6 | managers/framebuffer_manager.py:107 | `(g >> 2) & 0x3F` is a 6-bit field |
| Framebuffer.OrShift | managers/framebuffer_manager.py:111 | or-ing a value below `1 << k` into a number shifted by `k` adds it, so the packing never mixes fields |
| Framebuffer.Rgb565IsSum | managers/framebuffer_manager.py:103-111 | `Rgb565`, the model of `_rgb_to_rgb565`, packs the word red*2048 + green*32 + blue from the three fields, and it fits in 16 bits |
| Framebuffer.Rgb565Fields | managers/framebuffer_manager.py:103-111 | red, green and blue read back from bits 11-15, 5-10 and 0-4 of the packed word |
| Framebuffer.Rgb565OfBytes | managers/framebuffer_manager.py:103-111 | for 8-bit channels the fields are the top 5, 6 and 5 bits of red, green and blue |
| Framebuffer.ArgbIsSum | managers/framebuffer_manager.py:180 | the ARGB8888 pixel is 0xFF000000 + r*65536 + g*256 + b |
| Framebuffer.ArgbChannels | managers/framebuffer_manager.py:180 | the pixel is fully opaque and each colour byte reads back from its position |
| Framebuffer.PixelValue | managers/framebuffer_manager.py:169-180 | at 16 bpp the pixel fits in 16 bits; at any other depth it is an opaque 32-bit value |
| Framebuffer.ReadFbInfo | managers/framebuffer_manager.py:89-95 | an unreadable file parses to nothing |
| Framebuffer.GetFbInfoAsWritten | managers/framebuffer_manager.py:85-101 | as written: nothing changes when `virtual_size` fails; both files good give the new geometry and `fb_size` |
| Framebuffer.VirtualSize1080p | managers/framebuffer_manager.py:89-91 | "1920,1080" parses to 1920x1080 |
| Framebuffer.DepthUnreadableAsWritten | managers/framebuffer_manager.py:89-101 | as written, a good size with an unreadable depth moves width and height but keeps the old `fb_size` |
| Framebuffer.FbSizeStaleAsWritten | managers/framebuffer_manager.py:85-101 | from the defaults, a 1920x1080 screen with unreadable depth is left with the 640x480x16 `fb_size`, inconsistent with the geometry |
| Framebuffer.StaleReadingUnavailableAsWritten | managers/framebuffer_manager.py:54-83 | with the source's own reading, the stale input of "## Findings" leaves the geometry at 1920x1080 while 614400 bytes are mapped, so the array does not fit and the buffer is not made available |
| Framebuffer.GetFbInfo | managers/framebuffer_manager.py:85-101 | the corrected `_get_fb_info`: an unreadable `virtual_size` or `bits_per_pixel` keeps the old geometry; the width and height change only to the size read, the depth only to the depth read |
| Framebuffer.GetFbInfoAllOrNothing | managers/framebuffer_manager.py:85-101 | `GetFbInfo`, the corrected reading, keeps the old geometry unless both files parse, and agrees with the as-written one when they do |
| Framebuffer.DepthUnreadableKeepsGeometry | managers/framebuffer_manager.py:94-101 | the corrected reading keeps the whole old geometry when the depth cannot be read |
| Framebuffer.PixelCount | managers/framebuffer_manager.py:72-74 | the array holds width*height pixels |
| Framebuffer.Filled | managers/framebuffer_manager.py:204 | `fill` gives every pixel the same value |
| Framebuffer.FramebufferManager.IsResourceActive | managers/framebuffer_manager.py:254-258 | an available framebuffer has its file, mapping and array; an active one holds at least the file and the mapping |
| Framebuffer.FramebufferManager.constructor | managers/framebuffer_manager.py:19-48 | the target comes from the detector or is 1920x1080; the geometry starts at 640x480x16 with size 614400; nothing is held or available |
| Framebuffer.FramebufferManager.InitializeFramebuffer | managers/framebuffer_manager.py:54-83 | the geometry is the (corrected) reading; available exactly when the device opens, maps and the array shape fits the mapping; an available buffer holds all its resources (`IsResourceActive`, `is_resource_active`); partial failures keep what was acquired |
| Framebuffer.FramebufferManager.ClearScreen | managers/framebuffer_manager.py:193-210 | succeeds exactly when available, then every pixel is the packed colour; otherwise nothing is written |
| Framebuffer.FramebufferManager.DisplayImage | managers/framebuffer_manager.py:150-191 | succeeds exactly when available and an image of the buffer's size is given, then each pixel is that image pixel packed at the current depth; otherwise nothing is written |
| Framebuffer.FramebufferManager.Cleanup | managers/framebuffer_manager.py:212-252 | afterwards nothing is available and the array is dropped; a clean close releases the mapping and the file; a failing close keeps what it did not reach; the geometry is unchanged |
| MpvController.Tail | core/mpv_controller.py:123-124 | what stays in the buffer after the split loop holds no newline |
| MpvController.LinesStep | core/mpv_controller.py:123-124 | one `buffer.split('\n', 1)` takes the first complete line off the buffer |
| MpvController.LinesTail | core/mpv_controller.py:120-124 | nothing is lost: the complete lines, each with its newline, followed by the tail give back the received text |
| MpvController.LinesNoNewline | core/mpv_controller.py:123-124 | no complete line contains a newline |
| MpvController.LinesConcat | core/mpv_controller.py:117-124 | receiving more text appends the lines that the old tail and the new text form together |
| MpvController.HandleEvent | core/mpv_controller.py:143-149 | only a `property-change` for an already observed name is stored; the set of observed names never changes |
| MpvController.ProcessLines | core/mpv_controller.py:123-134 | the observed names are kept, and a reply found carries the awaited `request_id` |
| MpvController.StepFinds | core/mpv_controller.py:125-132 | one line ends the wait exactly when it decodes to a message with the awaited `request_id`, and that message is returned |
| MpvController.ProcessLinesNone | core/mpv_controller.py:123-141 | no reply is found exactly when no line answers the request |
| MpvController.ProcessLinesFirst | core/mpv_controller.py:123-129 | the reply returned is the first line that answers the request |
| MpvController.ProcessLinesAppend | core/mpv_controller.py:111-134 | handling two runs of lines is handling the first and, only if it found nothing, the second |
| MpvController.ReceivedPrefix | core/mpv_controller.py:117-120 | the text received is the chunks up to the first empty one (the socket closing) |
| MpvController.FoundInStream | core/mpv_controller.py:111-129 | a reply found in the chunks read so far is the reply of the whole stream |
| MpvController.NotFoundInStream | core/mpv_controller.py:118-119 | reading stops at an empty chunk, having received exactly the chunks before it |
| MpvController.ReadSpec | core/mpv_controller.py:105-141 | reading keeps the set of observed names |
| MpvController.ReadLinesOutcome | core/mpv_controller.py:105-141 | the answer is `{"error": "timeout"}` exactly when no complete line is the reply; a reply carries the awaited id |
| MpvController.ReadLines | core/mpv_controller.py:120-139 | scanning the complete lines for the reply keeps the set of observed names |
| MpvController.ChunkingIrrelevant | core/mpv_controller.py:111-124 | among cuts of the text into `recv` chunks that each decode whole (every chunk ends on a full UTF-8 character), how the text is cut does not change the answer or the observed values; immediate from `ReadSpec` reading only the received text, with the loop's buffering proved equal to it by `MpvController.ReadStream` |
| MpvController.DrainBuffer | core/mpv_controller.py:123-134 | the inner loop handles exactly the buffer's complete lines up to the reply, and leaves the tail when none answered |
| MpvController.ReadStream | core/mpv_controller.py:105-141 | the read loop computes `ReadSpec`: the first reply among the complete lines received before the socket closed, or the timeout error, with earlier property events applied |
| MpvController.PauseCommand | core/mpv_controller.py:183-188 | no argument cycles `pause` up; an argument sets `pause` to it |
| MpvController.ObserveCommand | core/mpv_controller.py:171-174 | the observation id is the number of observed names plus one |
| MpvController.SendSpec | core/mpv_controller.py:59-103 | a disconnected controller answers `not_connected` and changes nothing; the observed names are kept |
| MpvController.SendCounts | core/mpv_controller.py:64-93 | a connected send moves `request_id` on by exactly one, writes at most one request carrying the new id, and stays connected unless a broken pipe could not be reconnected |
| MpvController.SendWrites | core/mpv_controller.py:64-93 | a request is written exactly when the first send or the resend after a reconnect goes through, and its reply is read under the new id; the reconnect forgets the pending requests |
| MpvController.SendReconnectFails | core/mpv_controller.py:83-97 | a broken pipe whose reconnect fails answers `reconnection_failed`, disconnected, with no pending requests and nothing written |
| MpvController.ObserveRegisters | core/mpv_controller.py:171-177 | `ObserveSpec`, `observe_property`: the name is added, with no value, exactly when the reply's error is "success"; no other name appears or goes |
| MpvController.ObserveUsesNextId | core/mpv_controller.py:173-174 | the command written is `observe_property <names + 1> <name>` under the next request id |
| MpvController.Controller.constructor | core/mpv_controller.py:19-27 | a new controller has no socket, is not connected, counter 0, nothing pending or observed, not in use |
| MpvController.Controller.Connect | core/mpv_controller.py:29-46 | a fresh socket is made; connected exactly when mpv accepts |
| MpvController.Controller.Disconnect | core/mpv_controller.py:48-57 | no socket, not connected, no pending requests |
| MpvController.Controller.ReadResponse | core/mpv_controller.py:105-141 | the answer and the observed values are those of `ReadSpec` |
| MpvController.Controller.SendCommand | core/mpv_controller.py:59-103 | the answer and the new state are those of `SendSpec` |
| MpvController.Controller.ObserveProperty | core/mpv_controller.py:171-177 | the answer and the new state are those of `ObserveSpec` |
| MpvPools.Start | core/mpv_pools.py:65-124 | a connected start stores a running process, a connected idle controller and an idle status; a failed start stores nothing; the pool invariant is kept |
| MpvPools.Restart | core/mpv_pools.py:126-154 | the process and controller entries are dropped and the slot started again; the status entry changes only if the new start stores one |
| MpvPools.FirstIdle | core/mpv_pools.py:178-184 | the id returned is idle; none is returned only when every listed slot is busy |
| MpvPools.AvailableProcess | core/mpv_pools.py:171-184 | nothing from an empty pool; a slot returned is listed and idle; with processes, nothing is returned only when every listed slot is busy |
| MpvPools.FirstIdleIsFirst | core/mpv_pools.py:179-181 | the id returned is the earliest idle one in `process_status` order |
| MpvPools.Pass | core/mpv_pools.py:200-221 | the slot handed out was idle with a controller, now runs, is busy and its controller in use; no other status changes; the status keys and their order are kept |
| MpvPools.FirstUsable | core/mpv_pools.py:200-221 | the first slot that is idle, has a controller and runs or can be restarted; none only when no slot is |
| MpvPools.PassIsFirstUsable | core/mpv_pools.py:200-221 | the first pass hands out exactly the first usable slot: a failed restart on the way changes no later slot's chances |
| MpvPools.TakeRelease | core/mpv_pools.py:242-247 | handing out an idle slot and releasing its controller restores the slot's status |
| MpvPools.ReleaseController | core/mpv_pools.py:242-247 | the controller's `in_use` is cleared and a known slot's status becomes idle; processes, order, keys and every other slot are unchanged |
| MpvPools.ReleaseUnknownSlot | core/mpv_pools.py:242-247 | releasing a controller of a slot without a status entry clears only its `in_use` |
| MpvPools.Allocate | core/mpv_pools.py:249-262 | the slot taken is `get_available_process`'s; it was idle and becomes busy with the given content; without one nothing changes |
| MpvPools.AllocateRelease | core/mpv_pools.py:249-278 | releasing an allocated slot leaves every status as before except that slot, now idle with no content |
| MpvPools.ReleaseProcess | core/mpv_pools.py:264-278 | a known slot becomes idle with no content; processes, controllers, keys and every other slot are unchanged |
| MpvPools.Check | core/mpv_pools.py:344-395 | one slot: afterwards a slot not counted failed runs with a connected controller, a failed one has no process or controller; no other slot changes |
| MpvPools.Record | core/mpv_pools.py:353-395 | each outcome adds one to exactly one counter and is recorded under its slot |
| MpvPools.HealthUpTo | core/mpv_pools.py:333-402 | every slot of the range is visited once and counted once; `total_processes` is the pool size |
| MpvPools.HealthLeavesSlotsUp | core/mpv_pools.py:333-402 | after the health check every slot not counted failed runs with a connected controller and every failed one has no process |
| MpvPools.HealthCounts | core/mpv_pools.py:333-402 | in the report of `Health` (the whole `health_check`), healthy + restarted + failed is the pool size |
| MpvPools.Acquire | core/mpv_pools.py:186-240 | a slot handed out runs, is busy and its controller in use; a health check runs only with retry, and a second pass only when it restarted something; which slot is handed out is stated by `MpvPools.AcquireFirstUsable` |
| MpvPools.AcquireFirstUsable | core/mpv_pools.py:186-240 | an empty pool gives nothing; otherwise the first usable slot of the first pass if there is one; else, after a health check that restarted something, the first usable slot of the second pass; else nothing |
| MpvPools.LegacyAcquire | srsserver.py:394-424 | the older pool's `get_available_controller` is the first pass alone: the first usable slot, no health check, nothing before initialisation |
| MpvPools.StartAll | core/mpv_pools.py:46-48 | starting slots in turn leaves each of them running, connected and idle |
| MpvPools.ProcessReport | core/mpv_pools.py:284-298 | one entry for each id 1 .. pool size |
| MpvPools.Info | core/mpv_pools.py:284-298 | a slot's report has a status exactly when it has a process; an unknown slot is neither running nor connected; a known one reports its process, its controller's connection and its status |
| MpvPools.ReportAfterStart | core/mpv_pools.py:284-298 | right after a successful initialisation every slot reports running, connected and idle |
| MpvPools.Pool.constructor | core/mpv_pools.py:22-36 | a new pool has no slots |
| MpvPools.Pool.Audio | core/mpv_pools.py:405-409 | the audio pool is "audio-mpv" with two slots |
| MpvPools.Pool.Video | core/mpv_pools.py:427-431 | the video pool is "video-mpv" with one slot |
| MpvPools.Pool.Legacy | srsserver.py:226-234 | the older pool has two slots and no entries |
| MpvPools.Pool.StartProcess | core/mpv_pools.py:65-124 | the new state is `Start` of the old one |
| MpvPools.Pool.RestartProcess | core/mpv_pools.py:126-154 | the new state is `Restart` of the old one |
| MpvPools.Pool.GetAvailableProcess | core/mpv_pools.py:171-184 | nothing before initialisation, otherwise the first idle slot in status order |
| MpvPools.Pool.FirstPass | core/mpv_pools.py:200-221 | the loop computes `Pass` over the status order |
| MpvPools.Pool.GetAvailableController | core/mpv_pools.py:186-240 | the slot and the new state are those of `Acquire` |
| MpvPools.Pool.ReleaseSlotController | core/mpv_pools.py:242-247 | the new state is `ReleaseController` of the old one |
| MpvPools.Pool.AllocateProcess | core/mpv_pools.py:249-262 | the slot and the new state are those of `Allocate` |
| MpvPools.Pool.ReleaseSlot | core/mpv_pools.py:264-278 | a known slot is reset to idle with no content |
| MpvPools.Pool.Cleanup | core/mpv_pools.py:300-331 | every process, controller and status entry is dropped |
| MpvPools.Pool.Initialize | core/mpv_pools.py:38-63 | succeeds exactly when every slot 1 .. pool size starts, leaving them all started; the first failure cleans the pool up |
| MpvPools.Pool.CheckSlot | core/mpv_pools.py:344-395 | the outcome and the new state are those of `Check` |
| MpvPools.Pool.HealthCheck | core/mpv_pools.py:333-402 | the report and the new state are those of `Health` |
| MpvPools.Pool.GetProcessStatus | core/mpv_pools.py:284-298 | the report is `ProcessReport` of the pool |
| HealthMonitor.Warnings | core/health_monitor.py:26-39 | a pool's warning is logged exactly when its check restarted or lost a slot, the audio pool's first |
| HealthMonitor.CoreStep | core/health_monitor.py:21-33 | a pool is health-checked exactly when it has a process, and is otherwise left alone |
| HealthMonitor.ManagedStep | managers/health_monitor.py:21-71 | a suspended pool is left alone; a pool with slots but no process is initialised again; a pool with processes is checked |
| HealthMonitor.ReinitializeOutcome | managers/health_monitor.py:24-33 | reinitialising succeeds exactly when every slot starts, leaving them all running, connected and idle; a failure leaves the pool empty |
| HealthMonitor.NoTroubleAllHealthy | core/health_monitor.py:26 | no slot restarted or failed exactly when every slot came out healthy or reconnected |
| HealthMonitor.WarnsOnTrouble | core/health_monitor.py:22-29 | a checked pool warns exactly when some slot's outcome is not healthy |
| HealthMonitor.CheckOne | core/health_monitor.py:22-29 | one pool's step is `CoreStep` |
| HealthMonitor.CoreTick | core/health_monitor.py:17-39 | one tick checks each present pool as `CoreStep` says, audio first, and collects the warnings |
| HealthMonitor.ManageOne | managers/health_monitor.py:46-71 | one pool's step is `ManagedStep` |
| HealthMonitor.ManagersTick | managers/health_monitor.py:17-71 | one tick: the audio pool is never suspended, the video pool is skipped when suspended; each step is `ManagedStep` |
| OutputTargets.CastTarget | managers/output_target_manager.py:144-158 | a discovered device becomes an available Chromecast target `chromecast-<uuid>` carrying the device name |
| OutputTargets.CastIdNotLocal | managers/output_target_manager.py:95-145 | a Chromecast id never collides with "local-video" or "local-audio" |
| OutputTargets.IndexOf | managers/output_target_manager.py:75 | the position of the entry with that key, or -1 when there is none |
| OutputTargets.Find | managers/output_target_manager.py:201-203 | `targets.get(id)`: an entry found has that id; none means no entry has it |
| OutputTargets.Put | managers/output_target_manager.py:146 | `targets[id] = t`: an existing key is replaced in place, a new key goes last, every other entry stays |
| OutputTargets.PutUnique | managers/output_target_manager.py:146 | assignment keeps the keys distinct |
| OutputTargets.LocalsWellFormed | managers/output_target_manager.py:92-118 | the initial registry is the local display then the local audio hat |
| OutputTargets.PutCastWellFormed | managers/output_target_manager.py:144-158 | adding a Chromecast target keeps the local pair in front and the ids distinct |
| OutputTargets.PutAllFacts | managers/output_target_manager.py:143-158 | after rediscovery the registry is well formed, holds a target for every device, nothing but the locals and device targets, and at most 2 + devices entries |
| OutputTargets.WithoutCasts | managers/output_target_manager.py:137-141 | exactly the non-Chromecast targets remain |
| OutputTargets.WithoutCastsLocal | managers/output_target_manager.py:137-141 | of a well-formed registry only the local pair remains |
| OutputTargets.Resolve | managers/output_target_manager.py:225-226 | a missing or empty target id means the default |
| OutputTargets.VideoRoute | managers/output_target_manager.py:228-275 | a route exists only for a known target listing "video"; the local display goes to the playback manager and a Chromecast to the cast manager with its device name, each only when present |
| OutputTargets.AudioRoute | managers/output_target_manager.py:295-342 | as for video, with "audio", the local audio hat and the audio manager |
| OutputTargets.LocalVideoPlaysNoAudio | managers/output_target_manager.py:300-342 | the local display lists "audio" yet `play_audio` on it falls through and fails |
| OutputTargets.DefaultsRouteLocally | managers/output_target_manager.py:224-248 | with no target id, video goes to the playback manager and audio to the audio manager when present |
| OutputTargets.StopMatchesRoute | managers/output_target_manager.py:344-367 | stopping a target a play request reached calls the stop of the manager that started it |
| OutputTargets.StopFor | managers/output_target_manager.py:350-366 | at most one stop call, none for a target gone from the registry; for a local kind, the cast stop exactly for a Chromecast target with its manager present, the local stop exactly for a target of that kind with its manager present |
| OutputTargets.WithCapability | managers/output_target_manager.py:205-208 | exactly the available targets listing the capability, in registry order |
| OutputTargets.CountAvailable | managers/output_target_manager.py:373 | never more available targets than targets |
| OutputTargets.AllAvailable | managers/output_target_manager.py:372-373 | every target is created available, so the two counts agree |
| OutputTargets.RemoveCasts | managers/output_target_manager.py:137-141 | the first discovery loop keeps exactly the local pair |
| OutputTargets.AddCasts | managers/output_target_manager.py:143-158 | the second loop registers one target per device in order |
| OutputTargets.WithoutCastsAppend | managers/output_target_manager.py:137-141 | the filter distributes over appending one target |
| OutputTargets.Manager.constructor | managers/output_target_manager.py:61-90 | the registry holds the two local targets and nothing is active |
| OutputTargets.Manager.DiscoverChromecastTargets | managers/output_target_manager.py:122-165 | without a cast manager or when discovery raises: 0 and the registry kept; otherwise the device count, and the registry is the locals plus one target per device |
| OutputTargets.Manager.PlayVideo | managers/output_target_manager.py:210-275 | the request takes `VideoRoute`; it succeeds exactly when routed and the start succeeds, and only then becomes the active video target |
| OutputTargets.Manager.PlayAudio | managers/output_target_manager.py:277-342 | the request takes `AudioRoute`; it succeeds exactly when routed and the start succeeds, and only then becomes the active audio target |
| OutputTargets.Manager.StopPlayback | managers/output_target_manager.py:344-367 | "video"/"all" stops and clears an active video target, "audio"/"all" the audio one, making the stop call of the target's manager, video first |
| OutputTargets.Manager.Cleanup | managers/output_target_manager.py:381-384 | afterwards no target is active, after at most two stop calls |
| OutputTargets.Manager.GetTargetsByCapability | managers/output_target_manager.py:205-208 | the list is `WithCapability` of the registry |
| OutputTargets.Manager.GetStatus | managers/output_target_manager.py:369-379 | the counts, the active and default targets and the registry as they stand; available equals total |
| Chromecast.WithStatus | managers/chromecast_manager.py:175-179 | a record always leaves with a status; a present one is kept, a missing one becomes "available" |
| Chromecast.FormatDevices | managers/chromecast_manager.py:162-196 | one output record per device, each `WithStatus` of its input |
| Chromecast.FormatIdempotent | managers/chromecast_manager.py:162-196 | formatting twice is formatting once |
| Chromecast.FormatDeviceList | managers/chromecast_manager.py:172-196 | the loop computes `FormatDevices` |
| Chromecast.IdRun | managers/chromecast_manager.py:214 | the longest prefix of `[a-zA-Z0-9_-]` characters |
| Chromecast.ShortLinkId | managers/chromecast_manager.py:213-216 | an id is found only where the URL contains `youtu.be/`, and it is non-empty and made of id characters |
| Chromecast.ExtractYoutubeId | managers/chromecast_manager.py:202-225 | an id found is non-empty; an id after `youtu.be/` wins; when there is none (no marker, or no id character after it) a `youtube.com/watch` URL gives QueryFirst's decoded first `v` of the `urlparse` query and any other URL nothing |
| Chromecast.ShortLinkRoundTrip | managers/chromecast_manager.py:213-216 | a short link `<prefix>youtu.be/<id>` with no earlier marker gives back exactly `<id>` |
| Chromecast.IdRunAll | managers/chromecast_manager.py:214 | a run of id characters is taken whole |
| Chromecast.ShareLink | managers/chromecast_manager.py:202-216 | `https://youtu.be/<id>` gives back `<id>` |
| Chromecast.DefaultContentType | managers/chromecast_manager.py:318-334 | audio defaults to an audio MIME type and video to a video one |
| Chromecast.SuffixesExclusive | managers/chromecast_manager.py:321-331 | a URL cannot end in two different suffixes of one length |
| Chromecast.DefaultContentTypeBySuffix | managers/chromecast_manager.py:318-334 | audio is `audio/mp4` exactly for `.m4a`, else `audio/mp3`; video is `video/webm` exactly for `.webm`, else `video/mp4` |
| Chromecast.LocalStops | managers/chromecast_manager.py:277-289 | local video playback is stopped whenever its manager is present; local audio only for a video cast |
| Chromecast.CastPlan | managers/chromecast_manager.py:249-380 | the cast succeeds exactly when a device is selected, reached, connected, a YouTube URL (`IsYouTube`) yields an id and playback starts; local players are stopped only once the device is reached; YouTube URLs use the YouTube app with the extracted id, others the media player with the given or default MIME type and the given title or "HSG Canvas - Audio Stream"/"HSG Canvas - Video Stream" (`TypeTitle`) |
| Chromecast.Decide | managers/chromecast_manager.py:249-380 | the device is `SelectDevice` of the list, and the outcome is `CastPlan` for it |
| Chromecast.DecideKind | managers/chromecast_manager.py:273-274 | the media type recorded is the shared classifier's verdict on the URL alone |
| Chromecast.FindByName | managers/chromecast_manager.py:256 | a device found has that name; none means no device has it |
| Chromecast.SelectDevice | managers/chromecast_manager.py:249-261 | no device when the list is empty; the named one when a name is given; the first otherwise |
| Chromecast.Manager.constructor | managers/chromecast_manager.py:29-54 | no devices, no discovery time, no session |
| Chromecast.Manager.DiscoverDevices | managers/chromecast_manager.py:56-160 | a fresh cache answers formatted without discovery; otherwise a successful discovery replaces the list and the timestamp, a failed one answers the old list formatted; discovery is never left running |
| Chromecast.Manager.EnsureDiscovered | managers/chromecast_manager.py:245-247 | a known device list is kept; with none known and the cache stale, a discovery that finds devices stores them and the time, and a failed one (or a fresh cache) leaves the list empty |
| Chromecast.Manager.StartCast | managers/chromecast_manager.py:227-386 | the answer, the stops and the launch are `Decide`'s on the device list after discovery, which is the known list or else what discovery found (empty on failure); success records the device, URL and media type as the session; failure keeps the old session |
| Chromecast.Manager.Commit | managers/chromecast_manager.py:372-377 | a successful start records the session, a failed one leaves it |
| Chromecast.Manager.StopCast | managers/chromecast_manager.py:388-426 | the session is cleared in every case; the answer is true when there was none or the player stopped |
| Chromecast.Manager.SetVolume | managers/chromecast_manager.py:462-486 | refused without a session; otherwise the level sent is the volume clamped to [0, 1] |
| Chromecast.Manager.PauseOrPlay | managers/chromecast_manager.py:428-460 | succeeds exactly when there is a media controller and the player obeyed |
| Chromecast.Manager.GetCastStatus | managers/chromecast_manager.py:488-496 | casting exactly when a device name is reported; the device count and the media fields as stored |
| Chromecast.Manager.Cleanup | managers/chromecast_manager.py:511-523 | no session and no known devices afterwards |
| CastReceiver.ReceiverMediaType | managers/cast_receiver_manager.py:322-358 | a hint that decides gives the shared classifier's answer (`Media.DetectMediaType`); audio only on evidence: an audio hint, one of the receiver's audio extensions on the `urlparse` path, or a streaming keyword; video is the default |
| CastReceiver.ReceiverMediaTypeOrder | managers/cast_receiver_manager.py:322-358 | `ReceiverMediaType`, the receiver's classifier: a video hint wins, then an audio hint, then a video host; otherwise audio exactly when the `urlparse` path (parameters removed) has one of its audio extensions, or none of its video extensions and a streaming keyword |
| CastReceiver.ReceivePlan | managers/cast_receiver_manager.py:247-292 | the session's type is the receiver's own classification of the URL and content type; a YouTube video with a playback manager is handed to `play_youtube`, and anything not classed as video, with an audio manager, to `start_audio_stream`, and success is then that call's answer; video without a playback manager or outside YouTube, and audio without an audio manager, fail without a call |
| CastReceiver.StopFor | managers/cast_receiver_manager.py:306-311 | a video session stops playback and an audio session the audio stream, each only when that manager is present |
| CastReceiver.CrlfLinesAppend | managers/cast_receiver_manager.py:195-205 | rendering CRLF-ended lines distributes over concatenation |
| CastReceiver.CrlfLinesEnd | managers/cast_receiver_manager.py:195-205 | a non-empty rendering ends with CRLF |
| CastReceiver.CrlfLinesSplit | managers/cast_receiver_manager.py:195-205 | each line of a rendering sits, with its CRLF, between the lines before and after it |
| CastReceiver.CrlfMessageStart | managers/cast_receiver_manager.py:195-205 | a message starts with its first line and CRLF |
| CastReceiver.CrlfMessageLine | managers/cast_receiver_manager.py:195-205 | every header line appears in the message with its CRLF |
| CastReceiver.CrlfMessageEnd | managers/cast_receiver_manager.py:204 | the message ends with an empty CRLF line |
| CastReceiver.SsdpResponse | managers/cast_receiver_manager.py:193-205 | the response ends with the empty CRLF line that closes its headers |
| CastReceiver.SsdpResponseShape | managers/cast_receiver_manager.py:193-205 | `SsdpResponse` starts with a 200 status line, carries the LOCATION of the device description at the local address and port and the DIAL search target, and ends with an empty line |
| CastReceiver.Receiver.constructor | managers/cast_receiver_manager.py:24-51 | not running, no session, named "HSG Canvas" with uuid "hsg-canvas-receiver" |
| CastReceiver.Receiver.StartReceiver | managers/cast_receiver_manager.py:78-97 | afterwards the receiver runs, and the answer is true |
| CastReceiver.Receiver.StopSession | managers/cast_receiver_manager.py:300-320 | no session is a no-op; otherwise the matching manager is stopped and the session cleared |
| CastReceiver.Receiver.StopReceiver | managers/cast_receiver_manager.py:99-126 | not running is a no-op; otherwise any session is stopped and cleared, and the receiver stops |
| CastReceiver.Receiver.ReceiveCast | managers/cast_receiver_manager.py:233-298 | any earlier session is stopped first; the call and the answer follow `ReceivePlan`; success leaves the new session (URL, type, content type, title or "Cast Media", `session-<stamp>`), failure leaves none |
| CastReceiver.Receiver.Open | managers/cast_receiver_manager.py:257-267 | the session and its id are recorded together |
| CastReceiver.Receiver.GetReceiverStatus | managers/cast_receiver_manager.py:360-379 | `has_session` and the session block are present exactly when there is a session, carrying its URL and id |
| CastReceiver.TitleOr | managers/cast_receiver_manager.py:263 | `title or "Cast Media"` |
| WebSocket.Manager.constructor | managers/websocket_manager.py:16-17 | no connections |
| WebSocket.Manager.Connect | managers/websocket_manager.py:19-36 | the socket is registered; the initial state is sent only when one is given and non-empty, and a failed send is only logged |
| WebSocket.Manager.Disconnect | managers/websocket_manager.py:38-41 | the socket is discarded; an unknown socket changes nothing |
| WebSocket.Manager.Broadcast | managers/websocket_manager.py:43-70 | every registered socket is sent the one message; exactly the registered sockets whose send raised are removed, after all were tried |
| WebSocket.Manager.ConnectionCount | managers/websocket_manager.py:72-74 | the number of connections, zero exactly when there are none |
| Spotify.IfGiven | managers/spotify_manager.py:89-96 | an optional field is kept exactly when it was given non-empty, and then unchanged |
| Spotify.SpotifyId | managers/spotify_manager.py:272-275 | a `spotify:track:` URI gives an id without ':'; any other id is kept as given |
| Spotify.SpotifyIdOfUri | managers/spotify_manager.py:272-273 | `spotify:track:<id>` gives back `<id>` |
| Spotify.SpotifyUrlOfUri | managers/spotify_manager.py:268-277 | `SpotifyUrl`: the stored link of a `spotify:track:<id>` URI is the track page of `<id>` |
| Spotify.StoreUrl | managers/spotify_manager.py:268-277 | a given track id stores its bare id and web link; none changes nothing |
| Spotify.NewTrackInfo | managers/spotify_manager.py:85-99 | the new `track_info` holds the id, duration and start time, exactly the optional fields that were given, and a link exactly when an id was given |
| Spotify.TrackMessage | managers/spotify_manager.py:102-124 | the broadcast carries the name, the artists joined by ", " or "Unknown Artist", the cover only when given, and the track's web link exactly when an id was given |
| Spotify.Next | managers/spotify_manager.py:62-199 | every event records itself; `session_connected` only sets the connected flag; `track_changed` replaces the track and broadcasts only with a name and a WebSocket manager; `playing` never changes the track and stops local players only when starting; `paused` keeps the track; `stopped`/`session_disconnected` forget it (disconnect also clears the session); anything else changes only the last-event fields |
| Spotify.TrackChangedLink | managers/spotify_manager.py:99-114 | a track announced by URI is stored and broadcast with its bare id and link |
| Spotify.ActiveAcrossSession | managers/spotify_manager.py:332-334 | connecting makes Spotify active, disconnecting ends it, and after `stopped` it is active exactly while the session stays connected |
| Spotify.Manager.constructor | managers/spotify_manager.py:27-40 | not playing, not connected, no track, empty `track_info`, no event yet |
| Spotify.Manager.HandleEvent | managers/spotify_manager.py:62-199 | the state moves by `Next` and the handler answers true |
| Spotify.Manager.IsActive | managers/spotify_manager.py:332-334 | playing or connected |
| Spotify.Manager.GetStatus | managers/spotify_manager.py:320-330 | an empty `track_info` is reported as absent; the flags as stored; the device name "HSG Canvas" |
| Audio.FirstPls | managers/audio_manager.py:50-51 | the index of the first `File1=` line, and None exactly when no line starts so |
| Audio.FirstM3u | managers/audio_manager.py:61-63 | the index of the first line that is non-blank once stripped and not a `#` line, and None exactly when there is none |
| Audio.PlsValue | managers/audio_manager.py:52 | splitting at the first '=' of a `File1=` line cuts right after the key; the value is the rest, stripped |
| Audio.Resolved | managers/audio_manager.py:41-72 | a URL that is not a `.pls`/`.m3u`/`.m3u8` playlist, or whose fetch failed, resolves to itself |
| Audio.FindPls | managers/audio_manager.py:50-54 | the scan stops at the first `File1=` line |
| Audio.FindM3u | managers/audio_manager.py:61-65 | the scan stops at the first playable M3U line |
| Audio.ResolveAudioUrl | managers/audio_manager.py:41-72 | the URL mpv is given, as `Resolved` defines it |
| Audio.PlsFirstEntry | managers/audio_manager.py:44-54 | a PLS body opening with `File1=<entry>` resolves to that entry |
| Audio.M3uSkipsComment | managers/audio_manager.py:55-65 | an M3U body whose first line is a `#` comment resolves to the entry on the next line |
| Audio.FirstStation | managers/audio_manager.py:272-274 | the first '/'-segment that is non-empty, does not start with "http", has no '.' and is not excluded; None exactly when there is none |
| Audio.FindStation | managers/audio_manager.py:272-274 | the loop returns the first eligible segment |
| Audio.ParadiseChannel | managers/audio_manager.py:280-288 | the first keyword found wins: "mellow" gives 1, else "rock" 2, else "global" 3, and 0 exactly when none occurs; srsserver.py:2836-2844 applies the same rule |
| Audio.SomaStation | managers/audio_manager.py:270-275 | the first eligible segment other than pls/m3u/mp3, lower-cased; "groovesalad" when there is none |
| Audio.OtherStreamType | managers/audio_manager.py:277-298 | Radio Paradise wins with its channel; no stream type exactly when "radioparadise.com" does not occur and either neither "icecast" nor ":8000" occurs or `urlparse` refuses the network location's brackets (the bare `except`); otherwise an Icecast server, `scheme://netloc` |
| Audio.StreamTypeUnbalanced | managers/audio_manager.py:291-300 | `http://[host:8000/path` with no ']' (for instance `http://[::1:8000/live`) names the Icecast port, but `urlparse` raises and the URL has no stream type |
| Audio.StreamType | managers/audio_manager.py:263-300 | an empty URL has no type; a SomaFM URL is SomaFM with its station; otherwise the Radio Paradise and Icecast tests decide |
| Audio.DetectStreamType | managers/audio_manager.py:263-300 | the loop computes `StreamType` |
| Audio.GetFriendlyStreamName | managers/audio_manager.py:237-261 | the name the status reports for a stream URL is `FriendlyName`'s |
| Audio.FriendlyName | managers/audio_manager.py:237-261 | "Unknown Stream" exactly for the empty URL; a SomaFM URL gives "SomaFM - " and the title-cased first station segment (no "http" prefix, no '.'), or bare "SomaFM"; any other URL mentioning "radio" gives "Radio Stream"; any other URL starting "http" gives "Audio Stream" when `urlparse` refuses its brackets and otherwise "Stream from " and its host name or "Unknown"; everything else gives "Audio Stream" |
| Audio.FriendlyNameBracketed | managers/audio_manager.py:252-256 | `http://[host]port/path` (for instance `http://[::1]:8000/live`) is named "Stream from " and the lower-cased address inside the brackets |
| Audio.FriendlyNameUnbalanced | managers/audio_manager.py:252-259 | `http://[host/path` with no ']' makes `urlparse` raise, and the bare `except` names it "Audio Stream" |
| Audio.Manager.constructor | managers/audio_manager.py:21-39 | no controller, volume 80, no metadata, no metadata task |
| Audio.Manager.StopAudioStream | managers/audio_manager.py:157-198 | the controller goes back to the pool and nothing plays either way; it answers false only when a held stream failed to stop; only a clean stop clears the metadata and ends its task |
| Audio.Manager.StartAudioStream | managers/audio_manager.py:74-155 | the volume is clamped to 0..100 when given; success exactly when a process was acquired, loaded without error and is not paused, and then it is recorded with its URL and the metadata task runs; on failure nothing plays; mpv loads the resolved URL; the old controller and a failed new one go back to the pool |
| Audio.Manager.SetVolume | managers/audio_manager.py:200-212 | the stored volume is clamped to 0..100 and sent to mpv exactly while a stream plays |
| Audio.Manager.GetAudioStatus | managers/audio_manager.py:214-235 | playing exactly while a controller is held; the stream, its friendly name and the metadata only then (name only for a non-empty URL, metadata only when non-empty) |
| Playback.YoutubeCommands | managers/playback_manager.py:77-92 | connector, device, fullscreen and the 720p H.264 format first, then audio off exactly when muted, an end time exactly when a non-zero duration is given, and `loadfile` last |
| Playback.Manager.constructor | managers/playback_manager.py:17-34 | nothing playing and no stream recorded |
| Playback.Manager.StopPlayback | managers/playback_manager.py:140-169 | the stream fields are cleared and it answers true; the process goes back to the pool unless "stop" raised; the background returns exactly when a non-background protocol was playing |
| Playback.Manager.PlayYoutube | managers/playback_manager.py:55-138 | success exactly when a process was acquired, loaded without error and is not paused, and then the `youtube:` stream, protocol and player are recorded; the commands are those of `YoutubeCommands` for the connector and device `get_optimal_connector_and_device` picks; an earlier process is stopped first, and it and a failed new one go back to the pool |
| Playback.Manager.GetPlaybackStatus | managers/playback_manager.py:197-207 | playing exactly while a process is held, and every other field is None otherwise |
| HomeAssistant.Artists | managers/homeassistant_manager.py:133-136 | the track's artists with no newline left |
| HomeAssistant.AggregateState | managers/homeassistant_manager.py:113-161 | "playing" exactly when a source is active; Spotify, then the audio stream, then video, then Chromecast names the source; only Spotify and the audio stream fill in media fields |
| HomeAssistant.IdleSourceIdle | managers/homeassistant_manager.py:115-161 | the state is "idle" exactly when the source is, and an idle entity has no title |
| HomeAssistant.HigherSourceWins | managers/homeassistant_manager.py:128-158 | while Spotify plays, the audio, video and Chromecast sources do not change the pushed entity |
| HomeAssistant.FiringRules | managers/homeassistant_manager.py:302-312 | the rules that fire are exactly the listed rules for the same entity whose non-empty from/to bounds equal the old/new state, in list order |
| HomeAssistant.FiringRulesAppend | managers/homeassistant_manager.py:302-315 | a rule added at the end runs after the others, and only when it fires |
| HomeAssistant.UnboundRuleFires | managers/homeassistant_manager.py:307-312 | a rule with no from/to bound fires on every change of its entity |
| HomeAssistant.MissingStateBound | managers/homeassistant_manager.py:296-312 | a missing new state reads as "" and so never satisfies a `trigger_to` bound |
| HomeAssistant.ActionEffect | managers/homeassistant_manager.py:318-394 | nothing happens exactly for an unknown action or one whose manager is absent; otherwise the defaults of the arguments (volume 50, image for 10 seconds, YouTube unmuted) and the navigate mode are applied as `_execute_action` does |
| HomeAssistant.Effects | managers/homeassistant_manager.py:314-315 | one effect per fired rule, in order, each that rule's action |
| HomeAssistant.EffectsAppend | managers/homeassistant_manager.py:302-315 | effects are produced rule by rule |
| HomeAssistant.HandleHaEvent | managers/homeassistant_manager.py:292-315 | the loop executes exactly the effects of the firing rules, in list order |
| HomeAssistant.MaskToken | managers/homeassistant_manager.py:471 | a token longer than four shows eight stars and its last four characters; a shorter non-empty one is "****"; the mask is empty exactly when the token is |
| HomeAssistant.MaskHidesPrefix | managers/homeassistant_manager.py:471 | the mask of a long token depends only on its last four characters |
| HomeAssistant.Push | managers/homeassistant_manager.py:163-189 | a push succeeds exactly with a URL, a token and HTTP 200 or 201, and only then replaces the last pushed state |
| HomeAssistant.PushTick | managers/homeassistant_manager.py:191-209 | a push is attempted exactly when enabled and the aggregate differs from the last pushed state |
| HomeAssistant.NoRepeatPush | managers/homeassistant_manager.py:191-203 | after a successful push the next tick over the same sources sends nothing |
| HomeAssistant.Manager.constructor | managers/homeassistant_manager.py:25-50 | the managers the server passes in are recorded; no URL or token, the default entity id, disabled, no rules, nothing pushed, no tasks |
| HomeAssistant.Manager.UpdateConfig | managers/homeassistant_manager.py:396-416 | each given field replaces the stored one, the URL without trailing slashes; both background tasks run afterwards exactly when enabled with a URL and a token; the status is returned |
| HomeAssistant.Manager.StatePushTick | managers/homeassistant_manager.py:191-209 | one loop tick moves the last pushed state as `PushTick` says, changing nothing else |
| HomeAssistant.Manager.NotifyStateChange | managers/homeassistant_manager.py:211-220 | when disabled nothing is sent; when enabled the aggregate is pushed even if unchanged |
| HomeAssistant.Manager.HandleEvent | managers/homeassistant_manager.py:292-315 | the configured rules and the managers present decide the effects |
| HomeAssistant.Manager.GetStatus | managers/homeassistant_manager.py:454-465 | whether a token is set, the state last pushed, the number of rules and whether the background tasks run |
| HomeAssistant.Manager.GetConfig | managers/homeassistant_manager.py:467-475 | the stored settings with the token masked |
| HomeAssistant.Manager.Cleanup | managers/homeassistant_manager.py:477-482 | both background tasks stop and the settings stay |
| HdmiCec.AddressOf | managers/hdmi_cec.py:83-86 | an address is read only from a line holding both brackets, and it holds no '.' |
| HdmiCec.TvLines | managers/hdmi_cec.py:79-87 | every TV line of the output is kept, stripped, and nothing is added |
| HdmiCec.AddressAfter | managers/hdmi_cec.py:79-86 | the address after a scan is the starting one or a '.'-free one read from a TV line |
| HdmiCec.AddressAfterAppend | managers/hdmi_cec.py:80-86 | reading one more line sets the address exactly when it is a TV line that carries one |
| HdmiCec.TvLinesAppend | managers/hdmi_cec.py:80-87 | reading one more line appends it, stripped, exactly when it is a TV line |
| HdmiCec.AddressAfterNoTv | managers/hdmi_cec.py:80-86 | output without TV lines leaves the address as it was |
| HdmiCec.ScanLine | managers/hdmi_cec.py:81-87 | one line appends its stripped self when it names a TV and may set the address |
| HdmiCec.ScanLines | managers/hdmi_cec.py:79-87 | the loop computes `TvLines` and `AddressAfter` |
| HdmiCec.CommandResult | managers/hdmi_cec.py:104-122 | success exactly on return code 0; the stripped stdout on success, the stripped stderr otherwise, "Command timed out" on a timeout |
| HdmiCec.PowerStatus | managers/hdmi_cec.py:150-156 | "on" exactly when a successful answer contains "on"; "standby" exactly when it contains no "on" but "standby" or "off"; "unknown" after a failure |
| HdmiCec.Manager.constructor | managers/hdmi_cec.py:15-66 | address "0" and no devices; available exactly when /dev/cec0 or /dev/cec1 is readable and cec-client is installed, with the first readable node as the adapter |
| HdmiCec.Manager.ScanCecDevices | managers/hdmi_cec.py:68-98 | on return code 0 the device list becomes the TV lines and the address moves as `AddressAfter` says; any other outcome changes nothing |
| HdmiCec.Manager.ExecuteCecCommand | managers/hdmi_cec.py:100-122 | nothing runs while unavailable, which answers "HDMI-CEC not available"; otherwise the outcome decides as `CommandResult` says |
| HdmiCec.Manager.PowerOnTv | managers/hdmi_cec.py:124-133 | sends "on <address>" and reports the result with its message |
| HdmiCec.Manager.PowerOffTv | managers/hdmi_cec.py:135-144 | sends "standby <address>" and reports the result with its message |
| HdmiCec.Manager.GetTvPowerStatus | managers/hdmi_cec.py:146-163 | sends "pow <address>" and reports the power status `PowerStatus` reads |
| HdmiCec.Manager.ScanDevices | managers/hdmi_cec.py:165-174 | scans, then reports availability as success together with the devices, address and adapter |
| HdmiCec.Manager.GetStatus | managers/hdmi_cec.py:176-185 | the stored availability, adapter, address and devices |
| Stream.TargetUrl | managers/stream_manager.py:27-34 | a target exactly for rtmp, http_flv and hls: `<rtmp base>/<key>`, `<flv base>/<key>.flv`, `<hls base>/<key>.m3u8` |
| Stream.TargetUrlInjective | managers/stream_manager.py:27-32 | two keys published with one protocol never share a target URL |
| Stream.BaseCmd | managers/stream_manager.py:62-66 | eight arguments starting with "ffmpeg", with real-time reading and the v4l2m2m decoder, ending with `-i` and the source |
| Stream.FfmpegCmd | managers/stream_manager.py:60-88 | the shared input arguments first, FLV output to the target last, and the longer encoder set exactly for RTMP |
| Stream.Info | managers/stream_manager.py:106-118 | a reported entry keeps its pid and target and reads "active" exactly while its process runs |
| Stream.Manager.constructor | managers/stream_manager.py:20-22 | no active streams |
| Stream.Manager.StartStream | managers/stream_manager.py:24-58 | success exactly for a supported protocol whose ffmpeg started, and then the key is bound to the new process with its target; otherwise nothing changes |
| Stream.Manager.StopStream | managers/stream_manager.py:90-104 | success exactly for a known key whose process stopped, and only then is it removed |
| Stream.Manager.GetActiveStreams | managers/stream_manager.py:106-118 | one report per stored key, as `Info` gives it |
| Stream.Manager.Cleanup | managers/stream_manager.py:120-124 | every key is tried once and exactly the ones whose stop raised remain |
| Webcast.DefaultConfig | webcast_manager.py:27-40 | a config for the URL with the dataclass defaults: 1080-pixel viewport, 30% scroll, 5% overlap, three loops |
| Webcast.MaxScroll | webcast_manager.py:222 | the furthest scroll position, zero exactly when the page fits the viewport |
| Webcast.Ramp | webcast_manager.py:227-232 | the positions one step apart from the start that stay below the end |
| Webcast.RampIncreasing | webcast_manager.py:227-232 | those positions strictly increase |
| Webcast.ScrollPositionsShape | webcast_manager.py:218-236 | `ScrollPositions` on a page that scrolls starts at the top, strictly increases, stays within the page, ends at the end, and no two neighbours are more than one step apart |
| Webcast.RampLast | webcast_manager.py:229-232 | the last position below the end is less than one step from it |
| Webcast.RampGaps | webcast_manager.py:229-232 | positions below the end are exactly one step apart |
| Webcast.PositionsStep | webcast_manager.py:227-232 | one turn of the position loop keeps its invariant, or leaves with the positions complete |
| Webcast.GenerateScrollPositions | webcast_manager.py:224-236 | the loop, when it ends, builds exactly the positions `ScrollPositions` describes |
| Webcast.Pad4 | webcast_manager.py:252 | `{i:04d}`: zero-padded to four characters, a longer number unchanged |
| Webcast.CachePaths | webcast_manager.py:250-259 | the i-th screenshot is written to `CachePath(i)`, the i-th numbered cache path |
| Webcast.NextPosition | webcast_manager.py:440-457 | one step on, never past the end |
| Webcast.AutoScrollStep | webcast_manager.py:468-498 | at the end the loop counter goes up and scrolling restarts at the top, the counter wrapping to 0 once it reaches `loop_count`; elsewhere one step is taken |
| Webcast.AutoScrollLoopBound | webcast_manager.py:480-490 | the loop counter stays in [0, loop_count) |
| Webcast.FastDisplayLoop | webcast_manager.py:277-322 | with a positive `loop_count` exactly that many passes unless stopped earlier; otherwise passes run until the stop; a finished pass leaves the last cache index shown |
| Webcast.Updated | webcast_manager.py:193-207 | exactly the four scroll fields that are given change |
| Webcast.Manager.constructor | webcast_manager.py:46-61 | no config, not running, no page, scroll state zero, an empty cache |
| Webcast.Manager.StopWebcast | webcast_manager.py:135-172 | not running, no page, an empty cache; the config and scroll state stay |
| Webcast.Manager.GenerateScreenshotCache | webcast_manager.py:210-275 | it hangs exactly when the position loop cannot end; otherwise one numbered screenshot per position up to the first failure, and ready exactly when none failed |
| Webcast.Manager.StartWebcast | webcast_manager.py:63-133 | without Playwright it raises and changes nothing; a browser error stops the webcast and raises; otherwise the page height is recorded, the scroll state reset, the cache built, and the outcome reports its size and readiness |
| Webcast.Manager.NextScrollPosition | webcast_manager.py:440-457 | unchanged without a config, otherwise `NextPosition` |
| Webcast.Manager.ManualScroll | webcast_manager.py:546-566 | only a running webcast scrolls; "up" stops at the top, "down" at the end, by a tenth of the viewport by default; any other direction fails without moving |
| Webcast.Manager.JumpToPosition | webcast_manager.py:568-581 | the percent is clamped to [0, 100] so the position lands between the top and the end |
| Webcast.Manager.UpdateConfig | webcast_manager.py:193-208 | fails without a config; otherwise the config becomes `Updated` and nothing else changes |
| Webcast.Manager.GetStatus | webcast_manager.py:174-191 | only "stopped" while not running; when running the URL, position, total height, loop, cache index and size and whether the screenshots are ready, with a scroll percentage of 0 for an empty cache or at the first screenshot, 100 at the last of several, and within [0, 100] otherwise |
| Webcast.ScaleWithin | webcast_manager.py:574-575 | a share in [0, 1] of the scroll range, truncated, stays within the range |
| Layout.ContentArea | background_engine/layout.py:102-109 | the padding, truncated, is taken off both sides of each axis; for a non-negative canvas and a padding share of at most a half the area lies inside the canvas with non-negative size |
| Layout.ClampSize | background_engine/layout.py:166-169 | a size never exceeds the component's maximum or the content area, is at least the minimum when that fits, and is kept when already within bounds |
| Layout.InfoOf | background_engine/layout.py:148-185 | a component keeps its id and its clamped size fits the content area |
| Layout.ComponentInfos | background_engine/layout.py:145-185 | the first loop of `calculate_layout` builds each component's size and pixel spacings and sums the stack height |
| Layout.FlowYs | background_engine/layout.py:217-253 | one y per component |
| Layout.FlowYsStep | background_engine/layout.py:224-253 | consecutive components are one height, the spacings between them and the gap apart |
| Layout.FlowNoOverlap | background_engine/layout.py:224-253 | with no negative spacing or gap, each component ends before the next begins |
| Layout.GapNonNegative | background_engine/layout.py:211-214 | when the stack fits, the "distribute" gap is never negative |
| Layout.DistributedFlowOrdered | background_engine/layout.py:199-255 | a "distribute" flow that fits, with no negative spacing, stacks its components top to bottom without overlap |
| Layout.VerticalFlow | background_engine/layout.py:199-255 | the loop lays each component out at the aligned start plus the spacings, heights and "distribute" gaps before it, centred across when configured |
| Layout.FlowStart | background_engine/layout.py:199-214 | the flow starts at the top by default; "bottom" ends the stack at the bottom; "center" of a stack that fits keeps it inside the area, with at most one pixel more slack below than above |
| Layout.FlowGap | background_engine/layout.py:211-214 | no gap unless "distribute" with several components; then the gaps fill the free height up to less than one pixel per gap |
| Layout.FlowLayouts | background_engine/layout.py:217-253 | one layout per component, keeping its id and size, at the area's left unless centred, the first at the flow start plus its spacing before |
| Layout.GoldenMiddle | background_engine/layout.py:308-325 | `GoldenMiddleY`: the i-th middle component is centred at share i/(n-1) of the height between the first and last |
| Layout.GoldenFirstY | background_engine/layout.py:276-279 | the first of several components is never above the content area |
| Layout.GoldenLastY | background_engine/layout.py:290-293 | the last of several components never ends below the content area |
| Layout.GoldenSeveral | background_engine/layout.py:273-330 | one layout per component in order, with its size, the first not above and the last not below the content area |
| Layout.GoldenLayouts | background_engine/layout.py:257-331 | one layout per component in order at its size; with several, the first and last lie within the content area vertically |
| Layout.RuleOfThirds | background_engine/layout.py:333-377 | a single component centred on the upper third line, otherwise component i centred in section i % 3 of the content area |
| Layout.ThirdsLayouts | background_engine/layout.py:333-377 | one layout per component keeping id and size; a single one centred on the upper third line, otherwise component i centred in section i % 3 |
| Layout.LayoutOf | background_engine/layout.py:142-197 | whatever the algorithm, each component is laid out once, in order, at its clamped size |
| Layout.ThirdsRepeat | background_engine/layout.py:361-364 | components three apart land in the same section |
| Layout.FirstWithId | background_engine/layout.py:395-399 | the first registered component with the id, None exactly when none has it |
| Layout.FindComponent | background_engine/layout.py:394-399 | the search stops at the first match |
| Layout.FirstWithIdAt | background_engine/layout.py:395-399 | a component with the id and none before it is the one found |
| Layout.FirstWithIdNone | background_engine/layout.py:395-401 | no component with the id is found when none carries it |
| Layout.Engine.constructor | background_engine/layout.py:96-109 | the content area is the canvas less the padding on each side; no components |
| Layout.Engine.AddComponent | background_engine/layout.py:111-132 | the component is appended last, an omitted spacing taking the default |
| Layout.Engine.CalculateLayout | background_engine/layout.py:134-197 | one layout per registered component, in registration order, as `LayoutOf` says |
| Layout.Engine.Render | background_engine/layout.py:379-412 | every layout of `CalculateLayout` is drawn, in order, one per registered component, each paired with the first registered component carrying its id |
| Splitflap.StartFlap | splitflap/digit.py:41-50 | refused, changing nothing, exactly when the character is already shown or a flip runs; otherwise a flip from the shown character starts at frame 0 |
| Splitflap.AdvanceFlap | splitflap/digit.py:52-65 | a resting digit reports completion unchanged; a flipping one moves one frame and completes, showing its new character and resting, exactly on reaching frame 12 |
| Splitflap.FlipInProgress | splitflap/digit.py:52-65 | during a flip, after k < 12 updates the digit is at frame k and still shows the old character |
| Splitflap.FlipTakesTwelveFrames | splitflap/digit.py:20-65 | after a flip starts, the first eleven updates report it incomplete, the twelfth completes it, and the digit then rests on the new character |
| Splitflap.RestingStays | splitflap/digit.py:54-55 | a resting digit stays as it is however many updates it gets |
| Splitflap.Progress | splitflap/digit.py:67-71 | 1 at rest, and within [0, 1] during a flip |
| Splitflap.Digit.constructor | splitflap/digit.py:14-27 | a digit resting on "0" |
| Splitflap.Digit.GetDigit | splitflap/digit.py:205-207 | the character the digit shows (`current_digit`), the one `State` holds as shown |
| Splitflap.Digit.IsAnimationActive | splitflap/digit.py:209-210 | whether a flip runs; a digit that is not flipping has progress 1 |
| Splitflap.Digit.StartTransition | splitflap/digit.py:41-50 | the fields move as `StartFlap` says |
| Splitflap.Digit.UpdateAnimation | splitflap/digit.py:52-65 | the fields move as `AdvanceFlap` says |
| Splitflap.StartChanged | splitflap/clock.py:67-76 | a flip is started on exactly the positions whose character changed |
| Splitflap.AdvanceAll | splitflap/clock.py:87-96 | each digit advances once, a resting one staying as it is |
| Splitflap.AdvanceAllTimesAt | splitflap/clock.py:87-96 | advancing the clock k times advances each digit k times |
| Splitflap.ClockSettles | splitflap/clock.py:56-96 | a resting clock that sees a new time shows it, at rest, twelve animation steps later |
| Splitflap.TimeString | splitflap/clock.py:156-160 | `GetCurrentTimeString`: "00:00" before any time, otherwise the time with a colon after the hours |
| Splitflap.DigitOffsets | splitflap/clock.py:108-123 | the four digit positions and the colon between the hours and the minutes; the last digit ends within `TotalWidth` |
| Splitflap.MeanProgress | splitflap/clock.py:170-178 | `get_animation_progress` (`Clock.GetAnimationProgress`): 1 when no digit flips, and the mean progress of the flipping digits within [0, 1] otherwise |
| Splitflap.ProgressSum | splitflap/clock.py:177 | the progress of the flipping digits adds up to at most one per digit |
| Splitflap.Flipping | splitflap/clock.py:172 | no more flipping digits than digits |
| Splitflap.Clock.constructor | splitflap/clock.py:17-38 | every digit rests on its character of the time, with the total width of four digits and five spacings |
| Splitflap.Clock.GetDisplaySize | splitflap/clock.py:98-100 | four digits and five spacings wide and one digit high; with no negative spacing the last digit fits |
| Splitflap.Clock.GetCurrentTimeString | splitflap/clock.py:156-160 | the four characters of the time with a colon after the hours, five characters in all |
| Splitflap.Clock.IsAnyAnimationActive | splitflap/clock.py:162-164 | some digit flips exactly when the number of flipping digits that `get_animation_progress` averages over is positive |
| Splitflap.Clock.GetAnimationProgress | splitflap/clock.py:170-178 | 1 when no digit flips, and within [0, 1] whenever every digit's frame is within the flip |
| Splitflap.FlippingCounts | splitflap/clock.py:164-174 | `any(is_animation_active)` and a non-empty list of active digits agree |
| Splitflap.Clock.ShowTime | splitflap/clock.py:40-50 | every digit's three characters become the time's; any flip's frame counter stays |
| Splitflap.Clock.UpdateAnimations | splitflap/clock.py:87-96 | every flipping digit advances once, and the answer is whether any was flipping (what `IsAnyAnimationActive` reads) |
| Splitflap.Clock.Update | splitflap/clock.py:56-85 | within 0.1 s only the flips advance; otherwise a changed time starts flips on exactly the changed positions against the old time or "0000" and is recorded, then the flips advance; a redraw is needed exactly when a flip started or one was running |
| SrsServer.FirstFallback | srsserver.py:1467-1472 | the first fallback resolution offered at 60 Hz that has a command, None exactly when none has |
| SrsServer.ScanFallbacks | srsserver.py:1467-1472 | the loop stops at the first usable fallback, largest first |
| SrsServer.OptimalPlayerCommand | srsserver.py:1443-1490 | `PlayerCommand` tries the exact key, then the key at 60 Hz, then the largest usable fallback, the player's basic command, its older "optimized" entry, and last the fixed mpv command |
| SrsServer.JoinAppend | srsserver.py:2559-2561 | joining one more line adds it after a space |
| SrsServer.WrapCurrentEmpty | srsserver.py:2557-2565 | the line being filled is empty only before the first word |
| SrsServer.StepJoin | srsserver.py:2558-2563 | one more word adds itself, after a space, to the joined lines |
| SrsServer.WrapKeepsWords | srsserver.py:2553-2565 | the wrap loses, adds and reorders no word: its lines joined are the words joined |
| SrsServer.WrapLinesFit | srsserver.py:2558-2565 | every line is a single word or within the limit, and none is empty |
| SrsServer.WrapWords | srsserver.py:2553-2565 | the loop computes the wrapped lines |
| SrsServer.CaptionLines | srsserver.py:2521-2568 | no caption exactly when the line width cannot be computed; otherwise at most the first three wrapped lines, each a single word or within the limit |
| SrsServer.MaxCharsPerLine | srsserver.py:2540-2553 | 50 characters without a font; with one, none (the division by zero) exactly for a height below 48, and otherwise the number of half-font-size cells that fit in the width |
| SrsServer.Player.constructor | srsserver.py:1875-1932 | nothing playing |
| SrsServer.Player.StopPlayback | srsserver.py:1934-1963 | nothing playing is a successful no-op; otherwise the background is shown unless it was the content, the slot is released and the fields cleared; a failure before the release changes nothing and answers false |
| SrsServer.Player.StartPlayback | srsserver.py:1875-1932 | what plays is stopped first; success exactly for a supported protocol, a free slot, a connected controller and a load that succeeds, and then the fields name the new playback; otherwise the slot taken is released, and an unsupported protocol also releases a still-held slot other than 0; on failure the stream, protocol and player are cleared if the old playback was stopped and kept otherwise |
| SrsServer.SetPlaybackVolume | srsserver.py:3101-3121 | 404 unless that stream plays on a slot, 500 when the controller is gone or refuses; success applies `max(0, min(130, volume))`, the requested volume itself when it lies in [0, 130] |
| SrsServer.SetAudioVolume | srsserver.py:3303-3318 | the endpoint as its 500 branch means it: 400 outside [0, 100] and nothing stored; with an audio player the volume is stored exactly when mpv answers "success", else 500; without one it is stored for the next stream |
| SrsServer.SetAudioVolumeAsWritten | srsserver.py:3303-3318 | as written: `if success:` tests the never-empty dict `send_command` answers (srsserver.py:87-131), so any volume in [0, 100] is stored and reported set, player or not |
| SrsServer.NotConnectedVolumeStored | srsserver.py:89-90 | a disconnected player's "not_connected" answer still stores the volume and reports success |
| SrsServer.SetAudioVolumeDiffers | srsserver.py:3309-3314 | the written and the intended endpoint differ exactly on a refused send to a present player |
| SrsServer.WordRun | srsserver.py:2831 | the longest run of word characters at the start |
| SrsServer.SomaAt | srsserver.py:2831 | a match at an offset captures a non-empty word run with `somafm.com/` before it and `.pls` after it |
| SrsServer.SomaAtFinds | srsserver.py:2831 | conversely, `somafm.com/<w>.pls` at an offset, `w` a non-empty word, is matched there and captures exactly `w` |
| SrsServer.SomaSearch | srsserver.py:2831-2833 | a match found is SomaAt's at some offset with no match at any earlier offset (the leftmost); none exactly when no offset matches |
| SrsServer.DetectStreamType | srsserver.py:2824-2849 | no source for the empty URL; the leftmost SomaFM match wins with its captured station; then Radio Paradise with Audio.ParadiseChannel's channel; then the Icecast server "http://198.204.228.202:8160"; each only when the earlier tests failed |
| SrsServer.PassedCount | srsserver.py:3690 | all passed exactly when every status is "pass" |
| SrsServer.OverallStatus | srsserver.py:3696 | "pass" exactly from 80 % passed, "warning" exactly from 50 % below that, "fail" exactly below 50 % |
| SrsServer.TestSummary | srsserver.py:3689-3697 | the total is the number of tests, and a run where every test passed is "pass" |

## Behaviour that follows the code

- A vertical-flow layout adds the extra gap only for the alignment spelled
  "distribute"; any other unrecognised alignment starts at the top of the content
  area with no extra gap (background_engine/layout.py:199-253).
- `play_audio` on the `local-video` target, which lists the audio capability,
  still answers false: only the local-audio and Chromecast target types are handled (managers/output_target_manager.py:305-341).
- The display's resolution priority list is not ordered by area (1600x1200
  comes after 1680x1050), so the best mode is the largest by area, not the first
  listed (managers/display_detector.py:31-45).
- The cast receiver's lists of audio and video extensions differ from those of
  utils/media.py, and the model keeps both.
- `pause()` without an argument cycles the property instead of setting it
  (core/mpv_controller.py:183-188).
- `start_cast` does not stop a session already running on another device, and
  routing to an output target neither stops the previous target nor rolls back on
  failure.
- `CHROMECAST_CACHE_DURATION` and `PRODUCTION_PORT` come from a configuration
  module that is not part of this model; they are constructor parameters.
- The scroll-position loop of the webcast never ends when the page scrolls and
  the effective step is not positive; `StartWebcast` reports this as the outcome
  `Hangs` instead of looping.

## Left out

- Process, socket, file, HTTP, Playwright and pychromecast I/O: each answer is a
  parameter, each request a result. Timeouts, `select`, `EAGAIN` and partial
  sends are reduced to the chunks that arrive and the outcome of each attempt.
- asyncio concurrency: tasks, sleeps, cancellation, the SSDP responder thread,
  the periodic discovery, metadata, push and WebSocket listener loops. One tick
  or one step of each loop is modelled.
- Exceptions that only log in long-running loops; the loops are modelled as
  continuing.
- Drawing with PIL, fonts and easing: the split-flap and background rendering,
  the colon, the QR-code image, and image decoding and aspect-preserving resize
  (`DisplayImage` takes pixels already at the buffer's size; `scale_x`/`scale_y`
  are not modelled).
- Floating-point arithmetic: percentages and fractions are `real`s, and `int()`
  of a float is truncation; rounding of binary floats is not modelled.
- Python regular expressions: `\w` is taken as ASCII letters, digits and `_`.
- Aliasing: a clock's digits, a pool's controllers and the registry's targets
  are values owned by one object, so the copies `.copy()` makes are implicit.
- `display_detector.initialize` (it does nothing) and
  `get_optimal_framebuffer_config` are not modelled.
- The controller's `set_property`, `get_property`, `add_property`,
  `multiply_property`, `cycle_property`, `loadfile`, `seek` and `quit` wrappers
  only build a command list for `send_command`; `MpvController.SetCommand` and
  `CycleCommand` build them without a contract of their own.
- Output targets: `start_auto_discovery`/`stop_auto_discovery`,
  `get_all_targets`, `to_dict`, and target metadata other than the device name.
- Chromecast: the discovery subprocess script; the legacy branch of
  `_format_device_list` for entries that are not dicts; the player-state, volume
  and duration fields of the cast status; the connection wait and the
  "threads can only be started once" retry, reduced to a `connected` input.
- Cast receiver: `_get_local_ip`, `get_device_description_xml`, the session's
  start time and metadata; `cleanup` is `stop_receiver`.
- Spotify: `initialize`, `_restore_state`, `_save_state`, cover-art lookup, the
  Home Assistant notification; the exception path of `handle_event`.
- WebSocket: the handshake (`accept`) and the JSON text of a message.
- Audio: the now-playing metadata fetch and its loop.
- Playback: the timers that return to the background after a video ends, and
  the playback monitor.
- Home Assistant: YAML persistence of the configuration, the WebSocket
  authentication handshake, `test_connection`, the request URL and headers.
- Webcast: the buffered auto-scroll loop, the preload and screenshot swap, and
  deleting the cached files.
- Layout: `get_layout_info`.
- srsserver.py: the copies of the controller, display detector, framebuffer and
  HDMI-CEC managers are modelled once, from core/ and managers/; the contents of
  the `OPTIMAL_PLAYER_COMMANDS` and `PLAYER_COMMANDS` tables are parameters.
- Audio.Resolved: states only the cases where the URL is kept; what a playlist
  resolves to is stated by `Audio.PlsFirstEntry` and `Audio.M3uSkipsComment` for
  a first entry and a skipped comment, not for every body.
- NetLoc.Hostname: `urlsplit`'s further checks of a bracketed address (that it
  is a valid IPv6 or IPvFuture literal) and its NFKC check of the network
  location are not modelled; only the unbalanced-bracket `ValueError` is, in
  `Audio.FriendlyName` and `Audio.OtherStreamType`, whose own `except` clauses
  catch it.
- Media.DetectMediaType, CastReceiver.ReceiverMediaType and
  Chromecast.ExtractYoutubeId: `urlparse` raises `ValueError` on an unbalanced
  bracket; these classify or search the split text as written instead. In the
  source the error escapes them and is caught by the outer `except` of
  `start_cast` and `receive_cast`, which then answer False (`start_cast` after
  selecting and connecting to the device and before stopping any local player,
  `receive_cast` after stopping the old session); `Chromecast.Decide` and
  `CastReceiver.ReceivePlan` do not model that path and go on with the
  classification.
- HdmiCec.TvLines: states that every TV line is kept and nothing added, not the
  order on its own; `HdmiCec.TvLinesAppend` gives the order line by line.
- Layout.GoldenLayouts: states the order, sizes and the vertical bounds of the
  first and last component; the middle positions are stated by
  `Layout.GoldenMiddle`.
- SrsServer.TestSummary: states the total, and "pass" exactly from 80 % passed;
  the other thresholds are stated by `SrsServer.OverallStatus`.
- Url.Unquote: a `%XX` escape of a byte 0x80 or above is left as written;
  Python gathers such bytes and decodes them as UTF-8, with U+FFFD for invalid
  sequences. Escapes of ASCII bytes, '+' and stray '%' signs are modelled.
- Url.UrlSplit: Python 3.12 first removes leading C0 control characters and
  spaces and every tab, CR and LF from the URL; the model splits the text as
  given. Its refusal of unbalanced brackets is `NetLoc.InvalidIpv6`, a separate
  test; the split itself never fails.
- Webcast.Manager.GetStatus: states the scroll percentage at the first and at
  the last screenshot, and its bounds, not its value in between.
- Framebuffer.FramebufferManager.InitializeFramebuffer: takes its geometry from the
  corrected `Framebuffer.GetFbInfo` (see "## Findings"), so it never maps a stale
  `fb_size`. With the source's `_get_fb_info`, an unreadable `bits_per_pixel`
  after a changed `virtual_size` makes `reshape` raise, leaving the manager
  unavailable at the new size with the file and mapping held; that outcome is
  stated by `Framebuffer.StaleReadingUnavailableAsWritten`, not by the method.
- MpvController.ReadStream: `recv` chunks are modelled as already-decoded text.
  The source decodes each chunk on its own as UTF-8, so a chunk that ends inside
  a multi-byte character raises `UnicodeDecodeError`, which escapes the read
  loop and makes `send_command` answer with that error; this path, and its
  dependence on where the bytes are cut, is not modelled.
- Text.ParseInt: `int()` also accepts '_' between digits ("1_920") and the
  decimal digits of other scripts; the model reads an optional sign and ASCII
  digits only, so a mode line or a framebuffer `virtual_size` or
  `bits_per_pixel` written in those forms is refused here.
- ParseReal: `float()` also accepts a sign, an exponent, `_` between digits and
  `inf`/`nan`; the model parses digits with an optional decimal point only, so
  a mode line written in those forms is dropped here.
- Text.Lower, Text.Strip, Text.IsSpace, Text.Words and Text.Title: ASCII only
  (`Text.IsSpace` holds the ASCII whitespace of `str.isspace`, the separators
  U+001C to U+001F included). Python's `lower`, `strip`, `split` and `title` are Unicode-aware (for example
  U+212A KELVIN SIGN lowers to 'k', and U+00A0 and U+3000 separate words); the
  model leaves every non-ASCII character as it is and never splits on it.
- managers/health_monitor.py works on the `AudioMPVPool`/`VideoMPVPool`
  classes of managers/mpv_pools.py, which is not part of this model;
  `HealthMonitor.ManagedStep` and `HealthMonitor.ManagersTick` run on the pool
  of core/mpv_pools.py (`MpvPools.Pool`) instead, using only `pool_size` and
  `processes`; the video pool's `suspended` flag is a parameter.

## Findings

| source | as written | input that shows it | evidently intended | confidence | as-written member | corrected member |
|---|---|---|---|---|---|---|
| managers/framebuffer_manager.py:84-101 | `_get_fb_info` stores the width and height before reading the bits per pixel, so a readable `virtual_size` with an unreadable `bits_per_pixel` leaves the new geometry with the old `fb_size` | geometry 640x480 at 16 bpp, `fb_size` 614400, `virtual_size` "1920,1080", `bits_per_pixel` unreadable: 1920x1080 at 16 bpp with `fb_size` 614400 instead of 4147200 | the geometry and `fb_size` change together or not at all | not executed | Framebuffer.FbSizeStaleAsWritten | Framebuffer.GetFbInfoAllOrNothing |
| srsserver.py:3303-3318 | `set_audio_volume` tests `if success:` on the dict the legacy `send_command` returns (srsserver.py:87-131), which always holds an "error" field and so is never empty; the 500 branch is dead | an audio player whose controller is disconnected: `send_command` answers `{"error": "not_connected"}`, yet the answer is "Audio volume set to 50" and `audio_volume` becomes 50 | store the volume and answer success only when mpv answers "success", as the other volume endpoint does (srsserver.py:3116) and the 500 branch suggests | not executed | SrsServer.SetAudioVolumeAsWritten | SrsServer.SetAudioVolume |

=== FILE: audio.dfy ===
/**
 * `AudioManager` (managers/audio_manager.py): internet-radio playback on a
 * process of the audio mpv pool. The pool's answers, the playlist body fetched
 * over HTTP and mpv's replies are inputs; the controllers handed back to the pool
 * are outputs. Metadata fetching from the station APIs is not modelled; which
 * API a stream would use (`_detect_stream_type`) is.
 */
module Audio {
  import opened Wrappers
  import opened Text
  import opened Url
  import opened NetLoc
  import opened Numeric

  // ---------------------------------------------------------------------------
  // Playlist resolution (`_resolve_audio_url`)

  const PlsKey := "File1="

  predicate IsPlsLine(line: string)
  {
    StartsWith(line, PlsKey)
  }

  /** A playable M3U line: not blank once stripped, and not a `#` tag or comment. */
  predicate IsM3uLine(line: string)
  {
    Strip(line) != [] && !StartsWith(Strip(line), "#")
  }

  /** The index of the first `File1=` line. */
  function FirstPls(lines: seq<string>): (r: Option<nat>)
    ensures r.None? <==> forall k :: 0 <= k < |lines| ==> !IsPlsLine(lines[k])
    ensures r.Some? ==>
      r.value < |lines| && IsPlsLine(lines[r.value]) && forall k :: 0 <= k < r.value ==> !IsPlsLine(lines[k])
  {
    if lines == [] then None
    else if IsPlsLine(lines[0]) then Some(0)
    else match FirstPls(lines[1..])
      case None => None
      case Some(i) => Some(i + 1)
  }

  /** The index of the first playable M3U line. */
  function FirstM3u(lines: seq<string>): (r: Option<nat>)
    ensures r.None? <==> forall k :: 0 <= k < |lines| ==> !IsM3uLine(lines[k])
    ensures r.Some? ==>
      r.value < |lines| && IsM3uLine(lines[r.value]) && forall k :: 0 <= k < r.value ==> !IsM3uLine(lines[k])
  {
    if lines == [] then None
    else if IsM3uLine(lines[0]) then Some(0)
    else match FirstM3u(lines[1..])
      case None => None
      case Some(i) => Some(i + 1)
  }

  /** `line.split('=', 1)[1].strip()`: in a `File1=` line the first '=' ends the key. */
  function PlsValue(line: string): (r: string)
    requires IsPlsLine(line)
    ensures IndexOf(line, '=') == Some(|PlsKey| - 1)
    ensures r == Strip(line[|PlsKey|..])
  {
    assert line[..|PlsKey|] == PlsKey;
    assert line == "File1" + ['='] + line[|PlsKey|..];
    IndexOfFirst("File1", '=', line[|PlsKey|..]);
    Strip(line[|PlsKey|..])
  }

  predicate IsPlsUrl(url: string)
  {
    EndsWith(url, ".pls")
  }

  predicate IsM3uUrl(url: string)
  {
    EndsWith(url, ".m3u") || EndsWith(url, ".m3u8")
  }

  /**
   * The URL mpv is given for `url`; `body` is the playlist text when the fetch
   * answered 200, None when it failed. Anything but a playlist with a usable
   * entry resolves to the URL itself.
   */
  function Resolved(url: string, body: Option<string>): (r: string)
    ensures !IsPlsUrl(url) && !IsM3uUrl(url) ==> r == url
    ensures body.None? ==> r == url
  {
    if body.None? then url
    else
      var lines := Split(body.value, '\n');
      if IsPlsUrl(url) then
        match FirstPls(lines)
        case Some(i) => PlsValue(lines[i])
        case None => url
      else if IsM3uUrl(url) then
        match FirstM3u(lines)
        case Some(i) => Strip(lines[i])
        case None => url
      else url
  }

  method FindPls(lines: seq<string>) returns (r: Option<nat>)
    ensures r == FirstPls(lines)
  {
    var i := 0;
    while i < |lines|
      invariant 0 <= i <= |lines|
      invariant forall k :: 0 <= k < i ==> !IsPlsLine(lines[k])
    {
      if IsPlsLine(lines[i]) {
        return Some(i);
      }
      i := i + 1;
    }
    return None;
  }

  method FindM3u(lines: seq<string>) returns (r: Option<nat>)
    ensures r == FirstM3u(lines)
  {
    var i := 0;
    while i < |lines|
      invariant 0 <= i <= |lines|
      invariant forall k :: 0 <= k < i ==> !IsM3uLine(lines[k])
    {
      if IsM3uLine(lines[i]) {
        return Some(i);
      }
      i := i + 1;
    }
    return None;
  }

  /** `_resolve_audio_url`: scan the playlist's lines for the first usable entry. */
  method ResolveAudioUrl(url: string, body: Option<string>) returns (r: string)
    ensures r == Resolved(url, body)
  {
    if body.None? {
      return url;
    }
    var lines := Split(body.value, '\n');
    if IsPlsUrl(url) {
      var i := FindPls(lines);
      r := if i.Some? then PlsValue(lines[i.value]) else url;
    } else if IsM3uUrl(url) {
      var i := FindM3u(lines);
      r := if i.Some? then Strip(lines[i.value]) else url;
    } else {
      r := url;
    }
  }

  /** A PLS body whose first line is `File1=<entry>` resolves to that entry. */
  lemma PlsFirstEntry(url: string, entry: string, rest: string)
    requires IsPlsUrl(url) && '\n' !in entry
    requires entry == [] || (!IsSpace(entry[0]) && !IsSpace(entry[|entry| - 1]))
    ensures Resolved(url, Some(PlsKey + entry + "\n" + rest)) == entry
  {
    var first := PlsKey + entry;
    assert '\n' !in first by {
      assert forall k :: 0 <= k < |first| ==> first[k] == (if k < |PlsKey| then PlsKey[k] else entry[k - |PlsKey|]);
    }
    var body := first + ['\n'] + rest;
    assert PlsKey + entry + "\n" + rest == body;
    IndexOfFirst(first, '\n', rest);
    assert body[..|first|] == first && body[|first| + 1..] == rest;
    var lines := Split(body, '\n');
    assert lines[0] == first;
    assert first[..|PlsKey|] == PlsKey;
    assert FirstPls(lines) == Some(0);
    assert first[|PlsKey|..] == entry;
    StripUnchanged(entry);
  }

  /** An M3U body that opens with a `#` comment line resolves to the entry on the next line. */
  lemma M3uSkipsComment(url: string, comment: string, entry: string)
    requires IsM3uUrl(url) && !IsPlsUrl(url)
    requires '\n' !in comment && |comment| > 0 && comment[0] == '#' && !IsSpace(comment[|comment| - 1])
    requires '\n' !in entry && |entry| > 0 && entry[0] != '#' && !IsSpace(entry[0]) && !IsSpace(entry[|entry| - 1])
    ensures Resolved(url, Some(comment + "\n" + entry)) == entry
  {
    SplitTwo(comment, '\n', entry);
    assert comment + "\n" + entry == comment + ['\n'] + entry;
    StripUnchanged(comment);
    StripUnchanged(entry);
    assert StartsWith(comment, "#") by {
      assert comment[..1] == "#";
    }
    assert !StartsWith(entry, "#") by {
      assert entry[..1] != "#";
    }
    assert FirstM3u([comment, entry]) == Some(1) by {
      assert !IsM3uLine(comment);
      assert FirstM3u([entry]) == Some(0);
      assert [comment, entry][1..] == [entry];
    }
  }

  // ---------------------------------------------------------------------------
  // Stream names and metadata sources

  /** A path segment that can name a station: not empty, not the scheme, no dot, not excluded. */
  predicate StationPart(part: string, excluded: seq<string>)
  {
    part != [] && !StartsWith(part, "http") && '.' !in part && part !in excluded
  }

  /** Segment `k` can name a station and none before it can. */
  predicate FirstAt(parts: seq<string>, excluded: seq<string>, k: int)
    requires 0 <= k < |parts|
  {
    StationPart(parts[k], excluded) && forall j :: 0 <= j < k ==> !StationPart(parts[j], excluded)
  }

  /** The first segment that can name a station. */
  function FirstStation(parts: seq<string>, excluded: seq<string>): (r: Option<string>)
    ensures r.None? <==> forall k :: 0 <= k < |parts| ==> !StationPart(parts[k], excluded)
    ensures r.Some? ==> exists k :: 0 <= k < |parts| && FirstAt(parts, excluded, k) && parts[k] == r.value
  {
    if parts == [] then None
    else if StationPart(parts[0], excluded) then Some(parts[0])
    else
      var r := FirstStation(parts[1..], excluded);
      if r.Some? then
        var k :| 0 <= k < |parts[1..]| && FirstAt(parts[1..], excluded, k) && parts[1..][k] == r.value;
        assert FirstAt(parts, excluded, k + 1) by {
          forall j | 0 <= j < k + 1
            ensures !StationPart(parts[j], excluded)
          {
            if j > 0 {
              assert parts[j] == parts[1..][j - 1];
            }
          }
        }
        r
      else r
  }

  method FindStation(parts: seq<string>, excluded: seq<string>) returns (r: Option<string>)
    ensures r == FirstStation(parts, excluded)
  {
    var i := 0;
    while i < |parts|
      invariant 0 <= i <= |parts|
      invariant FirstStation(parts, excluded) == FirstStation(parts[i..], excluded)
    {
      if StationPart(parts[i], excluded) {
        return Some(parts[i]);
      }
      assert parts[i..][1..] == parts[i + 1..];
      i := i + 1;
    }
    return None;
  }

  predicate IsSomaFm(url: string)
  {
    Contains(Lower(url), "soma.fm") || Contains(Lower(url), "somafm")
  }

  /** Where the now-playing metadata of a stream comes from. */
  datatype StreamInfo = SomaFm(station: string) | RadioParadise(channel: nat) | Icecast(server: string)

  /** Segments that name a playlist format rather than a SomaFM station. */
  const FormatSegments: seq<string> := ["pls", "m3u", "mp3"]

  const DefaultStation := "groovesalad"

  /**
   * Radio Paradise channels, the first keyword found winning: mellow 1, rock 2,
   * global 3, the main mix 0. `_detect_stream_type` in srsserver.py uses the
   * same rule.
   */
  function ParadiseChannel(lowerUrl: string): (c: nat)
    ensures c <= 3
    ensures c == 0 <==> !Contains(lowerUrl, "mellow") && !Contains(lowerUrl, "rock") && !Contains(lowerUrl, "global")
    ensures Contains(lowerUrl, "mellow") ==> c == 1
    ensures !Contains(lowerUrl, "mellow") && Contains(lowerUrl, "rock") ==> c == 2
    ensures !Contains(lowerUrl, "mellow") && !Contains(lowerUrl, "rock") && Contains(lowerUrl, "global") ==> c == 3
  {
    if Contains(lowerUrl, "mellow") then 1
    else if Contains(lowerUrl, "rock") then 2
    else if Contains(lowerUrl, "global") then 3
    else 0
  }

  /** The SomaFM station named by the first eligible segment, in lower case; "groovesalad" if none is. */
  function SomaStation(parts: seq<string>): (station: string)
    ensures FirstStation(parts, FormatSegments).None? ==> station == DefaultStation
    ensures FirstStation(parts, FormatSegments).Some? ==> station == Lower(FirstStation(parts, FormatSegments).value)
  {
    match FirstStation(parts, FormatSegments)
    case Some(part) => Lower(part)
    case None => DefaultStation
  }

  /**
   * The Radio Paradise and Icecast tests, made when the URL is not SomaFM's.
   * An Icecast URL whose network location `urlparse` refuses (an unbalanced
   * bracket) falls through the bare `except` to no type at all.
   */
  function OtherStreamType(url: string): (r: Option<StreamInfo>)
    ensures r.None? <==>
      !Contains(Lower(url), "radioparadise.com") &&
      (!(Contains(Lower(url), "icecast") || Contains(url, ":8000")) || InvalidIpv6(UrlParse(url).netloc))
    ensures r.Some? && r.value.Icecast? ==> r.value.server == UrlParse(url).scheme + "://" + UrlParse(url).netloc
    ensures r.Some? && r.value.Icecast? ==> !InvalidIpv6(UrlParse(url).netloc)
    ensures Contains(Lower(url), "radioparadise.com") ==> r == Some(RadioParadise(ParadiseChannel(Lower(url))))
    ensures (!Contains(Lower(url), "radioparadise.com") && (Contains(Lower(url), "icecast") || Contains(url, ":8000")) &&
             !InvalidIpv6(UrlParse(url).netloc)) ==> r.Some? && r.value.Icecast?
  {
    if Contains(Lower(url), "radioparadise.com") then Some(RadioParadise(ParadiseChannel(Lower(url))))
    else if Contains(Lower(url), "icecast") || Contains(url, ":8000") then
      var parts := UrlParse(url);
      if InvalidIpv6(parts.netloc) then None
      else Some(Icecast(parts.scheme + "://" + parts.netloc))
    else None
  }

  /** `_detect_stream_type`: SomaFM first, then Radio Paradise, then Icecast. */
  function StreamType(url: string): (r: Option<StreamInfo>)
    ensures url == [] ==> r.None?
    ensures url != [] && IsSomaFm(url) ==> r == Some(SomaFm(SomaStation(Split(url, '/'))))
    ensures url != [] && !IsSomaFm(url) ==> r == OtherStreamType(url)
  {
    if url == [] then None
    else if IsSomaFm(url) then Some(SomaFm(SomaStation(Split(url, '/'))))
    else OtherStreamType(url)
  }

  /** `_detect_stream_type`: search the URL's '/'-segments for a SomaFM station. */
  method DetectStreamType(url: string) returns (r: Option<StreamInfo>)
    ensures r == StreamType(url)
  {
    if url == [] {
      return None;
    }
    if IsSomaFm(url) {
      var part := FindStation(Split(url, '/'), FormatSegments);
      var station := DefaultStation;
      if part.Some? {
        station := Lower(part.value);
      }
      return Some(SomaFm(station));
    }
    r := OtherStreamType(url);
  }

  /** `_get_friendly_stream_name`. */
  function FriendlyName(url: string): (r: string)
    ensures r != []
    ensures url == [] ==> r == "Unknown Stream"
    ensures url != [] ==> r[0] != 'U' // so "Unknown Stream" names exactly the empty url
    ensures url != [] && IsSomaFm(url) ==> StartsWith(r, "SomaFM")
    ensures url != [] && IsSomaFm(url) && FirstStation(Split(url, '/'), []).None? ==> r == "SomaFM"
    ensures url != [] && IsSomaFm(url) && FirstStation(Split(url, '/'), []).Some? ==>
      r == "SomaFM - " + Title(FirstStation(Split(url, '/'), []).value)
    ensures url != [] && !IsSomaFm(url) && Contains(Lower(url), "radio") ==> r == "Radio Stream"
    ensures url != [] && !IsSomaFm(url) && !Contains(Lower(url), "radio") && StartsWith(url, "http") ==>
      r == (if InvalidIpv6(UrlParse(url).netloc) then "Audio Stream"
            else "Stream from " + Hostname(UrlParse(url).netloc).UnwrapOr("Unknown"))
    ensures url != [] && !IsSomaFm(url) && !Contains(Lower(url), "radio") && !StartsWith(url, "http") ==>
      r == "Audio Stream"
  {
    if url == [] then "Unknown Stream"
    else if IsSomaFm(url) then
      match FirstStation(Split(url, '/'), [])
      case Some(part) => "SomaFM - " + Title(part)
      case None => "SomaFM"
    else if Contains(Lower(url), "radio") then "Radio Stream"
    else if StartsWith(url, "http") then
      var netloc := UrlParse(url).netloc;
      if InvalidIpv6(netloc) then "Audio Stream" else "Stream from " + Hostname(netloc).UnwrapOr("Unknown")
    else "Audio Stream"
  }

  /** `http://[host]port/...` is named by the address inside the brackets. */
  lemma {:induction false} FriendlyNameBracketed(host: string, port: string, path: string)
    requires host != [] && NoRadioLetters(host) && NoRadioLetters(port) && NoRadioLetters(path)
    requires PlainHost(host) && PlainHost(port) && ']' !in host && '%' !in host
    requires path == [] || path[0] == '/'
    ensures FriendlyName("http://" + ("[" + host + "]" + port) + path) == "Stream from " + Lower(host)
  {
    var netloc := "[" + host + "]" + port;
    BracketedNetloc(host, port, path);
    HttpUrl(netloc, path);
    StreamFromHost("http://" + netloc + path);
  }

  /** `[host]port` is a well-formed network location naming `host`, with nothing of a path in it. */
  lemma BracketedNetloc(host: string, port: string, path: string)
    requires host != [] && NoRadioLetters(host) && NoRadioLetters(port) && NoRadioLetters(path)
    requires PlainHost(host) && PlainHost(port) && ']' !in host && '%' !in host
    ensures var netloc := "[" + host + "]" + port;
      NoRadioLetters(netloc + path) && '/' !in netloc && '?' !in netloc && '#' !in netloc &&
      !InvalidIpv6(netloc) && Hostname(netloc) == Some(Lower(host))
  {
    BracketedChars(host, port, path);
    var netloc := "[" + host + "]" + port;
    HostnameBracketed([], host, port);
    assert [] + netloc == netloc;
  }

  /** Brackets and a port add none of the letters or delimiters the host and port leave out. */
  lemma BracketedChars(host: string, port: string, path: string)
    requires NoRadioLetters(host) && NoRadioLetters(port) && NoRadioLetters(path) && PlainHost(host) && PlainHost(port)
    ensures var netloc := "[" + host + "]" + port;
      NoRadioLetters(netloc + path) && '/' !in netloc && '?' !in netloc && '#' !in netloc && !InvalidIpv6(netloc)
  {
  }

  /** A '[' with no ']' makes `urlparse` raise, and the name falls back to "Audio Stream". */
  lemma {:induction false} FriendlyNameUnbalanced(host: string, path: string)
    requires NoRadioLetters(host + path)
    requires '/' !in host && '?' !in host && '#' !in host && ']' !in host
    requires path == [] || path[0] == '/'
    ensures FriendlyName("http://" + ("[" + host) + path) == "Audio Stream"
  {
    var netloc := "[" + host;
    OpenBracketChars(host, path);
    HttpUrl(netloc, path);
    UnbalancedFallback("http://" + netloc + path);
  }

  /** An opening bracket adds none of the letters or delimiters the host and path leave out. */
  lemma OpenBracketChars(host: string, path: string)
    requires NoRadioLetters(host + path)
    requires '/' !in host && '?' !in host && '#' !in host && ']' !in host
    ensures var netloc := "[" + host;
      NoRadioLetters(netloc + path) && '/' !in netloc && '?' !in netloc && '#' !in netloc && InvalidIpv6(netloc)
  {
    assert ("[" + host)[0] == '[';
  }

  /** `http://netloc/path` with none of the letters of "radio" or "soma" names its network location. */
  lemma HttpUrl(netloc: string, path: string)
    requires NoRadioLetters(netloc + path) && '/' !in netloc && '?' !in netloc && '#' !in netloc
    requires path == [] || path[0] == '/'
    ensures var u := "http://" + netloc + path;
      StartsWith(u, "http") && !IsSomaFm(u) && !Contains(Lower(u), "radio") && UrlParse(u).netloc == netloc
  {
    var u := "http://" + netloc + path;
    assert u[..4] == "http";
    NotMentioned(u);
    HttpNetloc(netloc, path);
  }

  /** No character that ends a network location or its credentials. */
  predicate PlainHost(s: string)
  {
    '/' !in s && '?' !in s && '#' !in s && '@' !in s
  }

  /** The letters of "radio", "soma.fm" and "somafm" that the lemmas above keep out of a URL. */
  predicate NoRadioLetters(s: string)
  {
    'r' !in s && 'R' !in s && 's' !in s && 'S' !in s
  }

  /** An http URL whose network location `urlparse` refuses is named "Audio Stream". */
  lemma UnbalancedFallback(url: string)
    requires StartsWith(url, "http") && !IsSomaFm(url) && !Contains(Lower(url), "radio")
    requires InvalidIpv6(UrlParse(url).netloc)
    ensures FriendlyName(url) == "Audio Stream"
  {
  }

  /** An http URL that is neither SomaFM nor a radio, with a well-formed network location, is named by its host. */
  lemma StreamFromHost(url: string)
    requires StartsWith(url, "http") && !IsSomaFm(url) && !Contains(Lower(url), "radio")
    requires !InvalidIpv6(UrlParse(url).netloc)
    ensures FriendlyName(url) == "Stream from " + Hostname(UrlParse(url).netloc).UnwrapOr("Unknown")
  {
  }

  /** A URL with no 'r' and no 's' in any case names neither SomaFM nor a radio. */
  lemma NotMentioned(url: string)
    requires NoRadioLetters(url)
    ensures !IsSomaFm(url) && !Contains(Lower(url), "radio") && !Contains(Lower(url), "radioparadise.com")
  {
    var low := Lower(url);
    assert 's' !in low && 'r' !in low;
    NotContainsFirst(low, "soma.fm");
    NotContainsFirst(low, "somafm");
    NotContainsFirst(low, "radio");
    NotContainsFirst(low, "radioparadise.com");
  }

  /**
   * `http://[host:8000/path` with no ']' is an Icecast URL by its port, but
   * `urlparse` raises on it and the bare `except` leaves it with no stream
   * type (for instance `http://[::1:8000/live`).
   */
  lemma {:induction false} StreamTypeUnbalanced(host: string, path: string)
    requires NoRadioLetters(host + path)
    requires '/' !in host && '?' !in host && '#' !in host && ']' !in host
    requires path == [] || path[0] == '/'
    ensures var url := "http://" + ("[" + host + ":8000") + path;
      Contains(url, ":8000") && StreamType(url).None?
  {
    var netloc := "[" + host + ":8000";
    var url := "http://" + netloc + path;
    UnbalancedChars(host, path);
    HttpUrl(netloc, path);
    NotMentioned(url);
    PortMentioned(host, path);
    RefusedHasNoType(url);
  }

  /** The port of `http://[host:8000path` is in the URL. */
  lemma PortMentioned(host: string, path: string)
    ensures Contains("http://" + ("[" + host + ":8000") + path, ":8000")
  {
    assert "http://" + ("[" + host + ":8000") + path == ("http://" + "[" + host) + ":8000" + path;
    ContainsConcat("http://" + "[" + host, ":8000", path);
  }

  /** A URL that is neither SomaFM nor Radio Paradise and whose network location `urlparse` refuses has no type. */
  lemma RefusedHasNoType(url: string)
    requires !IsSomaFm(url) && !Contains(Lower(url), "radioparadise.com")
    requires InvalidIpv6(UrlParse(url).netloc)
    ensures StreamType(url).None?
  {
  }

  /** A bracket and the port add none of the letters or delimiters the host and path leave out. */
  lemma UnbalancedChars(host: string, path: string)
    requires NoRadioLetters(host + path)
    requires '/' !in host && '?' !in host && '#' !in host && ']' !in host
    ensures var netloc := "[" + host + ":8000";
      NoRadioLetters(netloc + path) && NoRadioLetters("http://" + netloc + path) &&
      '/' !in netloc && '?' !in netloc && '#' !in netloc && InvalidIpv6(netloc)
  {
    var netloc := "[" + host + ":8000";
    assert netloc[0] == '[';
  }

  /** `_get_friendly_stream_name`: the same search over segments, with nothing excluded. */
  method GetFriendlyStreamName(url: string) returns (r: string)
    ensures r == FriendlyName(url)
  {
    if url == [] {
      return "Unknown Stream";
    }
    if IsSomaFm(url) {
      var part := FindStation(Split(url, '/'), []);
      r := if part.Some? then "SomaFM - " + Title(part.value) else "SomaFM";
      return;
    }
    r := FriendlyName(url);
  }

  // ---------------------------------------------------------------------------
  // The manager

  /** What `get_audio_status` reports. */
  datatype Status = Status(isPlaying: bool, currentStream: Option<string>, streamName: Option<string>,
                           volume: int, processId: Option<nat>, metadata: Option<map<string, string>>)

  class Manager {
    /** The pool process playing, if any (`audio_controller`). */
    var controller: Option<nat>
    /** The URL as the caller gave it, before playlist resolution. */
    var currentStream: Option<string>
    var volume: int
    var metadata: map<string, string>
    /** Whether the metadata task is running. */
    var metadataTask: bool

    /** A stream is recorded exactly while a controller is held; the volume stays in [0, 100]. */
    ghost predicate Valid()
      reads this
    {
      (controller.Some? <==> currentStream.Some?) && 0 <= volume <= 100
    }

    constructor ()
      ensures Valid() && controller.None? && volume == 80 && metadata == map[] && !metadataTask
    {
      controller, currentStream, volume := None, None, 80;
      metadata, metadataTask := map[], false;
    }

    /**
     * `stop_audio_stream`; `stopFails` says the stop command raised. Either way the
     * controller goes back to the pool and nothing is recorded as playing; only a
     * clean stop also ends the metadata task.
     */
    method StopAudioStream(stopFails: bool) returns (ok: bool, released: Option<nat>)
      requires Valid()
      modifies this
      ensures Valid() && controller.None? && currentStream.None? && volume == old(volume)
      ensures released == old(controller)
      ensures ok <==> old(controller).None? || !stopFails
      ensures old(controller).Some? && !stopFails ==> metadata == map[] && !metadataTask
      ensures old(controller).None? || stopFails ==> metadata == old(metadata) && metadataTask == old(metadataTask)
    {
      released := controller;
      if controller.None? {
        return true, None;
      }
      controller, currentStream := None, None;
      if stopFails {
        return false, released;
      }
      metadataTask, metadata := false, map[];
      ok := true;
    }

    /**
     * `start_audio_stream(url, volume)`: stop what plays, take a pool process
     * (`acquired`, None when the pool has none), load the resolved URL and keep
     * the process only if mpv reports it is not paused. `body` is the playlist
     * text, `loadError` says `loadfile` answered an error, `paused` is mpv's
     * pause property after loading. `released` lists the processes handed back.
     */
    method StartAudioStream(url: string, requested: Option<int>, body: Option<string>, acquired: Option<nat>,
                            loadError: bool, paused: bool, stopFails: bool)
      returns (ok: bool, loaded: Option<string>, released: seq<nat>)
      requires Valid()
      modifies this
      ensures Valid()
      ensures volume == if requested.Some? then Clamp(requested.value, 0, 100) else old(volume)
      ensures ok <==> acquired.Some? && !loadError && !paused
      ensures ok ==> controller == acquired && currentStream == Some(url) && metadataTask
      ensures !ok ==> controller.None? && currentStream.None?
      ensures acquired.Some? ==> loaded == Some(Resolved(url, body))
      ensures acquired.None? ==> loaded.None?
      ensures released ==
        (if old(controller).Some? then [old(controller).value] else []) +
        (if acquired.Some? && !ok then [acquired.value] else [])
    {
      released := [];
      if controller.Some? {
        var _, prev := StopAudioStream(stopFails);
        released := [prev.value];
      }
      if requested.Some? {
        volume := Clamp(requested.value, 0, 100);
      }
      var resolved := ResolveAudioUrl(url, body);
      if acquired.None? {
        return false, None, released;
      }
      loaded := Some(resolved);
      if loadError || paused {
        released := released + [acquired.value];
        return false, loaded, released;
      }
      controller, currentStream := acquired, Some(url);
      metadataTask := true;
      ok := true;
    }

    /** `set_volume`: store the clamped level; mpv is told only while a stream plays. */
    method SetVolume(level: int) returns (ok: bool, sent: Option<int>)
      requires Valid()
      modifies this`volume
      ensures Valid() && ok
      ensures volume == Clamp(level, 0, 100)
      ensures sent.Some? <==> controller.Some?
      ensures sent.Some? ==> sent.value == volume
    {
      volume := Clamp(level, 0, 100);
      sent := if controller.Some? then Some(volume) else None;
      ok := true;
    }

    /** `get_audio_status`. */
    method GetAudioStatus() returns (st: Status)
      requires Valid()
      ensures st.isPlaying <==> controller.Some?
      ensures st.currentStream == (if controller.Some? then currentStream else None)
      ensures st.processId == controller && st.volume == volume
      ensures st.streamName.Some? <==> controller.Some? && currentStream.value != []
      ensures st.streamName.Some? ==> st.streamName.value == FriendlyName(currentStream.value)
      ensures st.metadata.Some? <==> controller.Some? && metadata != map[]
    {
      var playing := controller.Some?;
      var name: Option<string> := None;
      if playing && currentStream.value != [] {
        var n := GetFriendlyStreamName(currentStream.value);
        name := Some(n);
      }
      st := Status(playing, if playing then currentStream else None, name, volume, controller,
                   if playing && metadata != map[] then Some(metadata) else None);
    }
  }
}

=== FILE: cast_receiver.dfy ===
/**
 * `CastReceiverManager` (managers/cast_receiver_manager.py): the inbound side of
 * casting. A phone sends a media URL; the receiver classifies it, opens a session
 * (closing any earlier one first) and hands the URL to the video or audio manager.
 * The SSDP search response that makes the receiver discoverable is built here too
 * (UPnP Device Architecture 1.1, section 1.3.3). The local address, the port, the
 * session time stamp and the outcome of the downstream start call are inputs.
 */
module CastReceiver {
  import opened Wrappers
  import opened Text
  import opened Url
  import opened Media

  const ReceiverAudioExtensions: seq<string> := [".mp3", ".m4a", ".aac", ".ogg", ".opus", ".flac", ".wav"]
  const ReceiverVideoExtensions: seq<string> := [".mp4", ".mkv", ".webm", ".avi", ".mov", ".m4v"]
  const ReceiverAudioPatterns: seq<string> := [".pls", ".m3u", "radio", "stream"]

  /**
   * The receiver's own `_detect_media_type`: the same order as the shared classifier
   * (hint, host, audio extension, video extension, keywords) with shorter lists and
   * no video keyword test.
   */
  function ReceiverMediaType(url: string, contentType: Option<string>): (r: MediaType)
    ensures contentType.Some? && (HintSaysVideo(contentType.value) || HintSaysAudio(contentType.value)) ==>
      r == DetectMediaType(url, contentType.value)
    ensures r == Audio ==>
      (contentType.Some? && HintSaysAudio(contentType.value)) ||
      EndsWithAny(UrlParse(Lower(url)).path, ReceiverAudioExtensions) || ContainsAny(Lower(url), ReceiverAudioPatterns)
  {
    if contentType.Some? && contentType.value != [] && Contains(Lower(contentType.value), "video") then Video
    else if contentType.Some? && contentType.value != [] && Contains(Lower(contentType.value), "audio") then Audio
    else
      var parsed := UrlParse(Lower(url));
      if Contains(parsed.netloc, "youtube.com") || Contains(parsed.netloc, "youtu.be") then Video
      else if Contains(parsed.netloc, "vimeo.com") then Video
      else if EndsWithAny(parsed.path, ReceiverAudioExtensions) then Audio
      else if EndsWithAny(parsed.path, ReceiverVideoExtensions) then Video
      else if ContainsAny(Lower(url), ReceiverAudioPatterns) then Audio
      else Video
  }

  /**
   * A hint naming video wins over one naming audio; without a usable hint, a
   * video host wins over the extension; otherwise audio exactly when the path has
   * an audio extension, or no video extension and a streaming keyword.
   */
  lemma ReceiverMediaTypeOrder(url: string, contentType: Option<string>)
    ensures var r := ReceiverMediaType(url, contentType);
      var hint := if contentType.Some? then contentType.value else "";
      var parsed := UrlParse(Lower(url));
      (HintSaysVideo(hint) ==> r == Video) &&
      (HintSaysAudio(hint) ==> r == Audio) &&
      (!HintSaysVideo(hint) && !HintSaysAudio(hint) ==>
        (VideoHost(parsed.netloc) ==> r == Video) &&
        (!VideoHost(parsed.netloc) ==>
          (r == Audio <==>
            EndsWithAny(parsed.path, ReceiverAudioExtensions) ||
            (!EndsWithAny(parsed.path, ReceiverVideoExtensions) && ContainsAny(Lower(url), ReceiverAudioPatterns)))))
  {
  }

  /** One cast session; `started_at` and the metadata are left out. */
  datatype Session = Session(mediaUrl: string, mediaType: MediaType, contentType: Option<string>, title: string, sessionId: string)

  /** The downstream call a received cast makes, and the call that stops it. */
  datatype PlayCall = PlayYoutube(url: string) | StartAudioStream(url: string)
  datatype StopCall = StopPlayback | StopAudioStream

  /**
   * What `receive_cast` does once the old session is closed: video goes to the
   * playback manager only for a YouTube URL, audio to the audio manager; `started`
   * is what that call returns.
   */
  datatype Plan = Plan(kind: MediaType, call: Option<PlayCall>, ok: bool)

  function ReceivePlan(url: string, contentType: Option<string>, hasPlayback: bool, hasAudio: bool, started: bool): (p: Plan)
    ensures p.kind == ReceiverMediaType(url, contentType)
    ensures p.kind == Video && hasPlayback && (Contains(url, "youtube.com") || Contains(url, "youtu.be")) ==>
      p.call == Some(PlayYoutube(url)) && p.ok == started
    ensures p.kind != Video && hasAudio ==> p.call == Some(StartAudioStream(url)) && p.ok == started
    ensures p.kind != Video && !hasAudio ==> p.call.None? && !p.ok
    ensures p.kind == Video && !hasPlayback ==> p.call.None? && !p.ok
    ensures p.ok ==> p.call.Some?
    ensures p.call.Some? ==> p.ok == started
    ensures p.call.Some? && p.call.value.PlayYoutube? ==>
      p.kind == Video && hasPlayback && p.call.value.url == url && (Contains(url, "youtube.com") || Contains(url, "youtu.be"))
    ensures p.call.Some? && p.call.value.StartAudioStream? ==> p.kind == Audio && hasAudio && p.call.value.url == url
    ensures p.kind == Video && !(Contains(url, "youtube.com") || Contains(url, "youtu.be")) ==> !p.ok && p.call.None?
  {
    var kind := ReceiverMediaType(url, contentType);
    if kind == Video then
      if hasPlayback && (Contains(url, "youtube.com") || Contains(url, "youtu.be")) then Plan(kind, Some(PlayYoutube(url)), started)
      else Plan(kind, None, false)
    else if hasAudio then Plan(kind, Some(StartAudioStream(url)), started)
    else Plan(kind, None, false)
  }

  /** The stop call for a session of a given type, when that manager is present. */
  function StopFor(kind: MediaType, hasPlayback: bool, hasAudio: bool): (r: Option<StopCall>)
    ensures r == Some(StopPlayback) <==> kind == Video && hasPlayback
    ensures r == Some(StopAudioStream) <==> kind == Audio && hasAudio
  {
    if kind == Video && hasPlayback then Some(StopPlayback)
    else if kind == Audio && hasAudio then Some(StopAudioStream)
    else None
  }

  /** The service type a DIAL server answers to. */
  const DialService := "urn:dial-multiscreen-org:service:dial:1"

  /** The header lines of the SSDP search response, without their CRLF. */
  function SsdpHeaders(localIp: string, dialPort: int, uuid: string): seq<string>
  {
    ["HTTP/1.1 200 OK",
     "LOCATION: http://" + localIp + ":" + IntToString(dialPort) + "/dd.xml",
     "CACHE-CONTROL: max-age=1800",
     "EXT:",
     "BOOTID.UPNP.ORG: 1",
     "SERVER: Linux/3.14.0 UPnP/1.0 quick_ssdp/1.0",
     "ST: " + DialService,
     "USN: uuid:" + uuid + "::" + DialService]
  }

  const Crlf := "\r\n"

  /** Each line followed by CRLF. */
  function CrlfLines(lines: seq<string>): string
  {
    if lines == [] then "" else lines[0] + Crlf + CrlfLines(lines[1..])
  }

  /** `_build_ssdp_response`: the header lines, each ended by CRLF, and an empty line. */
  function SsdpResponse(localIp: string, dialPort: int, uuid: string): (r: string)
    ensures EndsWith(r, Crlf + Crlf)
  {
    CrlfMessageEnd(SsdpHeaders(localIp, dialPort, uuid));
    CrlfLines(SsdpHeaders(localIp, dialPort, uuid)) + Crlf
  }

  lemma {:induction false} CrlfLinesAppend(a: seq<string>, b: seq<string>)
    ensures CrlfLines(a + b) == CrlfLines(a) + CrlfLines(b)
    decreases |a|
  {
    if a == [] {
      assert a + b == b;
    } else {
      assert (a + b)[0] == a[0];
      assert (a + b)[1..] == a[1..] + b;
      CrlfLinesAppend(a[1..], b);
      calc {
        CrlfLines(a + b);
        a[0] + Crlf + CrlfLines(a[1..] + b);
        a[0] + Crlf + (CrlfLines(a[1..]) + CrlfLines(b));
        (a[0] + Crlf + CrlfLines(a[1..])) + CrlfLines(b);
      }
    }
  }

  /** A non-empty rendering ends with CRLF. */
  lemma {:induction false} CrlfLinesEnd(lines: seq<string>)
    requires lines != []
    ensures |CrlfLines(lines)| >= 2 && CrlfLines(lines)[|CrlfLines(lines)| - 2..] == Crlf
    decreases |lines|
  {
    var r := CrlfLines(lines);
    if |lines| == 1 {
      assert lines[1..] == [];
      assert r == lines[0] + Crlf;
    } else {
      CrlfLinesEnd(lines[1..]);
      var t := CrlfLines(lines[1..]);
      assert r == (lines[0] + Crlf) + t;
      assert r[|r| - 2..] == t[|t| - 2..];
    }
  }

  /** A sequence is its prefix, its element `k` and its suffix. */
  lemma PickOut<T>(s: seq<T>, k: int)
    requires 0 <= k < |s|
    ensures s == (s[..k] + [s[k]]) + s[k + 1..]
  {
  }

  /** Line `k` of a rendering, with its CRLF, sits between the lines before it and those after it. */
  lemma CrlfLinesSplit(lines: seq<string>, k: int)
    requires 0 <= k < |lines|
    ensures CrlfLines(lines) == CrlfLines(lines[..k]) + (lines[k] + Crlf) + CrlfLines(lines[k + 1..])
  {
    PickOut(lines, k);
    CrlfLinesAppend(lines[..k] + [lines[k]], lines[k + 1..]);
    CrlfLinesAppend(lines[..k], [lines[k]]);
    assert CrlfLines([lines[k]]) == lines[k] + Crlf + CrlfLines([]);
  }

  /** A message of CRLF-ended lines plus an empty line starts with its first line. */
  lemma CrlfMessageStart(lines: seq<string>)
    requires lines != []
    ensures StartsWith(CrlfLines(lines) + Crlf, lines[0] + Crlf)
  {
    var first := lines[0] + Crlf;
    var m := first + (CrlfLines(lines[1..]) + Crlf);
    assert CrlfLines(lines) + Crlf == m;
    assert m[..|first|] == first;
  }

  /** Each line of the message appears in it with its CRLF. */
  lemma CrlfMessageLine(lines: seq<string>, k: int)
    requires 0 <= k < |lines|
    ensures Contains(CrlfLines(lines) + Crlf, lines[k] + Crlf)
  {
    CrlfLinesSplit(lines, k);
    var pre, post := CrlfLines(lines[..k]), CrlfLines(lines[k + 1..]);
    assert CrlfLines(lines) + Crlf == pre + (lines[k] + Crlf) + (post + Crlf);
    ContainsConcat(pre, lines[k] + Crlf, post + Crlf);
  }

  /** The message ends with the CRLF of its last line and the empty line's CRLF. */
  lemma CrlfMessageEnd(lines: seq<string>)
    requires lines != []
    ensures EndsWith(CrlfLines(lines) + Crlf, Crlf + Crlf)
  {
    var body := CrlfLines(lines);
    var m := body + Crlf;
    CrlfLinesEnd(lines);
    assert m[|m| - 4..] == body[|body| - 2..] + Crlf;
  }

  /**
   * The response is a 200 status line, carries the description LOCATION and the
   * DIAL search target, and ends with an empty CRLF line.
   */
  lemma SsdpResponseShape(localIp: string, dialPort: int, uuid: string)
    ensures var r := SsdpResponse(localIp, dialPort, uuid);
      StartsWith(r, "HTTP/1.1 200 OK" + Crlf) &&
      Contains(r, "LOCATION: http://" + localIp + ":" + IntToString(dialPort) + "/dd.xml" + Crlf) &&
      Contains(r, "ST: " + DialService + Crlf) &&
      EndsWith(r, Crlf + Crlf)
  {
    var hs := SsdpHeaders(localIp, dialPort, uuid);
    CrlfMessageStart(hs);
    CrlfMessageLine(hs, 1);
    CrlfMessageLine(hs, 6);
    CrlfMessageEnd(hs);
  }

  /** `get_receiver_status`, with the optional "session" block as an `Option`. */
  datatype SessionInfo = SessionInfo(sessionId: Option<string>, mediaUrl: string, mediaType: MediaType, title: string)
  datatype ReceiverStatus = ReceiverStatus(isRunning: bool, deviceName: string, localIp: string, dialPort: int,
                                           hasSession: bool, session: Option<SessionInfo>)

  class Receiver {
    const hasPlayback: bool
    const hasAudio: bool
    const localIp: string
    const dialPort: int
    const deviceName: string
    const deviceUuid: string
    var isRunning: bool
    var currentSession: Option<Session>
    var sessionId: Option<string>

    /** The session and its id are set and cleared together. */
    ghost predicate Valid()
      reads this
    {
      (currentSession.Some? <==> sessionId.Some?) &&
      (currentSession.Some? ==> currentSession.value.sessionId == sessionId.value)
    }

    constructor (playback: bool, audio: bool, ip: string, port: int)
      ensures Valid() && !isRunning && currentSession.None?
      ensures hasPlayback == playback && hasAudio == audio && localIp == ip && dialPort == port
      ensures deviceName == "HSG Canvas" && deviceUuid == "hsg-canvas-receiver"
    {
      hasPlayback, hasAudio, localIp, dialPort := playback, audio, ip, port;
      deviceName, deviceUuid := "HSG Canvas", "hsg-canvas-receiver";
      isRunning, currentSession, sessionId := false, None, None;
    }

    /** `start_receiver`: already running is a no-op; otherwise it starts (the SSDP task is not modelled). */
    method StartReceiver() returns (ok: bool)
      modifies this`isRunning
      ensures ok && isRunning
    {
      if isRunning {
        return true;
      }
      isRunning := true;
      ok := true;
    }

    /** `stop_session`: no session is a no-op; otherwise the matching manager is stopped and the session cleared. */
    method StopSession() returns (ok: bool, call: Option<StopCall>)
      requires Valid()
      modifies this`currentSession, this`sessionId
      ensures Valid() && ok && currentSession.None?
      ensures old(currentSession).None? ==> call.None?
      ensures old(currentSession).Some? ==> call == StopFor(old(currentSession).value.mediaType, hasPlayback, hasAudio)
    {
      if currentSession.None? {
        return true, None;
      }
      call := StopFor(currentSession.value.mediaType, hasPlayback, hasAudio);
      currentSession, sessionId := None, None;
      ok := true;
    }

    /** `stop_receiver`: not running is a no-op; otherwise any session is stopped and the receiver marked stopped. */
    method StopReceiver() returns (ok: bool, call: Option<StopCall>)
      requires Valid()
      modifies this`isRunning, this`currentSession, this`sessionId
      ensures Valid() && ok && !isRunning
      ensures !old(isRunning) ==> currentSession == old(currentSession) && call.None?
      ensures old(isRunning) ==> currentSession.None?
      ensures old(isRunning) && old(currentSession).Some? ==> call == StopFor(old(currentSession).value.mediaType, hasPlayback, hasAudio)
    {
      call := None;
      if !isRunning {
        return true, None;
      }
      if currentSession.Some? {
        var _, c := StopSession();
        call := c;
      }
      isRunning := false;
      ok := true;
    }

    /**
     * `receive_cast(url, content_type, title)` at time stamp `stamp`: close any
     * session, classify the URL and try to play it. On success the new session is
     * the only one; on failure there is none, not even the earlier one.
     */
    method ReceiveCast(url: string, contentType: Option<string>, title: Option<string>, stamp: string, started: bool)
      returns (ok: bool, stopped: Option<StopCall>, call: Option<PlayCall>)
      requires Valid()
      modifies this`currentSession, this`sessionId
      ensures Valid()
      ensures var p := ReceivePlan(url, contentType, hasPlayback, hasAudio, started);
        ok == p.ok && call == p.call &&
        (ok ==> currentSession == Some(Session(url, p.kind, contentType, TitleOr(title), "session-" + stamp)))
      ensures !ok ==> currentSession.None? && sessionId.None?
      ensures old(currentSession).Some? ==> stopped == StopFor(old(currentSession).value.mediaType, hasPlayback, hasAudio)
      ensures old(currentSession).None? ==> stopped.None?
    {
      stopped := None;
      if currentSession.Some? {
        var _, c := StopSession();
        stopped := c;
      }
      var p := ReceivePlan(url, contentType, hasPlayback, hasAudio, started);
      Open(Session(url, p.kind, contentType, TitleOr(title), "session-" + stamp));
      ok, call := p.ok, p.call;
      if !ok {
        currentSession, sessionId := None, None;
      }
    }

    /** The session record `receive_cast` stores before playing. */
    method Open(s: Session)
      modifies this`currentSession, this`sessionId
      ensures Valid() && currentSession == Some(s) && sessionId == Some(s.sessionId)
    {
      sessionId := Some(s.sessionId);
      currentSession := Some(s);
    }

    function GetReceiverStatus(): (st: ReceiverStatus)
      reads this
      ensures st.hasSession <==> currentSession.Some?
      ensures st.session.Some? <==> currentSession.Some?
      ensures st.session.Some? ==> st.session.value.mediaUrl == currentSession.value.mediaUrl && st.session.value.sessionId == sessionId
      ensures st.isRunning == isRunning && st.localIp == localIp && st.dialPort == dialPort
    {
      ReceiverStatus(isRunning, deviceName, localIp, dialPort, currentSession.Some?,
        if currentSession.Some? then
          Some(SessionInfo(sessionId, currentSession.value.mediaUrl, currentSession.value.mediaType, currentSession.value.title))
        else None)
    }
  }

  /** `title or "Cast Media"`. */
  function TitleOr(title: Option<string>): (r: string)
    ensures title.Some? && title.value != "" ==> r == title.value
    ensures title.None? || title.value == "" ==> r == "Cast Media"
  {
    if title.Some? && title.value != "" then title.value else "Cast Media"
  }
}

=== FILE: chromecast.dfy ===
/**
 * `ChromecastManager` (managers/chromecast_manager.py): a time-limited cache of
 * discovered devices, at most one cast session, and the pure helpers that pick a
 * YouTube video id and a default MIME type. The discovery subprocess and the
 * pychromecast calls are replaced by inputs: what discovery produced, and whether
 * connecting, waiting and starting playback succeeded.
 */
module Chromecast {
  import opened Wrappers
  import opened Text
  import opened Url
  import opened Media

  /** One device record from discovery; `status` is `None` while the key is missing. */
  datatype DeviceInfo = DeviceInfo(name: string, model: string, uuid: string, host: string, port: int, status: Option<string>)

  /** What the discovery subprocess did: exit 0 with a device list, or fail (non-zero exit, timeout, error). */
  datatype Discovery = Found(devices: seq<DeviceInfo>) | DiscoveryFailed

  /** A record as `_format_device_list` returns it: "status" is filled in with "available" when missing. */
  function WithStatus(d: DeviceInfo): (r: DeviceInfo)
    ensures r.status.Some?
    ensures d.status.Some? ==> r == d
    ensures d.status.None? ==> r == d.(status := Some("available"))
  {
    if d.status.None? then d.(status := Some("available")) else d
  }

  function FormatDevices(ds: seq<DeviceInfo>): (r: seq<DeviceInfo>)
    ensures |r| == |ds|
    ensures forall i :: 0 <= i < |ds| ==> r[i] == WithStatus(ds[i])
  {
    if ds == [] then [] else [WithStatus(ds[0])] + FormatDevices(ds[1..])
  }

  /** Formatting twice adds nothing: only a missing status is ever filled in. */
  lemma FormatIdempotent(ds: seq<DeviceInfo>)
    ensures FormatDevices(FormatDevices(ds)) == FormatDevices(ds)
  {
  }

  /** `_format_device_list`: the loop that fills in missing statuses, entry by entry. */
  method FormatDeviceList(ds: seq<DeviceInfo>) returns (r: seq<DeviceInfo>)
    ensures r == FormatDevices(ds)
  {
    r := [];
    for i := 0 to |ds|
      invariant r == FormatDevices(ds[..i])
    {
      var d := ds[i];
      if d.status.None? {
        d := d.(status := Some("available"));
      }
      r := r + [d];
    }
    assert ds[..|ds|] == ds;
  }

  predicate IsIdChar(c: char)
  {
    'a' <= c <= 'z' || 'A' <= c <= 'Z' || '0' <= c <= '9' || c == '_' || c == '-'
  }

  /** The longest prefix of `s` made of `[a-zA-Z0-9_-]`. */
  function IdRun(s: string): (r: string)
    ensures |r| <= |s| && r == s[..|r|]
    ensures forall k :: 0 <= k < |r| ==> IsIdChar(r[k])
    ensures |r| < |s| ==> !IsIdChar(s[|r|])
  {
    if s == [] || !IsIdChar(s[0]) then []
    else
      var rest := IdRun(s[1..]);
      assert s[..|rest| + 1] == [s[0]] + s[1..][..|rest|];
      [s[0]] + rest
  }

  const ShortMarker := "youtu.be/"

  /** `re.search(r'youtu\.be/([a-zA-Z0-9_-]+)', s).group(1)`: the id after the first marker that has one. */
  function ShortLinkId(s: string): (r: Option<string>)
    ensures r.Some? ==> r.value != [] && forall k :: 0 <= k < |r.value| ==> IsIdChar(r.value[k])
    ensures r.Some? ==> Contains(s, ShortMarker)
    decreases |s|
  {
    if |s| <= |ShortMarker| then None
    else if StartsWith(s, ShortMarker) && IsIdChar(s[|ShortMarker|]) then Some(IdRun(s[|ShortMarker|..]))
    else ShortLinkId(s[1..])
  }

  /**
   * `_extract_youtube_id`: a youtu.be short link first, then the first `v` of a
   * youtube.com/watch query, else nothing.
   */
  function ExtractYoutubeId(url: string): (r: Option<string>)
    ensures r.Some? ==> r.value != []
    ensures !Contains(url, ShortMarker) && !Contains(url, "youtube.com/watch") ==> r.None?
    ensures !Contains(url, ShortMarker) && Contains(url, "youtube.com/watch") ==> r == QueryFirst(UrlParse(url).query, "v")
    ensures ShortLinkId(url).Some? ==> r == ShortLinkId(url)
    ensures ShortLinkId(url).None? && Contains(url, "youtube.com/watch") ==> r == QueryFirst(UrlParse(url).query, "v")
    ensures ShortLinkId(url).None? && !Contains(url, "youtube.com/watch") ==> r.None?
  {
    var short := if Contains(url, ShortMarker) then ShortLinkId(url) else None;
    if short.Some? then short
    else if Contains(url, "youtube.com/watch") then QueryFirst(UrlParse(url).query, "v")
    else None
  }

  /** A short link `<p>youtu.be/<id>` whose prefix holds no marker yields exactly `<id>`. */
  lemma {:induction false} ShortLinkRoundTrip(p: string, id: string)
    requires id != [] && forall k :: 0 <= k < |id| ==> IsIdChar(id[k])
    requires forall i :: 0 <= i < |p| ==> !OccursAt(p + ShortMarker + id, ShortMarker, i)
    ensures ShortLinkId(p + ShortMarker + id) == Some(id)
    decreases |p|
  {
    var s := p + ShortMarker + id;
    if p == [] {
      assert s[..|ShortMarker|] == ShortMarker;
      assert s[|ShortMarker|..] == id;
      IdRunAll(id);
    } else {
      assert !OccursAt(s, ShortMarker, 0);
      assert s[1..] == p[1..] + ShortMarker + id;
      forall i | 0 <= i < |p[1..]| ensures !OccursAt(p[1..] + ShortMarker + id, ShortMarker, i) {
        assert !OccursAt(s, ShortMarker, i + 1);
        assert s[i + 1..] == (p[1..] + ShortMarker + id)[i..];
      }
      ShortLinkRoundTrip(p[1..], id);
    }
  }

  lemma {:induction false} IdRunAll(id: string)
    requires forall k :: 0 <= k < |id| ==> IsIdChar(id[k])
    ensures IdRun(id) == id
  {
    if id != [] {
      IdRunAll(id[1..]);
    }
  }

  /** The usual share link gives back its id. */
  lemma ShareLink(id: string)
    requires id != [] && forall k :: 0 <= k < |id| ==> IsIdChar(id[k])
    ensures ExtractYoutubeId("https://youtu.be/" + id) == Some(id)
  {
    var s := "https://youtu.be/" + id;
    assert s == "https://" + ShortMarker + id;
    forall i | 0 <= i < 8 ensures !OccursAt(s, ShortMarker, i) {
      assert s[i + 5] == "https://youtu.be/"[i + 5];
    }
    ShortLinkRoundTrip("https://", id);
    ContainsConcat("https://", ShortMarker, id);
  }

  /** The MIME type `start_cast` falls back on when none is given. */
  function DefaultContentType(url: string, mediaType: MediaType): (r: string)
    ensures mediaType == Audio ==> r == "audio/mp3" || r == "audio/mp4"
    ensures mediaType == Video ==> r == "video/mp4" || r == "video/webm"
  {
    if mediaType == Audio then
      if EndsWith(url, ".mp3") then "audio/mp3"
      else if EndsWith(url, ".m4a") then "audio/mp4"
      else "audio/mp3"
    else
      if EndsWith(url, ".mp4") || EndsWith(url, ".m4v") then "video/mp4"
      else if EndsWith(url, ".webm") then "video/webm"
      else "video/mp4"
  }

  /** A URL ends with at most one of two suffixes that neither ends the other. */
  lemma {:induction false} SuffixesExclusive(url: string, a: string, b: string)
    requires |a| == |b| && a != b
    ensures !(EndsWith(url, a) && EndsWith(url, b))
  {
  }

  /** Audio defaults to MP3 unless the URL ends in `.m4a`; video to MP4 unless it ends in `.webm`. */
  lemma DefaultContentTypeBySuffix(url: string)
    ensures DefaultContentType(url, Audio) == (if EndsWith(url, ".m4a") then "audio/mp4" else "audio/mp3")
    ensures DefaultContentType(url, Video) == (if EndsWith(url, ".webm") then "video/webm" else "video/mp4")
  {
    SuffixesExclusive(url, ".m4a", ".mp3");
    if EndsWith(url, ".webm") {
      assert url[|url| - 1] == 'm';
    }
  }

  /** The local players `start_cast` stops before casting. */
  datatype LocalStop = StopAudioStream | StopVideoPlayback

  /** A video cast stops local audio and video; an audio cast stops only video. */
  function LocalStops(mediaType: MediaType, hasAudio: bool, hasPlayback: bool): (r: seq<LocalStop>)
    ensures StopVideoPlayback in r <==> hasPlayback
    ensures StopAudioStream in r <==> mediaType == Video && hasAudio
    ensures |r| <= 2
  {
    (if mediaType == Video && hasAudio then [StopAudioStream] else []) + (if hasPlayback then [StopVideoPlayback] else [])
  }

  /** How the cast was launched: the YouTube app with an id, or the media player with a URL and MIME type. */
  datatype Launch = YouTubeApp(videoId: string) | MediaPlayer(url: string, contentType: string, title: string)

  /**
   * What `start_cast` does once the device list is known: fail without a device or
   * when the device cannot be reached; otherwise stop the local players, then
   * fail if the device does not connect, or the YouTube id cannot be found, or
   * playback does not start.
   */
  function CastPlan(device: Option<DeviceInfo>, url: string, kind: MediaType, contentType: Option<string>, title: Option<string>,
                    hasAudio: bool, hasPlayback: bool, reachable: bool, connected: bool, played: bool)
    : (r: (bool, seq<LocalStop>, Option<Launch>))
    ensures r.0 <==> device.Some? && reachable && connected && played && (IsYouTube(url) ==> ExtractYoutubeId(url).Some?)
    ensures device.None? || !reachable ==> r.1 == [] && r.2.None?
    ensures device.Some? && reachable ==> r.1 == LocalStops(kind, hasAudio, hasPlayback)
    ensures r.0 ==> r.2.Some?
    ensures r.2.Some? ==> (r.2.value.YouTubeApp? <==> IsYouTube(url))
    ensures r.2.Some? && r.2.value.YouTubeApp? ==> ExtractYoutubeId(url) == Some(r.2.value.videoId)
    ensures r.2.Some? && r.2.value.MediaPlayer? ==>
      r.2.value.url == url && r.2.value.contentType == (if Truthy(contentType) then contentType.value else DefaultContentType(url, kind))
    ensures r.2.Some? && r.2.value.MediaPlayer? ==>
      r.2.value.title == (if Truthy(title) then title.value
                          else if kind == Audio then "HSG Canvas - Audio Stream" else "HSG Canvas - Video Stream")
  {
    if device.None? || !reachable then (false, [], None)
    else
      var stops := LocalStops(kind, hasAudio, hasPlayback);
      if !connected then (false, stops, None)
      else if IsYouTube(url) then
        match ExtractYoutubeId(url)
        case None => (false, stops, None)
        case Some(id) => (played, stops, Some(YouTubeApp(id)))
      else
        var mime := if Truthy(contentType) then contentType.value else DefaultContentType(url, kind);
        var name := if Truthy(title) then title.value else "HSG Canvas - " + TypeTitle(kind) + " Stream";
        (played, stops, Some(MediaPlayer(url, mime, name)))
  }

  /** What `start_cast` decides on the device list it ends up with: the device, the media type and the plan. */
  datatype Decision = Decision(device: Option<DeviceInfo>, kind: MediaType, ok: bool, stops: seq<LocalStop>, launch: Option<Launch>)

  function Decide(ds: seq<DeviceInfo>, deviceName: Option<string>, url: string, contentType: Option<string>, title: Option<string>,
                  hasAudio: bool, hasPlayback: bool, reachable: bool, connected: bool, played: bool): (d: Decision)
    ensures d.device == SelectDevice(ds, deviceName)
    ensures (d.ok, d.stops, d.launch) == CastPlan(d.device, url, d.kind, contentType, title, hasAudio, hasPlayback, reachable, connected, played)
  {
    var device := SelectDevice(ds, deviceName);
    var kind := DetectMediaType(url, "");
    var plan := CastPlan(device, url, kind, contentType, title, hasAudio, hasPlayback, reachable, connected, played);
    Decision(device, kind, plan.0, plan.1, plan.2)
  }

  /** The media type `start_cast` records is the shared classifier's verdict on the URL alone. */
  lemma DecideKind(ds: seq<DeviceInfo>, deviceName: Option<string>, url: string, contentType: Option<string>, title: Option<string>,
                   hasAudio: bool, hasPlayback: bool, reachable: bool, connected: bool, played: bool)
    ensures Decide(ds, deviceName, url, contentType, title, hasAudio, hasPlayback, reachable, connected, played).kind == DetectMediaType(url, "")
  {
  }

  function TypeTitle(t: MediaType): string
  {
    if t == Audio then "Audio" else "Video"
  }

  /** `next(d for d in chromecasts if d['name'] == name)`. */
  function FindByName(ds: seq<DeviceInfo>, name: string): (r: Option<DeviceInfo>)
    ensures r.Some? ==> r.value in ds && r.value.name == name
    ensures r.None? ==> forall d :: d in ds ==> d.name != name
  {
    if ds == [] then None
    else if ds[0].name == name then Some(ds[0])
    else
      var r := FindByName(ds[1..], name);
      assert forall d :: d in ds ==> d == ds[0] || d in ds[1..];
      r
  }

  /** The device `start_cast` uses: the named one, or the first when no name is given. */
  function SelectDevice(ds: seq<DeviceInfo>, deviceName: Option<string>): (r: Option<DeviceInfo>)
    ensures ds == [] ==> r.None?
    ensures Truthy(deviceName) ==> r == FindByName(ds, deviceName.value)
    ensures !Truthy(deviceName) && ds != [] ==> r == Some(ds[0])
  {
    if ds == [] then None
    else if Truthy(deviceName) then FindByName(ds, deviceName.value)
    else Some(ds[0])
  }

  predicate Truthy(o: Option<string>)
  {
    o.Some? && o.value != ""
  }

  /** The dict `get_cast_status` returns, without the live player fields. */
  datatype CastStatus = CastStatus(isCasting: bool, deviceName: Option<string>, mediaUrl: Option<string>,
                                   mediaType: Option<MediaType>, availableDevices: int)

  class Manager {
    const hasAudio: bool
    const hasPlayback: bool
    const cacheDuration: int
    var chromecasts: seq<DeviceInfo>
    var lastDiscoveryTime: int
    var discoveryRunning: bool
    /** `current_cast` and `media_controller`, which are always set and cleared together. */
    var current: Option<DeviceInfo>
    var mediaUrl: Option<string>
    var mediaType: Option<MediaType>
    var isCasting: bool

    /** A session is recorded whole or not at all. */
    ghost predicate Valid()
      reads this
    {
      (isCasting <==> current.Some?) && (mediaUrl.Some? <==> current.Some?) && (mediaType.Some? <==> current.Some?)
    }

    constructor (audio: bool, playback: bool, cacheSeconds: int)
      ensures Valid()
      ensures hasAudio == audio && hasPlayback == playback && cacheDuration == cacheSeconds
      ensures chromecasts == [] && lastDiscoveryTime == 0 && !discoveryRunning && current.None?
    {
      hasAudio, hasPlayback, cacheDuration := audio, playback, cacheSeconds;
      chromecasts, lastDiscoveryTime, discoveryRunning := [], 0, false;
      current, mediaUrl, mediaType, isCasting := None, None, None, false;
    }

    /** The cache answers while it is non-empty and younger than `cacheDuration`. */
    predicate CacheFresh(now: int)
      reads this
    {
      chromecasts != [] && now - lastDiscoveryTime < cacheDuration
    }

    /**
     * `discover_devices` at time `now`: a fresh cache is returned (formatted) without
     * running discovery; otherwise only a successful discovery replaces the list and
     * the timestamp, and a failed one returns the old list. Formatting updates the
     * stored records too, since the dicts are shared.
     */
    method DiscoverDevices(now: int, outcome: Discovery) returns (r: seq<DeviceInfo>)
      requires Valid()
      modifies this`chromecasts, this`lastDiscoveryTime, this`discoveryRunning
      ensures Valid() && !discoveryRunning
      ensures old(CacheFresh(now)) ==> r == FormatDevices(old(chromecasts)) && chromecasts == r && lastDiscoveryTime == old(lastDiscoveryTime)
      ensures !old(CacheFresh(now)) && outcome.Found? ==> r == outcome.devices && chromecasts == r && lastDiscoveryTime == now
      ensures !old(CacheFresh(now)) && outcome.DiscoveryFailed? ==>
        r == FormatDevices(old(chromecasts)) && chromecasts == r && lastDiscoveryTime == old(lastDiscoveryTime)
    {
      if CacheFresh(now) {
        r := FormatDeviceList(chromecasts);
        chromecasts := r;
        discoveryRunning := false;
        return;
      }
      discoveryRunning := true;
      if outcome.Found? {
        chromecasts := outcome.devices;
        lastDiscoveryTime := now;
        discoveryRunning := false;
        return outcome.devices;
      }
      discoveryRunning := false;
      r := FormatDeviceList(chromecasts);
      chromecasts := r;
    }

    /** `start_cast`'s first step: discover when no device is known. */
    method EnsureDiscovered(now: int, outcome: Discovery)
      requires Valid()
      modifies this`chromecasts, this`lastDiscoveryTime, this`discoveryRunning
      ensures Valid()
      ensures old(chromecasts) != [] ==> chromecasts == old(chromecasts)
      ensures old(chromecasts) == [] && !old(CacheFresh(now)) && outcome.Found? ==> chromecasts == outcome.devices && lastDiscoveryTime == now
      ensures old(chromecasts) == [] && (old(CacheFresh(now)) || outcome.DiscoveryFailed?) ==> chromecasts == []
    {
      if chromecasts == [] {
        var _ := DiscoverDevices(now, outcome);
      }
    }

    /**
     * `start_cast(url, device_name, content_type, title)`. Inputs: the time and the
     * discovery outcome (used only when no device is known), and whether the device
     * could be reached, connected and started playing. An earlier session is
     * replaced, not stopped.
     */
    method StartCast(url: string, deviceName: Option<string>, contentType: Option<string>, title: Option<string>,
                     now: int, outcome: Discovery, reachable: bool, connected: bool, played: bool)
      returns (ok: bool, stops: seq<LocalStop>, launch: Option<Launch>)
      requires Valid()
      modifies this`chromecasts, this`lastDiscoveryTime, this`discoveryRunning
      modifies this`current, this`mediaUrl, this`mediaType, this`isCasting
      ensures Valid()
      ensures old(chromecasts) != [] ==> chromecasts == old(chromecasts)
      ensures old(chromecasts) == [] && !old(CacheFresh(now)) && outcome.Found? ==> chromecasts == outcome.devices && lastDiscoveryTime == now
      ensures old(chromecasts) == [] && (old(CacheFresh(now)) || outcome.DiscoveryFailed?) ==> chromecasts == []
      ensures var d := Decide(chromecasts, deviceName, url, contentType, title, hasAudio, hasPlayback, reachable, connected, played);
        ok == d.ok && stops == d.stops && launch == d.launch &&
        (ok ==> current == d.device && mediaUrl == Some(url) && mediaType == Some(d.kind) && isCasting)
      ensures !ok ==> current == old(current) && mediaUrl == old(mediaUrl) && mediaType == old(mediaType) && isCasting == old(isCasting)
    {
      EnsureDiscovered(now, outcome);
      var d := Decide(chromecasts, deviceName, url, contentType, title, hasAudio, hasPlayback, reachable, connected, played);
      Commit(d, url);
      ok, stops, launch := d.ok, d.stops, d.launch;
    }

    /** The end of `start_cast`: a successful start records the session. */
    method Commit(d: Decision, url: string)
      requires Valid()
      requires d.ok ==> d.device.Some?
      modifies this`current, this`mediaUrl, this`mediaType, this`isCasting
      ensures Valid()
      ensures d.ok ==> current == d.device && mediaUrl == Some(url) && mediaType == Some(d.kind) && isCasting
      ensures !d.ok ==> current == old(current) && mediaUrl == old(mediaUrl) && mediaType == old(mediaType) && isCasting == old(isCasting)
    {
      if d.ok {
        current, mediaUrl, mediaType, isCasting := d.device, Some(url), Some(d.kind), true;
      }
    }

    /**
     * `stop_cast`: nothing to stop answers true; otherwise the session is cleared
     * whether or not stopping the player (`stopped`) succeeded, and that is the answer.
     */
    method StopCast(stopped: bool) returns (ok: bool)
      requires Valid()
      modifies this`current, this`mediaUrl, this`mediaType, this`isCasting
      ensures Valid() && current.None? && !isCasting && mediaUrl.None? && mediaType.None?
      ensures ok == (old(current).None? || stopped)
    {
      if current.None? {
        return true;
      }
      current, mediaUrl, mediaType, isCasting := None, None, None, false;
      ok := stopped;
    }

    /** `set_volume(v)`: refused without a session, otherwise clamped to [0, 1]. */
    method SetVolume(volume: real, applied: bool) returns (ok: bool, level: Option<real>)
      requires Valid()
      ensures current.None? ==> !ok && level.None?
      ensures current.Some? ==> ok == applied && level.Some? && 0.0 <= level.value <= 1.0
      ensures level.Some? && 0.0 <= volume <= 1.0 ==> level.value == volume
      ensures level.Some? && volume < 0.0 ==> level.value == 0.0
      ensures level.Some? && volume > 1.0 ==> level.value == 1.0
    {
      if current.None? {
        return false, None;
      }
      var v := if volume > 1.0 then 1.0 else volume;
      v := if v < 0.0 then 0.0 else v;
      return applied, Some(v);
    }

    /** `pause_cast` / `play_cast`: refused without a media controller, otherwise what the player did. */
    method PauseOrPlay(done: bool) returns (ok: bool)
      requires Valid()
      ensures ok <==> current.Some? && done
    {
      ok := current.Some? && done;
    }

    function GetCastStatus(): (s: CastStatus)
      reads this
      requires Valid()
      ensures s.isCasting <==> s.deviceName.Some?
      ensures s.availableDevices == |chromecasts|
      ensures s.mediaUrl == mediaUrl && s.mediaType == mediaType
    {
      CastStatus(isCasting, if current.Some? then Some(current.value.name) else None, mediaUrl, mediaType, |chromecasts|)
    }

    /** `cleanup`: stop any session, then forget the devices. */
    method Cleanup(stopped: bool)
      requires Valid()
      modifies this
      ensures Valid() && current.None? && !isCasting && chromecasts == []
    {
      if current.Some? {
        var _ := StopCast(stopped);
      }
      chromecasts := [];
    }
  }

  /** `'youtube.com/watch' in url or 'youtu.be/' in url`. */
  predicate IsYouTube(url: string)
  {
    Contains(url, "youtube.com/watch") || Contains(url, ShortMarker)
  }
}

=== FILE: display.dfy ===
/**
 * `DisplayCapabilityDetector` (managers/display_detector.py): reads the DRM
 * connectors under /sys/class/drm, parses their mode lines, picks the best
 * resolution from a fixed priority list and keeps every mode, largest first.
 * The directory listing and the files are an input here.
 */
module Display {
  import opened Wrappers
  import opened Text

  /** One "WxH" or "WxH@RHz" line of a connector's `modes` file. */
  datatype Mode = Mode(width: int, height: int, refresh: real)

  type Resolution = (int, int)

  /** One entry of the DRM class directory: its name and, when present, its `status` and `modes` files. */
  datatype SysfsEntry = SysfsEntry(item: string, status: Option<string>, modes: Option<seq<string>>)

  /** What the detector records per connected connector. */
  datatype ConnectorData = ConnectorData(modes: seq<Mode>, status: string, item: string)

  /** A connected connector, in directory order: its short name and its parsed modes. */
  datatype Connected = Connected(name: string, modes: seq<Mode>, item: string)

  const FallbackResolution: Resolution := (640, 480)
  const FallbackRefresh: real := 60.0
  const FallbackConnector: string := "HDMI-A-1"

  /** The priority list of the source; note that it is not ordered by area. */
  const Priority: seq<Resolution> := [
    (3840, 2160), (2560, 1440), (1920, 1200), (1920, 1080), (1680, 1050), (1600, 1200),
    (1440, 900), (1366, 768), (1280, 1024), (1280, 720), (1024, 768), (800, 600), (640, 480)]

  const YoutubeResolutions: seq<Resolution> := [(3840, 2160), (1920, 1080), (1280, 720), (854, 480)]

  function Area(r: Resolution): int
  {
    r.0 * r.1
  }

  function ResOf(m: Mode): Resolution
  {
    (m.width, m.height)
  }

  function Pow10(n: nat): (r: nat)
    ensures r >= 1
  {
    if n == 0 then 1 else 10 * Pow10(n - 1)
  }

  /** `float(s)` for "D", "D.", ".D" and "D.D" with surrounding whitespace. */
  function ParseReal(s: string): (r: Option<real>)
    ensures IsDigits(Strip(s)) ==> r == Some(DigitsValue(Strip(s)) as real)
    ensures '.' !in Strip(s) && !IsDigits(Strip(s)) ==> r.None?
    ensures r.Some? ==> r.value >= 0.0
  {
    var t := Strip(s);
    match IndexOf(t, '.')
    case None => if IsDigits(t) then Some(DigitsValue(t) as real) else None
    case Some(i) =>
      var whole := t[..i];
      var frac := t[i + 1..];
      if (whole == [] || IsDigits(whole)) && (frac == [] || IsDigits(frac)) && (whole != [] || frac != []) then
        Some(DigitsValue(whole) as real + DigitsValue(frac) as real / Pow10(|frac|) as real)
      else None
  }

  /**
   * One mode line: stripped, ignored without an 'x', split at '@' into resolution and
   * refresh ("Hz" removed), 60 Hz without '@', and skipped when a number does not parse.
   */
  function ParseModeLine(raw: string): (r: Option<Mode>)
    ensures r.Some? ==> 'x' in Strip(raw)
    ensures r.Some? && '@' !in Strip(raw) ==> r.value.refresh == 60.0
  {
    var line := Strip(raw);
    if 'x' !in line then None
    else
      var parts := Split(line, '@');
      var resPart := parts[0];
      var refresh := if |parts| == 1 then Some(60.0)
                     else if |parts| == 2 then ParseReal(ReplaceAll(parts[1], "Hz", ""))
                     else None;
      var dims := Split(resPart, 'x');
      if refresh.None? || |dims| != 2 then None
      else
        match (ParseInt(dims[0]), ParseInt(dims[1]))
        case (Some(w), Some(h)) => Some(Mode(w, h, refresh.value))
        case _ => None
  }

  /**
   * The shape of the source's `for item in items: ... append(...)` loops that keep
   * some items: `f` says what an item contributes, if anything.
   */
  function FilterMap<T, U>(f: T -> Option<U>, xs: seq<T>): (r: seq<U>)
    ensures |r| <= |xs|
  {
    if xs == [] then []
    else
      match f(xs[0])
      case None => FilterMap(f, xs[1..])
      case Some(y) => [y] + FilterMap(f, xs[1..])
  }

  /** The loop keeps the order: two runs of items give the first run's results, then the second's. */
  lemma {:induction false} FilterMapAppend<T, U>(f: T -> Option<U>, a: seq<T>, b: seq<T>)
    ensures FilterMap(f, a + b) == FilterMap(f, a) + FilterMap(f, b)
  {
    if a == [] {
      assert a + b == b;
    } else {
      var ab := a + b;
      assert ab[0] == a[0] && ab[1..] == a[1..] + b;
      FilterMapAppend(f, a[1..], b);
    }
  }

  /** Every item that contributes is kept, and everything kept comes from an item. */
  lemma {:induction false} FilterMapMembers<T, U>(f: T -> Option<U>, xs: seq<T>)
    ensures forall k :: 0 <= k < |xs| && f(xs[k]).Some? ==> f(xs[k]).value in FilterMap(f, xs)
    ensures forall y :: y in FilterMap(f, xs) ==> exists k :: 0 <= k < |xs| && f(xs[k]) == Some(y)
  {
    if xs != [] {
      FilterMapMembers(f, xs[1..]);
      assert forall k :: 1 <= k < |xs| ==> xs[k] == xs[1..][k - 1];
    }
  }

  /** The modes of a `modes` file, in file order, unparseable lines dropped. */
  function ParseModes(lines: seq<string>): (r: seq<Mode>)
    ensures |r| <= |lines|
  {
    FilterMap(ParseModeLine, lines)
  }

  /** Every line that parses gives a mode, and every mode comes from a line that parses. */
  lemma ParseModesMembers(lines: seq<string>)
    ensures forall k :: 0 <= k < |lines| && ParseModeLine(lines[k]).Some? ==> ParseModeLine(lines[k]).value in ParseModes(lines)
    ensures forall m :: m in ParseModes(lines) ==> exists k :: 0 <= k < |lines| && ParseModeLine(lines[k]) == Some(m)
  {
    FilterMapMembers(ParseModeLine, lines);
  }

  /** Parsing keeps the file order: the modes of two runs of lines are those of the first, then the second. */
  lemma ParseModesAppend(a: seq<string>, b: seq<string>)
    ensures ParseModes(a + b) == ParseModes(a) + ParseModes(b)
  {
    FilterMapAppend(ParseModeLine, a, b);
  }

  /** A line the kernel writes, "WxH", parses to that size at the default 60 Hz. */
  lemma ModeLineRoundTrip(w: nat, h: nat)
    ensures ParseModeLine(NatToString(w) + "x" + NatToString(h)) == Some(Mode(w, h, 60.0))
  {
    var a, b := NatToString(w), NatToString(h);
    var line := a + "x" + b;
    DigitsFree(a, 'x');
    DigitsFree(b, 'x');
    StripUnchanged(line);
    assert '@' !in line by { DigitsFree(a, '@'); DigitsFree(b, '@'); }
    assert Split(line, '@') == [line];
    SplitTwo(a, 'x', b);
    DigitsParse(w);
    DigitsParse(h);
  }

  /** "WxH@RHz" parses to that size at R Hz. */
  lemma ModeLineRateRoundTrip(w: nat, h: nat, rate: nat)
    ensures ParseModeLine(NatToString(w) + "x" + NatToString(h) + "@" + NatToString(rate) + "Hz") == Some(Mode(w, h, rate as real))
  {
    var a, b, c := NatToString(w), NatToString(h), NatToString(rate);
    var res := a + "x" + b;
    assert a + "x" + b + "@" + c + "Hz" == res + "@" + (c + "Hz");
    RateLineStripped(a, b, c + "Hz");
    RateLineAtSplit(a, b, c);
    ResolutionSplit(a, b);
    DigitsParse(w);
    DigitsParse(h);
    RateParse(rate);
    ModeLineOfParts(res + "@" + (c + "Hz"), res, c + "Hz", w, h, rate as real);
  }

  /** "D1xD2" over digit runs splits at 'x' into its runs. */
  lemma ResolutionSplit(a: string, b: string)
    requires forall i :: 0 <= i < |a| ==> '0' <= a[i] <= '9'
    requires forall i :: 0 <= i < |b| ==> '0' <= b[i] <= '9'
    ensures Split(a + "x" + b, 'x') == [a, b]
  {
    DigitsFree(a, 'x');
    DigitsFree(b, 'x');
    SplitTwo(a, 'x', b);
  }

  /** "D1xD2@D3Hz" over digit runs splits at '@' into the resolution and the refresh. */
  lemma RateLineAtSplit(a: string, b: string, c: string)
    requires forall i :: 0 <= i < |a| ==> '0' <= a[i] <= '9'
    requires forall i :: 0 <= i < |b| ==> '0' <= b[i] <= '9'
    requires forall i :: 0 <= i < |c| ==> '0' <= c[i] <= '9'
    ensures Split(a + "x" + b + "@" + (c + "Hz"), '@') == [a + "x" + b, c + "Hz"]
  {
    DigitsFree(a, '@');
    DigitsFree(b, '@');
    DigitsFree(c, '@');
    NotInAppend('@', a, "x");
    NotInAppend('@', a + "x", b);
    NotInAppend('@', c, "Hz");
    SplitTwo(a + "x" + b, '@', c + "Hz");
  }

  /** A line "AxB@RP" that starts with a digit or the 'x' and ends in "Hz" has nothing to strip. */
  lemma RateLineStripped(a: string, b: string, rp: string)
    requires a == [] || '0' <= a[0] <= '9'
    requires |rp| >= 2 && rp[|rp| - 1] == 'z'
    ensures Strip(a + "x" + b + "@" + rp) == a + "x" + b + "@" + rp
    ensures 'x' in a + "x" + b + "@" + rp
  {
    var line := a + "x" + b + "@" + rp;
    assert line[|a|] == 'x';
    assert line[0] == (if a == [] then 'x' else a[0]);
    assert line[|line| - 1] == 'z';
    StripUnchanged(line);
  }

  lemma NotInAppend(x: char, s: string, t: string)
    requires x !in s && x !in t
    ensures x !in s + t
  {
  }

  /** A stripped line "RES@RP" whose resolution splits into two integers and whose refresh parses is that mode. */
  lemma ModeLineOfParts(line: string, res: string, rp: string, w: int, h: int, refresh: real)
    requires Strip(line) == line && 'x' in line && Split(line, '@') == [res, rp]
    requires |Split(res, 'x')| == 2
    requires ParseInt(Split(res, 'x')[0]) == Some(w) && ParseInt(Split(res, 'x')[1]) == Some(h)
    requires ParseReal(ReplaceAll(rp, "Hz", "")) == Some(refresh)
    ensures ParseModeLine(line) == Some(Mode(w, h, refresh))
  {
  }

  /** The refresh part "RHz" of a mode line parses to R. */
  lemma RateParse(rate: nat)
    ensures ParseReal(ReplaceAll(NatToString(rate) + "Hz", "Hz", "")) == Some(rate as real)
  {
    var c := NatToString(rate);
    DigitsDropHz(c);
    StripUnchanged(c);
    DigitsFree(c, '.');
    ParseNatToString(rate);
  }

  lemma DigitsFree(d: string, c: char)
    requires forall i :: 0 <= i < |d| ==> '0' <= d[i] <= '9'
    requires !('0' <= c <= '9')
    ensures c !in d
  {
  }

  /** `int(str(n)) == n`. */
  lemma DigitsParse(n: nat)
    ensures ParseInt(NatToString(n)) == Some(n)
  {
    StripUnchanged(NatToString(n));
    ParseNatToString(n);
  }

  /** Removing "Hz" from digits followed by "Hz" leaves the digits. */
  lemma {:induction false} DigitsDropHz(d: string)
    requires forall i :: 0 <= i < |d| ==> '0' <= d[i] <= '9'
    ensures ReplaceAll(d + "Hz", "Hz", "") == d
  {
    if d == [] {
      assert ("Hz")[2..] == [];
    } else {
      assert (d + "Hz")[0] == d[0];
      assert (d + "Hz")[1..] == d[1..] + "Hz";
      DigitsDropHz(d[1..]);
    }
  }

  /** A DRM entry contributes iff it is a card0-/card1- connector with both files and status "connected". */
  predicate Contributes(e: SysfsEntry)
  {
    (StartsWith(e.item, "card0-") || StartsWith(e.item, "card1-")) &&
    e.status.Some? && e.modes.Some? && Strip(e.status.value) == "connected"
  }

  /** The connector name: the item with every "card0-" and then every "card1-" removed. */
  function ConnectorName(item: string): string
  {
    ReplaceAll(ReplaceAll(item, "card0-", ""), "card1-", "")
  }

  /** What a contributing entry is recorded as: its short name, its parsed modes and the item. */
  function ConnectorOf(e: SysfsEntry): Connected
    requires e.modes.Some?
  {
    Connected(ConnectorName(e.item), ParseModes(e.modes.value), e.item)
  }

  /** A "card0-"/"card1-" item whose rest names no card loses exactly that prefix. */
  lemma Card0NameOf(n: string)
    requires !Contains(n, "card0-") && !Contains(n, "card1-")
    ensures ConnectorName("card0-" + n) == n
  {
    var s0 := "card0-" + n;
    assert s0[..6] == "card0-" && s0[6..] == n;
    assert ReplaceAll(s0, "card0-", "") == "" + ReplaceAll(n, "card0-", "");
    assert ReplaceAll(n, "card0-", "") == n;
    assert ReplaceAll(s0, "card0-", "") == n;
    assert ReplaceAll(n, "card1-", "") == n;
  }

  lemma Card1NameOf(n: string)
    requires !Contains(n, "card0-") && !Contains(n, "card1-")
    ensures ConnectorName("card1-" + n) == n
  {
    var p := "card1-";
    forall i | 0 <= i < |p| ensures !StartsWith(p[i..] + n, "card0-") {
      if i == 0 { assert (p + n)[4] == '1'; } else { assert (p[i..] + n)[0] == p[i]; }
    }
    ReplaceAllKeeps(p, n, "card0-");
    assert ReplaceAll(n, "card0-", "") == n;
    var s1 := p + n;
    assert s1[..6] == p && s1[6..] == n;
    assert ReplaceAll(s1, p, "") == "" + ReplaceAll(n, p, "");
    assert ReplaceAll(n, p, "") == n;
  }

  /** A prefix in which no match of `pat` starts is kept as it is. */
  lemma {:induction false} ReplaceAllKeeps(p: string, n: string, pat: string)
    requires |pat| > 0
    requires forall i :: 0 <= i < |p| ==> !StartsWith(p[i..] + n, pat)
    ensures ReplaceAll(p + n, pat, "") == p + ReplaceAll(n, pat, "")
  {
    if p == [] {
      assert p + n == n;
    } else {
      assert p[0..] + n == p + n;
      assert (p + n)[1..] == p[1..] + n;
      forall i | 0 <= i < |p[1..]| ensures !StartsWith(p[1..][i..] + n, pat) {
        assert p[1..][i..] == p[i + 1..];
      }
      ReplaceAllKeeps(p[1..], n, pat);
      assert ReplaceAll(p + n, pat, "") == [p[0]] + ReplaceAll(p[1..] + n, pat, "");
    }
  }

  /** What one directory entry contributes: its connector when it contributes. */
  function ConnectedEntry(e: SysfsEntry): Option<Connected>
  {
    if Contributes(e) then Some(ConnectorOf(e)) else None
  }

  /**
   * The connected connectors of a listing: exactly the contributing entries
   * (card0-/card1-, both files, "connected"), in listing order (`ConnectedOfAppend`).
   */
  function ConnectedOf(entries: seq<SysfsEntry>): (r: seq<Connected>)
    ensures |r| <= |entries|
  {
    FilterMap(ConnectedEntry, entries)
  }

  /** Every contributing entry is recorded, and only those are. */
  lemma ConnectedOfMembers(entries: seq<SysfsEntry>)
    ensures forall c :: c in ConnectedOf(entries) ==>
      exists j :: 0 <= j < |entries| && Contributes(entries[j]) && c == ConnectorOf(entries[j])
    ensures forall j :: 0 <= j < |entries| && Contributes(entries[j]) ==> ConnectorOf(entries[j]) in ConnectedOf(entries)
  {
    FilterMapMembers(ConnectedEntry, entries);
  }

  /** The listing is scanned in order: two runs of entries give the first run's connectors, then the second's. */
  lemma ConnectedOfAppend(a: seq<SysfsEntry>, b: seq<SysfsEntry>)
    ensures ConnectedOf(a + b) == ConnectedOf(a) + ConnectedOf(b)
  {
    FilterMapAppend(ConnectedEntry, a, b);
  }

  /** `connectors_data`: later connectors with the same short name overwrite earlier ones. */
  function CapabilitiesOf(cs: seq<Connected>): (r: map<string, ConnectorData>)
    ensures forall n :: n in r <==> exists k :: 0 <= k < |cs| && cs[k].name == n
  {
    if cs == [] then map[]
    else
      var last := cs[|cs| - 1];
      var r := CapabilitiesOf(cs[..|cs| - 1])[last.name := ConnectorData(last.modes, "connected", last.item)];
      assert forall k :: 0 <= k < |cs| - 1 ==> cs[..|cs| - 1][k] == cs[k];
      r
  }

  /** A recorded name holds the data of the last connector with that name: later ones overwrite. */
  lemma {:induction false} CapabilitiesLastWins(cs: seq<Connected>, n: string)
    requires n in CapabilitiesOf(cs)
    ensures exists k :: (0 <= k < |cs| && cs[k].name == n &&
      CapabilitiesOf(cs)[n] == ConnectorData(cs[k].modes, "connected", cs[k].item) &&
      forall j :: k < j < |cs| ==> cs[j].name != n)
  {
    var last := cs[|cs| - 1];
    var init := cs[..|cs| - 1];
    assert forall k :: 0 <= k < |init| ==> init[k] == cs[k];
    if n == last.name {
      assert cs[|cs| - 1].name == n;
    } else {
      CapabilitiesLastWins(init, n);
      var k :| 0 <= k < |init| && init[k].name == n &&
        CapabilitiesOf(init)[n] == ConnectorData(init[k].modes, "connected", init[k].item) &&
        forall j :: k < j < |init| ==> init[j].name != n;
      assert cs[k] == init[k];
    }
  }

  predicate HasRes(modes: seq<Mode>, res: Resolution)
  {
    exists k :: 0 <= k < |modes| && ResOf(modes[k]) == res
  }

  /** The first mode of `modes` with resolution `res`. */
  function FirstWithRes(modes: seq<Mode>, res: Resolution): (r: Option<Mode>)
    ensures r.Some? <==> HasRes(modes, res)
    ensures r.Some? ==> r.value in modes && ResOf(r.value) == res
  {
    if modes == [] then None
    else if ResOf(modes[0]) == res then Some(modes[0])
    else
      var r := FirstWithRes(modes[1..], res);
      assert HasRes(modes, res) ==> ResOf(modes[0]) == res || HasRes(modes[1..], res) by {
        if HasRes(modes, res) {
          var k :| 0 <= k < |modes| && ResOf(modes[k]) == res;
          if k > 0 { assert modes[1..][k - 1] == modes[k]; }
        }
      }
      assert HasRes(modes[1..], res) ==> HasRes(modes, res) by {
        if HasRes(modes[1..], res) {
          var k :| 0 <= k < |modes[1..]| && ResOf(modes[1..][k]) == res;
          assert modes[k + 1] == modes[1..][k];
        }
      }
      r
  }

  /** Every priority resolution that a connector offers. */
  predicate OffersPriority(modes: seq<Mode>, res: Resolution)
  {
    res in Priority && HasRes(modes, res)
  }

  /**
   * The best-resolution scan for one connector: priority resolutions in list order, the
   * first mode of each, adopted only when its area is strictly larger than the best so far.
   */
  method ScanConnector(c: Connected, best0: Resolution, refresh0: real, name0: string)
    returns (best: Resolution, refresh: real, name: string)
    ensures Area(best) >= Area(best0)
    ensures forall p :: OffersPriority(c.modes, p) ==> Area(p) <= Area(best)
    ensures best == best0 ==> refresh == refresh0 && name == name0
    ensures best != best0 ==> OffersPriority(c.modes, best) && name == c.name &&
                              FirstWithRes(c.modes, best) == Some(Mode(best.0, best.1, refresh))
  {
    best, refresh, name := best0, refresh0, name0;
    var i := 0;
    while i < |Priority|
      invariant 0 <= i <= |Priority|
      invariant Area(best) >= Area(best0)
      invariant forall j :: 0 <= j < i && HasRes(c.modes, Priority[j]) ==> Area(Priority[j]) <= Area(best)
      invariant best == best0 ==> refresh == refresh0 && name == name0
      invariant best != best0 ==> OffersPriority(c.modes, best) && name == c.name &&
                                  FirstWithRes(c.modes, best) == Some(Mode(best.0, best.1, refresh))
    {
      var res := Priority[i];
      var k := 0;
      while k < |c.modes|
        invariant 0 <= k <= |c.modes|
        invariant forall j :: 0 <= j < k ==> ResOf(c.modes[j]) != res
        invariant Area(best) >= Area(best0)
        invariant best == best0 ==> refresh == refresh0 && name == name0
        invariant best != best0 ==> OffersPriority(c.modes, best) && name == c.name &&
                                    FirstWithRes(c.modes, best) == Some(Mode(best.0, best.1, refresh))
      {
        var m := c.modes[k];
        if ResOf(m) == res {
          FirstWithResAt(c.modes, k);
          if Area(res) > Area(best) {
            best, refresh, name := res, m.refresh, c.name;
          }
          break;
        }
        k := k + 1;
      }
      i := i + 1;
    }
  }

  /** The first matching mode is the one the scan stops at. */
  lemma {:induction false} FirstWithResAt(modes: seq<Mode>, k: nat)
    requires k < |modes|
    requires forall j :: 0 <= j < k ==> ResOf(modes[j]) != ResOf(modes[k])
    ensures FirstWithRes(modes, ResOf(modes[k])) == Some(modes[k])
  {
    if k > 0 {
      FirstWithResAt(modes[1..], k - 1);
    }
  }

  /**
   * What the best-resolution choice over `cs` is: the fallback (640, 480) at 60 Hz on
   * HDMI-A-1 when nothing larger is offered, otherwise an offered priority resolution no
   * smaller than any other offered, on the first connector offering it, at that
   * connector's first refresh rate for it.
   */
  ghost predicate BestChoice(cs: seq<Connected>, best: Resolution, refresh: real, name: string)
  {
    (best == FallbackResolution || exists k :: 0 <= k < |cs| && OffersPriority(cs[k].modes, best)) &&
    Area(best) >= Area(FallbackResolution) &&
    (forall k, p :: 0 <= k < |cs| && OffersPriority(cs[k].modes, p) ==> Area(p) <= Area(best)) &&
    (best == FallbackResolution ==> refresh == FallbackRefresh && name == FallbackConnector) &&
    (best != FallbackResolution ==>
      exists k :: 0 <= k < |cs| && cs[k].name == name && OffersPriority(cs[k].modes, best) &&
        FirstWithRes(cs[k].modes, best) == Some(Mode(best.0, best.1, refresh)) &&
        forall j :: 0 <= j < k ==> !OffersPriority(cs[j].modes, best))
  }

  /**
   * The best-resolution choice over all connected connectors: (640, 480) at 60 Hz on
   * HDMI-A-1 unless a priority resolution with a strictly larger area is offered; then the
   * largest one offered, on the first connector offering it, at that connector's first
   * refresh rate for it.
   */
  method SelectBest(cs: seq<Connected>) returns (best: Resolution, refresh: real, name: string)
    ensures BestChoice(cs, best, refresh, name)
  {
    best, refresh, name := FallbackResolution, FallbackRefresh, FallbackConnector;
    var i := 0;
    while i < |cs|
      invariant 0 <= i <= |cs|
      invariant best == FallbackResolution || exists k :: 0 <= k < i && OffersPriority(cs[k].modes, best)
      invariant Area(best) >= Area(FallbackResolution)
      invariant forall k, p :: 0 <= k < i && OffersPriority(cs[k].modes, p) ==> Area(p) <= Area(best)
      invariant best == FallbackResolution ==> refresh == FallbackRefresh && name == FallbackConnector
      invariant best != FallbackResolution ==>
        exists k :: 0 <= k < i && cs[k].name == name && OffersPriority(cs[k].modes, best) &&
          FirstWithRes(cs[k].modes, best) == Some(Mode(best.0, best.1, refresh)) &&
          forall j :: 0 <= j < k ==> !OffersPriority(cs[j].modes, best)
    {
      var b, r, n := ScanConnector(cs[i], best, refresh, name);
      if b != best {
        PriorityAreasDistinct(b, best);
        forall j | 0 <= j < i ensures !OffersPriority(cs[j].modes, b) { }
        assert best == FallbackResolution || Area(b) > Area(best);
        assert b != FallbackResolution;
      }
      best, refresh, name := b, r, n;
      i := i + 1;
    }
  }

  /** No two resolutions of the priority list have the same area. */
  lemma PriorityAreasDistinct(a: Resolution, b: Resolution)
    requires a in Priority && (b in Priority || b == FallbackResolution) && a != b
    ensures Area(a) != Area(b)
  {
  }

  /** Mode ordering of `available_resolutions`: by area, then refresh rate. */
  predicate KeyLe(a: Mode, b: Mode)
  {
    Area(ResOf(a)) < Area(ResOf(b)) || (Area(ResOf(a)) == Area(ResOf(b)) && a.refresh <= b.refresh)
  }

  /** The ordering is total and transitive: below `m`, and `m` not above `y`, means below `y`. */
  lemma KeyLeStep(x: Mode, m: Mode, y: Mode)
    requires KeyLe(x, m) && !KeyLe(y, m)
    ensures KeyLe(x, y)
  {
    var ax, am, ay := Area(ResOf(x)), Area(ResOf(m)), Area(ResOf(y));
    assert ax < am || (ax == am && x.refresh <= m.refresh);
    assert am < ay || (am == ay && m.refresh < y.refresh);
  }

  predicate SortedDesc(s: seq<Mode>)
  {
    forall i, j :: 0 <= i < j < |s| ==> KeyLe(s[j], s[i])
  }

  /** `m` is a largest element of `s` in that ordering. */
  predicate IsMax(m: Mode, s: set<Mode>)
  {
    m in s && forall x :: x in s ==> KeyLe(x, m)
  }

  /** Every finite non-empty set of modes has a largest element in that ordering. */
  lemma {:induction false} MaxExists(s: set<Mode>)
    requires s != {}
    ensures exists m :: IsMax(m, s)
    decreases |s|
  {
    var y :| y in s;
    if s == {y} {
      assert IsMax(y, s);
    } else {
      MaxExists(s - {y});
      var m :| IsMax(m, s - {y});
      if KeyLe(y, m) {
        assert IsMax(m, s) by {
          forall x | x in s ensures KeyLe(x, m) {
            if x != y {
              assert x in s - {y};
            }
          }
        }
      } else {
        assert IsMax(y, s) by {
          forall x | x in s ensures KeyLe(x, y) {
            if x != y {
              assert x in s - {y};
              KeyLeStep(x, m, y);
            }
          }
        }
      }
    }
  }

  /** `sorted(set(modes), key=(area, refresh), reverse=True)`. */
  method SortModes(all: set<Mode>) returns (r: seq<Mode>)
    ensures SortedDesc(r)
    ensures forall m :: m in r <==> m in all
    ensures forall i, j :: 0 <= i < j < |r| ==> r[i] != r[j]
  {
    var rest := all;
    r := [];
    while rest != {}
      invariant forall m :: m in all <==> m in r || m in rest
      invariant forall m :: m in r ==> m !in rest
      invariant SortedDesc(r)
      invariant forall i, j :: 0 <= i < j < |r| ==> r[i] != r[j]
      invariant forall i, m :: 0 <= i < |r| && m in rest ==> KeyLe(m, r[i])
      decreases |rest|
    {
      MaxExists(rest);
      var m :| IsMax(m, rest);
      r := r + [m];
      rest := rest - {m};
    }
  }

  /** Every mode of every recorded connector. */
  function AllModes(caps: map<string, ConnectorData>): set<Mode>
  {
    set n, m | n in caps && m in caps[n].modes :: m
  }

  /** The first available mode with the earliest YouTube resolution (from index `i` on) that is present. */
  function FirstYoutubeMode(avail: seq<Mode>, i: nat): (r: Option<Mode>)
    requires i <= |YoutubeResolutions|
    ensures r.Some? ==> r.value in avail && ResOf(r.value) in YoutubeResolutions[i..]
    ensures r.None? <==> forall j :: i <= j < |YoutubeResolutions| ==> !HasRes(avail, YoutubeResolutions[j])
    ensures r.Some? ==> exists j :: (i <= j < |YoutubeResolutions| && HasRes(avail, YoutubeResolutions[j]) &&
      (forall j2 :: i <= j2 < j ==> !HasRes(avail, YoutubeResolutions[j2])) && r == FirstWithRes(avail, YoutubeResolutions[j]))
    decreases |YoutubeResolutions| - i
  {
    if i == |YoutubeResolutions| then None
    else
      match FirstWithRes(avail, YoutubeResolutions[i])
      case Some(m) => Some(m)
      case None =>
        var r := FirstYoutubeMode(avail, i + 1);
        if r.Some? then
          var j :| i + 1 <= j < |YoutubeResolutions| && HasRes(avail, YoutubeResolutions[j]) &&
            (forall j2 :: i + 1 <= j2 < j ==> !HasRes(avail, YoutubeResolutions[j2])) && r == FirstWithRes(avail, YoutubeResolutions[j]);
          assert forall j2 :: i <= j2 < j ==> !HasRes(avail, YoutubeResolutions[j2]);
          r
        else r
  }

  class Detector {
    var capabilities: map<string, ConnectorData>
    var optimalResolution: Resolution
    var optimalRefreshRate: real
    var optimalConnector: string
    var availableResolutions: seq<Mode>

    /** The detector runs its detection on construction. */
    constructor (listing: Option<seq<SysfsEntry>>)
      ensures listing.None? ==>
        capabilities == map[] && optimalResolution == FallbackResolution &&
        optimalRefreshRate == FallbackRefresh && optimalConnector == FallbackConnector &&
        availableResolutions == [Mode(640, 480, 60.0)]
      ensures listing.Some? ==> Detected(listing.value)
    {
      capabilities := map[];
      optimalResolution := FallbackResolution;
      optimalRefreshRate := FallbackRefresh;
      optimalConnector := FallbackConnector;
      availableResolutions := [];
      new;
      DetectAllCapabilities(listing);
    }

    /**
     * The state a detection over the listing `entries` leaves: the recorded capabilities,
     * the best choice over the connected connectors, and every recorded mode once, largest first.
     */
    ghost predicate Detected(entries: seq<SysfsEntry>)
      reads this
    {
      capabilities == CapabilitiesOf(ConnectedOf(entries)) &&
      BestChoice(ConnectedOf(entries), optimalResolution, optimalRefreshRate, optimalConnector) &&
      SortedDesc(availableResolutions) &&
      (forall m :: m in availableResolutions <==> m in AllModes(capabilities)) &&
      (forall i, j :: 0 <= i < j < |availableResolutions| ==> availableResolutions[i] != availableResolutions[j])
    }

    /**
     * `detect_all_capabilities`: `listing` is the DRM directory as read, `None` when
     * reading it raised, which gives the fallback 640x480@60 on HDMI-A-1.
     */
    method DetectAllCapabilities(listing: Option<seq<SysfsEntry>>)
      modifies this
      ensures listing.None? ==>
        capabilities == old(capabilities) && optimalResolution == FallbackResolution &&
        optimalRefreshRate == FallbackRefresh && optimalConnector == FallbackConnector &&
        availableResolutions == [Mode(640, 480, 60.0)]
      ensures listing.Some? ==> Detected(listing.value)
    {
      match listing
      case None =>
        optimalResolution, optimalRefreshRate, optimalConnector := FallbackResolution, FallbackRefresh, FallbackConnector;
        availableResolutions := [Mode(640, 480, 60.0)];
      case Some(entries) =>
        var cs := ConnectedOf(entries);
        var best, refresh, name := SelectBest(cs);
        capabilities := CapabilitiesOf(cs);
        optimalResolution, optimalRefreshRate, optimalConnector := best, refresh, name;
        availableResolutions := SortModes(AllModes(capabilities));
    }

    function Width(): (w: int)
      reads this
      ensures w == optimalResolution.0
    {
      optimalResolution.0
    }

    function Height(): (h: int)
      reads this
      ensures h == optimalResolution.1
    {
      optimalResolution.1
    }

    function RefreshRate(): (r: real)
      reads this
      ensures r == optimalRefreshRate
    {
      optimalRefreshRate
    }

    /**
     * `get_resolution_for_content_type`: for "youtube" the first available mode of the
     * earliest YouTube resolution on offer, otherwise the optimal mode.
     */
    function ResolutionForContentType(contentType: string): (r: Mode)
      reads this
      ensures contentType == "youtube" && (exists j :: 0 <= j < |YoutubeResolutions| && HasRes(availableResolutions, YoutubeResolutions[j])) ==>
        r in availableResolutions &&
        exists j :: (0 <= j < |YoutubeResolutions| && HasRes(availableResolutions, YoutubeResolutions[j]) &&
          (forall j2 :: 0 <= j2 < j ==> !HasRes(availableResolutions, YoutubeResolutions[j2])) &&
          Some(r) == FirstWithRes(availableResolutions, YoutubeResolutions[j]))
      ensures contentType != "youtube" || (forall j :: 0 <= j < |YoutubeResolutions| ==> !HasRes(availableResolutions, YoutubeResolutions[j])) ==>
        r == Mode(optimalResolution.0, optimalResolution.1, optimalRefreshRate)
    {
      var yt := if contentType == "youtube" then FirstYoutubeMode(availableResolutions, 0) else None;
      if yt.Some? then yt.value else Mode(optimalResolution.0, optimalResolution.1, optimalRefreshRate)
    }
  }
}

=== FILE: drm.dfy ===
/**
 * `get_optimal_connector_and_device` (utils/drm.py, repeated in
 * managers/playback_manager.py): the DRM device node follows the card
 * prefix of the chosen connector's sysfs entry.
 */
module Drm {
  import opened Text
  import Display

  const DefaultConnector: string := "HDMI-A-1"
  const Card0: string := "/dev/dri/card0"
  const Card1: string := "/dev/dri/card1"

  /**
   * The connector and its device node. A known connector whose entry starts with
   * "card1-" is on card1, any other known one on card0, and an unknown one gives
   * the default HDMI-A-1 on card0.
   */
  function ConnectorAndDevice(optimalConnector: string, capabilities: map<string, Display.ConnectorData>): (r: (string, string))
    ensures r.1 == Card0 || r.1 == Card1
    ensures r.1 == Card1 <==> optimalConnector in capabilities && StartsWith(capabilities[optimalConnector].item, "card1-")
    ensures r.0 == if optimalConnector in capabilities then optimalConnector else DefaultConnector
  {
    if optimalConnector in capabilities then
      if StartsWith(capabilities[optimalConnector].item, "card1-") then (optimalConnector, Card1)
      else (optimalConnector, Card0)
    else (DefaultConnector, Card0)
  }
}

=== FILE: framebuffer.dfy ===
/**
 * `FramebufferManager` (managers/framebuffer_manager.py): the geometry of
 * /dev/fb0, RGB888 to RGB565 / ARGB8888 packing, the availability guards of
 * `display_image` and `clear_screen`, and the resource bookkeeping of
 * `cleanup` and `is_resource_active`. The device, the sysfs files and the
 * image decoder are inputs.
 */
module Framebuffer {
  import opened Wrappers
  import opened Text

  /** A colour channel as the image decoder and the API deliver it. */
  type Byte = x: int | 0 <= x < 256

  datatype Rgb = Rgb(r: Byte, g: Byte, b: Byte)

  /** `1 << k`. */
  function Pow2(k: nat): (p: nat)
    ensures p >= 1
  {
    if k == 0 then 1 else 2 * Pow2(k - 1)
  }

  lemma Pow2Values()
    ensures Pow2(5) == 32 && Pow2(8) == 256 && Pow2(11) == 2048 && Pow2(16) == 0x1_0000 && Pow2(24) == 0x100_0000
  {
    assert Pow2(4) == 16;
    assert Pow2(8) == 256;
    assert Pow2(11) == 2048;
    assert Pow2(16) == 0x1_0000;
    assert Pow2(20) == 0x10_0000;
  }

  /** Python's `|` on non-negative integers, bit by bit from the least significant end. */
  function BitOr(a: nat, b: nat): nat
    decreases a + b
  {
    if a == 0 then b
    else if b == 0 then a
    else 2 * BitOr(a / 2, b / 2) + (if a % 2 == 1 || b % 2 == 1 then 1 else 0)
  }

  /** Or-ing a value below `1 << k` into a number shifted left by `k` is adding it. */
  lemma {:induction false} OrShift(a: nat, b: nat, k: nat)
    requires b < Pow2(k)
    ensures BitOr(a * Pow2(k), b) == a * Pow2(k) + b
    decreases k
  {
    if a == 0 || b == 0 {
    } else {
      assert k > 0;
      var h := a * Pow2(k - 1);
      assert a * Pow2(k) == 2 * h;
      assert (2 * h) / 2 == h && (2 * h) % 2 == 0;
      OrShift(a, b / 2, k - 1);
    }
  }

  /** `OrShift` with the power of two given as a number. */
  lemma OrShiftBy(a: nat, b: nat, k: nat, p: nat)
    requires p == Pow2(k) && b < p
    ensures BitOr(a * p, b) == a * p + b
  {
    OrShift(a, b, k);
  }

  /** Euclidean division undoes `q * d + m` for `0 <= m < d`. */
  lemma DivMod(q: int, d: int, m: int)
    requires 0 <= m < d
    ensures (q * d + m) / d == q && (q * d + m) % d == m
  {
    var x := q * d + m;
    var q1, m1 := x / d, x % d;
    assert q1 * d + m1 == x;
    var e := q - q1;
    assert e * d == m1 - m by {
      assert e * d == q * d - q1 * d;
    }
  }

  /** The RGB565 fields: Python's `>>` then `& mask`, on any integer.
      Red and blue share the 5-bit field, green has the 6-bit one. */
  function Field5(c: int): (v: int)
    ensures 0 <= v < 32
  {
    (c / 8) % 32
  }

  function Green6(g: int): (v: int)
    ensures 0 <= v < 64
  {
    (g / 4) % 64
  }

  /** `_rgb_to_rgb565`: `(r5 << 11) | (g6 << 5) | b5`. */
  function Rgb565(r: int, g: int, b: int): nat
  {
    BitOr(BitOr(Field5(r) * 2048, Green6(g) * 32), Field5(b))
  }

  /** The packed word is the weighted sum of its fields, so it fits in 16 bits. */
  lemma Rgb565IsSum(r: int, g: int, b: int)
    ensures Rgb565(r, g, b) == Field5(r) * 2048 + Green6(g) * 32 + Field5(b)
    ensures Rgb565(r, g, b) < 0x1_0000
  {
    Pow2Values();
    var r5, g6, b5 := Field5(r), Green6(g), Field5(b);
    OrShiftBy(r5, g6 * 32, 11, 2048);
    var hi := r5 * 64 + g6;
    assert BitOr(r5 * 2048, g6 * 32) == hi * 32;
    OrShiftBy(hi, b5, 5, 32);
    assert Rgb565(r, g, b) == BitOr(hi * 32, b5);
  }

  /** The three fields of a packed word come back out: red in bits 11-15, green 5-10, blue 0-4. */
  lemma Rgb565Fields(r: int, g: int, b: int)
    ensures Rgb565(r, g, b) / 2048 == Field5(r)
    ensures Rgb565(r, g, b) / 32 % 64 == Green6(g)
    ensures Rgb565(r, g, b) % 32 == Field5(b)
  {
    Rgb565IsSum(r, g, b);
    var r5, g6, b5 := Field5(r), Green6(g), Field5(b);
    var v := Rgb565(r, g, b);
    DivMod(r5 * 64 + g6, 32, b5);
    assert v == (r5 * 64 + g6) * 32 + b5;
    DivMod(r5, 64, g6);
    DivMod(r5, 2048, g6 * 32 + b5);
    assert v == r5 * 2048 + (g6 * 32 + b5);
  }

  /** For 8-bit channels the fields are the top 5, 6 and 5 bits of red, green and blue. */
  lemma Rgb565OfBytes(c: Rgb)
    ensures Rgb565(c.r, c.g, c.b) < 0x1_0000
    ensures Rgb565(c.r, c.g, c.b) / 2048 == c.r / 8
    ensures Rgb565(c.r, c.g, c.b) / 32 % 64 == c.g / 4
    ensures Rgb565(c.r, c.g, c.b) % 32 == c.b / 8
  {
    Rgb565IsSum(c.r, c.g, c.b);
    Rgb565Fields(c.r, c.g, c.b);
    assert Field5(c.r) == c.r / 8 && Green6(c.g) == c.g / 4 && Field5(c.b) == c.b / 8;
  }

  /** The 32-bpp pixel `0xFF << 24 | r << 16 | g << 8 | b`. */
  function Argb8888(c: Rgb): nat
  {
    BitOr(BitOr(BitOr(0xFF * 0x100_0000, c.r * 0x1_0000), c.g * 0x100), c.b)
  }

  /** The packed pixel is the weighted sum of its alpha and colour bytes. */
  lemma ArgbIsSum(c: Rgb)
    ensures Argb8888(c) == 0xFF00_0000 + c.r * 0x1_0000 + c.g * 0x100 + c.b
  {
    Pow2Values();
    OrShiftBy(0xFF, c.r * 0x1_0000, 24, 0x100_0000);
    var a1 := 0xFF00 + c.r;
    assert a1 * 0x1_0000 == 0xFF * 0x100_0000 + c.r * 0x1_0000;
    OrShiftBy(a1, c.g * 0x100, 16, 0x1_0000);
    var a2 := 0xFF_0000 + c.r * 0x100 + c.g;
    assert a2 * 0x100 == a1 * 0x1_0000 + c.g * 0x100;
    OrShiftBy(a2, c.b, 8, 0x100);
  }

  /** Each channel of an ARGB8888 pixel reads back, under a fully opaque alpha. */
  lemma ArgbChannels(c: Rgb)
    ensures 0xFF00_0000 <= Argb8888(c) < 0x1_0000_0000
    ensures Argb8888(c) / 0x100_0000 == 0xFF
    ensures Argb8888(c) / 0x1_0000 % 0x100 == c.r
    ensures Argb8888(c) / 0x100 % 0x100 == c.g
    ensures Argb8888(c) % 0x100 == c.b
  {
    ArgbIsSum(c);
    var v := Argb8888(c);
    var a2 := 0xFF_0000 + c.r * 0x100 + c.g;
    var a1 := 0xFF00 + c.r;
    assert v == a2 * 0x100 + c.b;
    DivMod(a2, 0x100, c.b);
    assert a2 == a1 * 0x100 + c.g;
    DivMod(a1, 0x100, c.g);
    assert a1 == 0xFF * 0x100 + c.r;
    DivMod(0xFF, 0x100, c.r);
    assert v == 0xFF * 0x100_0000 + (c.r * 0x1_0000 + c.g * 0x100 + c.b);
    DivMod(0xFF, 0x100_0000, c.r * 0x1_0000 + c.g * 0x100 + c.b);
    DivMod(a1, 0x1_0000, c.g * 0x100 + c.b);
    assert v == a1 * 0x1_0000 + (c.g * 0x100 + c.b);
  }

  /** The value written per pixel at a given depth: RGB565 at 16 bpp, ARGB8888 otherwise. */
  function PixelValue(bpp: int, c: Rgb): (v: int)
    ensures bpp == 16 ==> v < 0x1_0000
    ensures bpp != 16 ==> 0xFF00_0000 <= v < 0x1_0000_0000
  {
    Rgb565OfBytes(c);
    ArgbChannels(c);
    if bpp == 16 then Rgb565(c.r, c.g, c.b) else Argb8888(c)
  }

  /** What the sysfs files said: "W,H" in `virtual_size` and the depth in `bits_per_pixel`; `None` when unreadable. */
  datatype FbInfo = FbInfo(virtualSize: Option<string>, bitsPerPixel: Option<string>)

  /** "W,H" as two integers, or the `ValueError` path. */
  function ParseVirtualSize(s: string): (r: Option<(int, int)>)
  {
    var parts := Split(Strip(s), ',');
    if |parts| != 2 then None
    else
      match (ParseInt(parts[0]), ParseInt(parts[1]))
      case (Some(w), Some(h)) => Some((w, h))
      case _ => None
  }

  function FbSize(width: int, height: int, bpp: int): int
  {
    width * height * (bpp / 8)
  }

  /** The geometry `_get_fb_info` reads: width, height and depth. */
  datatype Geometry = Geometry(width: int, height: int, bpp: int)

  /**
   * What `_get_fb_info` got out of each file: the parsed size and the parsed depth, or
   * `None` when the file could not be read or `int()` raised.
   */
  datatype FbReading = FbReading(size: Option<(int, int)>, depth: Option<int>)

  /** Reading and parsing both files. */
  function ReadFbInfo(info: FbInfo): (rd: FbReading)
    ensures info.virtualSize.None? ==> rd.size.None?
    ensures info.bitsPerPixel.None? ==> rd.depth.None?
  {
    FbReading(
      if info.virtualSize.Some? then ParseVirtualSize(info.virtualSize.value) else None,
      if info.bitsPerPixel.Some? then ParseInt(info.bitsPerPixel.value) else None)
  }

  /**
   * `_get_fb_info` as written: the size is assigned as soon as `virtual_size` parses,
   * before `bits_per_pixel` is read, and `fb_size` is recomputed only when both succeed.
   * Returns the new geometry and the new `fb_size`.
   */
  function GetFbInfoAsWritten(g: Geometry, size: int, rd: FbReading): (r: (Geometry, int))
    ensures rd.size.None? ==> r == (g, size)
    ensures rd.size.Some? && rd.depth.Some? ==>
      r == (Geometry(rd.size.value.0, rd.size.value.1, rd.depth.value), FbSize(rd.size.value.0, rd.size.value.1, rd.depth.value))
  {
    match rd.size
    case None => (g, size)
    case Some(wh) =>
      match rd.depth
      case None => (Geometry(wh.0, wh.1, g.bpp), size)
      case Some(bpp) => (Geometry(wh.0, wh.1, bpp), FbSize(wh.0, wh.1, bpp))
  }

  /** A 1920x1080 `virtual_size` reads as such. */
  lemma VirtualSize1080p()
    ensures ParseVirtualSize("1920,1080") == Some((1920, 1080))
  {
    Split1080p();
    Parse1920();
    Parse1080();
  }

  lemma Split1080p()
    ensures Split(Strip("1920,1080"), ',') == ["1920", "1080"]
  {
    var s := "1920" + [','] + "1080";
    assert s == "1920,1080";
    StripUnchanged(s);
    SplitTwo("1920", ',', "1080");
  }

  lemma Parse1920()
    ensures ParseInt("1920") == Some(1920)
  {
    assert "1920"[..3] == "192" && "192"[..2] == "19" && "19"[..1] == "1";
    StripUnchanged("1920");
    assert DigitsValue("1") == 1 && DigitsValue("19") == 19 && DigitsValue("192") == 192;
    assert IsDigits("1920") && DigitsValue("1920") == 1920;
  }

  lemma Parse1080()
    ensures ParseInt("1080") == Some(1080)
  {
    assert "1080"[..3] == "108" && "108"[..2] == "10" && "10"[..1] == "1";
    StripUnchanged("1080");
    assert DigitsValue("1") == 1 && DigitsValue("10") == 10 && DigitsValue("108") == 108;
    assert IsDigits("1080") && DigitsValue("1080") == 1080;
  }

  /** An unreadable `bits_per_pixel` after a good `virtual_size` moves the size but keeps `fb_size`. */
  lemma DepthUnreadableAsWritten(g: Geometry, size: int, vs: string, w: int, h: int)
    requires ParseVirtualSize(vs) == Some((w, h))
    ensures GetFbInfoAsWritten(g, size, ReadFbInfo(FbInfo(Some(vs), None))) == (Geometry(w, h, g.bpp), size)
  {
    assert ReadFbInfo(FbInfo(Some(vs), None)) == FbReading(Some((w, h)), None);
  }

  /** When `bits_per_pixel` cannot be read, the source keeps a 640x480x16 `fb_size` for a 1920x1080 screen. */
  lemma FbSizeStaleAsWritten()
    ensures var r := GetFbInfoAsWritten(Geometry(640, 480, 16), 614400, ReadFbInfo(FbInfo(Some("1920,1080"), None)));
            r.0 == Geometry(1920, 1080, 16) && r.1 == 614400 && r.1 != FbSize(r.0.width, r.0.height, r.0.bpp)
  {
    VirtualSize1080p();
    DepthUnreadableAsWritten(Geometry(640, 480, 16), 614400, "1920,1080", 1920, 1080);
  }

  /** The corrected `_get_fb_info`: the geometry changes only when both files parse. */
  function GetFbInfo(g: Geometry, rd: FbReading): (r: Geometry)
    ensures rd.size.None? || rd.depth.None? ==> r == g
    ensures r.bpp == g.bpp || rd.depth == Some(r.bpp)
    ensures (r.width, r.height) == (g.width, g.height) || rd.size == Some((r.width, r.height))
  {
    if rd.size.Some? && rd.depth.Some? then Geometry(rd.size.value.0, rd.size.value.1, rd.depth.value) else g
  }

  /**
   * The corrected reading is all or nothing: the old geometry stays unless both files
   * parse, and then the new one is exactly what they say; it agrees with the as-written
   * reading whenever both parse. With `fb_size` derived from the geometry afterwards, the
   * stale size of the as-written reading cannot arise.
   */
  lemma GetFbInfoAllOrNothing(g: Geometry, size: int, rd: FbReading)
    ensures var r := GetFbInfo(g, rd);
      (r == g || (rd.size.Some? && rd.depth.Some?)) &&
      (rd.size.Some? && rd.depth.Some? ==>
        r == Geometry(rd.size.value.0, rd.size.value.1, rd.depth.value) &&
        (r, FbSize(r.width, r.height, r.bpp)) == GetFbInfoAsWritten(g, size, rd))
  {
  }

  /** The corrected reading keeps the whole old geometry when `bits_per_pixel` cannot be read. */
  lemma DepthUnreadableKeepsGeometry(g: Geometry, vs: string)
    ensures GetFbInfo(g, ReadFbInfo(FbInfo(Some(vs), None))) == g
  {
    assert ReadFbInfo(FbInfo(Some(vs), None)).depth.None?;
  }

  /**
   * Whether `np.frombuffer(mmap).reshape((h, w))` succeeds: the mapping holds exactly
   * `w * h` items of 2 bytes (16 bpp) or 4 bytes (any other depth).
   */
  predicate ArrayFits(width: int, height: int, bpp: int, size: int)
  {
    width >= 0 && height >= 0 && size == width * height * (if bpp == 16 then 2 else 4)
  }

  /**
   * What the source's initialisation does with the stale reading: the 1920x1080 view of a
   * mapping of the old 614400 bytes does not fit, so `reshape` raises and the manager
   * ends unavailable (after the file was opened and mapped).
   */
  lemma StaleReadingUnavailableAsWritten()
    ensures var r := GetFbInfoAsWritten(Geometry(640, 480, 16), 614400, ReadFbInfo(FbInfo(Some("1920,1080"), None)));
            r.0 == Geometry(1920, 1080, 16) && !ArrayFits(r.0.width, r.0.height, r.0.bpp, r.1)
  {
    FbSizeStaleAsWritten();
  }

  /** The number of pixels of a `height x width` array. */
  function PixelCount(width: int, height: int): (n: int)
    requires width >= 0 && height >= 0
    ensures n >= 0 && n == width * height
  {
    width * height
  }

  /** `n` pixels of one value. */
  function Filled(n: nat, v: int): (s: seq<int>)
    ensures |s| == n && forall i :: 0 <= i < n ==> s[i] == v
  {
    seq(n, _ => v)
  }

  class FramebufferManager {
    var targetWidth: int
    var targetHeight: int
    var fbWidth: int
    var fbHeight: int
    var fbBpp: int
    var fbBytesPerPixel: int
    var fbSize: int
    var hasFile: bool
    var hasMmap: bool
    var hasArray: bool
    var isAvailable: bool
    /** The pixels of `fb_array`, row after row. */
    var pixels: seq<int>

    /** `fb_size` and `fb_bytes_per_pixel` follow the geometry; an available buffer has all its resources. */
    ghost predicate Valid()
      reads this
    {
      fbBytesPerPixel == fbBpp / 8 && fbSize == FbSize(fbWidth, fbHeight, fbBpp) &&
      (isAvailable ==> hasFile && hasMmap && hasArray && fbWidth >= 0 && fbHeight >= 0 && |pixels| == fbWidth * fbHeight)
    }

    /** `is_resource_active`: the file, the mapping and the array are all held. */
    function IsResourceActive(): (active: bool)
      reads this
      ensures Valid() && isAvailable ==> active
      ensures active ==> hasFile && hasMmap
    {
      hasMmap && hasFile && hasArray
    }

    /** The target comes from the display detector when there is one, else 1920x1080. */
    constructor (optimal: Option<(int, int)>)
      ensures Valid()
      ensures (targetWidth, targetHeight) == optimal.UnwrapOr((1920, 1080))
      ensures fbWidth == 640 && fbHeight == 480 && fbBpp == 16 && fbSize == 614400
      ensures !isAvailable && !IsResourceActive()
    {
      targetWidth, targetHeight := optimal.UnwrapOr((1920, 1080)).0, optimal.UnwrapOr((1920, 1080)).1;
      fbWidth, fbHeight, fbBpp := 640, 480, 16;
      fbBytesPerPixel := 2;
      fbSize := 640 * 480 * 2;
      hasFile, hasMmap, hasArray, isAvailable := false, false, false, false;
      pixels := [];
    }

    /**
     * `_initialize_framebuffer`: take the geometry from what `_get_fb_info` parsed
     * (`reading`, see `ReadFbInfo`), open the device (`opens`), map
     * `fb_size` bytes (`maps`) and view them as a `height x width` array. Each resource
     * is recorded as it is obtained; the manager is available only when all three are.
     */
    method InitializeFramebuffer(reading: FbReading, opens: bool, maps: bool)
      requires Valid()
      modifies this
      ensures Valid()
      ensures Geometry(fbWidth, fbHeight, fbBpp) == GetFbInfo(Geometry(old(fbWidth), old(fbHeight), old(fbBpp)), reading)
      ensures isAvailable <==> opens && maps && ArrayFits(fbWidth, fbHeight, fbBpp, fbSize)
      ensures isAvailable ==> IsResourceActive()
      ensures hasFile == (opens || old(hasFile))
      ensures hasMmap == ((opens && maps) || old(hasMmap))
      ensures hasArray == (isAvailable || old(hasArray))
      ensures targetWidth == old(targetWidth) && targetHeight == old(targetHeight)
    {
      var g := GetFbInfo(Geometry(fbWidth, fbHeight, fbBpp), reading);
      var size := FbSize(g.width, g.height, g.bpp);
      fbWidth, fbHeight, fbBpp := g.width, g.height, g.bpp;
      fbBytesPerPixel := g.bpp / 8;
      fbSize := size;
      isAvailable := false;
      if opens {
        hasFile := true;
        if maps {
          hasMmap := true;
          if ArrayFits(g.width, g.height, g.bpp, size) {
            hasArray := true;
            pixels := Filled(PixelCount(g.width, g.height), 0);
            isAvailable := true;
          }
        }
      }
    }

    /** `clear_screen`: every pixel takes the packed colour; unavailable means False and no write. */
    method ClearScreen(c: Rgb) returns (ok: bool)
      requires Valid()
      modifies this`pixels
      ensures Valid()
      ensures ok == old(isAvailable)
      ensures !ok ==> pixels == old(pixels)
      ensures ok ==> |pixels| == |old(pixels)| && forall i :: 0 <= i < |pixels| ==> pixels[i] == PixelValue(fbBpp, c)
    {
      if !isAvailable {
        return false;
      }
      pixels := Filled(|pixels|, PixelValue(fbBpp, c));
      return true;
    }

    /**
     * `display_image`: `image` is the decoded picture already fitted to the screen, `None`
     * when it cannot be opened; a picture of the wrong pixel count fails the copy.
     */
    method DisplayImage(image: Option<seq<Rgb>>) returns (ok: bool)
      requires Valid()
      modifies this`pixels
      ensures Valid()
      ensures ok <==> old(isAvailable) && image.Some? && |image.value| == |old(pixels)|
      ensures !ok ==> pixels == old(pixels)
      ensures ok ==> |pixels| == |image.value| && forall i :: 0 <= i < |pixels| ==> pixels[i] == PixelValue(fbBpp, image.value[i])
    {
      if !isAvailable || image.None? || |image.value| != |pixels| {
        return false;
      }
      var img := image.value;
      var bpp := fbBpp;
      pixels := seq(|img|, i requires 0 <= i < |img| => PixelValue(bpp, img[i]));
      return true;
    }

    /**
     * `cleanup`: the array is dropped first; closing the mapping can raise (`closes` false),
     * which leaves the mapping and the file held. Either way the manager ends unavailable.
     */
    method Cleanup(closes: bool)
      requires Valid()
      modifies this
      ensures Valid()
      ensures !isAvailable && !hasArray
      ensures hasMmap == (old(hasMmap) && !closes)
      ensures hasFile == (old(hasFile) && old(hasMmap) && !closes)
      ensures closes ==> !IsResourceActive() && !hasMmap && !hasFile
      ensures fbWidth == old(fbWidth) && fbHeight == old(fbHeight) && fbBpp == old(fbBpp)
    {
      hasArray := false;
      if hasMmap {
        if !closes {
          isAvailable := false;
          return;
        }
        hasMmap := false;
      }
      hasFile := false;
      isAvailable := false;
    }
  }
}

=== FILE: hdmi_cec.dfy ===
/**
 * `HDMICECManager` (managers/hdmi_cec.py): TV power control through
 * `cec-client`. What the file system and the `cec-client` process answer are
 * inputs (`readable`, `clientAvailable`, `Outcome`); the command text written to
 * the process is an output.
 */
module HdmiCec {
  import opened Wrappers
  import opened Text

  /** The device nodes probed, in order. */
  const CecDevices: seq<string> := ["/dev/cec0", "/dev/cec1"]
  const NotAvailable := "HDMI-CEC not available"
  const CommandTimeout := 10

  // ---------------------------------------------------------------------------
  // Scan output parsing
  // ---------------------------------------------------------------------------

  /** A scan line names a TV when its lower-case form holds both "device #" and "tv". */
  predicate IsTvLine(line: string)
  {
    Contains(Lower(line), "device #") && Contains(Lower(line), "tv")
  }

  /**
   * The address a TV line carries: the text between its first '(' and first ')'
   * (empty when the ')' comes first), cut at the first '.'; None when either
   * bracket is missing or the text between them is empty.
   */
  function AddressOf(line: string): (r: Option<string>)
    ensures r.Some? ==> '(' in line && ')' in line && '.' !in r.value
    ensures !('(' in line && ')' in line) ==> r.None?
  {
    match (IndexOf(line, '('), IndexOf(line, ')'))
    case (Some(i), Some(j)) =>
      var part := if i + 1 <= j then line[i + 1..j] else [];
      if part != [] then Some(Split(part, '.')[0]) else None
    case _ => None
  }

  /** The device list a successful scan keeps: the stripped TV lines, in order. */
  function TvLines(lines: seq<string>): (r: seq<string>)
    ensures |r| <= |lines|
    ensures forall l :: l in lines && IsTvLine(l) ==> Strip(l) in r
    ensures forall x :: x in r ==> exists l :: l in lines && IsTvLine(l) && x == Strip(l)
  {
    if lines == [] then []
    else (if IsTvLine(lines[0]) then [Strip(lines[0])] else []) + TvLines(lines[1..])
  }

  /** The TV address after reading `lines`: the last TV line that carries one wins. */
  function AddressAfter(lines: seq<string>, tv: string): (r: string)
    ensures r == tv || '.' !in r
  {
    if lines == [] then tv
    else
      var l := lines[|lines| - 1];
      var prev := AddressAfter(lines[..|lines| - 1], tv);
      if IsTvLine(l) && AddressOf(l).Some? then AddressOf(l).value else prev
  }

  /** Reading one more line. */
  lemma AddressAfterAppend(lines: seq<string>, l: string, tv: string)
    ensures AddressAfter(lines + [l], tv) ==
      if IsTvLine(l) && AddressOf(l).Some? then AddressOf(l).value else AddressAfter(lines, tv)
  {
    assert (lines + [l])[..|lines|] == lines;
  }

  lemma {:induction false} TvLinesAppend(lines: seq<string>, l: string)
    ensures TvLines(lines + [l]) == TvLines(lines) + (if IsTvLine(l) then [Strip(l)] else [])
  {
    if lines == [] {
      assert lines + [l] == [l];
    } else {
      assert (lines + [l])[1..] == lines[1..] + [l];
      TvLinesAppend(lines[1..], l);
    }
  }

  /** Lines that are not TV lines do not move the address. */
  lemma {:induction false} AddressAfterNoTv(lines: seq<string>, tv: string)
    requires forall k :: 0 <= k < |lines| ==> !IsTvLine(lines[k])
    ensures AddressAfter(lines, tv) == tv
  {
    if lines != [] {
      AddressAfterNoTv(lines[..|lines| - 1], tv);
    }
  }

  /** One line of the scan: a TV line is kept, stripped, and may carry a new address. */
  method ScanLine(line: string, devices0: seq<string>, tv0: string) returns (devices: seq<string>, tv: string)
    ensures devices == devices0 + (if IsTvLine(line) then [Strip(line)] else [])
    ensures tv == if IsTvLine(line) && AddressOf(line).Some? then AddressOf(line).value else tv0
  {
    devices, tv := devices0, tv0;
    if IsTvLine(line) {
      var addr := AddressOf(line);
      if addr.Some? {
        tv := addr.value;
      }
      devices := devices + [Strip(line)];
    }
  }

  /** The loop of `_scan_cec_devices` over the output lines, from the current address. */
  method ScanLines(lines: seq<string>, tv0: string) returns (devices: seq<string>, tv: string)
    ensures devices == TvLines(lines) && tv == AddressAfter(lines, tv0)
  {
    devices, tv := [], tv0;
    for i := 0 to |lines|
      invariant devices == TvLines(lines[..i])
      invariant tv == AddressAfter(lines[..i], tv0)
    {
      TvLinesAppend(lines[..i], lines[i]);
      AddressAfterAppend(lines[..i], lines[i], tv0);
      assert lines[..i + 1] == lines[..i] + [lines[i]];
      devices, tv := ScanLine(lines[i], devices, tv);
    }
    assert lines[..|lines|] == lines;
  }

  /** What one run of `cec-client` gave. */
  datatype Outcome = Completed(returnCode: int, stdout: string, stderr: string) | TimedOut | Raised(message: string)

  /** `_execute_cec_command` once the manager is available: success and the stripped output. */
  function CommandResult(o: Outcome): (r: (bool, string))
    ensures r.0 <==> o.Completed? && o.returnCode == 0
    ensures o.Completed? ==> r.1 == Strip(if o.returnCode == 0 then o.stdout else o.stderr)
    ensures o.TimedOut? ==> r.1 == "Command timed out"
  {
    match o
    case Completed(rc, out, err) => (rc == 0, Strip(if rc == 0 then out else err))
    case TimedOut => (false, "Command timed out")
    case Raised(m) => (false, "Command failed: " + m)
  }

  /** The power status `get_tv_power_status` reads from the command's answer. */
  function PowerStatus(success: bool, output: string): (r: string)
    ensures r == "on" <==> success && Contains(Lower(output), "on")
    ensures r == "standby" <==>
      success && !Contains(Lower(output), "on") &&
      (Contains(Lower(output), "standby") || Contains(Lower(output), "off"))
    ensures !success ==> r == "unknown"
  {
    if success && output != [] then
      if Contains(Lower(output), "on") then "on"
      else if Contains(Lower(output), "standby") || Contains(Lower(output), "off") then "standby"
      else "unknown"
    else "unknown"
  }

  /** What a power command reports. */
  datatype PowerReply = PowerReply(success: bool, message: string, output: string, tvAddress: string)

  /** What `get_tv_power_status` reports. */
  datatype StatusReply = StatusReply(success: bool, powerStatus: string, output: string, tvAddress: string)

  /** What `get_status` and `scan_devices` report. */
  datatype Status = Status(available: bool, adapter: Option<string>, tvAddress: string, devices: seq<string>)

  class Manager {
    var isAvailable: bool
    var cecDevices: seq<string>
    var tvAddress: string
    var cecAdapter: Option<string>

    /**
     * `__init__` and `_detect_cec_support`: available exactly when some probed
     * node is readable and `cec-client` is installed, with the first readable
     * node as the adapter.
     */
    constructor (readable: set<string>, clientAvailable: bool)
      ensures cecDevices == [] && tvAddress == "0"
      ensures isAvailable <==> ("/dev/cec0" in readable || "/dev/cec1" in readable) && clientAvailable
      ensures isAvailable ==> cecAdapter.Some? && cecAdapter.value in readable &&
                              cecAdapter.value == (if "/dev/cec0" in readable then "/dev/cec0" else "/dev/cec1")
      ensures !isAvailable ==> cecAdapter.None?
    {
      cecDevices := [];
      tvAddress := "0";
      var available: seq<string> := [];
      for i := 0 to |CecDevices|
        invariant available ==
          (if i >= 1 && "/dev/cec0" in readable then ["/dev/cec0"] else []) +
          (if i >= 2 && "/dev/cec1" in readable then ["/dev/cec1"] else [])
      {
        if CecDevices[i] in readable {
          available := available + [CecDevices[i]];
        }
      }
      if available != [] && clientAvailable {
        isAvailable := true;
        cecAdapter := Some(available[0]);
      } else {
        isAvailable := false;
        cecAdapter := None;
      }
    }

    /**
     * `_scan_cec_devices`, given the process outcome: on return code 0 the device
     * list becomes the TV lines and each TV line carrying an address sets it; on
     * any other outcome nothing changes.
     */
    method ScanCecDevices(o: Outcome)
      modifies this
      ensures o.Completed? && o.returnCode == 0 ==>
        var lines := Split(o.stdout, '\n');
        cecDevices == TvLines(lines) && tvAddress == AddressAfter(lines, old(tvAddress))
      ensures !(o.Completed? && o.returnCode == 0) ==> cecDevices == old(cecDevices) && tvAddress == old(tvAddress)
      ensures isAvailable == old(isAvailable) && cecAdapter == old(cecAdapter)
    {
      if o.Completed? && o.returnCode == 0 {
        cecDevices, tvAddress := ScanLines(Split(o.stdout, '\n'), tvAddress);
      }
    }

    /** `_execute_cec_command`: nothing is run while unavailable. */
    method ExecuteCecCommand(command: string, o: Outcome) returns (success: bool, output: string, ran: bool)
      ensures ran <==> isAvailable
      ensures !isAvailable ==> !success && output == NotAvailable
      ensures isAvailable ==> (success, output) == CommandResult(o)
    {
      if !isAvailable {
        return false, NotAvailable, false;
      }
      var r := CommandResult(o);
      success, output, ran := r.0, r.1, true;
    }

    /** `power_on_tv`: sends "on <address>". */
    method PowerOnTv(o: Outcome) returns (command: string, reply: PowerReply)
      ensures command == "on " + tvAddress
      ensures reply.tvAddress == tvAddress
      ensures !isAvailable ==> !reply.success && reply.output == NotAvailable
      ensures isAvailable ==> (reply.success, reply.output) == CommandResult(o)
      ensures reply.message == if reply.success then "TV power on command sent" else "Failed to power on TV: " + reply.output
    {
      command := "on " + tvAddress;
      var success, output, _ := ExecuteCecCommand(command, o);
      reply := PowerReply(success, if success then "TV power on command sent" else "Failed to power on TV: " + output,
                          output, tvAddress);
    }

    /** `power_off_tv`: sends "standby <address>". */
    method PowerOffTv(o: Outcome) returns (command: string, reply: PowerReply)
      ensures command == "standby " + tvAddress
      ensures reply.tvAddress == tvAddress
      ensures !isAvailable ==> !reply.success && reply.output == NotAvailable
      ensures isAvailable ==> (reply.success, reply.output) == CommandResult(o)
      ensures reply.message == if reply.success then "TV standby command sent" else "Failed to put TV in standby: " + reply.output
    {
      command := "standby " + tvAddress;
      var success, output, _ := ExecuteCecCommand(command, o);
      reply := PowerReply(success, if success then "TV standby command sent" else "Failed to put TV in standby: " + output,
                          output, tvAddress);
    }

    /** `get_tv_power_status`: sends "pow <address>"; an unavailable manager reports "unknown". */
    method GetTvPowerStatus(o: Outcome) returns (command: string, reply: StatusReply)
      ensures command == "pow " + tvAddress
      ensures !isAvailable ==> reply == StatusReply(false, "unknown", NotAvailable, tvAddress)
      ensures isAvailable ==>
        var (success, output) := CommandResult(o);
        reply == StatusReply(success, PowerStatus(success, output), output, tvAddress)
    {
      command := "pow " + tvAddress;
      var success, output, _ := ExecuteCecCommand(command, o);
      reply := StatusReply(success, PowerStatus(success, output), output, tvAddress);
    }

    /** `scan_devices`: scans, then reports availability as the success flag. */
    method ScanDevices(o: Outcome) returns (success: bool, st: Status)
      modifies this
      ensures success == isAvailable && st == GetStatus()
      ensures o.Completed? && o.returnCode == 0 ==> cecDevices == TvLines(Split(o.stdout, '\n'))
      ensures !(o.Completed? && o.returnCode == 0) ==> cecDevices == old(cecDevices) && tvAddress == old(tvAddress)
      ensures isAvailable == old(isAvailable) && cecAdapter == old(cecAdapter)
    {
      ScanCecDevices(o);
      success := isAvailable;
      st := GetStatus();
    }

    /** `get_status`. */
    function GetStatus(): (st: Status)
      reads this
      ensures st.available == isAvailable && st.adapter == cecAdapter
      ensures st.tvAddress == tvAddress && st.devices == cecDevices
    {
      Status(isAvailable, cecAdapter, tvAddress, cecDevices)
    }
  }
}

=== FILE: health_monitor.dfy ===
/**
 * One tick of `mpv_pool_health_monitor`, in its two versions: core/health_monitor.py
 * health-checks each started pool, and managers/health_monitor.py also restarts a
 * pool that was never started and skips a suspended video pool. The sleep between
 * ticks and the exception handling around them are not part of this model.
 */
module HealthMonitor {
  import opened Wrappers
  import opened MpvPools

  /** Which pool a warning is about. */
  datatype PoolKind = AudioPool | VideoPool

  /** What one tick did to one pool. */
  datatype Action = Skipped | Reinitialized(ok: bool) | Checked(report: HealthReport)

  /** A warning is logged for a check that restarted or lost some slot. */
  predicate Warns(a: Action)
  {
    a.Checked? && (a.report.restarted > 0 || a.report.failed > 0)
  }

  /** The warnings of one tick, the audio pool's first. */
  function Warnings(audio: Action, video: Action): (w: seq<PoolKind>)
    ensures AudioPool in w <==> Warns(audio)
    ensures VideoPool in w <==> Warns(video)
    ensures |w| <= 2 && (|w| == 2 ==> w == [AudioPool, VideoPool])
  {
    (if Warns(audio) then [AudioPool] else []) + (if Warns(video) then [VideoPool] else [])
  }

  /** core/health_monitor.py: a pool is checked when it has at least one process. */
  function CoreStep(st: PoolState, size: int, restartOk: set<int>, reconnectOk: set<int>): (r: (Action, PoolState))
    ensures r.0.Checked? <==> st.processes != map[]
    ensures r.0.Skipped? ==> r.1 == st
    ensures r.0.Checked? ==> (r.0.report, r.1) == Health(st, size, restartOk, reconnectOk)
  {
    if st.processes == map[] then (Skipped, st)
    else
      var (report, s) := Health(st, size, restartOk, reconnectOk);
      (Checked(report), s)
  }

  /**
   * managers/health_monitor.py: a pool with slots but no process is initialised
   * again instead of checked; a pool with processes is checked; a suspended pool
   * is left alone.
   */
  function ManagedStep(st: PoolState, size: int, suspended: bool, startOk: set<int>, restartOk: set<int>, reconnectOk: set<int>): (r: (Action, PoolState))
    ensures suspended ==> r == (Skipped, st)
    ensures r.0.Reinitialized? <==> !suspended && size > 0 && st.processes == map[]
    ensures r.0.Checked? <==> !suspended && st.processes != map[]
  {
    if suspended then (Skipped, st)
    else if size > 0 && st.processes == map[] then
      var ok := forall q :: 1 <= q <= size ==> q in startOk;
      (Reinitialized(ok), if ok then StartAll(st, size + 1) else Empty)
    else if st.processes != map[] then
      var (report, s) := Health(st, size, restartOk, reconnectOk);
      (Checked(report), s)
    else (Skipped, st)
  }

  /** A successful reinitialisation leaves every slot running, connected and idle; a failed one leaves the pool empty. */
  lemma ReinitializeOutcome(st: PoolState, size: int, startOk: set<int>, restartOk: set<int>, reconnectOk: set<int>)
    requires size > 0 && st.processes == map[]
    ensures var (a, s) := ManagedStep(st, size, false, startOk, restartOk, reconnectOk);
      a == Reinitialized(forall q :: 1 <= q <= size ==> q in startOk) &&
      (a.ok ==> forall q :: 1 <= q <= size ==> Started(s, q)) &&
      (!a.ok ==> s == Empty)
  {
  }

  /** No slot was restarted or failed exactly when every slot came out healthy (possibly reconnected). */
  lemma {:induction false} NoTroubleAllHealthy(st: PoolState, total: int, n: int, restartOk: set<int>, reconnectOk: set<int>)
    ensures var rep := HealthUpTo(st, total, n, restartOk, reconnectOk).0;
      rep.restarted + rep.failed == 0 <==> forall q :: q in rep.outcomes ==> CategoryOf(rep.outcomes[q]) == HealthyCount
    decreases n
  {
    if n > 1 {
      NoTroubleAllHealthy(st, total, n - 1, restartOk, reconnectOk);
      var prev := HealthUpTo(st, total, n - 1, restartOk, reconnectOk);
      var c := Check(prev.1, n - 1, restartOk, reconnectOk);
      var rep := Record(prev.0, n - 1, c.0);
      assert HealthUpTo(st, total, n, restartOk, reconnectOk).0 == rep;
      if forall q :: q in rep.outcomes ==> CategoryOf(rep.outcomes[q]) == HealthyCount {
        assert CategoryOf(rep.outcomes[n - 1]) == HealthyCount;
        forall q | q in prev.0.outcomes
          ensures CategoryOf(prev.0.outcomes[q]) == HealthyCount
        {
          assert rep.outcomes[q] == prev.0.outcomes[q];
        }
      }
    }
  }

  /** A checked pool warns exactly when some slot's outcome is not healthy. */
  lemma WarnsOnTrouble(st: PoolState, size: int, restartOk: set<int>, reconnectOk: set<int>)
    requires st.processes != map[]
    ensures var a := CoreStep(st, size, restartOk, reconnectOk).0;
      Warns(a) <==> exists q :: q in a.report.outcomes && CategoryOf(a.report.outcomes[q]) != HealthyCount
  {
    NoTroubleAllHealthy(st, size, size + 1, restartOk, reconnectOk);
  }

  /** The step of core/health_monitor.py on one pool. */
  method CheckOne(pool: Pool, restartOk: set<int>, reconnectOk: set<int>) returns (action: Action)
    requires pool.Valid()
    modifies pool
    ensures pool.Valid()
    ensures (action, pool.State()) == CoreStep(old(pool.State()), pool.poolSize, restartOk, reconnectOk)
  {
    action := Skipped;
    if pool.processes != map[] {
      var report := pool.HealthCheck(restartOk, reconnectOk);
      action := Checked(report);
    }
  }

  /**
   * One tick of core/health_monitor.py on the audio and video pools (either may be
   * absent): check each started pool, audio first, and collect the warnings.
   */
  method CoreTick(audio: Pool?, video: Pool?,
                  audioRestartOk: set<int>, audioReconnectOk: set<int>, videoRestartOk: set<int>, videoReconnectOk: set<int>)
    returns (audioAction: Action, videoAction: Action, warnings: seq<PoolKind>)
    requires audio != null ==> audio.Valid()
    requires video != null ==> video.Valid() && video != audio
    modifies audio, video
    ensures audio != null ==>
      audio.Valid() && (audioAction, audio.State()) == CoreStep(old(audio.State()), audio.poolSize, audioRestartOk, audioReconnectOk)
    ensures audio == null ==> audioAction == Skipped
    ensures video != null ==>
      video.Valid() && (videoAction, video.State()) == CoreStep(old(video.State()), video.poolSize, videoRestartOk, videoReconnectOk)
    ensures video == null ==> videoAction == Skipped
    ensures warnings == Warnings(audioAction, videoAction)
  {
    audioAction, videoAction := Skipped, Skipped;
    if audio != null {
      audioAction := CheckOne(audio, audioRestartOk, audioReconnectOk);
    }
    if video != null {
      videoAction := CheckOne(video, videoRestartOk, videoReconnectOk);
    }
    warnings := [];
    if Warns(audioAction) {
      warnings := warnings + [AudioPool];
    }
    if Warns(videoAction) {
      warnings := warnings + [VideoPool];
    }
  }

  /** The reinitialise-or-check step of managers/health_monitor.py on one pool. */
  method ManageOne(pool: Pool, suspended: bool, startOk: set<int>, restartOk: set<int>, reconnectOk: set<int>)
    returns (action: Action)
    requires pool.Valid()
    modifies pool
    ensures pool.Valid()
    ensures (action, pool.State()) == ManagedStep(old(pool.State()), pool.poolSize, suspended, startOk, restartOk, reconnectOk)
  {
    if suspended {
      action := Skipped;
    } else if pool.poolSize > 0 && pool.processes == map[] {
      var ok := pool.Initialize(startOk);
      action := Reinitialized(ok);
    } else if pool.processes != map[] {
      var report := pool.HealthCheck(restartOk, reconnectOk);
      action := Checked(report);
    } else {
      action := Skipped;
    }
  }

  /**
   * One tick of managers/health_monitor.py: the audio pool, then the video pool
   * unless `videoSuspended` (its `suspended` flag) is set.
   */
  method ManagersTick(audio: Pool?, video: Pool?, videoSuspended: bool,
                      audioStartOk: set<int>, audioRestartOk: set<int>, audioReconnectOk: set<int>,
                      videoStartOk: set<int>, videoRestartOk: set<int>, videoReconnectOk: set<int>)
    returns (audioAction: Action, videoAction: Action, warnings: seq<PoolKind>)
    requires audio != null ==> audio.Valid()
    requires video != null ==> video.Valid() && video != audio
    modifies audio, video
    ensures audio != null ==>
      audio.Valid() && (audioAction, audio.State()) == ManagedStep(old(audio.State()), audio.poolSize, false, audioStartOk, audioRestartOk, audioReconnectOk)
    ensures audio == null ==> audioAction == Skipped
    ensures video != null ==>
      video.Valid() && (videoAction, video.State()) == ManagedStep(old(video.State()), video.poolSize, videoSuspended, videoStartOk, videoRestartOk, videoReconnectOk)
    ensures video == null ==> videoAction == Skipped
    ensures warnings == Warnings(audioAction, videoAction)
  {
    audioAction, videoAction := Skipped, Skipped;
    if audio != null {
      audioAction := ManageOne(audio, false, audioStartOk, audioRestartOk, audioReconnectOk);
    }
    if video != null {
      videoAction := ManageOne(video, videoSuspended, videoStartOk, videoRestartOk, videoReconnectOk);
    }
    warnings := Warnings(audioAction, videoAction);
  }
}

=== FILE: homeassistant.dfy ===
/**
 * `HomeAssistantManager` (managers/homeassistant_manager.py): the canvas pushed
 * to Home Assistant as a media_player entity, and Home Assistant state changes
 * matched against automation rules. What the other managers report is an input
 * (`Sources`); the HTTP status of a push is an input; the actions a matched rule
 * triggers are outputs. YAML persistence and the WebSocket handshake are not
 * modelled.
 */
module HomeAssistant {
  import opened Wrappers
  import opened Text
  import Spotify

  // ---------------------------------------------------------------------------
  // HSG -> HA: the aggregated entity state
  // ---------------------------------------------------------------------------

  /**
   * What the other managers expose to the aggregation. A manager that is absent
   * reads as inactive: `spotifyPlaying` false, no audio or video stream, not casting.
   */
  datatype Sources = Sources(spotifyPlaying: bool, track: Spotify.TrackInfo,
                             audioStream: Option<string>, videoStream: Option<string>,
                             casting: bool)

  /** The `attributes` of the entity; friendly_name and volume_level never vary and are left out. */
  datatype Attributes = Attributes(mediaTitle: Option<string>, mediaArtist: Option<string>,
                                   mediaAlbum: Option<string>, entityPicture: Option<string>,
                                   source: string)

  datatype EntityState = EntityState(state: string, attributes: Attributes)

  /** Python truthiness of an optional string. */
  predicate Truthy(s: Option<string>)
  {
    s.Some? && s.value != ""
  }

  /** Whether any source is active. */
  predicate Active(s: Sources)
  {
    s.spotifyPlaying || Truthy(s.audioStream) || Truthy(s.videoStream) || s.casting
  }

  /** `ti.get("artists", "")` with newlines turned into ", ". */
  function Artists(track: Spotify.TrackInfo): (r: string)
    ensures '\n' !in r
  {
    var raw := track.artists.UnwrapOr("");
    ReplaceCharGone(raw, '\n', ", ");
    ReplaceAll(raw, "\n", ", ")
  }

  /**
   * `_aggregate_state`: the first active source in the order Spotify, audio
   * stream, video, Chromecast names the state; only Spotify and the audio
   * stream fill in media fields.
   */
  function AggregateState(s: Sources): (r: EntityState)
    ensures r.state == (if Active(s) then "playing" else "idle")
    ensures s.spotifyPlaying ==>
      r.attributes == Attributes(s.track.name, Some(Artists(s.track)), s.track.album, s.track.albumArtUrl, "spotify")
    ensures !s.spotifyPlaying && Truthy(s.audioStream) ==>
      r.attributes == Attributes(s.audioStream, None, None, None, "audio_stream")
    ensures !s.spotifyPlaying && !Truthy(s.audioStream) ==>
      r.attributes.mediaTitle.None? && r.attributes.mediaArtist.None? &&
      r.attributes.mediaAlbum.None? && r.attributes.entityPicture.None?
    ensures !s.spotifyPlaying && !Truthy(s.audioStream) && Truthy(s.videoStream) ==> r.attributes.source == "youtube"
    ensures !s.spotifyPlaying && !Truthy(s.audioStream) && !Truthy(s.videoStream) ==>
      r.attributes.source == (if s.casting then "chromecast" else "idle")
  {
    if s.spotifyPlaying then
      EntityState("playing", Attributes(s.track.name, Some(Artists(s.track)), s.track.album, s.track.albumArtUrl, "spotify"))
    else if Truthy(s.audioStream) then
      EntityState("playing", Attributes(s.audioStream, None, None, None, "audio_stream"))
    else if Truthy(s.videoStream) then
      EntityState("playing", Attributes(None, None, None, None, "youtube"))
    else if s.casting then
      EntityState("playing", Attributes(None, None, None, None, "chromecast"))
    else
      EntityState("idle", Attributes(None, None, None, None, "idle"))
  }

  /** The state is "idle" exactly when the source is, and an idle entity carries no media. */
  lemma IdleSourceIdle(s: Sources)
    ensures AggregateState(s).state == "idle" <==> AggregateState(s).attributes.source == "idle"
    ensures AggregateState(s).state == "idle" ==> AggregateState(s).attributes.mediaTitle.None?
  {
  }

  /** Sources below the first active one do not change what is pushed. */
  lemma HigherSourceWins(s: Sources, audio: Option<string>, video: Option<string>, casting: bool)
    requires s.spotifyPlaying
    ensures AggregateState(s) == AggregateState(Sources(true, s.track, audio, video, casting))
  {
  }

  // ---------------------------------------------------------------------------
  // HA -> HSG: automation rules
  // ---------------------------------------------------------------------------

  /** The arguments a rule may carry, each missing key as None. */
  datatype ActionArgs = ActionArgs(streamUrl: Option<string>, volume: Option<int>,
                                   youtubeUrl: Option<string>, duration: Option<int>, mute: Option<bool>,
                                   url: Option<string>, content: Option<string>, imageUrl: Option<string>,
                                   mode: Option<string>)

  /** One automation rule; a missing key reads as "". */
  datatype Rule = Rule(triggerEntity: string, triggerFrom: string, triggerTo: string,
                       action: string, args: ActionArgs)

  /** A `state_changed` event; a missing `new_state`/`old_state` (or its `state`) is None. */
  datatype Event = Event(entityId: string, oldState: Option<string>, newState: Option<string>)

  /** Whether `rule` fires on `e`: same entity, and each non-empty bound equals the state. */
  predicate Fires(rule: Rule, e: Event)
  {
    var oldVal := e.oldState.UnwrapOr("");
    var newVal := e.newState.UnwrapOr("");
    e.entityId == rule.triggerEntity &&
    (rule.triggerFrom == "" || oldVal == rule.triggerFrom) &&
    (rule.triggerTo == "" || newVal == rule.triggerTo)
  }

  /** The rules that fire on `e`, in list order. */
  function FiringRules(rules: seq<Rule>, e: Event): (r: seq<Rule>)
    ensures |r| <= |rules|
    ensures forall x :: x in r <==> x in rules && Fires(x, e)
  {
    if rules == [] then []
    else (if Fires(rules[0], e) then [rules[0]] else []) + FiringRules(rules[1..], e)
  }

  /** Appending a rule runs it after the others when it fires, and changes nothing otherwise. */
  lemma {:induction false} FiringRulesAppend(rules: seq<Rule>, rule: Rule, e: Event)
    ensures FiringRules(rules + [rule], e) == FiringRules(rules, e) + (if Fires(rule, e) then [rule] else [])
  {
    if rules == [] {
      assert rules + [rule] == [rule];
    } else {
      assert (rules + [rule])[1..] == rules[1..] + [rule];
      FiringRulesAppend(rules[1..], rule, e);
    }
  }

  /** A rule with no from/to bound fires on every change of its entity. */
  lemma UnboundRuleFires(rule: Rule, e: Event)
    requires rule.triggerFrom == "" && rule.triggerTo == "" && e.entityId == rule.triggerEntity
    ensures Fires(rule, e)
  {
  }

  /** A missing state is matched like the empty string: only a rule with no bound on it fires. */
  lemma MissingStateBound(rule: Rule, e: Event)
    requires e.newState.None? && rule.triggerTo != ""
    ensures !Fires(rule, e)
  {
  }

  /** What `_execute_action` does for one action name; every manager is taken to be present. */
  datatype Effect =
    | CecPowerOn
    | CecPowerOff
    | AudioStart(streamUrl: string, volume: Option<int>)
    | AudioStop
    | AudioVolume(level: int)
    | PlayYoutube(youtubeUrl: string, duration: Option<int>, mute: bool)
    | PlaybackStop
    | ShowBackground
    | ShowUrl(url: string)
    | ShowQrCode(content: string, duration: Option<int>)
    | ShowImage(imageUrl: string, seconds: int)
    | NavigateNowPlaying
    | NavigateStatic
    | WebcastStart(url: string)
    | WebcastStop
    | NoEffect

  /** The action names `_execute_action` knows. */
  predicate KnownAction(action: string)
  {
    action == "cec.tv_power_on" || action == "cec.tv_power_off" || action == "audio.start" ||
    action == "audio.stop" || action == "audio.volume" || action == "playback.youtube" ||
    action == "playback.stop" || action == "background.show" || action == "display.url" ||
    action == "display.qrcode" || action == "display.image" || action == "display.navigate" ||
    action == "webcast.start" || action == "webcast.stop"
  }

  /** Which of the managers the Home Assistant manager was given are present (not `None`). */
  datatype Managers = Managers(cec: bool, audio: bool, playback: bool, background: bool,
                               chromium: bool, image: bool, webcast: bool)

  /** Whether the manager that carries out `action` is present; an unknown action needs none. */
  predicate HasManager(m: Managers, action: string)
  {
    if action == "cec.tv_power_on" || action == "cec.tv_power_off" then m.cec
    else if action == "audio.start" || action == "audio.stop" || action == "audio.volume" then m.audio
    else if action == "playback.youtube" || action == "playback.stop" then m.playback
    else if action == "background.show" || action == "display.navigate" then m.background
    else if action == "display.url" then m.chromium
    else if action == "display.qrcode" || action == "display.image" then m.image
    else if action == "webcast.start" || action == "webcast.stop" then m.webcast
    else true
  }

  /**
   * `_execute_action`, with the defaults each action applies to its missing arguments;
   * an action whose manager is absent does nothing.
   */
  function ActionEffect(action: string, a: ActionArgs, m: Managers): (r: Effect)
    ensures r.NoEffect? <==> !KnownAction(action) || !HasManager(m, action)
    ensures HasManager(m, action) && action == "audio.volume" ==> r == AudioVolume(a.volume.UnwrapOr(50))
    ensures HasManager(m, action) && action == "display.image" ==> r == ShowImage(a.imageUrl.UnwrapOr(""), a.duration.UnwrapOr(10))
    ensures HasManager(m, action) && action == "playback.youtube" ==>
      r == PlayYoutube(a.youtubeUrl.UnwrapOr(""), a.duration, a.mute.UnwrapOr(false))
    ensures HasManager(m, action) && action == "display.navigate" ==> (r.NavigateNowPlaying? <==> a.mode == Some("now-playing"))
  {
    if !HasManager(m, action) then NoEffect
    else if action == "cec.tv_power_on" then CecPowerOn
    else if action == "cec.tv_power_off" then CecPowerOff
    else if action == "audio.start" then AudioStart(a.streamUrl.UnwrapOr(""), a.volume)
    else if action == "audio.stop" then AudioStop
    else if action == "audio.volume" then AudioVolume(a.volume.UnwrapOr(50))
    else if action == "playback.youtube" then PlayYoutube(a.youtubeUrl.UnwrapOr(""), a.duration, a.mute.UnwrapOr(false))
    else if action == "playback.stop" then PlaybackStop
    else if action == "background.show" then ShowBackground
    else if action == "display.url" then ShowUrl(a.url.UnwrapOr(""))
    else if action == "display.qrcode" then ShowQrCode(a.content.UnwrapOr(""), a.duration)
    else if action == "display.image" then ShowImage(a.imageUrl.UnwrapOr(""), a.duration.UnwrapOr(10))
    else if action == "display.navigate" then
      (if a.mode.UnwrapOr("static") == "now-playing" then NavigateNowPlaying else NavigateStatic)
    else if action == "webcast.start" then WebcastStart(a.url.UnwrapOr(""))
    else if action == "webcast.stop" then WebcastStop
    else NoEffect
  }

  /** The effects of the rules that fire, in order. */
  function Effects(fired: seq<Rule>, m: Managers): (r: seq<Effect>)
    ensures |r| == |fired|
    ensures forall i :: 0 <= i < |fired| ==> r[i] == ActionEffect(fired[i].action, fired[i].args, m)
  {
    if fired == [] then [] else [ActionEffect(fired[0].action, fired[0].args, m)] + Effects(fired[1..], m)
  }

  /** Effects are produced rule by rule. */
  lemma {:induction false} EffectsAppend(fired: seq<Rule>, rule: Rule, m: Managers)
    ensures Effects(fired + [rule], m) == Effects(fired, m) + [ActionEffect(rule.action, rule.args, m)]
  {
    if fired == [] {
      assert fired + [rule] == [rule];
    } else {
      assert (fired + [rule])[1..] == fired[1..] + [rule];
      EffectsAppend(fired[1..], rule, m);
    }
  }

  /**
   * `_handle_ha_event`: every rule is visited in list order and the action of
   * each one that fires is executed.
   */
  method HandleHaEvent(rules: seq<Rule>, e: Event, m: Managers) returns (effects: seq<Effect>)
    ensures effects == Effects(FiringRules(rules, e), m)
  {
    effects := [];
    ghost var fired: seq<Rule> := [];
    var i := 0;
    while i < |rules|
      invariant 0 <= i <= |rules|
      invariant fired == FiringRules(rules[..i], e)
      invariant effects == Effects(fired, m)
    {
      var rule := rules[i];
      FiringRulesAppend(rules[..i], rule, e);
      assert rules[..i + 1] == rules[..i] + [rule];
      if Fires(rule, e) {
        EffectsAppend(fired, rule, m);
        effects := effects + [ActionEffect(rule.action, rule.args, m)];
        fired := fired + [rule];
      }
      i := i + 1;
    }
    assert rules[..i] == rules;
  }

  // ---------------------------------------------------------------------------
  // Configuration
  // ---------------------------------------------------------------------------

  /** `get_config`'s token: eight stars and the last four characters, or "****", or "". */
  function MaskToken(token: string): (r: string)
    ensures |token| > 4 ==> |r| == 12 && r[8..] == token[|token| - 4..]
    ensures forall i :: 0 <= i < |r| - 4 ==> r[i] == '*'
    ensures 0 < |token| <= 4 ==> r == "****"
    ensures token == [] <==> r == []
  {
    if |token| > 4 then "********" + token[|token| - 4..]
    else if token != [] then "****"
    else ""
  }

  /** The mask depends only on the token's last four characters, or only on its being short and non-empty. */
  lemma MaskHidesPrefix(t1: string, t2: string)
    requires |t1| > 4 && |t2| > 4 && t1[|t1| - 4..] == t2[|t2| - 4..]
    ensures MaskToken(t1) == MaskToken(t2)
  {
  }

  /** What `get_config` returns. */
  datatype Config = Config(haUrl: string, haToken: string, entityId: string, enabled: bool, automations: seq<Rule>)

  /** What `get_status` returns; `running` stands for both background tasks. */
  datatype Status = Status(enabled: bool, haUrl: string, entityId: string, hasToken: bool,
                           running: bool, lastPushedState: Option<string>, automationsCount: nat)

  /** Whether the push loop and WebSocket listener should run. */
  predicate Configured(enabled: bool, url: string, token: string)
  {
    enabled && url != "" && token != ""
  }

  /**
   * One push attempt (`_push_state_to_ha`): nothing is sent without a URL and a
   * token; `_last_pushed_state` becomes `current` only on HTTP 200 or 201.
   * `status` is None when the request raised.
   */
  function Push(last: Option<EntityState>, url: string, token: string, current: EntityState, status: Option<int>): (r: (bool, Option<EntityState>))
    ensures r.0 <==> url != "" && token != "" && (status == Some(200) || status == Some(201))
    ensures r.1 == if r.0 then Some(current) else last
  {
    if url == "" || token == "" then (false, last)
    else if status == Some(200) || status == Some(201) then (true, Some(current))
    else (false, last)
  }

  /**
   * One tick of `_state_push_loop`: when enabled, aggregate and push only if the
   * state differs from the last one pushed. Returns whether a push was attempted
   * and the new last-pushed state.
   */
  function PushTick(last: Option<EntityState>, enabled: bool, url: string, token: string, s: Sources, status: Option<int>): (r: (bool, Option<EntityState>))
    ensures r.0 <==> enabled && last != Some(AggregateState(s))
    ensures !r.0 ==> r.1 == last
    ensures r.0 ==> r.1 == Push(last, url, token, AggregateState(s), status).1
  {
    var current := AggregateState(s);
    if enabled && last != Some(current) then (true, Push(last, url, token, current, status).1)
    else (false, last)
  }

  /** After a successful push, the next tick over the same sources sends nothing. */
  lemma NoRepeatPush(last: Option<EntityState>, url: string, token: string, s: Sources, status1: Option<int>, status2: Option<int>)
    requires url != "" && token != "" && status1 == Some(200)
    ensures !PushTick(PushTick(last, true, url, token, s, status1).1, true, url, token, s, status2).0
  {
  }

  class Manager {
    var haUrl: string
    var haToken: string
    var entityId: string
    var enabled: bool
    var automations: seq<Rule>
    var lastPushed: Option<EntityState>
    /** Whether the push loop and the WebSocket listener are running. */
    var running: bool
    /** Which of the managers passed to `__init__` are present. */
    const managers: Managers

    constructor (m: Managers)
      ensures managers == m
      ensures haUrl == "" && haToken == "" && entityId == "media_player.hsg_canvas"
      ensures !enabled && automations == [] && lastPushed.None? && !running
    {
      haUrl, haToken, entityId, enabled := "", "", "media_player.hsg_canvas", false;
      automations, lastPushed, running := [], None, false;
      managers := m;
    }

    /**
     * `update_config`: a field given as None keeps its value, the URL loses its
     * trailing slashes, and the background tasks run afterwards exactly when
     * enabled with a URL and a token.
     */
    method UpdateConfig(url: Option<string>, token: Option<string>, entity: Option<string>, enable: Option<bool>)
      returns (st: Status)
      modifies this
      ensures haUrl == if url.Some? then RStripChar(url.value, '/') else old(haUrl)
      ensures haToken == old(token.UnwrapOr(haToken))
      ensures entityId == old(entity.UnwrapOr(entityId))
      ensures enabled == old(enable.UnwrapOr(enabled))
      ensures haUrl == [] || haUrl[|haUrl| - 1] != '/' || (url.None? && haUrl == old(haUrl))
      ensures running <==> Configured(enabled, haUrl, haToken)
      ensures automations == old(automations) && lastPushed == old(lastPushed)
      ensures st == GetStatus()
    {
      if url.Some? {
        haUrl := RStripChar(url.value, '/');
      }
      if token.Some? {
        haToken := token.value;
      }
      if entity.Some? {
        entityId := entity.value;
      }
      if enable.Some? {
        enabled := enable.value;
      }
      running := Configured(enabled, haUrl, haToken);
      st := GetStatus();
    }

    /** One tick of the push loop, with the HTTP status the push would get. */
    method StatePushTick(s: Sources, status: Option<int>) returns (attempted: bool)
      modifies this
      ensures (attempted, lastPushed) == PushTick(old(lastPushed), enabled, haUrl, haToken, s, status)
      ensures haUrl == old(haUrl) && haToken == old(haToken) && enabled == old(enabled)
      ensures entityId == old(entityId) && automations == old(automations) && running == old(running)
    {
      attempted := false;
      if enabled {
        var current := AggregateState(s);
        if lastPushed != Some(current) {
          attempted := true;
          var (_, last) := Push(lastPushed, haUrl, haToken, current, status);
          lastPushed := last;
        }
      }
    }

    /** `notify_state_change`: when enabled, push whether or not the state changed. */
    method NotifyStateChange(s: Sources, status: Option<int>) returns (pushed: bool)
      modifies this
      ensures !enabled ==> !pushed && lastPushed == old(lastPushed)
      ensures enabled ==> (pushed, lastPushed) == Push(old(lastPushed), haUrl, haToken, AggregateState(s), status)
      ensures haUrl == old(haUrl) && haToken == old(haToken) && enabled == old(enabled)
      ensures entityId == old(entityId) && automations == old(automations) && running == old(running)
    {
      pushed := false;
      if enabled {
        var r := Push(lastPushed, haUrl, haToken, AggregateState(s), status);
        pushed, lastPushed := r.0, r.1;
      }
    }

    /** `_handle_ha_event` over the configured rules. */
    method HandleEvent(e: Event) returns (effects: seq<Effect>)
      ensures effects == Effects(FiringRules(automations, e), managers)
    {
      effects := HandleHaEvent(automations, e, managers);
    }

    /** `get_status`. */
    function GetStatus(): (st: Status)
      reads this
      ensures st.hasToken <==> haToken != ""
      ensures st.lastPushedState == if lastPushed.Some? then Some(lastPushed.value.state) else None
      ensures st.automationsCount == |automations| && st.running == running
    {
      Status(enabled, haUrl, entityId, haToken != "", running,
             if lastPushed.Some? then Some(lastPushed.value.state) else None, |automations|)
    }

    /** `get_config`: everything as stored, except the token, which is masked. */
    function GetConfig(): (c: Config)
      reads this
      ensures c.haToken == MaskToken(haToken)
      ensures c.haUrl == haUrl && c.entityId == entityId && c.enabled == enabled && c.automations == automations
    {
      Config(haUrl, MaskToken(haToken), entityId, enabled, automations)
    }

    /** `cleanup`: the background tasks stop. */
    method Cleanup()
      modifies this
      ensures !running
      ensures haUrl == old(haUrl) && haToken == old(haToken) && enabled == old(enabled)
      ensures entityId == old(entityId) && automations == old(automations) && lastPushed == old(lastPushed)
    {
      running := false;
    }
  }
}

=== FILE: layout.dfy ===
/**
 * `LayoutEngine` (background_engine/layout.py): placing the components of the
 * generated background picture on the canvas. A component is known here by its
 * id and the sizes it asks for (`calculate_size`, `get_min_size`,
 * `get_max_size`), which are inputs; drawing is not modelled, only which
 * component is drawn with which layout.
 */
module Layout {
  import opened Wrappers
  import opened Numeric

  /** The part of `BackgroundConfig` the engine reads; fractions are reals. */
  datatype LayoutConfig = LayoutConfig(canvasPadding: real, defaultSpacing: real, algorithm: string,
                                       centerHorizontally: bool, verticalAlignment: string)

  /** A component: its id and the sizes it asks for, its maximum being the canvas unless it says otherwise. */
  datatype Component = Component(id: string, width: int, height: int, minWidth: int, minHeight: int,
                                 maxWidth: int, maxHeight: int)

  /** One `components` entry: spacings are fractions of the canvas height. */
  datatype Entry = Entry(component: Component, spacingBefore: real, spacingAfter: real)

  /** One `component_info` entry: the clamped size and the spacings in pixels. */
  datatype Info = Info(id: string, width: int, height: int, spacingBefore: real, spacingAfter: real,
                       beforePx: int, afterPx: int)

  /** `ComponentLayout`. */
  datatype ComponentLayout = ComponentLayout(x: int, y: int, width: int, height: int, id: string,
                                             spacingBefore: real, spacingAfter: real)

  /** The content area: the canvas less its padding. */
  datatype Area = Area(x: int, y: int, width: int, height: int)

  /** The content area for a canvas: the padding is taken off each side. */
  function ContentArea(canvasWidth: int, canvasHeight: int, padding: real): (a: Area)
    ensures a.width == canvasWidth - 2 * a.x && a.height == canvasHeight - 2 * a.y
    ensures a.x == Trunc(canvasWidth as real * padding) && a.y == Trunc(canvasHeight as real * padding)
    ensures 0 <= canvasWidth && 0 <= canvasHeight && 0.0 <= padding <= 0.5 ==>
      0 <= a.x && 0 <= a.y && 0 <= a.width <= canvasWidth && 0 <= a.height <= canvasHeight
  {
    var px := Trunc(canvasWidth as real * padding);
    var py := Trunc(canvasHeight as real * padding);
    if 0 <= canvasWidth && 0 <= canvasHeight && 0.0 <= padding <= 0.5 then
      AtMostHalf(canvasWidth, padding);
      AtMostHalf(canvasHeight, padding);
      Area(px, py, canvasWidth - 2 * px, canvasHeight - 2 * py)
    else Area(px, py, canvasWidth - 2 * px, canvasHeight - 2 * py)
  }

  /** A share of at most a half of a non-negative length, truncated, fits twice into it. */
  lemma AtMostHalf(n: int, share: real)
    requires 0 <= n && 0.0 <= share <= 0.5
    ensures 0 <= Trunc(n as real * share) && 2 * Trunc(n as real * share) <= n
  {
    var x := n as real * share;
    assert n as real * (0.5 - share) >= 0.0;
    assert 0.0 <= x <= n as real / 2.0;
    assert Trunc(x) as real <= x;
  }

  /** `min(max(v, lo), min(hi, limit))`: never above the maximum or the content area. */
  function ClampSize(v: int, lo: int, hi: int, limit: int): (r: int)
    ensures r <= hi && r <= limit
    ensures lo <= hi && lo <= limit ==> lo <= r
    ensures lo <= v <= hi && v <= limit ==> r == v
  {
    var up := if v > lo then v else lo;
    var cap := if hi < limit then hi else limit;
    if up < cap then up else cap
  }

  /** The `component_info` entry of one component. */
  function InfoOf(e: Entry, canvasHeight: int, area: Area): (r: Info)
    ensures r.id == e.component.id
    ensures r.width <= area.width && r.height <= area.height
  {
    var c := e.component;
    Info(c.id, ClampSize(c.width, c.minWidth, c.maxWidth, area.width),
         ClampSize(c.height, c.minHeight, c.maxHeight, area.height),
         e.spacingBefore, e.spacingAfter,
         Trunc(e.spacingBefore * canvasHeight as real), Trunc(e.spacingAfter * canvasHeight as real))
  }

  /** The height a stack of components takes, spacings included. */
  function TotalHeight(infos: seq<Info>): int
  {
    if infos == [] then 0
    else TotalHeight(infos[..|infos| - 1]) +
         (infos[|infos| - 1].beforePx + infos[|infos| - 1].height + infos[|infos| - 1].afterPx)
  }

  /** The `component_info` list of the registered components. */
  function Infos(entries: seq<Entry>, canvasHeight: int, area: Area): seq<Info>
  {
    seq(|entries|, i requires 0 <= i < |entries| => InfoOf(entries[i], canvasHeight, area))
  }

  /** The first loop of `calculate_layout`: sizes, pixel spacings and their total. */
  method ComponentInfos(entries: seq<Entry>, canvasHeight: int, area: Area) returns (infos: seq<Info>, total: int)
    ensures infos == Infos(entries, canvasHeight, area)
    ensures total == TotalHeight(infos)
  {
    infos, total := [], 0;
    for i := 0 to |entries|
      invariant |infos| == i
      invariant forall k :: 0 <= k < i ==> infos[k] == InfoOf(entries[k], canvasHeight, area)
      invariant total == TotalHeight(infos)
    {
      var info := InfoOf(entries[i], canvasHeight, area);
      assert (infos + [info])[..|infos|] == infos;
      infos := infos + [info];
      total := total + info.beforePx + info.height + info.afterPx;
    }
    assert infos == Infos(entries, canvasHeight, area);
  }

  // ---------------------------------------------------------------------------
  // Vertical flow
  // ---------------------------------------------------------------------------

  /** Where component x goes across: centred in the content area, or at its left edge. */
  function ColumnX(area: Area, width: int, center: bool): int
  {
    if center then area.x + (area.width - width) / 2 else area.x
  }

  /** The first y of a vertical flow, by alignment; anything unrecognised starts at the top. */
  function FlowStart(area: Area, total: int, alignment: string): (y: int)
    ensures alignment != "center" && alignment != "bottom" ==> y == area.y
    ensures alignment == "bottom" ==> y + total == area.y + area.height
    ensures alignment == "center" && total <= area.height ==> area.y <= y && y + total <= area.y + area.height
    ensures alignment == "center" ==> (y - area.y) - (area.y + area.height - (y + total)) in {-1, 0}
  {
    if alignment == "center" then area.y + (area.height - total) / 2
    else if alignment == "bottom" then area.y + area.height - total
    else area.y
  }

  /** The extra gap between components: only for "distribute", spreading the free height over the gaps. */
  function FlowGap(area: Area, total: int, n: nat, alignment: string): (g: int)
    ensures alignment != "distribute" || n <= 1 ==> g == 0
    ensures alignment == "distribute" && n > 1 && total <= area.height ==> 0 <= g && g * (n - 1) <= area.height - total
  {
    if alignment == "distribute" && n > 1 then (area.height - total) / (n - 1) else 0
  }

  /**
   * The y of each component of a vertical flow starting at `cur`: the spacing
   * before, the gap when it is not the first, then its height and spacing after.
   */
  function FlowYs(infos: seq<Info>, cur: int, gap: int, first: bool): (ys: seq<int>)
    ensures |ys| == |infos|
  {
    if infos == [] then []
    else
      var y := cur + infos[0].beforePx + (if first then 0 else gap);
      [y] + FlowYs(infos[1..], y + infos[0].height + infos[0].afterPx, gap, false)
  }

  /** Consecutive components are one height, the spacings between them and the gap apart. */
  lemma {:induction false} FlowYsStep(infos: seq<Info>, cur: int, gap: int, first: bool, i: nat)
    requires i + 1 < |infos|
    ensures var ys := FlowYs(infos, cur, gap, first);
      ys[i + 1] == ys[i] + infos[i].height + infos[i].afterPx + infos[i + 1].beforePx + gap
    decreases i
  {
    if i > 0 {
      var y := cur + infos[0].beforePx + (if first then 0 else gap);
      FlowYsStep(infos[1..], y + infos[0].height + infos[0].afterPx, gap, false, i - 1);
    }
  }

  /** With no negative spacing or gap, components never overlap and keep their order. */
  lemma FlowNoOverlap(infos: seq<Info>, cur: int, gap: int, first: bool, i: nat)
    requires i + 1 < |infos| && gap >= 0
    requires infos[i].afterPx >= 0 && infos[i + 1].beforePx >= 0
    ensures var ys := FlowYs(infos, cur, gap, first); ys[i] + infos[i].height <= ys[i + 1]
  {
    FlowYsStep(infos, cur, gap, first, i);
  }

  /** A layout from its info and position. */
  function Place(info: Info, x: int, y: int): ComponentLayout
  {
    ComponentLayout(x, y, info.width, info.height, info.id, info.spacingBefore, info.spacingAfter)
  }

  /** A vertical flow: one layout per component, in order, each at its `FlowYs` y from the aligned start. */
  function FlowLayouts(infos: seq<Info>, total: int, area: Area, center: bool, alignment: string): (r: seq<ComponentLayout>)
    ensures |r| == |infos|
    ensures forall i :: 0 <= i < |r| ==> r[i].id == infos[i].id && r[i].width == infos[i].width && r[i].height == infos[i].height
    ensures !center ==> forall i :: 0 <= i < |r| ==> r[i].x == area.x
    ensures infos != [] ==> r[0].y == FlowStart(area, total, alignment) + infos[0].beforePx
  {
    var ys := FlowYs(infos, FlowStart(area, total, alignment), FlowGap(area, total, |infos|, alignment), true);
    seq(|infos|, i requires 0 <= i < |infos| => Place(infos[i], ColumnX(area, infos[i].width, center), ys[i]))
  }

  /** The free height of a content area that fits the stack is never negative, so neither is the gap. */
  lemma GapNonNegative(area: Area, total: int, n: nat)
    requires total <= area.height
    ensures FlowGap(area, total, n, "distribute") >= 0
  {
    if n > 1 {
      var free := area.height - total;
      assert free / (n - 1) >= 0;
    }
  }

  /**
   * A "distribute" flow that fits the content area, with no negative spacing,
   * stacks its components top to bottom without overlap.
   */
  lemma DistributedFlowOrdered(infos: seq<Info>, area: Area, center: bool, i: nat)
    requires i + 1 < |infos| && TotalHeight(infos) <= area.height
    requires forall k :: 0 <= k < |infos| ==> infos[k].beforePx >= 0 && infos[k].afterPx >= 0
    ensures var r := FlowLayouts(infos, TotalHeight(infos), area, center, "distribute");
      r[i].y + r[i].height <= r[i + 1].y
  {
    var total := TotalHeight(infos);
    var gap := FlowGap(area, total, |infos|, "distribute");
    GapNonNegative(area, total, |infos|);
    var ys := FlowYs(infos, FlowStart(area, total, "distribute"), gap, true);
    assert infos[i].afterPx >= 0 && infos[i + 1].beforePx >= 0;
    FlowNoOverlap(infos, FlowStart(area, total, "distribute"), gap, true, i);
    var r := FlowLayouts(infos, total, area, center, "distribute");
    assert r[i].y == ys[i] && r[i + 1].y == ys[i + 1] && r[i].height == infos[i].height;
  }

  /** `_calculate_vertical_flow_layout`, walking down the content area. */
  method VerticalFlow(infos: seq<Info>, total: int, area: Area, center: bool, alignment: string)
    returns (layouts: seq<ComponentLayout>)
    ensures layouts == FlowLayouts(infos, total, area, center, alignment)
  {
    var start := FlowStart(area, total, alignment);
    var gap := FlowGap(area, total, |infos|, alignment);
    ghost var ys := FlowYs(infos, start, gap, true);
    var currentY := start;
    layouts := [];
    for i := 0 to |infos|
      invariant |layouts| == i
      invariant forall k :: 0 <= k < i ==> layouts[k] == Place(infos[k], ColumnX(area, infos[k].width, center), ys[k])
      invariant FlowYs(infos[i..], currentY, gap, i == 0) == ys[i..]
    {
      assert infos[i..][1..] == infos[i + 1..];
      assert ys[i..][1..] == ys[i + 1..];
      currentY := currentY + infos[i].beforePx;
      if alignment == "distribute" && i > 0 {
        currentY := currentY + gap;
      }
      var x := ColumnX(area, infos[i].width, center);
      layouts := layouts + [Place(infos[i], x, currentY)];
      currentY := currentY + infos[i].height + infos[i].afterPx;
    }
    assert layouts == FlowLayouts(infos, total, area, center, alignment);
  }

  // ---------------------------------------------------------------------------
  // Golden ratio and rule of thirds
  // ---------------------------------------------------------------------------

  /** The y of middle component `k` (counted from 1) of `n`: spread over the free height, centred on its share. */
  function GoldenMiddleY(startY: int, available: int, k: nat, n: nat, h: int): int
    requires n >= 2
  {
    Trunc(startY as real + available as real * (k as real / (n - 1) as real) - (h / 2) as real)
  }

  /** The middle components of a golden-ratio layout, in order. */
  function GoldenMiddle(infos: seq<Info>, area: Area, startY: int, available: int): (r: seq<ComponentLayout>)
    requires |infos| >= 2
    ensures |r| == |infos| - 2
    ensures forall k :: 0 <= k < |r| ==> r[k] == Place(infos[k + 1], ColumnX(area, infos[k + 1].width, true),
                                                      GoldenMiddleY(startY, available, k + 1, |infos|, infos[k + 1].height))
  {
    seq(|infos| - 2, k requires 0 <= k < |infos| - 2 =>
      Place(infos[k + 1], ColumnX(area, infos[k + 1].width, true),
            GoldenMiddleY(startY, available, k + 1, |infos|, infos[k + 1].height)))
  }

  /** The first of several components sits around the upper golden line, not above the content area. */
  function GoldenFirstY(upper: int, area: Area, h: int): (y: int)
    ensures y >= area.y
  {
    if area.y > upper - h / 2 then area.y else upper - h / 2
  }

  /** The last of several components sits around the lower golden line, not below the content area. */
  function GoldenLastY(lower: int, area: Area, h: int): (y: int)
    ensures y + h <= area.y + area.height
  {
    if area.y + area.height - h < lower - h / 2 then area.y + area.height - h else lower - h / 2
  }

  /** Layouts agree with their infos on id and size, position by position. */
  predicate SameComponents(r: seq<ComponentLayout>, infos: seq<Info>)
  {
    |r| == |infos| &&
    forall i :: 0 <= i < |infos| ==> r[i].id == infos[i].id && r[i].width == infos[i].width && r[i].height == infos[i].height
  }

  /** Several components: the first on the upper line, the middle ones spread, the last on the lower line. */
  function GoldenSeveral(infos: seq<Info>, upper: int, lower: int, area: Area): (r: seq<ComponentLayout>)
    requires |infos| >= 2
    ensures SameComponents(r, infos)
    ensures r[0].y >= area.y && r[|r| - 1].y + r[|r| - 1].height <= area.y + area.height
  {
    var n := |infos|;
    var f := infos[0];
    var l := infos[n - 1];
    var fy := GoldenFirstY(upper, area, f.height);
    var ly := GoldenLastY(lower, area, l.height);
    var middle := GoldenMiddle(infos, area, fy + f.height, ly - (fy + f.height));
    var r := [Place(f, ColumnX(area, f.width, true), fy)] + middle + [Place(l, ColumnX(area, l.width, true), ly)];
    assert forall i :: 1 <= i < n - 1 ==> r[i] == middle[i - 1];
    r
  }

  /**
   * `_calculate_golden_ratio_layout`: one component sits around the upper
   * golden line; otherwise the first sits there (not above the content area),
   * the last around the lower line (not below it), and the middle ones are
   * spread between them in order.
   */
  function GoldenLayouts(infos: seq<Info>, canvasHeight: int, area: Area): (r: seq<ComponentLayout>)
    requires |infos| >= 1
    ensures SameComponents(r, infos)
    ensures |infos| >= 2 ==> r[0].y >= area.y && r[|r| - 1].y + r[|r| - 1].height <= area.y + area.height
  {
    var upper := Trunc(canvasHeight as real * 0.382);
    var lower := Trunc(canvasHeight as real * 0.618);
    if |infos| == 1 then [Place(infos[0], ColumnX(area, infos[0].width, true), upper - infos[0].height / 2)]
    else GoldenSeveral(infos, upper, lower, area)
  }

  /** The y that centres a component of height `h` in section `i % 3` of the content area. */
  function ThirdsY(area: Area, i: nat, h: int): int
  {
    var section := area.height / 3;
    area.y + (i % 3) * section + section / 2 - h / 2
  }

  /**
   * `_calculate_rule_of_thirds_layout`: a single component is centred on the
   * upper third line of the canvas; otherwise component i is centred in section
   * i % 3 of the content area.
   */
  function ThirdsLayouts(infos: seq<Info>, canvasHeight: int, area: Area): (r: seq<ComponentLayout>)
    ensures |r| == |infos|
    ensures forall i :: 0 <= i < |r| ==> r[i].id == infos[i].id && r[i].width == infos[i].width && r[i].height == infos[i].height
    ensures |infos| == 1 ==> r[0].y + infos[0].height / 2 == canvasHeight / 3
    ensures |infos| != 1 ==> forall i :: 0 <= i < |r| ==> r[i].y + infos[i].height / 2 == area.y + (i % 3) * (area.height / 3) + (area.height / 3) / 2
  {
    if |infos| == 1 then [Place(infos[0], ColumnX(area, infos[0].width, true), canvasHeight / 3 - infos[0].height / 2)]
    else seq(|infos|, i requires 0 <= i < |infos| => Place(infos[i], ColumnX(area, infos[i].width, true), ThirdsY(area, i, infos[i].height)))
  }

  /** `_calculate_rule_of_thirds_layout`, one component at a time. */
  method RuleOfThirds(infos: seq<Info>, canvasHeight: int, area: Area) returns (layouts: seq<ComponentLayout>)
    ensures layouts == ThirdsLayouts(infos, canvasHeight, area)
  {
    if |infos| == 1 {
      return [Place(infos[0], ColumnX(area, infos[0].width, true), canvasHeight / 3 - infos[0].height / 2)];
    }
    layouts := [];
    for i := 0 to |infos|
      invariant |layouts| == i
      invariant forall k :: 0 <= k < i ==> layouts[k] == Place(infos[k], ColumnX(area, infos[k].width, true), ThirdsY(area, k, infos[k].height))
    {
      layouts := layouts + [Place(infos[i], ColumnX(area, infos[i].width, true), ThirdsY(area, i, infos[i].height))];
    }
    assert layouts == ThirdsLayouts(infos, canvasHeight, area);
  }

  /**
   * `calculate_layout` past its first loop: nothing for no components,
   * otherwise the configured algorithm, an unknown one falling back to
   * vertical flow. Whatever the algorithm, each component is laid out once, in
   * order, at its clamped size.
   */
  function LayoutOf(c: LayoutConfig, canvasHeight: int, area: Area, infos: seq<Info>): (r: seq<ComponentLayout>)
    ensures SameComponents(r, infos)
  {
    if infos == [] then []
    else if c.algorithm == "golden_ratio" then GoldenLayouts(infos, canvasHeight, area)
    else if c.algorithm == "rule_of_thirds" then ThirdsLayouts(infos, canvasHeight, area)
    else FlowLayouts(infos, TotalHeight(infos), area, c.centerHorizontally, c.verticalAlignment)
  }

  /** Every third component lands in the same section: equal heights give equal y. */
  lemma ThirdsRepeat(area: Area, i: nat, h: int)
    ensures ThirdsY(area, i + 3, h) == ThirdsY(area, i, h)
  {
    assert (i + 3) % 3 == i % 3;
  }

  // ---------------------------------------------------------------------------
  // Rendering
  // ---------------------------------------------------------------------------

  /** The first registered component with the given id. */
  function FirstWithId(entries: seq<Entry>, id: string): (r: Option<nat>)
    ensures r.Some? ==> r.value < |entries| && entries[r.value].component.id == id
    ensures r.Some? ==> forall k :: 0 <= k < r.value ==> entries[k].component.id != id
    ensures r.None? ==> forall k :: 0 <= k < |entries| ==> entries[k].component.id != id
  {
    if entries == [] then None
    else if entries[0].component.id == id then Some(0)
    else match FirstWithId(entries[1..], id)
      case None => None
      case Some(k) => Some(k + 1)
  }

  /** The search of `render` for a layout's component, stopping at the first match. */
  method FindComponent(entries: seq<Entry>, id: string) returns (r: Option<nat>)
    ensures r == FirstWithId(entries, id)
  {
    var i := 0;
    while i < |entries|
      invariant 0 <= i <= |entries|
      invariant forall k :: 0 <= k < i ==> entries[k].component.id != id
    {
      if entries[i].component.id == id {
        FirstWithIdAt(entries, id, i);
        return Some(i);
      }
      i := i + 1;
    }
    FirstWithIdNone(entries, id);
    return None;
  }

  lemma {:induction false} FirstWithIdAt(entries: seq<Entry>, id: string, i: nat)
    requires i < |entries| && entries[i].component.id == id
    requires forall k :: 0 <= k < i ==> entries[k].component.id != id
    ensures FirstWithId(entries, id) == Some(i)
    decreases i
  {
    if i > 0 {
      FirstWithIdAt(entries[1..], id, i - 1);
    }
  }

  lemma {:induction false} FirstWithIdNone(entries: seq<Entry>, id: string)
    requires forall k :: 0 <= k < |entries| ==> entries[k].component.id != id
    ensures FirstWithId(entries, id) == None
  {
    if entries != [] {
      FirstWithIdNone(entries[1..], id);
    }
  }

  class Engine {
    const canvasWidth: int
    const canvasHeight: int
    const config: LayoutConfig
    const area: Area
    var components: seq<Entry>

    /** `__init__`: the content area is the canvas less the padding on each side. */
    constructor (width: int, height: int, c: LayoutConfig)
      ensures canvasWidth == width && canvasHeight == height && config == c
      ensures area == ContentArea(width, height, c.canvasPadding)
      ensures area.width == width - 2 * area.x && area.height == height - 2 * area.y
      ensures components == []
    {
      canvasWidth, canvasHeight, config := width, height, c;
      area := ContentArea(width, height, c.canvasPadding);
      components := [];
    }

    /** `add_component`: appended last, an omitted spacing taking the default. */
    method AddComponent(c: Component, spacingBefore: Option<real>, spacingAfter: Option<real>)
      modifies this
      ensures components == old(components) +
        [Entry(c, spacingBefore.UnwrapOr(config.defaultSpacing), spacingAfter.UnwrapOr(config.defaultSpacing))]
    {
      components := components + [Entry(c, spacingBefore.UnwrapOr(config.defaultSpacing),
                                           spacingAfter.UnwrapOr(config.defaultSpacing))];
    }

    /** `calculate_layout`: the layouts of the registered components, in registration order. */
    method CalculateLayout() returns (layouts: seq<ComponentLayout>)
      ensures layouts == LayoutOf(config, canvasHeight, area, Infos(components, canvasHeight, area))
      ensures |layouts| == |components|
      ensures forall i :: 0 <= i < |components| ==> layouts[i].id == components[i].component.id
    {
      if components == [] {
        return [];
      }
      var infos, total := ComponentInfos(components, canvasHeight, area);
      if config.algorithm == "golden_ratio" {
        layouts := GoldenLayouts(infos, canvasHeight, area);
      } else if config.algorithm == "rule_of_thirds" {
        layouts := RuleOfThirds(infos, canvasHeight, area);
      } else {
        layouts := VerticalFlow(infos, total, area, config.centerHorizontally, config.verticalAlignment);
      }
    }

    /**
     * `render`, without the drawing: each layout is paired with the first
     * registered component carrying its id (a layout without one would be skipped).
     * Every layout has one, so every layout is drawn, in order.
     */
    method Render() returns (drawn: seq<(nat, ComponentLayout)>)
      ensures |drawn| == |components|
      ensures forall i :: 0 <= i < |drawn| ==>
        drawn[i].1 == LayoutOf(config, canvasHeight, area, Infos(components, canvasHeight, area))[i]
      ensures forall d :: d in drawn ==> d.0 < |components| && components[d.0].component.id == d.1.id
      ensures forall d :: d in drawn ==> FirstWithId(components, d.1.id) == Some(d.0)
    {
      var layouts := CalculateLayout();
      drawn := [];
      for i := 0 to |layouts|
        invariant |drawn| == i
        invariant forall k :: 0 <= k < i ==> drawn[k].1 == layouts[k]
        invariant forall d :: d in drawn ==> d.0 < |components| && components[d.0].component.id == d.1.id
        invariant forall d :: d in drawn ==> FirstWithId(components, d.1.id) == Some(d.0)
      {
        var found := FindComponent(components, layouts[i].id);
        if found.Some? {
          drawn := drawn + [(found.value, layouts[i])];
        } else {
          assert false;
        }
      }
    }
  }
}

=== FILE: media.dfy ===
/**
 * The shared audio/video classifier of `utils/media.py`: a MIME hint first,
 * then the host, then the path's extension, then URL keywords, and video by
 * default.
 */
module Media {
  import opened Wrappers
  import opened Text
  import opened Url

  datatype MediaType = Audio | Video

  const AudioExtensions: seq<string> := [".mp3", ".m4a", ".aac", ".ogg", ".opus", ".flac", ".wav", ".wma"]
  const VideoExtensions: seq<string> := [".mp4", ".mkv", ".webm", ".avi", ".mov", ".m4v", ".flv", ".wmv"]
  const AudioPatterns: seq<string> := [".pls", ".m3u", "radio", "somafm", "stream", "audio"]
  const VideoPatterns: seq<string> := ["youtube", "youtu.be", "vimeo", "video"]

  /** `any(path.endswith(e) for e in exts)`. */
  predicate EndsWithAny(s: string, exts: seq<string>)
  {
    exists k :: 0 <= k < |exts| && EndsWith(s, exts[k])
  }

  /** `any(p in s for p in patterns)`. */
  predicate ContainsAny(s: string, patterns: seq<string>)
  {
    exists k :: 0 <= k < |patterns| && Contains(s, patterns[k])
  }

  /** The host names a video service: YouTube (both domains) or Vimeo. */
  predicate VideoHost(netloc: string)
  {
    Contains(netloc, "youtube.com") || Contains(netloc, "youtu.be") || Contains(netloc, "vimeo.com")
  }

  /** What the MIME hint says on its own: video beats audio, an empty hint says nothing. */
  predicate HintSaysVideo(contentType: string)
  {
    Contains(Lower(contentType), "video")
  }

  predicate HintSaysAudio(contentType: string)
  {
    !HintSaysVideo(contentType) && Contains(Lower(contentType), "audio")
  }

  /**
   * `detect_media_type(media_url, content_type)`; an absent hint is the empty string
   * (both are falsy in the source).
   */
  function DetectMediaType(url: string, contentType: string): (r: MediaType)
    ensures HintSaysVideo(contentType) ==> r == Video
    ensures HintSaysAudio(contentType) ==> r == Audio
    ensures !HintSaysVideo(contentType) && !HintSaysAudio(contentType) && VideoHost(UrlParse(Lower(url)).netloc) ==> r == Video
    ensures r == Audio <==>
      HintSaysAudio(contentType) ||
      (!HintSaysVideo(contentType) && !VideoHost(UrlParse(Lower(url)).netloc) &&
       (EndsWithAny(UrlParse(Lower(url)).path, AudioExtensions) ||
        (!EndsWithAny(UrlParse(Lower(url)).path, VideoExtensions) && ContainsAny(Lower(url), AudioPatterns))))
  {
    if contentType != [] && Contains(Lower(contentType), "video") then Video
    else if contentType != [] && Contains(Lower(contentType), "audio") then Audio
    else
      var parsed := UrlParse(Lower(url));
      if Contains(parsed.netloc, "youtube.com") || Contains(parsed.netloc, "youtu.be") then Video
      else if Contains(parsed.netloc, "vimeo.com") then Video
      else if EndsWithAny(parsed.path, AudioExtensions) then Audio
      else if EndsWithAny(parsed.path, VideoExtensions) then Video
      else if ContainsAny(Lower(url), AudioPatterns) then Audio
      else if ContainsAny(Lower(url), VideoPatterns) then Video
      else Video
  }

  /** The keyword check for video is dead code: reaching it already means "video". */
  lemma VideoPatternsRedundant(url: string, contentType: string)
    requires !HintSaysVideo(contentType) && !HintSaysAudio(contentType)
    requires !ContainsAny(Lower(url), VideoPatterns)
    requires !VideoHost(UrlParse(Lower(url)).netloc)
    requires !EndsWithAny(UrlParse(Lower(url)).path, AudioExtensions)
    requires !ContainsAny(Lower(url), AudioPatterns)
    ensures DetectMediaType(url, contentType) == Video
  {
  }

  /** A `.mp3` path is audio whatever keywords the URL carries, unless the hint or host say video. */
  lemma {:induction false} Mp3IsAudio(url: string)
    requires !VideoHost(UrlParse(Lower(url)).netloc)
    requires EndsWith(UrlParse(Lower(url)).path, ".mp3")
    ensures DetectMediaType(url, "") == Audio
  {
    assert EndsWith(UrlParse(Lower(url)).path, AudioExtensions[0]);
  }
}

=== FILE: mpv_controller.dfy ===
/**
 * `MPVController` (core/mpv_controller.py): one JSON-IPC connection to an mpv
 * process. Requests carry an increasing `request_id`; replies are read as
 * newline-terminated JSON lines and matched on that id, while unsolicited
 * `property-change` events update the observed-properties map.
 *
 * The socket is replaced by inputs: what `recv` returns before the deadline is
 * a sequence of chunks (an empty chunk is the peer closing the socket), and
 * `json.loads` is a decoder function that yields `None` for an undecodable line.
 */
module MpvController {
  import opened Wrappers
  import opened Text

  /** The JSON scalars the controller sends and stores. */
  datatype Value = Null | Bool(b: bool) | Num(n: int) | Str(s: string)

  /** A decoded mpv message, reduced to the keys the controller reads; a missing key is `None`. */
  datatype Message = Message(requestId: Option<int>, event: Option<string>, name: Option<string>, data: Value, error: Option<string>)

  /** What was written to the socket: the command and its `request_id`. */
  datatype Request = Request(command: seq<Value>, requestId: int)

  /** The dict `send_command` returns: mpv's reply, or `{"error": ...}` made up locally. */
  datatype Response = Reply(msg: Message) | ErrorReply(error: string)

  /** The outcome of one `socket.send`: the chunks received afterwards, or the exception text. */
  datatype Attempt = Delivered(chunks: seq<string>) | Raised(message: string)

  type Decoder = string -> Option<Message>

  /** `result.get('error')`. */
  function ErrorOf(r: Response): Option<string>
  {
    match r
    case Reply(m) => m.error
    case ErrorReply(e) => Some(e)
  }

  /** The exception texts that trigger one reconnect-and-resend. */
  predicate IsBroken(message: string)
  {
    Contains(message, "Broken pipe") || Contains(message, "Connection reset")
  }

  // ---------------------------------------------------------------------------
  // Line splitting
  // ---------------------------------------------------------------------------

  /** The complete lines of `s`: every piece that a '\n' terminates, in order. */
  function Lines(s: string): seq<string>
    decreases |s|
  {
    match IndexOf(s, '\n')
    case None => []
    case Some(i) => [s[..i]] + Lines(s[i + 1..])
  }

  /** What is left of `s` after its last '\n': the incomplete line still in the buffer. */
  function Tail(s: string): (r: string)
    ensures '\n' !in r
    decreases |s|
  {
    match IndexOf(s, '\n')
    case None => s
    case Some(i) => Tail(s[i + 1..])
  }

  /** Taking the first line off the buffer. */
  lemma LinesStep(s: string)
    requires '\n' in s
    ensures var i := IndexOf(s, '\n').value;
      Lines(s) == [s[..i]] + Lines(s[i + 1..]) && Tail(s) == Tail(s[i + 1..])
  {
  }

  /** A buffer without a '\n' holds no complete line. */
  lemma LinesNone(s: string)
    requires '\n' !in s
    ensures Lines(s) == [] && Tail(s) == s
  {
  }

  /** Each line followed by its '\n'. */
  function Terminated(lines: seq<string>): string
  {
    if lines == [] then [] else lines[0] + "\n" + Terminated(lines[1..])
  }

  /** Nothing is lost: the complete lines and the tail put back together give the input. */
  lemma {:induction false} LinesTail(s: string)
    ensures Terminated(Lines(s)) + Tail(s) == s
    decreases |s|
  {
    var r := IndexOf(s, '\n');
    if r.Some? {
      var i := r.value;
      var rest := s[i + 1..];
      var head := s[..i] + "\n";
      assert s == head + rest;
      assert Lines(s) == [s[..i]] + Lines(rest);
      assert Tail(s) == Tail(rest);
      LinesTail(rest);
      assert Terminated(Lines(s)) == head + Terminated(Lines(rest)) by {
        var ls := Lines(s);
        assert ls[0] == s[..i] && ls[1..] == Lines(rest);
      }
      calc {
        Terminated(Lines(s)) + Tail(s);
        head + Terminated(Lines(rest)) + Tail(rest);
        head + (Terminated(Lines(rest)) + Tail(rest));
        s;
      }
    }
  }

  /** No complete line contains a '\n'. */
  lemma {:induction false} LinesNoNewline(s: string)
    ensures forall k :: 0 <= k < |Lines(s)| ==> '\n' !in Lines(s)[k]
    decreases |s|
  {
    var r := IndexOf(s, '\n');
    if r.Some? {
      var i := r.value;
      var rest := s[i + 1..];
      LinesNoNewline(rest);
      var ls := Lines(s);
      assert ls == [s[..i]] + Lines(rest);
      forall k | 0 <= k < |ls|
        ensures '\n' !in ls[k]
      {
        if k > 0 {
          assert ls[k] == Lines(rest)[k - 1];
        }
      }
    }
  }

  /** A first occurrence is where `IndexOf` finds it. */
  lemma IndexOfAt(s: string, c: char, i: nat)
    requires i < |s| && s[i] == c && c !in s[..i]
    ensures IndexOf(s, c) == Some(i)
  {
    assert c in s;
  }

  /** Appending text after a '\n' does not move the first '\n'. */
  lemma IndexOfPrefix(s: string, t: string, c: char)
    requires c in s
    ensures IndexOf(s + t, c) == IndexOf(s, c)
  {
    var i := IndexOf(s, c).value;
    assert (s + t)[..i] == s[..i];
    IndexOfAt(s + t, c, i);
  }

  lemma ConsAssoc<T>(h: T, a: seq<T>, b: seq<T>)
    ensures [h] + (a + b) == ([h] + a) + b
  {
  }

  /**
   * Receiving more text: the complete lines of the longer buffer are the old ones
   * followed by those that the old tail and the new text form together.
   */
  lemma {:induction false} LinesConcat(s: string, t: string)
    ensures Lines(s + t) == Lines(s) + Lines(Tail(s) + t)
    ensures Tail(s + t) == Tail(Tail(s) + t)
    decreases |s|
  {
    if '\n' in s {
      var i := IndexOf(s, '\n').value;
      var rest := s[i + 1..];
      IndexOfPrefix(s, t, '\n');
      assert (s + t)[..i] == s[..i];
      assert (s + t)[i + 1..] == rest + t;
      LinesStep(s);
      LinesStep(s + t);
      LinesConcat(rest, t);
      ConsAssoc(s[..i], Lines(rest), Lines(Tail(rest) + t));
    } else {
      LinesNone(s);
      assert Lines(s) + Lines(Tail(s) + t) == Lines(s + t);
    }
  }

  // ---------------------------------------------------------------------------
  // Reply matching and property events
  // ---------------------------------------------------------------------------

  /** `_handle_property_event`: only a `property-change` for an already observed name is stored. */
  function HandleEvent(observed: map<string, Value>, m: Message): (r: map<string, Value>)
    ensures r.Keys == observed.Keys
    ensures forall k :: k in observed && !(m.event == Some("property-change") && m.name == Some(k)) ==> r[k] == observed[k]
    ensures m.event == Some("property-change") && m.name.Some? && m.name.value in observed ==> r[m.name.value] == m.data
  {
    if m.event == Some("property-change") && m.name.Some? && m.name.value in observed then
      observed[m.name.value := m.data]
    else observed
  }

  /**
   * One line of the buffer: blank lines (`line.strip()` empty, see `Text.StripEmpty`) and undecodable lines are skipped, the reply
   * to `id` ends the wait, and any other message with an `event` key goes to the
   * property-event handler.
   */
  function Step(line: string, id: int, observed: map<string, Value>, decode: Decoder): (Option<Message>, map<string, Value>)
  {
    if AllSpace(line) then (None, observed)
    else
      match decode(line)
      case None => (None, observed)
      case Some(m) =>
        if m.requestId == Some(id) then (Some(m), observed)
        else if m.event.Some? then (None, HandleEvent(observed, m))
        else (None, observed)
  }

  /** A line that is the reply to `id`. */
  predicate IsReply(line: string, id: int, decode: Decoder)
  {
    !AllSpace(line) && decode(line).Some? && decode(line).value.requestId == Some(id)
  }

  /** The lines in order until the reply to `id`: the reply found, if any, and the observed map. */
  function ProcessLines(lines: seq<string>, id: int, observed: map<string, Value>, decode: Decoder): (r: (Option<Message>, map<string, Value>))
    ensures r.1.Keys == observed.Keys
    ensures r.0.Some? ==> r.0.value.requestId == Some(id)
  {
    if lines == [] then (None, observed)
    else
      var (f, o) := Step(lines[0], id, observed, decode);
      if f.Some? then (f, o) else ProcessLines(lines[1..], id, o, decode)
  }

  /** `Step` ends the wait exactly on a reply to `id`. */
  lemma StepFinds(line: string, id: int, observed: map<string, Value>, decode: Decoder)
    ensures Step(line, id, observed, decode).0.Some? <==> IsReply(line, id, decode)
    ensures Step(line, id, observed, decode).0.Some? ==> Step(line, id, observed, decode).0 == decode(line)
  {
  }

  /** No reply is found exactly when no line answers `id`. */
  lemma {:induction false} ProcessLinesNone(lines: seq<string>, id: int, observed: map<string, Value>, decode: Decoder)
    ensures ProcessLines(lines, id, observed, decode).0.None? <==> forall k :: 0 <= k < |lines| ==> !IsReply(lines[k], id, decode)
    decreases |lines|
  {
    if lines != [] {
      var st := Step(lines[0], id, observed, decode);
      StepFinds(lines[0], id, observed, decode);
      if st.0.None? {
        var tl := lines[1..];
        ProcessLinesNone(tl, id, st.1, decode);
        assert ProcessLines(lines, id, observed, decode) == ProcessLines(tl, id, st.1, decode);
        if forall k :: 0 <= k < |tl| ==> !IsReply(tl[k], id, decode) {
          forall k | 0 <= k < |lines|
            ensures !IsReply(lines[k], id, decode)
          {
            if k > 0 {
              assert lines[k] == tl[k - 1];
            }
          }
        } else {
          var k :| 0 <= k < |tl| && IsReply(tl[k], id, decode);
          assert lines[k + 1] == tl[k];
        }
      }
    }
  }

  /** The reply found is the first line that answers `id`, decoded. */
  lemma {:induction false} ProcessLinesFirst(lines: seq<string>, id: int, observed: map<string, Value>, decode: Decoder) returns (k: nat)
    requires ProcessLines(lines, id, observed, decode).0.Some?
    ensures k < |lines| && IsReply(lines[k], id, decode)
    ensures decode(lines[k]) == ProcessLines(lines, id, observed, decode).0
    ensures forall j :: 0 <= j < k ==> !IsReply(lines[j], id, decode)
    decreases |lines|
  {
    var st := Step(lines[0], id, observed, decode);
    StepFinds(lines[0], id, observed, decode);
    if st.0.Some? {
      k := 0;
    } else {
      var tl := lines[1..];
      assert ProcessLines(lines, id, observed, decode) == ProcessLines(tl, id, st.1, decode);
      var k1 := ProcessLinesFirst(tl, id, st.1, decode);
      k := k1 + 1;
      assert lines[k] == tl[k1];
      forall j | 0 <= j < k
        ensures !IsReply(lines[j], id, decode)
      {
        if j > 0 {
          assert lines[j] == tl[j - 1];
        }
      }
    }
  }

  /** Processing two runs of lines is processing the first and, if it found nothing, the second. */
  lemma {:induction false} ProcessLinesAppend(a: seq<string>, b: seq<string>, id: int, observed: map<string, Value>, decode: Decoder)
    ensures ProcessLines(a + b, id, observed, decode) ==
      (var r := ProcessLines(a, id, observed, decode);
       if r.0.Some? then r else ProcessLines(b, id, r.1, decode))
    decreases |a|
  {
    if a == [] {
      assert a + b == b;
    } else {
      assert (a + b)[0] == a[0];
      assert (a + b)[1..] == a[1..] + b;
      var (f, o) := Step(a[0], id, observed, decode);
      if f.None? {
        ProcessLinesAppend(a[1..], b, id, o, decode);
      }
    }
  }

  /** The text `recv` delivered before the socket closed (an empty chunk) or the deadline passed. */
  function Received(chunks: seq<string>): string
  {
    if chunks == [] || chunks[0] == [] then [] else chunks[0] + Received(chunks[1..])
  }

  function Concat(chunks: seq<string>): string
  {
    if chunks == [] then [] else Concat(chunks[..|chunks| - 1]) + chunks[|chunks| - 1]
  }

  lemma {:induction false} ReceivedPrefix(chunks: seq<string>, k: nat)
    requires k <= |chunks|
    requires forall j :: 0 <= j < k ==> chunks[j] != []
    ensures Received(chunks) == Concat(chunks[..k]) + Received(chunks[k..])
  {
    if k > 0 {
      ReceivedPrefix(chunks, k - 1);
      assert chunks[k - 1..][1..] == chunks[k..];
      assert Received(chunks[k - 1..]) == chunks[k - 1] + Received(chunks[k..]);
      assert chunks[..k][..k - 1] == chunks[..k - 1];
    }
  }

  /** One more line after lines that found nothing is one more `Step`. */
  lemma ProcessOneMore(done: seq<string>, line: string, id: int, observed: map<string, Value>, decode: Decoder)
    requires ProcessLines(done, id, observed, decode).0.None?
    ensures ProcessLines(done + [line], id, observed, decode) == Step(line, id, ProcessLines(done, id, observed, decode).1, decode)
  {
    ProcessLinesAppend(done, [line], id, observed, decode);
    assert [line][1..] == [];
  }

  /** A reply found in the lines read so far is the reply of the whole stream. */
  /** One more chunk appended to the text of the chunks before it. */
  lemma ChunkStep(chunks: seq<string>, k: nat)
    requires k < |chunks|
    ensures Concat(chunks[..k]) + chunks[k] == Concat(chunks[..k + 1])
  {
    assert chunks[..k + 1][..k] == chunks[..k];
  }

  lemma FoundInStream(chunks: seq<string>, k: nat, id: int, observed: map<string, Value>, decode: Decoder)
    requires k < |chunks|
    requires forall j :: 0 <= j <= k ==> chunks[j] != []
    requires ProcessLines(Lines(Concat(chunks[..k + 1])), id, observed, decode).0.Some?
    ensures ProcessLines(Lines(Received(chunks)), id, observed, decode) == ProcessLines(Lines(Concat(chunks[..k + 1])), id, observed, decode)
  {
    var next := Concat(chunks[..k + 1]);
    var more := Received(chunks[k + 1..]);
    assert Received(chunks) == next + more by {
      ReceivedPrefix(chunks, k + 1);
    }
    LinesConcat(next, more);
    ProcessLinesAppend(Lines(next), Lines(Tail(next) + more), id, observed, decode);
  }

  /** Reading stopped with everything received consumed and no reply: the whole stream has none. */
  lemma NotFoundInStream(chunks: seq<string>, k: nat, id: int, observed: map<string, Value>, decode: Decoder)
    requires k <= |chunks|
    requires forall j :: 0 <= j < k ==> chunks[j] != []
    requires k < |chunks| ==> chunks[k] == []
    ensures Received(chunks) == Concat(chunks[..k])
  {
    ReceivedPrefix(chunks, k);
  }

  /**
   * `_read_response(id)` on the whole received stream: the reply to `id` among its
   * complete lines, or `{"error": "timeout"}`, with the events seen before it applied.
   */
  function ReadSpec(chunks: seq<string>, id: int, observed: map<string, Value>, decode: Decoder): (r: (Response, map<string, Value>))
    ensures r.1.Keys == observed.Keys
  {
    ReadLines(Lines(Received(chunks)), id, observed, decode)
  }

  /** The reply among `lines`, or `{"error": "timeout"}`, and the observed map after the lines before it. */
  function ReadLines(lines: seq<string>, id: int, observed: map<string, Value>, decode: Decoder): (r: (Response, map<string, Value>))
    ensures r.1.Keys == observed.Keys
  {
    var r := ProcessLines(lines, id, observed, decode);
    (if r.0.Some? then Reply(r.0.value) else ErrorReply("timeout"), r.1)
  }

  /** A timeout means no line was the reply; otherwise the reply carries the id. */
  lemma ReadLinesOutcome(lines: seq<string>, id: int, observed: map<string, Value>, decode: Decoder)
    ensures ReadLines(lines, id, observed, decode).0 == ErrorReply("timeout") <==>
      forall k :: 0 <= k < |lines| ==> !IsReply(lines[k], id, decode)
    ensures ReadLines(lines, id, observed, decode).0.Reply? ==> ReadLines(lines, id, observed, decode).0.msg.requestId == Some(id)
  {
    ProcessLinesNone(lines, id, observed, decode);
  }

  /**
   * For chunks that each decode on their own (every chunk ends on a whole UTF-8
   * character), how the text is cut does not matter, only what arrived before the
   * socket closed. `ReadSpec` sees the chunks only through `Received`, so this
   * follows at once; the work is in `ReadStream`, whose chunk-by-chunk buffering
   * loop is proved equal to `ReadSpec`. A chunk that splits a character is not
   * modelled.
   */
  lemma {:induction false} ChunkingIrrelevant(a: seq<string>, b: seq<string>, id: int, observed: map<string, Value>, decode: Decoder)
    requires Received(a) == Received(b)
    ensures ReadSpec(a, id, observed, decode) == ReadSpec(b, id, observed, decode)
  {
  }

  // ---------------------------------------------------------------------------
  // Command lists
  // ---------------------------------------------------------------------------

  /** `pause(state)`: `cycle pause up` without an argument, `set pause <state>` with one. */
  function PauseCommand(state: Option<bool>): (c: seq<Value>)
    ensures |c| == 3 && c[1] == Str("pause")
    ensures state.None? <==> c[0] == Str("cycle")
    ensures state.Some? ==> c == [Str("set"), Str("pause"), Bool(state.value)]
  {
    match state
    case None => CycleCommand("pause", "up")
    case Some(b) => SetCommand("pause", Bool(b))
  }

  function SetCommand(name: string, v: Value): seq<Value>
  {
    [Str("set"), Str(name), v]
  }

  function CycleCommand(name: string, direction: string): seq<Value>
  {
    [Str("cycle"), Str(name), Str(direction)]
  }

  /** `observe_property(name)` registers under observation id `len(observed_properties) + 1`. */
  function ObserveCommand(observed: map<string, Value>, name: string): (c: seq<Value>)
    ensures |c| == 3 && c[1] == Num(|observed.Keys| + 1) && c[2] == Str(name)
  {
    [Str("observe_property"), Num(|observed.Keys| + 1), Str(name)]
  }

  /** The fields of an `MPVController` that its methods change. */
  datatype ControllerState = ControllerState(
    hasSocket: bool, connected: bool, requestId: int, pendingRequests: map<int, Request>,
    observed: map<string, Value>, inUse: bool, sent: seq<Request>)

  /**
   * `send_command(command)`: refused without a connection; otherwise the counter moves on
   * by one and the request carries it. A send that raises "Broken pipe" or "Connection
   * reset" disconnects, reconnects (`reconnects`: whether `connect` succeeds) and resends
   * the same request once (`second`). Any other error is returned as the error text.
   */
  function SendSpec(st: ControllerState, command: seq<Value>, first: Attempt, reconnects: bool, second: Attempt,
                    decode: Decoder): (out: (Response, ControllerState))
    ensures out.1.observed.Keys == st.observed.Keys
    ensures !st.connected ==> out == (ErrorReply("not_connected"), st)
  {
    if !st.connected then (ErrorReply("not_connected"), st)
    else
      var id := st.requestId + 1;
      var request := Request(command, id);
      match first
      case Delivered(chunks) =>
        var (r, obs) := ReadSpec(chunks, id, st.observed, decode);
        (r, st.(requestId := id, sent := st.sent + [request], observed := obs))
      case Raised(m) =>
        if !IsBroken(m) then (ErrorReply(m), st.(requestId := id))
        else
          // `disconnect()` then `connect()`: the new socket is kept even when connecting fails
          var down := st.(requestId := id, connected := false, pendingRequests := map[], hasSocket := true);
          if !reconnects then (ErrorReply("reconnection_failed"), down)
          else
            var up := down.(connected := true);
            match second
            case Delivered(chunks) =>
              var (r, obs) := ReadSpec(chunks, id, up.observed, decode);
              (r, up.(sent := up.sent + [request], observed := obs))
            case Raised(m2) => (ErrorReply(m2), up)
  }

  /**
   * A connected send moves the counter on by exactly one, writes at most one request,
   * which carries the new counter (the resend after a reconnect reuses it), keeps the
   * observed names, and leaves the controller connected unless its reconnect failed.
   */
  lemma SendCounts(st: ControllerState, command: seq<Value>, first: Attempt, reconnects: bool, second: Attempt, decode: Decoder)
    requires st.connected
    ensures var (r, st1) := SendSpec(st, command, first, reconnects, second, decode);
      st1.requestId == st.requestId + 1 &&
      (st1.sent == st.sent || st1.sent == st.sent + [Request(command, st.requestId + 1)]) &&
      st1.inUse == st.inUse &&
      (st1.connected <==> !(first.Raised? && IsBroken(first.message) && !reconnects))
  {
  }

  /** A request is written exactly when one of the two sends goes through, and its reply is read under its id. */
  lemma SendWrites(st: ControllerState, command: seq<Value>, first: Attempt, reconnects: bool, second: Attempt, decode: Decoder)
    requires st.connected
    ensures var (r, st1) := SendSpec(st, command, first, reconnects, second, decode);
      var id := st.requestId + 1;
      (first.Delivered? ==> (r, st1.observed) == ReadSpec(first.chunks, id, st.observed, decode)) &&
      (first.Raised? && IsBroken(first.message) && reconnects && second.Delivered? ==>
         (r, st1.observed) == ReadSpec(second.chunks, id, st.observed, decode) && st1.pendingRequests == map[]) &&
      (st1.sent == st.sent + [Request(command, id)] <==>
         first.Delivered? || (IsBroken(first.message) && reconnects && second.Delivered?))
  {
  }

  /** A broken socket that cannot be reconnected answers "reconnection_failed" and forgets the pending requests. */
  lemma SendReconnectFails(st: ControllerState, command: seq<Value>, first: Attempt, second: Attempt, decode: Decoder)
    requires st.connected && first.Raised? && IsBroken(first.message)
    ensures var (r, st1) := SendSpec(st, command, first, false, second, decode);
      r == ErrorReply("reconnection_failed") && !st1.connected && st1.pendingRequests == map[] && st1.sent == st.sent
  {
  }

  /**
   * `observe_property(name)`: send `observe_property <len(observed) + 1> <name>` and
   * register the name, with no value yet, only when the reply says "success".
   */
  function ObserveSpec(st: ControllerState, name: string, first: Attempt, reconnects: bool, second: Attempt,
                       decode: Decoder): (Response, ControllerState)
  {
    var (r, st1) := SendSpec(st, ObserveCommand(st.observed, name), first, reconnects, second, decode);
    if ErrorOf(r) == Some("success") then (r, st1.(observed := st1.observed[name := Null])) else (r, st1)
  }

  /** The name is added, with value `Null`, exactly on "success"; no other name appears or goes. */
  lemma ObserveRegisters(st: ControllerState, name: string, first: Attempt, reconnects: bool, second: Attempt, decode: Decoder)
    ensures var (r, st1) := ObserveSpec(st, name, first, reconnects, second, decode);
      st1.observed.Keys == st.observed.Keys + (if ErrorOf(r) == Some("success") then {name} else {}) &&
      (ErrorOf(r) == Some("success") ==> st1.observed[name] == Null) &&
      (!st.connected ==> st1 == st && r == ErrorReply("not_connected"))
  {
  }

  /** The observation id is one more than the number of names observed so far. */
  lemma ObserveUsesNextId(st: ControllerState, name: string, first: Attempt, reconnects: bool, second: Attempt, decode: Decoder)
    requires st.connected && first.Delivered?
    ensures ObserveSpec(st, name, first, reconnects, second, decode).1.sent ==
      st.sent + [Request([Str("observe_property"), Num(|st.observed.Keys| + 1), Str(name)], st.requestId + 1)]
  {
  }

  /** Cutting the first line off a buffer moves it from the pending lines to the handled ones. */
  lemma CutLine(seen: seq<string>, rest: string)
    requires '\n' in rest
    ensures var i := IndexOf(rest, '\n').value;
      seen + Lines(rest) == (seen + [rest[..i]]) + Lines(rest[i + 1..]) &&
      Tail(rest) == Tail(rest[i + 1..])
  {
    LinesStep(rest);
  }

  /**
   * The inner loop of `_read_response`: while the buffer holds a '\n', split off
   * the first line and handle it; stop at the reply to `id`.
   */
  method DrainBuffer(id: int, buffer: string, ghost done: seq<string>, ghost obs0: map<string, Value>,
                     observed: map<string, Value>, decode: Decoder)
    returns (found: Option<Message>, rest: string, obs: map<string, Value>)
    requires ProcessLines(done, id, obs0, decode) == (None, observed)
    ensures ProcessLines(done + Lines(buffer), id, obs0, decode) == (found, obs)
    ensures found.None? ==> rest == Tail(buffer)
  {
    rest, obs := buffer, observed;
    ghost var seen := done;
    while '\n' in rest
      invariant done + Lines(buffer) == seen + Lines(rest)
      invariant Tail(buffer) == Tail(rest)
      invariant ProcessLines(seen, id, obs0, decode) == (None, obs)
      decreases |rest|
    {
      var i := IndexOf(rest, '\n').value;
      var line := rest[..i];
      CutLine(seen, rest);
      rest := rest[i + 1..];
      var step := Step(line, id, obs, decode);
      ProcessOneMore(seen, line, id, obs0, decode);
      obs := step.1;
      if step.0.Some? {
        ProcessLinesAppend(seen + [line], Lines(rest), id, obs0, decode);
        return step.0, rest, obs;
      }
      seen := seen + [line];
    }
    LinesNone(rest);
    assert done + Lines(buffer) == seen;
    found := None;
  }

  /**
   * The loop of `_read_response(id)`: append each chunk to the buffer, then consume
   * every complete line of it; return on the reply to `id`, stop on a closed socket.
   */
  method ReadStream(id: int, chunks: seq<string>, observed0: map<string, Value>, decode: Decoder)
    returns (r: Response, observed: map<string, Value>)
    ensures (r, observed) == ReadSpec(chunks, id, observed0, decode)
  {
    observed := observed0;
    var buffer := "";
    var k := 0;
    ghost var consumed := "";
    while k < |chunks| && chunks[k] != []
      invariant 0 <= k <= |chunks|
      invariant forall j :: 0 <= j < k ==> chunks[j] != []
      invariant consumed == Concat(chunks[..k])
      invariant buffer == Tail(consumed)
      invariant ProcessLines(Lines(consumed), id, observed0, decode) == (None, observed)
    {
      ghost var next := consumed + chunks[k];
      ChunkStep(chunks, k);
      LinesConcat(consumed, chunks[k]);
      var found;
      found, buffer, observed := DrainBuffer(id, buffer + chunks[k], Lines(consumed), observed0, observed, decode);
      if found.Some? {
        FoundInStream(chunks, k, id, observed0, decode);
        return Reply(found.value), observed;
      }
      consumed := next;
      k := k + 1;
    }
    NotFoundInStream(chunks, k, id, observed0, decode);
    return ErrorReply("timeout"), observed;
  }

  class Controller {
    const processId: int
    var hasSocket: bool
    var connected: bool
    var requestId: int
    var pendingRequests: map<int, Request>
    var observed: map<string, Value>
    var inUse: bool
    /** Every request written to the socket, in order. */
    var sent: seq<Request>

    /** The counter never goes below zero, and a connected controller holds a socket. */
    ghost predicate Valid()
      reads this
    {
      requestId >= 0 && (connected ==> hasSocket)
    }

    constructor (pid: int)
      ensures Valid()
      ensures processId == pid && !hasSocket && !connected && requestId == 0
      ensures pendingRequests == map[] && observed == map[] && !inUse && sent == []
    {
      processId := pid;
      hasSocket, connected := false, false;
      requestId := 0;
      pendingRequests, observed := map[], map[];
      inUse := false;
      sent := [];
    }

    /** The state `SendSpec` and `ObserveSpec` speak about. */
    function State(): ControllerState
      reads this
    {
      ControllerState(hasSocket, connected, requestId, pendingRequests, observed, inUse, sent)
    }

    /** `connect`: a fresh socket; `ok` is whether mpv accepted the connection. */
    method Connect(ok: bool) returns (r: bool)
      requires Valid()
      modifies this`hasSocket, this`connected
      ensures Valid()
      ensures r == ok && connected == ok && hasSocket
    {
      hasSocket := true;
      connected := ok;
      r := ok;
    }

    /** `disconnect`: drop the socket, mark disconnected, forget pending requests. */
    method Disconnect()
      requires Valid()
      modifies this`hasSocket, this`connected, this`pendingRequests
      ensures Valid()
      ensures !hasSocket && !connected && pendingRequests == map[]
    {
      hasSocket := false;
      connected := false;
      pendingRequests := map[];
    }

    /** `_read_response(id)`, on this controller's observed map. */
    method ReadResponse(id: int, chunks: seq<string>, decode: Decoder) returns (r: Response)
      modifies this`observed
      ensures (r, observed) == ReadSpec(chunks, id, old(observed), decode)
    {
      r, observed := ReadStream(id, chunks, observed, decode);
    }

    /** `send_command`, as `SendSpec` describes it. */
    method SendCommand(command: seq<Value>, first: Attempt, reconnects: bool, second: Attempt, decode: Decoder) returns (r: Response)
      requires Valid()
      modifies this
      ensures Valid()
      ensures (r, State()) == SendSpec(old(State()), command, first, reconnects, second, decode)
    {
      if !connected {
        return ErrorReply("not_connected");
      }
      requestId := requestId + 1;
      var request := Request(command, requestId);
      match first
      case Delivered(chunks) =>
        sent := sent + [request];
        r := ReadResponse(requestId, chunks, decode);
      case Raised(message) =>
        if IsBroken(message) {
          Disconnect();
          var ok := Connect(reconnects);
          if ok {
            match second
            case Delivered(chunks) =>
              sent := sent + [request];
              r := ReadResponse(requestId, chunks, decode);
            case Raised(m) =>
              r := ErrorReply(m);
          } else {
            r := ErrorReply("reconnection_failed");
          }
        } else {
          r := ErrorReply(message);
        }
    }

    /** `observe_property`, as `ObserveSpec` describes it. */
    method ObserveProperty(name: string, first: Attempt, reconnects: bool, second: Attempt, decode: Decoder) returns (r: Response)
      requires Valid()
      modifies this
      ensures Valid()
      ensures (r, State()) == ObserveSpec(old(State()), name, first, reconnects, second, decode)
    {
      var command := ObserveCommand(observed, name);
      r := SendCommand(command, first, reconnects, second, decode);
      if ErrorOf(r) == Some("success") {
        observed := observed[name := Null];
      }
    }
  }
}

=== FILE: mpv_pools.dfy ===
/**
 * `MPVProcessPool` (core/mpv_pools.py, and the older copy in srsserver.py): a fixed
 * set of numbered mpv slots, each with a process, a controller and a status entry
 * that is "idle" or "busy". Slots are handed out and returned, dead processes are
 * restarted, and `health_check` sorts every slot into healthy, restarted or failed.
 *
 * Processes and sockets are replaced by inputs. A process is its liveness flag
 * (`poll() is None`); a controller is its `connected`/`in_use` pair. Whether
 * starting a slot's process succeeds, whether a reconnect succeeds, is given as the
 * set of slot ids for which it does.
 */
module MpvPools {
  import opened Wrappers

  /** `AUDIO_POOL_SIZE`, `VIDEO_POOL_SIZE` and `HEALTH_CHECK_INTERVAL` (seconds) of config.py. */
  const AUDIO_POOL_SIZE := 2
  const VIDEO_POOL_SIZE := 1
  const HEALTH_CHECK_INTERVAL := 30
  /** The pool in srsserver.py always has two slots. */
  const LEGACY_POOL_SIZE := 2

  datatype SlotState = Idle | Busy

  /** One `process_status` entry: `{"status", "content_type", "stream_key"}`. */
  datatype SlotStatus = SlotStatus(state: SlotState, contentType: Option<string>, streamKey: Option<string>)

  const IdleStatus := SlotStatus(Idle, None, None)

  /** What the pool reads and writes of an `MPVController`. */
  datatype Link = Link(connected: bool, inUse: bool)

  /**
   * The pool's three dictionaries. `processes[p]` is whether process `p` is still
   * running; `order` is the insertion order of `process_status`, which its loops follow.
   */
  datatype PoolState = PoolState(
    processes: map<int, bool>, controllers: map<int, Link>, status: map<int, SlotStatus>, order: seq<int>)

  const Empty := PoolState(map[], map[], map[], [])

  predicate Distinct(s: seq<int>)
  {
    forall i, j :: 0 <= i < j < |s| ==> s[i] != s[j]
  }

  /**
   * A process and its controller are stored together and always have a status
   * entry, and `order` lists each status key once.
   */
  ghost predicate Inv(st: PoolState)
  {
    st.processes.Keys == st.controllers.Keys && st.processes.Keys <= st.status.Keys &&
    Distinct(st.order) && (forall p :: p in st.status <==> p in st.order)
  }

  // ---------------------------------------------------------------------------
  // Starting and restarting a slot
  // ---------------------------------------------------------------------------

  /**
   * `_start_process(p)`: when the controller connects (`ok`), store a running
   * process, a connected idle controller and an idle status; otherwise store nothing.
   */
  function Start(st: PoolState, p: int, ok: bool): (r: PoolState)
    ensures Inv(st) ==> Inv(r)
    ensures !ok ==> r == st
    ensures ok ==> r.processes == st.processes[p := true] && r.controllers == st.controllers[p := Link(true, false)]
    ensures ok ==> r.status == st.status[p := IdleStatus]
  {
    if !ok then st
    else
      PoolState(st.processes[p := true], st.controllers[p := Link(true, false)], st.status[p := IdleStatus],
                if p in st.status then st.order else st.order + [p])
  }

  /**
   * `_restart_process(p)`: drop the process and controller entries, then start the
   * slot again. The status entry is left alone unless the new start stores one.
   */
  function Restart(st: PoolState, p: int, ok: bool): (r: PoolState)
    ensures Inv(st) ==> Inv(r)
    ensures r.status == if ok then st.status[p := IdleStatus] else st.status
    ensures !ok ==> r.processes == st.processes - {p} && r.controllers == st.controllers - {p} && r.order == st.order
    ensures p in st.status ==> r.order == st.order
  {
    Start(st.(processes := st.processes - {p}, controllers := st.controllers - {p}), p, ok)
  }

  /** A process that is running: `process and process.poll() is None`. */
  predicate Alive(st: PoolState, p: int)
  {
    p in st.processes && st.processes[p]
  }

  // ---------------------------------------------------------------------------
  // Handing slots out and taking them back
  // ---------------------------------------------------------------------------

  /** The first id of `ids` whose status is idle: the loop of `get_available_process`. */
  function FirstIdle(ids: seq<int>, status: map<int, SlotStatus>): (r: Option<int>)
    ensures r.Some? ==> r.value in ids && r.value in status && status[r.value].state == Idle
    ensures r.None? ==> forall q :: q in ids && q in status ==> status[q].state != Idle
  {
    if ids == [] then None
    else if ids[0] in status && status[ids[0]].state == Idle then Some(ids[0])
    else
      var r := FirstIdle(ids[1..], status);
      assert forall q :: q in ids ==> q == ids[0] || q in ids[1..];
      r
  }

  /** `FirstIdle` picks the earliest idle id: every id before it is busy. */
  lemma {:induction false} FirstIdleIsFirst(ids: seq<int>, status: map<int, SlotStatus>) returns (k: nat)
    requires FirstIdle(ids, status).Some?
    ensures k < |ids| && ids[k] == FirstIdle(ids, status).value
    ensures forall j :: 0 <= j < k ==> !(ids[j] in status && status[ids[j]].state == Idle)
  {
    if ids[0] in status && status[ids[0]].state == Idle {
      k := 0;
    } else {
      var k1 := FirstIdleIsFirst(ids[1..], status);
      k := k1 + 1;
      forall j | 0 <= j < k
        ensures !(ids[j] in status && status[ids[j]].state == Idle)
      {
        if j > 0 {
          assert ids[j] == ids[1..][j - 1];
        }
      }
    }
  }

  /** `get_available_process`: nothing before the pool is started, else the first idle slot. */
  function AvailableProcess(st: PoolState): (r: Option<int>)
    ensures st.processes == map[] ==> r.None?
    ensures r.Some? ==> r.value in st.order && r.value in st.status && st.status[r.value].state == Idle
    ensures st.processes != map[] && r.None? ==> forall q :: q in st.order && q in st.status ==> st.status[q].state != Idle
  {
    if st.processes == map[] then None else FirstIdle(st.order, st.status)
  }

  /** Mark slot `p` busy and its controller in use, as `get_available_controller` does. */
  function Take(st: PoolState, p: int): (r: PoolState)
    requires p in st.status && p in st.controllers
  {
    st.(status := st.status[p := st.status[p].(state := Busy)],
        controllers := st.controllers[p := st.controllers[p].(inUse := true)])
  }

  /**
   * The first pass of `get_available_controller` over `ids`: an idle slot with a
   * controller is handed out if its process runs; a dead one is restarted
   * (succeeding for the ids in `ok`) and handed out only if the restart worked.
   */
  function Pass(ids: seq<int>, st: PoolState, ok: set<int>): (r: (Option<int>, PoolState))
    requires forall q :: q in ids ==> q in st.status
    ensures Inv(st) ==> Inv(r.1)
    ensures r.1.status.Keys == st.status.Keys && r.1.order == st.order
    ensures r.1.controllers.Keys <= st.controllers.Keys
    ensures r.0.Some? ==> var p := r.0.value;
      p in ids && p in st.controllers && st.status[p].state == Idle &&
      Alive(r.1, p) && p in r.1.status && p in r.1.controllers && r.1.status[p].state == Busy && r.1.controllers[p].inUse
    ensures forall q :: q in st.status && r.0 != Some(q) ==> r.1.status[q] == st.status[q]
    decreases |ids|
  {
    if ids == [] then (None, st)
    else
      var p := ids[0];
      if st.status[p].state == Idle && p in st.controllers then
        if Alive(st, p) then (Some(p), Take(st, p))
        else
          var s := Restart(st, p, p in ok);
          if p in ok then (Some(p), Take(s, p)) else Pass(ids[1..], s, ok)
      else Pass(ids[1..], st, ok)
  }

  /** A slot the first pass can hand out: idle, with a controller, and running or restartable. */
  predicate Usable(st: PoolState, p: int, ok: set<int>)
  {
    p in st.status && st.status[p].state == Idle && p in st.controllers && (Alive(st, p) || p in ok)
  }

  /** The first usable id of `ids`, read in the state before the pass. */
  function FirstUsable(ids: seq<int>, st: PoolState, ok: set<int>): (r: Option<int>)
    ensures r.Some? ==> r.value in ids && Usable(st, r.value, ok)
    ensures r.None? ==> forall q :: q in ids ==> !Usable(st, q, ok)
  {
    if ids == [] then None
    else if Usable(st, ids[0], ok) then Some(ids[0])
    else FirstUsable(ids[1..], st, ok)
  }

  lemma {:induction false} FirstUsableFrame(ids: seq<int>, st: PoolState, s: PoolState, ok: set<int>)
    requires forall q :: q in ids ==> (Usable(st, q, ok) <==> Usable(s, q, ok))
    ensures FirstUsable(ids, st, ok) == FirstUsable(ids, s, ok)
  {
    if ids != [] {
      FirstUsableFrame(ids[1..], st, s, ok);
    }
  }

  /**
   * The slot the first pass hands out is the first usable one in `process_status`
   * order: a failed restart on the way changes no other slot.
   */
  lemma {:induction false} PassIsFirstUsable(ids: seq<int>, st: PoolState, ok: set<int>)
    requires forall q :: q in ids ==> q in st.status
    requires Distinct(ids)
    ensures Pass(ids, st, ok).0 == FirstUsable(ids, st, ok)
    decreases |ids|
  {
    if ids != [] {
      var p := ids[0];
      var tl := ids[1..];
      assert Distinct(tl) by {
        forall i, j | 0 <= i < j < |tl| ensures tl[i] != tl[j] {
          assert tl[i] == ids[i + 1] && tl[j] == ids[j + 1];
        }
      }
      if st.status[p].state == Idle && p in st.controllers && !Alive(st, p) && p !in ok {
        var s := Restart(st, p, false);
        assert p !in tl by {
          forall j | 0 <= j < |tl| ensures tl[j] != p {
            assert tl[j] == ids[j + 1] && p == ids[0];
          }
        }
        PassIsFirstUsable(tl, s, ok);
        FirstUsableFrame(tl, st, s, ok);
      } else if !(st.status[p].state == Idle && p in st.controllers) {
        PassIsFirstUsable(tl, st, ok);
      }
    }
  }

  /** `release_controller`: the controller is no longer in use and a known slot is idle again. */
  function ReleaseController(st: PoolState, p: int): (r: PoolState)
    ensures r.processes == st.processes && r.order == st.order
    ensures r.controllers.Keys == st.controllers.Keys && r.status.Keys == st.status.Keys
    ensures p in st.controllers ==> r.controllers[p] == st.controllers[p].(inUse := false)
    ensures p in st.status ==> r.status[p] == st.status[p].(state := Idle)
    ensures forall q :: q in st.controllers && q != p ==> r.controllers[q] == st.controllers[q]
    ensures forall q :: q in st.status && q != p ==> r.status[q] == st.status[q]
  {
    st.(controllers := if p in st.controllers then st.controllers[p := st.controllers[p].(inUse := false)] else st.controllers,
        status := if p in st.status then st.status[p := st.status[p].(state := Idle)] else st.status)
  }

  /** Handing out an idle slot and releasing it restores its status; only `in_use` is left cleared. */
  lemma TakeRelease(st: PoolState, p: int)
    requires p in st.status && p in st.controllers && st.status[p].state == Idle
    ensures ReleaseController(Take(st, p), p) == st.(controllers := st.controllers[p := st.controllers[p].(inUse := false)])
  {
    assert ReleaseController(Take(st, p), p).status == st.status;
  }

  /** `release_controller` for a slot without a status entry changes only the controller's `in_use`. */
  lemma ReleaseUnknownSlot(st: PoolState, p: int)
    requires p !in st.status
    ensures ReleaseController(st, p).status == st.status && ReleaseController(st, p).processes == st.processes
    ensures p in st.controllers ==> !ReleaseController(st, p).controllers[p].inUse
  {
  }

  /**
   * `allocate_process(content_type, stream_key)`: the available slot becomes busy
   * with the given content; without one nothing changes.
   */
  function Allocate(st: PoolState, contentType: string, streamKey: string): (r: (Option<int>, PoolState))
    ensures r.0 == AvailableProcess(st)
    ensures r.0.None? ==> r.1 == st
    ensures r.0.Some? ==> r.1 == st.(status := st.status[r.0.value := SlotStatus(Busy, Some(contentType), Some(streamKey))])
    ensures r.0.Some? ==> st.status[r.0.value].state == Idle
  {
    match AvailableProcess(st)
    case None => (None, st)
    case Some(p) => (Some(p), st.(status := st.status[p := SlotStatus(Busy, Some(contentType), Some(streamKey))]))
  }

  /** `release_process(p)`: a known slot is reset to idle with no content. */
  function ReleaseProcess(st: PoolState, p: int): (r: PoolState)
    ensures r.processes == st.processes && r.controllers == st.controllers && r.order == st.order
    ensures r.status.Keys == st.status.Keys
    ensures p in st.status ==> r.status[p] == IdleStatus
    ensures forall q :: q in st.status && q != p ==> r.status[q] == st.status[q]
  {
    if p in st.status then st.(status := st.status[p := IdleStatus]) else st
  }

  /** Releasing an allocated slot leaves every status as before, except that slot, now idle with no content. */
  lemma AllocateRelease(st: PoolState, contentType: string, streamKey: string)
    requires Allocate(st, contentType, streamKey).0.Some?
    ensures var (p, s) := Allocate(st, contentType, streamKey);
      ReleaseProcess(s, p.value).status == st.status[p.value := IdleStatus] &&
      ReleaseProcess(s, p.value).processes == st.processes
  {
  }

  // ---------------------------------------------------------------------------
  // Health check
  // ---------------------------------------------------------------------------

  /** The `processes` entries of a health report. */
  datatype Outcome =
    | Healthy | Reconnected | Restarted | RestartFailed
    | RestartedAfterReconnectFail | RestartFailedAfterReconnectFail

  /** Which of the three counters an outcome adds to. */
  datatype Category = HealthyCount | RestartedCount | FailedCount

  function CategoryOf(o: Outcome): Category
  {
    match o
    case Healthy | Reconnected => HealthyCount
    case Restarted | RestartedAfterReconnectFail => RestartedCount
    case RestartFailed | RestartFailedAfterReconnectFail => FailedCount
  }

  /** The dict `health_check` returns, without the timestamp. */
  datatype HealthReport = HealthReport(total: int, healthy: nat, restarted: nat, failed: nat, outcomes: map<int, Outcome>)

  /** One slot of `health_check`: restart a missing or dead process; reconnect a disconnected controller, restarting if that fails. */
  function Check(st: PoolState, p: int, restartOk: set<int>, reconnectOk: set<int>): (r: (Outcome, PoolState))
    ensures Inv(st) ==> Inv(r.1)
    ensures Inv(st) && CategoryOf(r.0) != FailedCount ==> Alive(r.1, p) && r.1.controllers[p].connected
    ensures CategoryOf(r.0) == FailedCount ==> p !in r.1.processes && p !in r.1.controllers
    ensures forall q :: q != p ==>
      (q in r.1.processes <==> q in st.processes) && (q in st.processes ==> r.1.processes[q] == st.processes[q]) &&
      (q in r.1.controllers <==> q in st.controllers) && (q in st.controllers ==> r.1.controllers[q] == st.controllers[q])
  {
    if !Alive(st, p) then
      var s := Restart(st, p, p in restartOk);
      (if p in restartOk then Restarted else RestartFailed, s)
    else if p in st.controllers && !st.controllers[p].connected then
      if p in reconnectOk then (Reconnected, st.(controllers := st.controllers[p := st.controllers[p].(connected := true)]))
      else
        var s := Restart(st, p, p in restartOk);
        (if p in restartOk then RestartedAfterReconnectFail else RestartFailedAfterReconnectFail, s)
    else (Healthy, st)
  }

  /** Add one slot's outcome to the report. */
  function Record(rep: HealthReport, p: int, o: Outcome): (r: HealthReport)
    ensures r.healthy + r.restarted + r.failed == rep.healthy + rep.restarted + rep.failed + 1
    ensures r.total == rep.total && r.outcomes == rep.outcomes[p := o]
  {
    match CategoryOf(o)
    case HealthyCount => rep.(healthy := rep.healthy + 1, outcomes := rep.outcomes[p := o])
    case RestartedCount => rep.(restarted := rep.restarted + 1, outcomes := rep.outcomes[p := o])
    case FailedCount => rep.(failed := rep.failed + 1, outcomes := rep.outcomes[p := o])
  }

  /**
   * `health_check` over ids `1 .. n - 1`, in increasing order. Every id is visited
   * once and lands in exactly one counter.
   */
  function HealthUpTo(st: PoolState, total: int, n: int, restartOk: set<int>, reconnectOk: set<int>): (r: (HealthReport, PoolState))
    ensures r.0.total == total
    ensures r.0.healthy + r.0.restarted + r.0.failed == if n > 1 then n - 1 else 0
    ensures forall q :: q in r.0.outcomes <==> 1 <= q < n
    ensures Inv(st) ==> Inv(r.1)
    decreases n
  {
    if n <= 1 then (HealthReport(total, 0, 0, 0, map[]), st)
    else
      var (rep, s) := HealthUpTo(st, total, n - 1, restartOk, reconnectOk);
      var (o, s2) := Check(s, n - 1, restartOk, reconnectOk);
      (Record(rep, n - 1, o), s2)
  }

  /** Slot `q` is accounted for as `o` says: a failed slot has no process, any other runs connected. */
  predicate Accounted(st: PoolState, q: int, o: Outcome)
  {
    if CategoryOf(o) == FailedCount then q !in st.processes
    else Alive(st, q) && q in st.controllers && st.controllers[q].connected
  }

  /** Afterwards a slot not counted as failed runs with a connected controller, and a failed one has no process. */
  lemma {:induction false} HealthLeavesSlotsUp(st: PoolState, total: int, n: int, restartOk: set<int>, reconnectOk: set<int>)
    requires Inv(st)
    ensures forall q :: q in HealthUpTo(st, total, n, restartOk, reconnectOk).0.outcomes ==>
      Accounted(HealthUpTo(st, total, n, restartOk, reconnectOk).1, q, HealthUpTo(st, total, n, restartOk, reconnectOk).0.outcomes[q])
    decreases n
  {
    if n > 1 {
      HealthLeavesSlotsUp(st, total, n - 1, restartOk, reconnectOk);
      var prev := HealthUpTo(st, total, n - 1, restartOk, reconnectOk);
      var rep, s := prev.0, prev.1;
      assert Inv(s);
      var c := Check(s, n - 1, restartOk, reconnectOk);
      var rep2 := Record(rep, n - 1, c.0);
      assert HealthUpTo(st, total, n, restartOk, reconnectOk) == (rep2, c.1);
      assert Accounted(c.1, n - 1, c.0);
      forall q | q in rep2.outcomes && q != n - 1
        ensures Accounted(c.1, q, rep2.outcomes[q])
      {
        assert rep2.outcomes[q] == rep.outcomes[q];
        assert Accounted(s, q, rep.outcomes[q]);
      }
    }
  }

  /** `health_check` on a pool of `size` slots. */
  function Health(st: PoolState, size: int, restartOk: set<int>, reconnectOk: set<int>): (r: (HealthReport, PoolState))
  {
    HealthUpTo(st, size, size + 1, restartOk, reconnectOk)
  }

  /** `healthy + restarted + failed` is the pool size (zero for a pool of no slots). */
  lemma HealthCounts(st: PoolState, size: int, restartOk: set<int>, reconnectOk: set<int>)
    ensures var rep := Health(st, size, restartOk, reconnectOk).0;
      rep.healthy + rep.restarted + rep.failed == (if size > 0 then size else 0) && rep.total == size
  {
  }

  // ---------------------------------------------------------------------------
  // get_available_controller
  // ---------------------------------------------------------------------------

  /** The slot handed out, the pool afterwards, the health report if one was run, and how many passes ran. */
  datatype Allocation = Allocation(slot: Option<int>, state: PoolState, report: Option<HealthReport>, passes: nat)

  /**
   * `get_available_controller(retry_with_health_check)`: `ok1` and `ok2` are the
   * slots whose restart succeeds in the first and in the retried pass, `restartOk`
   * and `reconnectOk` those of the health check between them.
   */
  function Acquire(st: PoolState, size: int, retry: bool, ok1: set<int>, restartOk: set<int>, reconnectOk: set<int>, ok2: set<int>): (a: Allocation)
    requires Inv(st)
    ensures Inv(a.state)
    ensures a.passes <= (if retry then 2 else 1)
    ensures a.report.Some? ==> retry
    ensures a.passes == 2 ==> a.report.Some? && a.report.value.restarted > 0
    ensures a.slot.Some? ==> var p := a.slot.value;
      Alive(a.state, p) && a.state.status[p].state == Busy && a.state.controllers[p].inUse
    decreases if retry then 1 else 0
  {
    if st.processes == map[] then Allocation(None, st, None, 0)
    else
      var (r, s1) := Pass(st.order, st, ok1);
      if r.Some? || !retry then Allocation(r, s1, None, 1)
      else
        var (rep, s2) := Health(s1, size, restartOk, reconnectOk);
        if rep.restarted > 0 then
          var b := Acquire(s2, size, false, ok2, restartOk, reconnectOk, ok2);
          Allocation(b.slot, b.state, Some(rep), 1 + b.passes)
        else Allocation(None, s2, Some(rep), 1)
  }

  /**
   * The slot handed out is the first usable one, in `process_status` order, of the pass
   * that found it: the first pass, or, after a health check that restarted something,
   * the second; no slot means that no pass that ran found a usable one.
   */
  lemma AcquireFirstUsable(st: PoolState, size: int, retry: bool, ok1: set<int>, restartOk: set<int>, reconnectOk: set<int>, ok2: set<int>)
    requires Inv(st)
    ensures var a := Acquire(st, size, retry, ok1, restartOk, reconnectOk, ok2);
      var first := FirstUsable(st.order, st, ok1);
      var checked := Health(Pass(st.order, st, ok1).1, size, restartOk, reconnectOk);
      var s2 := checked.1;
      (st.processes == map[] ==> a.slot.None?) &&
      (st.processes != map[] && first.Some? ==> a.slot == first) &&
      (st.processes != map[] && first.None? && retry && checked.0.restarted > 0 ==>
        a.slot == (if s2.processes == map[] then None else FirstUsable(s2.order, s2, ok2))) &&
      (st.processes != map[] && first.None? && !(retry && checked.0.restarted > 0) ==> a.slot.None?)
  {
    if st.processes != map[] {
      PassIsFirstUsable(st.order, st, ok1);
      var (r, s1) := Pass(st.order, st, ok1);
      if r.None? && retry {
        var (rep, s2) := Health(s1, size, restartOk, reconnectOk);
        if rep.restarted > 0 && s2.processes != map[] {
          PassIsFirstUsable(s2.order, s2, ok2);
        }
      }
    }
  }

  /**
   * The srsserver.py pool's `get_available_controller` has no health check: it is
   * the first pass alone, which is `Acquire` without retry.
   */
  lemma LegacyAcquire(st: PoolState, size: int, ok1: set<int>, restartOk: set<int>, reconnectOk: set<int>, ok2: set<int>)
    requires Inv(st)
    ensures var a := Acquire(st, size, false, ok1, restartOk, reconnectOk, ok2);
      a.report.None? && a.passes <= 1 &&
      (st.processes != map[] ==> (a.slot, a.state) == Pass(st.order, st, ok1) && a.slot == FirstUsable(st.order, st, ok1)) &&
      (st.processes == map[] ==> a.slot.None? && a.state == st)
  {
    if st.processes != map[] {
      PassIsFirstUsable(st.order, st, ok1);
    }
  }

  // ---------------------------------------------------------------------------
  // initialize and get_process_status
  // ---------------------------------------------------------------------------

  /** Slot `p` runs, with a connected controller not in use and an idle status. */
  predicate Started(st: PoolState, p: int)
  {
    Alive(st, p) && p in st.controllers && st.controllers[p] == Link(true, false) && p in st.status && st.status[p] == IdleStatus
  }

  /** Starting slots `1 .. n - 1` in turn, every start succeeding. */
  function StartAll(st: PoolState, n: int): (r: PoolState)
    ensures Inv(st) ==> Inv(r)
    ensures forall q :: 1 <= q < n ==> Started(r, q)
    decreases n
  {
    if n <= 1 then st
    else
      var s := StartAll(st, n - 1);
      var r := Start(s, n - 1, true);
      assert forall q :: q != n - 1 && Started(s, q) ==> Started(r, q);
      r
  }

  /** What `get_process_status` reports for one slot; a slot without a process has no status part. */
  datatype ProcessInfo = ProcessInfo(running: bool, connected: bool, status: Option<SlotStatus>)

  function Info(st: PoolState, p: int): (r: ProcessInfo)
    requires Inv(st)
    ensures r.status.Some? <==> p in st.processes
    ensures p !in st.processes ==> !r.running && !r.connected
    ensures p in st.processes ==> r.running == st.processes[p] && r.connected == st.controllers[p].connected && r.status == Some(st.status[p])
  {
    if p in st.processes then ProcessInfo(st.processes[p], st.controllers[p].connected, Some(st.status[p]))
    else ProcessInfo(false, false, None)
  }

  /** `get_process_status`: one entry for each id `1 .. size`. */
  function ProcessReport(st: PoolState, size: int): (r: map<int, ProcessInfo>)
    requires Inv(st)
    ensures forall q :: q in r <==> 1 <= q <= size
  {
    map q | 1 <= q <= size :: Info(st, q)
  }

  /** Right after a successful `initialize`, every slot reports running, connected and idle. */
  lemma ReportAfterStart(st: PoolState, size: int)
    requires Inv(st)
    ensures var report := ProcessReport(StartAll(st, size + 1), size);
      forall q :: q in report ==> report[q] == ProcessInfo(true, true, Some(IdleStatus))
  {
    var s := StartAll(st, size + 1);
    assert forall q :: Started(s, q) ==> Info(s, q) == ProcessInfo(true, true, Some(IdleStatus));
  }

  class Pool {
    const poolName: string
    const poolSize: int
    var processes: map<int, bool>
    var controllers: map<int, Link>
    var status: map<int, SlotStatus>
    /** The insertion order of `status`. */
    var order: seq<int>

    function State(): PoolState
      reads this
    {
      PoolState(processes, controllers, status, order)
    }

    ghost predicate Valid()
      reads this
    {
      Inv(State())
    }

    /** `MPVProcessPool.__init__`: no slots yet. */
    constructor (name: string, size: int)
      ensures Valid() && State() == Empty
      ensures poolName == name && poolSize == size
    {
      poolName, poolSize := name, size;
      processes, controllers, status, order := map[], map[], map[], [];
    }

    /** `AudioMPVPool()`: "audio-mpv" with `AUDIO_POOL_SIZE` slots. */
    static method Audio() returns (pool: Pool)
      ensures fresh(pool) && pool.Valid() && pool.State() == Empty
      ensures pool.poolName == "audio-mpv" && pool.poolSize == AUDIO_POOL_SIZE
    {
      pool := new Pool("audio-mpv", AUDIO_POOL_SIZE);
    }

    /** `VideoMPVPool()`: "video-mpv" with `VIDEO_POOL_SIZE` slot. */
    static method Video() returns (pool: Pool)
      ensures fresh(pool) && pool.Valid() && pool.State() == Empty
      ensures pool.poolName == "video-mpv" && pool.poolSize == VIDEO_POOL_SIZE
    {
      pool := new Pool("video-mpv", VIDEO_POOL_SIZE);
    }

    /**
     * The srsserver.py pool: two slots, whose sockets `/tmp/mpv-pool-<id>` are
     * those of a core pool named "mpv".
     */
    static method Legacy() returns (pool: Pool)
      ensures fresh(pool) && pool.Valid() && pool.State() == Empty
      ensures pool.poolName == "mpv" && pool.poolSize == LEGACY_POOL_SIZE
    {
      pool := new Pool("mpv", LEGACY_POOL_SIZE);
    }

    /** `_start_process(p)`; `ok` is whether the new controller connected. */
    method StartProcess(p: int, ok: bool) returns (r: bool)
      requires Valid()
      modifies this
      ensures Valid()
      ensures r == ok && State() == Start(old(State()), p, ok)
    {
      if !ok {
        return false;
      }
      processes := processes[p := true];
      controllers := controllers[p := Link(true, false)];
      if p !in status {
        order := order + [p];
      }
      status := status[p := IdleStatus];
      return true;
    }

    /** `_restart_process(p)`. */
    method RestartProcess(p: int, ok: bool) returns (r: bool)
      requires Valid()
      modifies this
      ensures Valid()
      ensures r == ok && State() == Restart(old(State()), p, ok)
    {
      if p in processes {
        processes := processes - {p};
      }
      if p in controllers {
        controllers := controllers - {p};
      }
      r := StartProcess(p, ok);
    }

    /** `get_available_process`. */
    method GetAvailableProcess() returns (r: Option<int>)
      requires Valid()
      ensures r == AvailableProcess(State())
    {
      if processes == map[] {
        return None;
      }
      var i := 0;
      while i < |order|
        invariant 0 <= i <= |order|
        invariant FirstIdle(order, status) == FirstIdle(order[i..], status)
      {
        assert order[i..][1..] == order[i + 1..];
        if status[order[i]].state == Idle {
          return Some(order[i]);
        }
        i := i + 1;
      }
      return None;
    }

    /** The first pass of `get_available_controller`. */
    method FirstPass(ok: set<int>) returns (r: Option<int>)
      requires Valid()
      modifies this
      ensures Valid()
      ensures (r, State()) == Pass(old(order), old(State()), ok)
    {
      var i := 0;
      while i < |order|
        invariant 0 <= i <= |order| && Valid() && order == old(order)
        invariant forall q :: q in order[i..] ==> q in status
        invariant Pass(old(order), old(State()), ok) == Pass(order[i..], State(), ok)
      {
        var p := order[i];
        assert order[i..][1..] == order[i + 1..];
        if status[p].state == Idle && p in controllers {
          if p in processes && processes[p] {
            controllers := controllers[p := controllers[p].(inUse := true)];
            status := status[p := status[p].(state := Busy)];
            return Some(p);
          }
          var restarted := RestartProcess(p, p in ok);
          if restarted {
            controllers := controllers[p := controllers[p].(inUse := true)];
            status := status[p := status[p].(state := Busy)];
            return Some(p);
          }
        }
        i := i + 1;
      }
      return None;
    }

    /** `get_available_controller(retry_with_health_check)`. */
    method GetAvailableController(retry: bool, ok1: set<int>, restartOk: set<int>, reconnectOk: set<int>, ok2: set<int>)
      returns (r: Option<int>)
      requires Valid()
      modifies this
      ensures Valid()
      ensures var a := Acquire(old(State()), poolSize, retry, ok1, restartOk, reconnectOk, ok2);
        r == a.slot && State() == a.state
      decreases if retry then 1 else 0
    {
      if processes == map[] {
        return None;
      }
      r := FirstPass(ok1);
      if r.Some? || !retry {
        return;
      }
      var report := HealthCheck(restartOk, reconnectOk);
      if report.restarted > 0 {
        r := GetAvailableController(false, ok2, restartOk, reconnectOk, ok2);
      }
    }

    /** `release_controller` for the controller of slot `p`. */
    method ReleaseSlotController(p: int)
      requires Valid()
      modifies this
      ensures Valid()
      ensures State() == ReleaseController(old(State()), p)
    {
      if p in controllers {
        controllers := controllers[p := controllers[p].(inUse := false)];
      }
      if p in status {
        status := status[p := status[p].(state := Idle)];
      }
    }

    /** `allocate_process(content_type, stream_key)`. */
    method AllocateProcess(contentType: string, streamKey: string) returns (r: Option<int>)
      requires Valid()
      modifies this
      ensures Valid()
      ensures (r, State()) == Allocate(old(State()), contentType, streamKey)
    {
      r := GetAvailableProcess();
      if r.Some? {
        status := status[r.value := SlotStatus(Busy, Some(contentType), Some(streamKey))];
      }
    }

    /** `release_process(p)`, without the `stop` command sent to the slot's mpv. */
    method ReleaseSlot(p: int)
      requires Valid()
      modifies this
      ensures Valid()
      ensures State() == ReleaseProcess(old(State()), p)
    {
      if p in status {
        status := status[p := IdleStatus];
      }
    }

    /** `cleanup`: every process, controller and status entry is dropped. */
    method Cleanup()
      modifies this
      ensures Valid() && State() == Empty
    {
      processes, controllers, status, order := map[], map[], map[], [];
    }

    /**
     * `initialize`: start slots `1 .. poolSize` in order; the first failure cleans
     * the pool up and reports False. `startOk` are the slots whose start succeeds.
     */
    method Initialize(startOk: set<int>) returns (ok: bool)
      requires Valid()
      modifies this
      ensures Valid()
      ensures ok <==> forall q :: 1 <= q <= poolSize ==> q in startOk
      ensures ok ==> State() == StartAll(old(State()), poolSize + 1)
      ensures !ok ==> State() == Empty
    {
      var p, last := 1, if poolSize < 1 then 1 else poolSize + 1;
      while p < last
        invariant 1 <= p <= last
        invariant Valid()
        invariant forall q :: 1 <= q < p ==> q in startOk
        invariant State() == StartAll(old(State()), p)
      {
        ghost var before := State();
        var started := StartProcess(p, p in startOk);
        if !started {
          assert p !in startOk && 1 <= p <= poolSize;
          Cleanup();
          return false;
        }
        assert State() == StartAll(old(State()), p + 1) by {
          assert State() == Start(before, p, true);
        }
        p := p + 1;
      }
      assert StartAll(old(State()), p) == StartAll(old(State()), poolSize + 1);
      return true;
    }

    /** One slot of `health_check`. */
    method CheckSlot(p: int, restartOk: set<int>, reconnectOk: set<int>) returns (o: Outcome)
      requires Valid()
      modifies this
      ensures Valid()
      ensures (o, State()) == Check(old(State()), p, restartOk, reconnectOk)
    {
      if !(p in processes && processes[p]) {
        var restarted := RestartProcess(p, p in restartOk);
        o := if restarted then Restarted else RestartFailed;
      } else if p in controllers && !controllers[p].connected {
        if p in reconnectOk {
          controllers := controllers[p := controllers[p].(connected := true)];
          o := Reconnected;
        } else {
          var restarted := RestartProcess(p, p in restartOk);
          o := if restarted then RestartedAfterReconnectFail else RestartFailedAfterReconnectFail;
        }
      } else {
        o := Healthy;
      }
    }

    /** `health_check`: visit slots `1 .. poolSize` in order, counting each outcome. */
    method HealthCheck(restartOk: set<int>, reconnectOk: set<int>) returns (report: HealthReport)
      requires Valid()
      modifies this
      ensures Valid()
      ensures (report, State()) == Health(old(State()), poolSize, restartOk, reconnectOk)
    {
      report := HealthReport(poolSize, 0, 0, 0, map[]);
      var p, last := 1, if poolSize < 1 then 1 else poolSize + 1;
      while p < last
        invariant 1 <= p <= last
        invariant Valid()
        invariant (report, State()) == HealthUpTo(old(State()), poolSize, p, restartOk, reconnectOk)
      {
        var o := CheckSlot(p, restartOk, reconnectOk);
        report := Record(report, p, o);
        p := p + 1;
      }
      assert HealthUpTo(old(State()), poolSize, p, restartOk, reconnectOk) == Health(old(State()), poolSize, restartOk, reconnectOk);
    }

    /** `get_process_status`. */
    method GetProcessStatus() returns (r: map<int, ProcessInfo>)
      requires Valid()
      ensures r == ProcessReport(State(), poolSize)
    {
      r := map[];
      var p, last := 1, if poolSize < 1 then 1 else poolSize + 1;
      while p < last
        invariant 1 <= p <= last
        invariant r == map q | 1 <= q < p :: Info(State(), q)
      {
        if p in processes {
          r := r[p := ProcessInfo(processes[p], controllers[p].connected, Some(status[p]))];
        } else {
          r := r[p := ProcessInfo(false, false, None)];
        }
        p := p + 1;
      }
      assert p == 1 || p == poolSize + 1;
    }
  }
}

=== FILE: netloc.dfy ===
/**
 * `SplitResult.hostname` of Python's `urllib.parse`: the host named by a
 * network location, with credentials, port and IPv6 brackets taken off, and
 * `urlsplit`'s refusal of unbalanced brackets.
 */
module NetLoc {
  import opened Wrappers
  import opened Text
  import opened Url

  /** `s.rpartition(c)[2]`: the text after the last `c`, or all of `s` when there is none. */
  function AfterLast(s: string, c: char): (r: string)
    ensures |r| <= |s| && r == s[|s| - |r|..] && c !in r
    ensures c in s ==> |r| < |s| && s[|s| - |r| - 1] == c
    ensures c !in s ==> r == s
  {
    match LastIndexOf(s, c)
    case None => s
    case Some(i) => s[i + 1..]
  }

  /**
   * `urlsplit` refuses a network location with a '[' and no ']', or a ']'
   * and no '[' ("Invalid IPv6 URL").
   */
  predicate InvalidIpv6(netloc: string) {
    ('[' in netloc) != (']' in netloc)
  }

  /**
   * `_hostinfo`'s host: after the last '@', the text between the first '['
   * and the next ']' when there is a '[', otherwise the text before the
   * first ':'.
   */
  function HostInfo(netloc: string): (h: string)
    ensures '@' !in h
    ensures var info := AfterLast(netloc, '@');
      '[' !in info ==> ':' !in h && StartsWith(info, h) && (|h| < |info| ==> info[|h|] == ':')
    ensures '[' in AfterLast(netloc, '@') ==> ']' !in h
  {
    var info := AfterLast(netloc, '@');
    var (_, bracketed) := SplitFirst(info, '[');
    if bracketed.Some? then SplitFirst(bracketed.value, ']').0
    else SplitFirst(info, ':').0
  }

  /**
   * `hostname`: the host, lower-cased up to a '%' and with the zone after it
   * kept as written; None when it is empty.
   */
  function Hostname(netloc: string): (r: Option<string>)
    ensures r.None? <==> HostInfo(netloc) == []
    ensures r.Some? ==> |r.value| == |HostInfo(netloc)| && '@' !in r.value
    ensures r.Some? && '%' !in HostInfo(netloc) ==> r.value == Lower(HostInfo(netloc))
  {
    var h := HostInfo(netloc);
    if h == [] then None
    else
      var (name, zone) := SplitFirst(h, '%');
      LowerKeeps(name, '@');
      Some(if zone.Some? then Lower(name) + "%" + zone.value else Lower(name))
  }

  /** Lower-casing keeps a non-letter out. */
  lemma LowerKeeps(s: string, c: char)
    requires c !in s && !IsLetter(c)
    ensures c !in Lower(s)
  {
  }

  /** In `http://netloc/...` the network location is exactly the text between "//" and the path. */
  lemma {:induction false} HttpNetloc(netloc: string, rest: string)
    requires '/' !in netloc && '?' !in netloc && '#' !in netloc
    requires rest == [] || rest[0] in {'/', '?', '#'}
    ensures UrlParse("http://" + netloc + rest).netloc == netloc
  {
    var after := "//" + netloc + rest;
    assert "http://" + netloc + rest == "http:" + after;
    HttpScheme(after);
    NetlocBeforePath(netloc, rest);
  }

  /** "http:" is a scheme, and what follows its colon is the rest of the URL. */
  lemma HttpScheme(after: string)
    ensures SplitScheme("http:" + after).1 == after
  {
    var u := "http:" + after;
    assert u[4] == ':';
    assert forall k :: 0 <= k < 4 ==> u[k] == "http"[k];
    assert IndexOf(u, ':') == Some(4);
    assert SchemeColon(u) == Some(4);
    assert u[5..] == after;
  }

  /** After "//", the network location runs to the first '/', '?' or '#'. */
  lemma NetlocBeforePath(netloc: string, rest: string)
    requires '/' !in netloc && '?' !in netloc && '#' !in netloc
    requires rest == [] || rest[0] in {'/', '?', '#'}
    ensures SplitNetloc("//" + netloc + rest).0 == netloc
  {
    var tail := netloc + rest;
    assert ("//" + netloc + rest)[2..] == tail;
    assert forall k :: 0 <= k < |netloc| ==> tail[k] == netloc[k];
    if rest != [] {
      assert tail[|netloc|] in {'/', '?', '#'};
      assert IndexOfAny(tail, {'/', '?', '#'}) == Some(|netloc|);
      assert tail[..|netloc|] == netloc;
    }
  }

  /** Credentials: nothing, or text ending in the '@' that closes them (`user:pw@`). */
  predicate IsCreds(creds: string)
  {
    creds == [] || creds[|creds| - 1] == '@'
  }

  /** `[creds]host:port` names `host`, lower-cased; credentials and port go. */
  lemma {:induction false} HostnamePlain(creds: string, host: string, port: string)
    requires IsCreds(creds) && '@' !in host + port && '[' !in host + port
    requires ':' !in host && '%' !in host && host != []
    ensures Hostname(creds + host + ":" + port) == Some(Lower(host))
  {
    assert creds + host + ":" + port == creds + (host + ":" + port);
    AfterCreds(creds, host + ":" + port);
    assert '[' !in host + ":" + port;
    SplitFirstAt(host, ':', port);
  }

  /** In `[creds][host]port` the host is what the brackets enclose, colons and all. */
  lemma {:induction false} HostInfoBracketed(creds: string, host: string, port: string)
    requires IsCreds(creds) && '@' !in host && '@' !in port && ']' !in host
    ensures HostInfo(creds + ("[" + host + "]" + port)) == host
  {
    var inner := host + "]" + port;
    var tail := "[" + host + "]" + port;
    assert tail == [] + "[" + inner;
    assert '@' !in tail by {
      forall k | 0 <= k < |tail| ensures tail[k] != '@' {
        if 1 <= k <= |host| { assert tail[k] == host[k - 1]; }
        else if k > |host| + 1 { assert tail[k] == port[k - |host| - 2]; }
      }
    }
    AfterCreds(creds, tail);
    SplitFirstAt([], '[', inner);
    SplitFirstAt(host, ']', port);
  }

  /** `[creds][host]port` with no zone names `host` in lower case, colons and all. */
  lemma {:induction false} HostnameBracketed(creds: string, host: string, port: string)
    requires IsCreds(creds) && '@' !in host && '@' !in port && ']' !in host && '%' !in host && host != []
    ensures Hostname(creds + ("[" + host + "]" + port)) == Some(Lower(host))
  {
    HostInfoBracketed(creds, host, port);
  }

  /** `[creds][addr%zone]port` names `addr` in lower case with `zone` kept as written. */
  lemma {:induction false} HostnameZone(creds: string, addr: string, zone: string, port: string)
    requires IsCreds(creds) && '@' !in addr && '@' !in zone && '@' !in port && ']' !in addr && ']' !in zone
    requires '%' !in addr && addr != []
    ensures Hostname(creds + ("[" + (addr + "%" + zone) + "]" + port)) == Some(Lower(addr) + "%" + zone)
  {
    var host := addr + "%" + zone;
    assert '@' !in host && ']' !in host;
    HostInfoBracketed(creds, host, port);
    ZoneKept(creds + ("[" + host + "]" + port), addr, zone);
  }

  /** A zone after '%' keeps its case; only the address before it is lower-cased. */
  lemma ZoneKept(netloc: string, addr: string, zone: string)
    requires HostInfo(netloc) == addr + "%" + zone && '%' !in addr
    ensures Hostname(netloc) == Some(Lower(addr) + "%" + zone)
  {
    SplitFirstAt(addr, '%', zone);
  }

  /** Credentials end at the last '@', so what follows them is the host information. */
  lemma AfterCreds(creds: string, tail: string)
    requires IsCreds(creds) && '@' !in tail
    ensures AfterLast(creds + tail, '@') == tail
  {
    if creds == [] {
      assert creds + tail == tail;
    } else {
      assert creds == creds[..|creds| - 1] + ['@'];
      assert creds + tail == creds[..|creds| - 1] + ['@'] + tail;
      AfterLastTail(creds[..|creds| - 1], '@', tail);
    }
  }

  /** `rpartition` at a last occurrence found by the caller. */
  lemma AfterLastTail(a: string, c: char, b: string)
    requires c !in b
    ensures AfterLast(a + [c] + b, c) == b
  {
    var s := a + [c] + b;
    var r := AfterLast(s, c);
    assert s[|a|] == c;
    assert s[|s| - |b|..] == b;
  }
}

=== FILE: numeric.dfy ===
/** Integer helpers shared by the managers. */
module Numeric {
  /** `max(lo, min(hi, v))`: the nearest value of `[lo, hi]`. */
  function Clamp(v: int, lo: int, hi: int): (r: int)
    requires lo <= hi
    ensures lo <= r <= hi
    ensures lo <= v <= hi ==> r == v
    ensures v < lo ==> r == lo
    ensures v > hi ==> r == hi
  {
    if v < lo then lo else if v > hi then hi else v
  }

  /** `int(x)` on a float: truncation toward zero. */
  function Trunc(x: real): (r: int)
    ensures x >= 0.0 ==> 0 <= r && r as real <= x < r as real + 1.0
    ensures x < 0.0 ==> r <= 0 && r as real - 1.0 < x <= r as real
  {
    if x >= 0.0 then x.Floor else -((-x).Floor)
  }
}

=== FILE: output_targets.dfy ===
/**
 * `OutputTargetManager` (managers/output_target_manager.py): a registry of output
 * targets (the local HDMI display, the local audio hat and discovered Chromecasts)
 * and the routing of `play_video` / `play_audio` / `stop_playback` to the manager
 * that serves each target. The registry is a dict keyed by target id; it is kept
 * here as a sequence in insertion order with distinct ids.
 *
 * The downstream managers are replaced by inputs: whether each one is present,
 * the outcome of the start call it would receive, and the device list a
 * discovery returns (`None` when discovery raised).
 */
module OutputTargets {
  import opened Wrappers
  import opened Text

  datatype TargetType = LocalVideo | LocalAudio | Chromecast

  /** An `OutputTarget`; of its metadata only `device_name` is read back, by the cast routes. */
  datatype Target = Target(id: string, kind: TargetType, name: string, capabilities: seq<string>,
                           deviceName: Option<string>, available: bool)

  /** One entry of the Chromecast manager's device list. */
  datatype Device = Device(uuid: string, name: string, model: string, host: string, port: int)

  const LocalVideoTarget := Target("local-video", LocalVideo, "HDMI Display (Local)", ["video", "audio"], None, true)
  const LocalAudioTarget := Target("local-audio", LocalAudio, "Audio Hat (Local)", ["audio"], None, true)
  const LocalTargets := [LocalVideoTarget, LocalAudioTarget]

  function CastId(d: Device): string
  {
    "chromecast-" + d.uuid
  }

  function CastTarget(d: Device): (t: Target)
    ensures t.kind == Chromecast && t.id == CastId(d) && t.deviceName == Some(d.name) && t.available
  {
    Target(CastId(d), Chromecast, d.name + " (Chromecast)", ["video", "audio"], Some(d.name), true)
  }

  predicate IsCastId(s: string)
  {
    StartsWith(s, "chromecast-")
  }

  /** A Chromecast id is never one of the local ids. */
  lemma CastIdNotLocal(s: string)
    requires IsCastId(s)
    ensures s != "local-video" && s != "local-audio"
  {
    assert s[0] == 'c';
  }

  predicate UniqueIds(ts: seq<Target>)
  {
    forall i, j :: 0 <= i < j < |ts| ==> ts[i].id != ts[j].id
  }

  /** The position of the entry with key `id`, or -1. */
  function IndexOf(ts: seq<Target>, id: string): (k: int)
    ensures -1 <= k < |ts|
    ensures k >= 0 ==> ts[k].id == id
    ensures k < 0 ==> forall i :: 0 <= i < |ts| ==> ts[i].id != id
  {
    if ts == [] then -1
    else if ts[|ts| - 1].id == id then |ts| - 1
    else IndexOf(ts[..|ts| - 1], id)
  }

  /** `targets.get(id)`. */
  function Find(ts: seq<Target>, id: string): (r: Option<Target>)
    ensures r.Some? ==> r.value in ts && r.value.id == id
    ensures r.None? ==> forall t :: t in ts ==> t.id != id
  {
    var k := IndexOf(ts, id);
    if k < 0 then None else Some(ts[k])
  }

  /** `targets[t.id] = t`: an existing entry is replaced in its place, a new one goes last. */
  function Put(ts: seq<Target>, t: Target): (r: seq<Target>)
    ensures Find(ts, t.id).None? ==> r == ts + [t]
    ensures Find(ts, t.id).Some? ==> |r| == |ts|
    ensures forall i :: 0 <= i < |ts| && ts[i].id != t.id ==> r[i] == ts[i]
    ensures t in r
  {
    var k := IndexOf(ts, t.id);
    if k < 0 then ts + [t]
    else
      assert ts[k := t][k] == t;
      ts[k := t]
  }

  lemma PutUnique(ts: seq<Target>, t: Target)
    requires UniqueIds(ts)
    ensures UniqueIds(Put(ts, t))
  {
  }

  /** The registry after adding the devices in order. */
  function PutAll(ts: seq<Target>, ds: seq<Device>): seq<Target>
    decreases |ds|
  {
    if ds == [] then ts else Put(PutAll(ts, ds[..|ds| - 1]), CastTarget(ds[|ds| - 1]))
  }

  /**
   * The two local targets first, then Chromecast targets only, all available,
   * with distinct ids.
   */
  predicate WellFormed(ts: seq<Target>)
  {
    |ts| >= 2 && ts[0] == LocalVideoTarget && ts[1] == LocalAudioTarget && UniqueIds(ts) &&
    forall i :: 2 <= i < |ts| ==> ts[i].kind == Chromecast && IsCastId(ts[i].id) && ts[i].available
  }

  lemma LocalsWellFormed()
    ensures WellFormed(LocalTargets)
  {
  }

  lemma PutCastWellFormed(ts: seq<Target>, d: Device)
    requires WellFormed(ts)
    ensures WellFormed(Put(ts, CastTarget(d)))
  {
    var t := CastTarget(d);
    assert IsCastId(t.id);
    CastIdNotLocal(t.id);
    PutUnique(ts, t);
  }

  /**
   * Rediscovery keeps the local targets in front, and the Chromecast targets are
   * exactly one per distinct device uuid.
   */
  lemma {:induction false} PutAllFacts(ds: seq<Device>)
    ensures WellFormed(PutAll(LocalTargets, ds))
    ensures forall d :: d in ds ==> Find(PutAll(LocalTargets, ds), CastId(d)).Some?
    ensures forall t :: t in PutAll(LocalTargets, ds) ==> t in LocalTargets || exists d :: d in ds && t == CastTarget(d)
    ensures |PutAll(LocalTargets, ds)| <= 2 + |ds|
    decreases |ds|
  {
    if ds != [] {
      var init := ds[..|ds| - 1];
      var d := ds[|ds| - 1];
      PutAllFacts(init);
      var prev := PutAll(LocalTargets, init);
      PutCastWellFormed(prev, d);
      var r := Put(prev, CastTarget(d));
      forall e | e in ds ensures Find(r, CastId(e)).Some? {
        if e != d {
          assert e in init;
          var k :| 0 <= k < |prev| && prev[k] == Find(prev, CastId(e)).value;
          if prev[k].id != CastTarget(d).id {
            assert r[k] == prev[k];
            assert r[k] in r;
          }
        }
      }
      forall t | t in r ensures t in LocalTargets || exists e :: e in ds && t == CastTarget(e) {
        if t != CastTarget(d) {
          assert t in prev;
          if !(t in LocalTargets) {
            var e :| e in init && t == CastTarget(e);
            assert e in ds;
          }
        }
      }
    }
  }

  /** Only Chromecast targets are dropped before rediscovery: of a well-formed registry the local pair remains. */
  function WithoutCasts(ts: seq<Target>): (r: seq<Target>)
    ensures forall t :: t in r <==> t in ts && t.kind != Chromecast
    ensures (forall i :: 0 <= i < |ts| ==> ts[i].kind == Chromecast) ==> r == []
  {
    if ts == [] then []
    else
      var rest := WithoutCasts(ts[1..]);
      assert forall t :: t in ts <==> t == ts[0] || t in ts[1..];
      if ts[0].kind == Chromecast then rest else [ts[0]] + rest
  }

  lemma WithoutCastsLocal(ts: seq<Target>)
    requires WellFormed(ts)
    ensures WithoutCasts(ts) == LocalTargets
  {
    assert forall i :: 0 <= i < |ts[2..]| ==> ts[2..][i] == ts[i + 2];
    assert ts[1..][1..] == ts[2..];
  }

  /** `not target_id`: a missing or empty id means the default. */
  function Resolve(targetId: Option<string>, default: string): (r: string)
    ensures targetId.Some? && targetId.value != "" ==> r == targetId.value
    ensures targetId.None? || targetId.value == "" ==> r == default
  {
    if targetId.None? || targetId.value == "" then default else targetId.value
  }

  /** Which manager a play request reaches, and with what device name. */
  datatype Route = NoRoute | PlaybackManager | AudioManager | CastManager(deviceName: Option<string>)

  /**
   * `play_video` routing: the target must exist and list "video"; the local
   * display goes to the playback manager and a Chromecast to the cast manager,
   * each only when that manager is present.
   */
  function VideoRoute(ts: seq<Target>, id: string, hasPlayback: bool, hasChromecast: bool): (r: Route)
    ensures r != NoRoute ==> Find(ts, id).Some? && "video" in Find(ts, id).value.capabilities
    ensures r == PlaybackManager ==> Find(ts, id).value.kind == LocalVideo && hasPlayback
    ensures r.CastManager? ==> Find(ts, id).value.kind == Chromecast && hasChromecast && r.deviceName == Find(ts, id).value.deviceName
  {
    match Find(ts, id)
    case None => NoRoute
    case Some(t) =>
      if "video" !in t.capabilities then NoRoute
      else if t.kind == LocalVideo then (if hasPlayback then PlaybackManager else NoRoute)
      else if t.kind == Chromecast then (if hasChromecast then CastManager(t.deviceName) else NoRoute)
      else NoRoute
  }

  /** `play_audio` routing: as for video, with "audio", the local audio hat and the audio manager. */
  function AudioRoute(ts: seq<Target>, id: string, hasAudio: bool, hasChromecast: bool): (r: Route)
    ensures r != NoRoute ==> Find(ts, id).Some? && "audio" in Find(ts, id).value.capabilities
    ensures r == AudioManager ==> Find(ts, id).value.kind == LocalAudio && hasAudio
    ensures r.CastManager? ==> Find(ts, id).value.kind == Chromecast && hasChromecast && r.deviceName == Find(ts, id).value.deviceName
  {
    match Find(ts, id)
    case None => NoRoute
    case Some(t) =>
      if "audio" !in t.capabilities then NoRoute
      else if t.kind == LocalAudio then (if hasAudio then AudioManager else NoRoute)
      else if t.kind == Chromecast then (if hasChromecast then CastManager(t.deviceName) else NoRoute)
      else NoRoute
  }

  /**
   * The local display lists "audio" but has no audio route: `play_audio` on
   * "local-video" falls through every branch and fails.
   */
  lemma LocalVideoPlaysNoAudio(ts: seq<Target>, hasAudio: bool, hasChromecast: bool)
    requires WellFormed(ts)
    ensures AudioRoute(ts, "local-video", hasAudio, hasChromecast) == NoRoute
    ensures "audio" in Find(ts, "local-video").value.capabilities
  {
    assert Find(ts, "local-video") == Some(LocalVideoTarget);
  }

  /** The defaults always route to the local managers, when those are present. */
  lemma DefaultsRouteLocally(ts: seq<Target>, hasPlayback: bool, hasAudio: bool, hasChromecast: bool)
    requires WellFormed(ts)
    ensures VideoRoute(ts, Resolve(None, "local-video"), hasPlayback, hasChromecast) == if hasPlayback then PlaybackManager else NoRoute
    ensures AudioRoute(ts, Resolve(None, "local-audio"), hasAudio, hasChromecast) == if hasAudio then AudioManager else NoRoute
  {
    assert Find(ts, "local-video") == Some(LocalVideoTarget);
    assert ts[1..][0] == LocalAudioTarget;
    assert Find(ts, "local-audio") == Some(LocalAudioTarget);
  }

  /** Python truthiness of an optional id. */
  predicate Truthy(o: Option<string>)
  {
    o.Some? && o.value != ""
  }

  /** Which stop call `stop_playback` makes for one active target. */
  datatype StopCall = StopPlayback | StopAudio | StopCast

  /** The stop call for the active target `id`: none when the target is gone or its manager is absent. */
  function StopFor(ts: seq<Target>, id: string, local: TargetType, hasLocal: bool, hasChromecast: bool): (r: seq<StopCall>)
    ensures |r| <= 1
    ensures Find(ts, id).None? ==> r == []
    ensures local != Chromecast ==>
      (r == [StopCast] <==> Find(ts, id).Some? && Find(ts, id).value.kind == Chromecast && hasChromecast)
    ensures local != Chromecast ==>
      (r != [] && r != [StopCast] <==> Find(ts, id).Some? && Find(ts, id).value.kind == local && hasLocal)
  {
    match Find(ts, id)
    case None => []
    case Some(t) =>
      if t.kind == local && hasLocal then [if local == LocalVideo then StopPlayback else StopAudio]
      else if t.kind == Chromecast && hasChromecast then [StopCast]
      else []
  }

  /** Stopping a target that a play request reached calls the stop of the manager that started it. */
  lemma StopMatchesRoute(ts: seq<Target>, id: string, hasPlayback: bool, hasAudio: bool, hasChromecast: bool)
    ensures VideoRoute(ts, id, hasPlayback, hasChromecast) == PlaybackManager ==> StopFor(ts, id, LocalVideo, hasPlayback, hasChromecast) == [StopPlayback]
    ensures VideoRoute(ts, id, hasPlayback, hasChromecast).CastManager? ==> StopFor(ts, id, LocalVideo, hasPlayback, hasChromecast) == [StopCast]
    ensures AudioRoute(ts, id, hasAudio, hasChromecast) == AudioManager ==> StopFor(ts, id, LocalAudio, hasAudio, hasChromecast) == [StopAudio]
    ensures AudioRoute(ts, id, hasAudio, hasChromecast).CastManager? ==> StopFor(ts, id, LocalAudio, hasAudio, hasChromecast) == [StopCast]
  {
  }

  /** The targets listing `c` that are available, in registry order. */
  function WithCapability(ts: seq<Target>, c: string): (r: seq<Target>)
    ensures forall t :: t in r <==> t in ts && c in t.capabilities && t.available
    ensures |r| <= |ts|
  {
    if ts == [] then []
    else
      var rest := WithCapability(ts[1..], c);
      assert forall t :: t in ts <==> t == ts[0] || t in ts[1..];
      if c in ts[0].capabilities && ts[0].available then [ts[0]] + rest else rest
  }

  function CountAvailable(ts: seq<Target>): (n: nat)
    ensures n <= |ts|
  {
    if ts == [] then 0 else (if ts[0].available then 1 else 0) + CountAvailable(ts[1..])
  }

  /** No target is ever marked unavailable, so `available_targets` always equals `total_targets`. */
  lemma {:induction false} AllAvailable(ts: seq<Target>)
    requires forall i :: 0 <= i < |ts| ==> ts[i].available
    ensures CountAvailable(ts) == |ts|
  {
    if ts != [] {
      AllAvailable(ts[1..]);
    }
  }

  /** The dict `get_status` returns, with the target list as the registry itself. */
  datatype Status = Status(totalTargets: int, availableTargets: int, activeVideo: Option<string>, activeAudio: Option<string>,
                           defaultVideo: string, defaultAudio: string, targets: seq<Target>)

  /** The first loop of `discover_chromecast_targets`: keep every target that is not a Chromecast. */
  method RemoveCasts(ts: seq<Target>) returns (kept: seq<Target>)
    requires WellFormed(ts)
    ensures kept == WithoutCasts(ts) == LocalTargets
  {
    kept := [];
    var i := 0;
    while i < |ts|
      invariant 0 <= i <= |ts|
      invariant kept == WithoutCasts(ts[..i])
    {
      assert ts[..i + 1] == ts[..i] + [ts[i]];
      WithoutCastsAppend(ts[..i], ts[i]);
      if ts[i].kind != Chromecast {
        kept := kept + [ts[i]];
      }
      i := i + 1;
    }
    assert ts[..i] == ts;
    WithoutCastsLocal(ts);
  }

  /** The second loop: register one Chromecast target per device, in order. */
  method AddCasts(kept: seq<Target>, ds: seq<Device>) returns (r: seq<Target>)
    requires kept == LocalTargets
    ensures r == PutAll(LocalTargets, ds)
  {
    r := kept;
    var j := 0;
    while j < |ds|
      invariant 0 <= j <= |ds|
      invariant r == PutAll(LocalTargets, ds[..j])
    {
      assert ds[..j + 1][..j] == ds[..j];
      r := Put(r, CastTarget(ds[j]));
      j := j + 1;
    }
    assert ds[..j] == ds;
  }

  class Manager {
    const hasAudio: bool
    const hasPlayback: bool
    const hasChromecast: bool
    var targets: seq<Target>
    var activeVideo: Option<string>
    var activeAudio: Option<string>

    ghost predicate Valid()
      reads this
    {
      WellFormed(targets)
    }

    /** `OutputTargetManager(audio, playback, chromecast)`: the two local targets and no active target. */
    constructor (audio: bool, playback: bool, chromecast: bool)
      ensures Valid()
      ensures targets == LocalTargets && activeVideo == None && activeAudio == None
      ensures hasAudio == audio && hasPlayback == playback && hasChromecast == chromecast
    {
      hasAudio, hasPlayback, hasChromecast := audio, playback, chromecast;
      targets := LocalTargets;
      activeVideo, activeAudio := None, None;
    }

    /**
     * `discover_chromecast_targets`: drop every Chromecast target, then add one per
     * discovered device; return the device count. Without a Chromecast manager, or
     * when discovery raises (`devices == None`), return 0 and keep the registry.
     */
    method DiscoverChromecastTargets(devices: Option<seq<Device>>) returns (n: int)
      requires Valid()
      modifies this`targets
      ensures Valid()
      ensures !hasChromecast || devices.None? ==> n == 0 && targets == old(targets)
      ensures hasChromecast && devices.Some? ==> n == |devices.value| && targets == PutAll(LocalTargets, devices.value)
    {
      if !hasChromecast || devices.None? {
        return 0;
      }
      var ds := devices.value;
      var kept := RemoveCasts(targets);
      kept := AddCasts(kept, ds);
      PutAllFacts(ds);
      targets := kept;
      return |ds|;
    }

    /** `play_video(url, target_id)`; `started` is what the routed start call returns. */
    method PlayVideo(targetId: Option<string>, started: bool) returns (ok: bool, route: Route)
      requires Valid()
      modifies this`activeVideo
      ensures route == VideoRoute(targets, Resolve(targetId, "local-video"), hasPlayback, hasChromecast)
      ensures ok <==> route != NoRoute && started
      ensures activeVideo == if ok then Some(Resolve(targetId, "local-video")) else old(activeVideo)
    {
      var id := Resolve(targetId, "local-video");
      route := VideoRoute(targets, id, hasPlayback, hasChromecast);
      ok := route != NoRoute && started;
      if ok {
        activeVideo := Some(id);
      }
    }

    /** `play_audio(url, target_id)`; `started` is what the routed start call returns. */
    method PlayAudio(targetId: Option<string>, started: bool) returns (ok: bool, route: Route)
      requires Valid()
      modifies this`activeAudio
      ensures route == AudioRoute(targets, Resolve(targetId, "local-audio"), hasAudio, hasChromecast)
      ensures ok <==> route != NoRoute && started
      ensures activeAudio == if ok then Some(Resolve(targetId, "local-audio")) else old(activeAudio)
    {
      var id := Resolve(targetId, "local-audio");
      route := AudioRoute(targets, id, hasAudio, hasChromecast);
      ok := route != NoRoute && started;
      if ok {
        activeAudio := Some(id);
      }
    }

    /**
     * `stop_playback(media_type)`: for "video"/"all" stop the active video target
     * and clear it, for "audio"/"all" likewise the audio one; the stop calls made
     * are returned in order.
     */
    method StopPlayback(mediaType: string) returns (calls: seq<StopCall>)
      requires Valid()
      modifies this`activeVideo, this`activeAudio
      ensures var video := (mediaType == "video" || mediaType == "all") && Truthy(old(activeVideo));
        var audio := (mediaType == "audio" || mediaType == "all") && Truthy(old(activeAudio));
        activeVideo == (if video then None else old(activeVideo)) &&
        activeAudio == (if audio then None else old(activeAudio)) &&
        calls == (if video then StopFor(targets, old(activeVideo).value, LocalVideo, hasPlayback, hasChromecast) else []) +
                 (if audio then StopFor(targets, old(activeAudio).value, LocalAudio, hasAudio, hasChromecast) else [])
    {
      calls := [];
      if (mediaType == "video" || mediaType == "all") && Truthy(activeVideo) {
        calls := StopFor(targets, activeVideo.value, LocalVideo, hasPlayback, hasChromecast);
        activeVideo := None;
      }
      if (mediaType == "audio" || mediaType == "all") && Truthy(activeAudio) {
        calls := calls + StopFor(targets, activeAudio.value, LocalAudio, hasAudio, hasChromecast);
        activeAudio := None;
      }
    }

    /** `cleanup`: `stop_playback("all")`; the auto-discovery task it also cancels is not modelled. */
    method Cleanup() returns (calls: seq<StopCall>)
      requires Valid()
      modifies this`activeVideo, this`activeAudio
      ensures !Truthy(activeVideo) && !Truthy(activeAudio)
      ensures Truthy(old(activeVideo)) ==> activeVideo == None
      ensures Truthy(old(activeAudio)) ==> activeAudio == None
      ensures |calls| <= 2
    {
      calls := StopPlayback("all");
    }

    /** `get_targets_by_capability(c)`. */
    method GetTargetsByCapability(c: string) returns (r: seq<Target>)
      requires Valid()
      ensures r == WithCapability(targets, c)
    {
      r := [];
      var i := |targets|;
      while i > 0
        invariant 0 <= i <= |targets|
        invariant r == WithCapability(targets[i..], c)
      {
        i := i - 1;
        assert targets[i..][1..] == targets[i + 1..];
        if c in targets[i].capabilities && targets[i].available {
          r := [targets[i]] + r;
        }
      }
    }

    /** `get_status`. */
    method GetStatus() returns (s: Status)
      requires Valid()
      ensures s.totalTargets == |targets| && s.availableTargets == CountAvailable(targets)
      ensures s.availableTargets == s.totalTargets
      ensures s.activeVideo == activeVideo && s.activeAudio == activeAudio && s.targets == targets
      ensures s.defaultVideo == "local-video" && s.defaultAudio == "local-audio"
    {
      AllAvailable(targets);
      s := Status(|targets|, CountAvailable(targets), activeVideo, activeAudio, "local-video", "local-audio", targets);
    }
  }

  lemma {:induction false} WithoutCastsAppend(ts: seq<Target>, t: Target)
    ensures WithoutCasts(ts + [t]) == WithoutCasts(ts) + (if t.kind == Chromecast then [] else [t])
    decreases |ts|
  {
    if ts != [] {
      assert (ts + [t])[1..] == ts[1..] + [t];
      WithoutCastsAppend(ts[1..], t);
    }
  }
}

=== FILE: playback.dfy ===
/**
 * `PlaybackManager` (managers/playback_manager.py): YouTube playback on a
 * process of the video mpv pool. The pool's answer, mpv's replies and the
 * display detector's current choice are inputs; the IPC commands sent and the
 * processes handed back to the pool are outputs. The connector and device come
 * from `Drm.ConnectorAndDevice`, which this manager repeats as a method. The
 * timers that return to the background after the video ends are not modelled.
 */
module Playback {
  import opened Wrappers
  import opened Text
  import Display
  import Drm

  const YoutubeQuality := "bestvideo[vcodec^=avc1][height<=720]+bestaudio/best[height<=720]"

  /** An mpv IPC command, as its argument list. */
  type Command = seq<string>

  /** Python truthiness of the optional duration: given and not zero. */
  predicate HasDuration(duration: Option<int>)
  {
    duration.Some? && duration.value != 0
  }

  /** The commands `play_youtube` sends to the process it was given, in order. */
  function YoutubeCommands(connector: string, device: string, url: string, duration: Option<int>, mute: bool): (r: seq<Command>)
    ensures |r| >= 6 && r[|r| - 1] == ["loadfile", url]
    ensures r[..4] == [["set", "drm-connector", connector], ["set", "drm-device", device],
                       ["set", "fullscreen", "yes"], ["set", "ytdl-format", YoutubeQuality]]
    ensures r[4] == ["set", "audio", if mute then "no" else "yes"]
    ensures |r| == 7 <==> HasDuration(duration)
    ensures HasDuration(duration) ==> r[5] == ["set", "end", IntToString(duration.value)]
  {
    [["set", "drm-connector", connector], ["set", "drm-device", device],
     ["set", "fullscreen", "yes"], ["set", "ytdl-format", YoutubeQuality],
     ["set", "audio", if mute then "no" else "yes"]] +
    (if HasDuration(duration) then [["set", "end", IntToString(duration.value)]] else []) +
    [["loadfile", url]]
  }

  /** What `get_playback_status` reports. */
  datatype Status = Status(isPlaying: bool, currentStream: Option<string>, protocol: Option<string>,
                           player: Option<string>, processId: Option<nat>)

  class Manager {
    /** The pool process playing, if any (`video_controller`). */
    var controller: Option<nat>
    var currentStream: Option<string>
    var currentProtocol: Option<string>
    var currentPlayer: Option<string>

    constructor ()
      ensures controller.None? && currentStream.None? && currentProtocol.None? && currentPlayer.None?
    {
      controller, currentStream, currentProtocol, currentPlayer := None, None, None, None;
    }

    /**
     * `stop_playback`; `stopFails` says the "stop" command raised, in which case
     * the process is neither released nor forgotten. The `current_*` fields are
     * cleared either way, and the background comes back when something other
     * than the background was playing.
     */
    method StopPlayback(stopFails: bool) returns (ok: bool, released: Option<nat>, showBackground: bool)
      modifies this
      ensures ok
      ensures currentStream.None? && currentProtocol.None? && currentPlayer.None?
      ensures released == (if stopFails then None else old(controller))
      ensures controller == (if stopFails then old(controller) else None)
      ensures showBackground <==> old(currentProtocol).Some? && old(currentProtocol).value != "" && old(currentProtocol).value != "background"
    {
      released := None;
      var oldProtocol := currentProtocol;
      if controller.Some? && !stopFails {
        released := controller;
        controller := None;
      }
      showBackground := oldProtocol.Some? && oldProtocol.value != "" && oldProtocol.value != "background";
      currentStream, currentProtocol, currentPlayer := None, None, None;
      ok := true;
    }

    /**
     * `play_youtube(url, duration, mute)`: stop what plays, take a pool process
     * (`acquired`, None when the pool has none), configure it for the chosen
     * connector and load the URL; keep it only if mpv then reports it is not
     * paused. `loadError` says `loadfile` answered an error, `paused` is mpv's
     * pause property afterwards.
     */
    method PlayYoutube(url: string, duration: Option<int>, mute: bool,
                       connector: string, capabilities: map<string, Display.ConnectorData>,
                       acquired: Option<nat>, loadError: bool, paused: bool, stopFails: bool)
      returns (ok: bool, commands: seq<Command>, released: seq<nat>)
      modifies this
      ensures ok <==> acquired.Some? && !loadError && !paused
      ensures ok ==>
        controller == acquired && currentStream == Some("youtube:" + url) &&
        currentProtocol == Some("youtube") && currentPlayer == Some("mpv_video_pool")
      ensures !ok && old(controller).Some? ==>
        currentStream.None? && currentProtocol.None? && currentPlayer.None? &&
        controller == (if stopFails then old(controller) else None)
      ensures !ok && old(controller).None? ==>
        controller.None? && currentStream == old(currentStream) &&
        currentProtocol == old(currentProtocol) && currentPlayer == old(currentPlayer)
      ensures acquired.None? ==> commands == []
      ensures acquired.Some? ==>
        var (c, d) := Drm.ConnectorAndDevice(connector, capabilities);
        commands == YoutubeCommands(c, d, url, duration, mute)
      ensures released ==
        (if old(controller).Some? && !stopFails then [old(controller).value] else []) +
        (if acquired.Some? && !ok then [acquired.value] else [])
    {
      released := [];
      if controller.Some? {
        var _, r, _ := StopPlayback(stopFails);
        if r.Some? {
          released := [r.value];
        }
      }
      var (c, d) := Drm.ConnectorAndDevice(connector, capabilities);
      if acquired.None? {
        return false, [], released;
      }
      commands := YoutubeCommands(c, d, url, duration, mute);
      if loadError || paused {
        released := released + [acquired.value];
        return false, commands, released;
      }
      currentStream, currentProtocol, currentPlayer := Some("youtube:" + url), Some("youtube"), Some("mpv_video_pool");
      controller := acquired;
      ok := true;
    }

    /** `get_playback_status`: every field but `is_playing` is None while no process is held. */
    function GetPlaybackStatus(): (st: Status)
      reads this
      ensures st.isPlaying <==> controller.Some?
      ensures !st.isPlaying ==> st.currentStream.None? && st.protocol.None? && st.player.None? && st.processId.None?
      ensures st.isPlaying ==>
        st.currentStream == currentStream && st.protocol == currentProtocol &&
        st.player == currentPlayer && st.processId == controller
    {
      if controller.Some? then Status(true, currentStream, currentProtocol, currentPlayer, controller)
      else Status(false, None, None, None, None)
    }
  }
}

=== FILE: splitflap.dfy ===
/**
 * The split-flap clock (splitflap/digit.py, splitflap/clock.py): four flip
 * digits showing HH:MM. A digit flips in `AnimationFrames` frames and shows its
 * new character only once the flip completes; the clock starts a flip exactly
 * on the positions whose character changed. The wall clock is an input: the
 * current time in seconds and the "%H%M" string of the moment. Drawing is not
 * modelled, only the state it is drawn from and where each digit is placed.
 */
module Splitflap {

  /** `animation_frames`. */
  const AnimationFrames := 12

  /** The animation state of one digit. */
  datatype Flap = Flap(frame: int, animating: bool, oldDigit: string, newDigit: string, current: string)

  /** A digit at rest showing `c`. */
  function Resting(c: string): Flap
  {
    Flap(0, false, c, c, c)
  }

  /**
   * `start_transition`: refused (nothing changes) when the character is the
   * one shown or a flip is running; otherwise a flip from the shown character
   * starts at frame 0.
   */
  function StartFlap(f: Flap, next: string): (r: (Flap, bool))
    ensures r.1 <==> next != f.current && !f.animating
    ensures !r.1 ==> r.0 == f
    ensures r.1 ==> r.0 == Flap(0, true, f.current, next, f.current)
  {
    if next == f.current || f.animating then (f, false)
    else (Flap(0, true, f.current, next, f.current), true)
  }

  /**
   * `update_animation`: a resting digit reports completion and stays as it is;
   * a flipping one moves one frame on, and on reaching the last frame shows its
   * new character and comes to rest. The result says whether it is complete.
   */
  function AdvanceFlap(f: Flap): (r: (Flap, bool))
    ensures !f.animating ==> r == (f, true)
    ensures f.animating ==> r.0.frame == f.frame + 1 && (r.1 <==> f.frame + 1 >= AnimationFrames)
    ensures r.0.animating <==> f.animating && !r.1
    ensures r.0.current != f.current ==> f.animating && r.1 && r.0.current == f.newDigit
    ensures r.0.oldDigit == f.oldDigit && r.0.newDigit == f.newDigit
  {
    if !f.animating then (f, true)
    else if f.frame + 1 >= AnimationFrames then (f.(frame := f.frame + 1, current := f.newDigit, animating := false), true)
    else (f.(frame := f.frame + 1), false)
  }

  /** `k` updates in a row. */
  function AdvanceTimes(f: Flap, k: nat): Flap
  {
    if k == 0 then f else AdvanceFlap(AdvanceTimes(f, k - 1)).0
  }

  /** During a flip begun at frame 0, after `k` updates the digit is at frame `k`, still showing the old character. */
  lemma {:induction false} FlipInProgress(f: Flap, k: nat)
    requires f.frame == 0 && f.animating
    requires k < AnimationFrames
    ensures AdvanceTimes(f, k) == f.(frame := k)
  {
    if k > 0 {
      FlipInProgress(f, k - 1);
    }
  }

  /**
   * After a flip starts, the first eleven updates report it incomplete and the
   * twelfth completes it: the digit then rests on the new character.
   */
  lemma FlipTakesTwelveFrames(f: Flap, next: string)
    requires StartFlap(f, next).1
    ensures var s := StartFlap(f, next).0;
      (forall k :: 0 <= k < AnimationFrames - 1 ==> !AdvanceFlap(AdvanceTimes(s, k)).1) &&
      AdvanceFlap(AdvanceTimes(s, AnimationFrames - 1)).1 &&
      AdvanceTimes(s, AnimationFrames).current == next && !AdvanceTimes(s, AnimationFrames).animating
  {
    var s := StartFlap(f, next).0;
    forall k | 0 <= k < AnimationFrames - 1
      ensures !AdvanceFlap(AdvanceTimes(s, k)).1
    {
      FlipInProgress(s, k);
    }
    FlipInProgress(s, AnimationFrames - 1);
  }

  /** A resting digit stays as it is however many updates it gets. */
  lemma {:induction false} RestingStays(f: Flap, k: nat)
    requires !f.animating
    ensures AdvanceTimes(f, k) == f
  {
    if k > 0 {
      RestingStays(f, k - 1);
    }
  }

  /** `_get_animation_progress`: the share of the flip done, 1 at rest. */
  function Progress(f: Flap): (r: real)
    ensures !f.animating ==> r == 1.0
    ensures f.animating && 0 <= f.frame <= AnimationFrames ==> 0.0 <= r <= 1.0
  {
    if !f.animating then 1.0 else f.frame as real / AnimationFrames as real
  }

  /** `SplitflapDigit`; the colours and font only matter to drawing. */
  class Digit {
    const width: int
    const height: int
    const fontSize: int
    var currentFrame: int
    var isAnimating: bool
    var oldDigit: string
    var newDigit: string
    var currentDigit: string

    /** The animation state held in the fields. */
    function State(): Flap
      reads this
    {
      Flap(currentFrame, isAnimating, oldDigit, newDigit, currentDigit)
    }

    constructor (w: int, h: int, size: int)
      ensures width == w && height == h && fontSize == size
      ensures State() == Resting("0")
    {
      width, height, fontSize := w, h, size;
      currentFrame, isAnimating := 0, false;
      oldDigit, newDigit, currentDigit := "0", "0", "0";
    }

    method StartTransition(next: string) returns (started: bool)
      modifies this
      ensures (State(), started) == StartFlap(old(State()), next)
    {
      if next == currentDigit || isAnimating {
        return false;
      }
      oldDigit := currentDigit;
      newDigit := next;
      currentFrame := 0;
      isAnimating := true;
      started := true;
    }

    method UpdateAnimation() returns (complete: bool)
      modifies this
      ensures (State(), complete) == AdvanceFlap(old(State()))
    {
      if !isAnimating {
        return true;
      }
      currentFrame := currentFrame + 1;
      if currentFrame >= AnimationFrames {
        currentDigit := newDigit;
        isAnimating := false;
        return true;
      }
      complete := false;
    }

    /** `get_digit`: the character the digit shows. */
    function GetDigit(): (d: string)
      reads this
      ensures d == State().current
    {
      currentDigit
    }

    /** `is_animation_active`: whether a flip runs; a digit that is not flipping reports full progress. */
    function IsAnimationActive(): (a: bool)
      reads this
      ensures a == State().animating
      ensures !a ==> Progress(State()) == 1.0
    {
      isAnimating
    }
  }

  // ---------------------------------------------------------------------------
  // The clock
  // ---------------------------------------------------------------------------

  /** `total_width`: four digits, two spacings between pairs and two around the colon. */
  function TotalWidth(digitWidth: int, spacing: int): int
  {
    4 * digitWidth + 3 * spacing + 2 * spacing
  }

  /** The time the changed positions are found against: `current_time or "0000"`. */
  function Baseline(currentTime: string): string
  {
    if currentTime == "" then "0000" else currentTime
  }

  /** One character of a string, as the one-character string a digit holds. */
  function CharAt(s: string, i: nat): string
    requires i < |s|
  {
    [s[i]]
  }

  /** Start a flip on exactly the positions where `before` and `after` differ. */
  function StartChanged(digits: seq<Flap>, before: string, after: string): (r: seq<Flap>)
    requires |digits| == 4 && |before| == 4 && |after| == 4
    ensures |r| == 4
    ensures forall i :: 0 <= i < 4 ==>
      r[i] == if before[i] != after[i] then StartFlap(digits[i], CharAt(after, i)).0 else digits[i]
  {
    seq(4, i requires 0 <= i < 4 =>
      if before[i] != after[i] then StartFlap(digits[i], CharAt(after, i)).0 else digits[i])
  }

  /** Whether some position changed and its flip was accepted. */
  predicate AnyStarted(digits: seq<Flap>, before: string, after: string)
    requires |digits| == 4 && |before| == 4 && |after| == 4
  {
    exists i :: 0 <= i < 4 && before[i] != after[i] && StartFlap(digits[i], CharAt(after, i)).1
  }

  /** `_update_animations` on the digit states: each flipping digit advances once. */
  function AdvanceAll(digits: seq<Flap>): (r: seq<Flap>)
    ensures |r| == |digits|
    ensures forall i :: 0 <= i < |digits| ==> r[i] == AdvanceFlap(digits[i]).0
  {
    seq(|digits|, i requires 0 <= i < |digits| => AdvanceFlap(digits[i]).0)
  }

  /** Whether any digit is flipping. */
  predicate AnyAnimating(digits: seq<Flap>)
  {
    exists i :: 0 <= i < |digits| && digits[i].animating
  }

  function AdvanceAllTimes(digits: seq<Flap>, k: nat): seq<Flap>
  {
    if k == 0 then digits else AdvanceAll(AdvanceAllTimes(digits, k - 1))
  }

  /** Advancing the clock `k` times advances each digit `k` times. */
  lemma {:induction false} AdvanceAllTimesAt(digits: seq<Flap>, k: nat)
    ensures |AdvanceAllTimes(digits, k)| == |digits|
    ensures forall i :: 0 <= i < |digits| ==> AdvanceAllTimes(digits, k)[i] == AdvanceTimes(digits[i], k)
  {
    if k > 0 {
      AdvanceAllTimesAt(digits, k - 1);
    }
  }

  /**
   * A clock at rest showing `before` that sees the time `after` shows `after`
   * once twelve animation steps have passed, and is at rest again.
   */
  lemma ClockSettles(digits: seq<Flap>, before: string, after: string)
    requires |digits| == 4 && |before| == 4 && |after| == 4
    requires forall i :: 0 <= i < 4 ==> !digits[i].animating && digits[i].current == CharAt(before, i)
    ensures var r := AdvanceAllTimes(StartChanged(digits, before, after), AnimationFrames);
      |r| == 4 && forall i :: 0 <= i < 4 ==> r[i].current == CharAt(after, i) && !r[i].animating
  {
    var started := StartChanged(digits, before, after);
    AdvanceAllTimesAt(started, AnimationFrames);
    forall i | 0 <= i < 4
      ensures AdvanceTimes(started[i], AnimationFrames).current == CharAt(after, i)
      ensures !AdvanceTimes(started[i], AnimationFrames).animating
    {
      if before[i] != after[i] {
        assert CharAt(after, i) != digits[i].current;
        FlipTakesTwelveFrames(digits[i], CharAt(after, i));
      } else {
        assert CharAt(after, i) == CharAt(before, i);
        RestingStays(started[i], AnimationFrames);
      }
    }
  }

  /** `get_current_time_string`: "00:00" before any time, otherwise a colon after the hours. */
  function TimeString(currentTime: string): (r: string)
    ensures currentTime == "" ==> r == "00:00"
    ensures currentTime != "" ==>
      var k := if |currentTime| < 2 then |currentTime| else 2;
      k < |r| && r[k] == ':' && r[..k] + r[k + 1..] == currentTime
  {
    if currentTime == "" then "00:00"
    else
      var k := if |currentTime| < 2 then |currentTime| else 2;
      var r := currentTime[..k] + ":" + currentTime[k..];
      assert r[..k] == currentTime[..k] && r[k + 1..] == currentTime[k..];
      r
  }

  /**
   * The x positions of the four digits in `render`, and of the colon between
   * the hours and the minutes.
   */
  method DigitOffsets(digitWidth: int, spacing: int) returns (xs: seq<int>, colonX: int)
    ensures xs == [0, digitWidth + spacing, 2 * digitWidth + 3 * spacing, 3 * digitWidth + 4 * spacing]
    ensures colonX == 2 * digitWidth + 2 * spacing
    ensures spacing >= 0 ==> xs[3] + digitWidth <= TotalWidth(digitWidth, spacing)
  {
    var currentX := 0;
    xs, colonX := [], 0;
    for i := 0 to 4
      invariant |xs| == i
      invariant i == 0 ==> currentX == 0
      invariant i == 1 ==> xs == [0] && currentX == digitWidth + spacing
      invariant i == 2 ==> xs == [0, digitWidth + spacing] && currentX == 2 * digitWidth + 3 * spacing
                           && colonX == 2 * digitWidth + 2 * spacing
      invariant i == 3 ==> xs == [0, digitWidth + spacing, 2 * digitWidth + 3 * spacing]
                           && currentX == 3 * digitWidth + 4 * spacing && colonX == 2 * digitWidth + 2 * spacing
      invariant i == 4 ==> xs == [0, digitWidth + spacing, 2 * digitWidth + 3 * spacing, 3 * digitWidth + 4 * spacing]
                           && colonX == 2 * digitWidth + 2 * spacing
    {
      xs := xs + [currentX];
      currentX := currentX + digitWidth;
      if i == 1 {
        currentX := currentX + spacing;
        colonX := currentX;
        currentX := currentX + spacing;
      } else if i < 3 {
        currentX := currentX + spacing;
      }
    }
  }

  /** The mean progress of the flipping digits, or 1 when none flips. */
  function MeanProgress(digits: seq<Flap>): (r: real)
    ensures (forall i :: 0 <= i < |digits| ==> 0 <= digits[i].frame <= AnimationFrames) ==> 0.0 <= r <= 1.0
    ensures Flipping(digits) == 0 ==> r == 1.0
  {
    var n := Flipping(digits);
    if n == 0 then 1.0
    else
      var sum := ProgressSum(digits);
      ShareWithin(sum, n as real);
      sum / n as real
  }

  /** A sum of at most `n` shares, divided by `n`, is a share. */
  lemma ShareWithin(sum: real, n: real)
    requires n > 0.0
    ensures 0.0 <= sum <= n ==> 0.0 <= sum / n <= 1.0
  {
    if 0.0 <= sum <= n {
      var q := sum / n;
      assert q * n == sum;
      assert (1.0 - q) * n == n - sum;
    }
  }

  /** How many digits flip. */
  function Flipping(digits: seq<Flap>): (n: nat)
    ensures n <= |digits|
  {
    if digits == [] then 0 else Flipping(digits[..|digits| - 1]) + (if digits[|digits| - 1].animating then 1 else 0)
  }

  /** Some digit flips exactly when the count of flipping digits is positive. */
  lemma {:induction false} FlippingCounts(digits: seq<Flap>)
    ensures Flipping(digits) > 0 <==> AnyAnimating(digits)
  {
    if digits != [] {
      var init := digits[..|digits| - 1];
      FlippingCounts(init);
      if AnyAnimating(init) {
        var i :| 0 <= i < |init| && init[i].animating;
        assert digits[i].animating;
      }
      if AnyAnimating(digits) && !digits[|digits| - 1].animating {
        var i :| 0 <= i < |digits| && digits[i].animating;
        assert init[i].animating;
      }
    }
  }

  /** The progress of the flipping digits added up: at most one per flipping digit. */
  function ProgressSum(digits: seq<Flap>): (r: real)
    ensures (forall i :: 0 <= i < |digits| ==> 0 <= digits[i].frame <= AnimationFrames) ==>
      0.0 <= r <= Flipping(digits) as real
  {
    if digits == [] then 0.0
    else
      var last := digits[|digits| - 1];
      ProgressSum(digits[..|digits| - 1]) + (if last.animating then Progress(last) else 0.0)
  }

  /**
   * `SplitflapClock`. The four digits are held as their states: the clock is the
   * only owner of its digit objects, so each update is a change to one entry.
   */
  class Clock {
    const digitWidth: int
    const digitHeight: int
    const spacing: int
    const totalWidth: int
    var digits: seq<Flap>
    var currentTime: string
    var lastUpdateTime: real

    predicate Valid()
      reads this
    {
      |digits| == 4 && |currentTime| == 4 && totalWidth == TotalWidth(digitWidth, spacing)
    }

    /** `__init__`: every digit rests on the character of the current time, with no flip. */
    constructor (dw: int, dh: int, fontSize: int, sp: int, hhmm: string)
      requires |hhmm| == 4
      ensures Valid()
      ensures digitWidth == dw && digitHeight == dh && spacing == sp
      ensures totalWidth == TotalWidth(dw, sp)
      ensures digits == seq(4, i requires 0 <= i < 4 => Resting(CharAt(hhmm, i)))
      ensures currentTime == hhmm && lastUpdateTime == 0.0
    {
      digitWidth, digitHeight, spacing := dw, dh, sp;
      totalWidth := TotalWidth(dw, sp);
      digits := seq(4, i requires 0 <= i < 4 => Resting(CharAt(hhmm, i)));
      currentTime := hhmm;
      lastUpdateTime := 0.0;
    }

    /**
     * `_update_time_display` and `force_update`: the three characters of every
     * digit are set to the time, leaving any flip's frame counter as it was.
     */
    method ShowTime(hhmm: string)
      requires Valid() && |hhmm| == 4
      modifies this
      ensures Valid() && currentTime == hhmm && lastUpdateTime == old(lastUpdateTime)
      ensures forall i :: 0 <= i < 4 ==>
        digits[i] == old(digits)[i].(oldDigit := CharAt(hhmm, i), newDigit := CharAt(hhmm, i), current := CharAt(hhmm, i))
    {
      for i := 0 to 4
        invariant |digits| == 4 && currentTime == old(currentTime) && lastUpdateTime == old(lastUpdateTime)
        invariant forall k :: 0 <= k < i ==>
          digits[k] == old(digits)[k].(oldDigit := CharAt(hhmm, k), newDigit := CharAt(hhmm, k), current := CharAt(hhmm, k))
        invariant forall k :: i <= k < 4 ==> digits[k] == old(digits)[k]
      {
        var c := CharAt(hhmm, i);
        digits := digits[i := digits[i].(oldDigit := c, newDigit := c, current := c)];
      }
      currentTime := hhmm;
    }

    /** `_update_animations`: each flipping digit advances once; says whether any was flipping. */
    method UpdateAnimations() returns (active: bool)
      requires Valid()
      modifies this
      ensures Valid() && currentTime == old(currentTime) && lastUpdateTime == old(lastUpdateTime)
      ensures digits == AdvanceAll(old(digits))
      ensures active <==> AnyAnimating(old(digits))
    {
      active := false;
      for i := 0 to 4
        invariant |digits| == 4 && currentTime == old(currentTime) && lastUpdateTime == old(lastUpdateTime)
        invariant forall k :: 0 <= k < i ==> digits[k] == AdvanceFlap(old(digits)[k]).0
        invariant forall k :: i <= k < 4 ==> digits[k] == old(digits)[k]
        invariant active <==> exists k :: 0 <= k < i && old(digits)[k].animating
      {
        if digits[i].animating {
          var (f, _) := AdvanceFlap(digits[i]);
          digits := digits[i := f];
          active := true;
        }
      }
    }

    /**
     * `update` at time `now`, the clock reading `hhmm`: within 0.1 s of the last
     * check only the flips advance; otherwise a changed time starts a flip on
     * exactly the changed positions and becomes the current time, then the
     * flips advance. Says whether the picture needs redrawing.
     */
    method Update(now: real, hhmm: string) returns (refresh: bool)
      requires Valid() && |hhmm| == 4
      modifies this
      ensures Valid()
      ensures now - old(lastUpdateTime) < 0.1 ==>
        digits == AdvanceAll(old(digits)) && currentTime == old(currentTime) &&
        lastUpdateTime == old(lastUpdateTime) && (refresh <==> AnyAnimating(old(digits)))
      ensures now - old(lastUpdateTime) >= 0.1 && hhmm == old(currentTime) ==>
        digits == AdvanceAll(old(digits)) && currentTime == hhmm &&
        lastUpdateTime == now && (refresh <==> AnyAnimating(old(digits)))
      ensures now - old(lastUpdateTime) >= 0.1 && hhmm != old(currentTime) ==>
        var started := StartChanged(old(digits), Baseline(old(currentTime)), hhmm);
        digits == AdvanceAll(started) && currentTime == hhmm && lastUpdateTime == now &&
        (refresh <==> AnyStarted(old(digits), Baseline(old(currentTime)), hhmm) || AnyAnimating(started))
    {
      if now - lastUpdateTime < 0.1 {
        refresh := UpdateAnimations();
        return;
      }
      lastUpdateTime := now;
      var needsRefresh := false;
      if hhmm != currentTime {
        var before := Baseline(currentTime);
        ghost var start := digits;
        for i := 0 to 4
          invariant |digits| == 4 && currentTime == old(currentTime) && lastUpdateTime == now
          invariant forall k :: 0 <= k < i ==> digits[k] == StartChanged(start, before, hhmm)[k]
          invariant forall k :: i <= k < 4 ==> digits[k] == start[k]
          invariant needsRefresh <==> exists k :: 0 <= k < i && before[k] != hhmm[k] && StartFlap(start[k], CharAt(hhmm, k)).1
        {
          if before[i] != hhmm[i] {
            var (f, started) := StartFlap(digits[i], CharAt(hhmm, i));
            digits := digits[i := f];
            if started {
              needsRefresh := true;
            }
          }
        }
        assert digits == StartChanged(start, before, hhmm);
        currentTime := hhmm;
      }
      var animationActive := UpdateAnimations();
      refresh := needsRefresh || animationActive;
    }

    /** `get_display_size`: four digits and five spacings wide, one digit high. */
    function GetDisplaySize(): (size: (int, int))
      reads this
      requires Valid()
      ensures size == (4 * digitWidth + 5 * spacing, digitHeight)
      ensures spacing >= 0 ==> 3 * digitWidth + 4 * spacing + digitWidth <= size.0 // the last digit fits
    {
      (totalWidth, digitHeight)
    }

    /** `get_current_time_string`: the four characters of the time with a colon after the hours. */
    function GetCurrentTimeString(): (r: string)
      reads this
      requires Valid()
      ensures |r| == 5 && r[2] == ':' && r[..2] + r[3..] == currentTime
    {
      TimeString(currentTime)
    }

    /** `is_any_animation_active`: some digit flips, so the mean progress is taken over at least one. */
    function IsAnyAnimationActive(): (a: bool)
      reads this
      ensures a <==> Flipping(digits) > 0
    {
      FlippingCounts(digits);
      AnyAnimating(digits)
    }

    /** `get_animation_progress`: a share of the flips done, 1 when no digit flips. */
    function GetAnimationProgress(): (p: real)
      reads this
      ensures (forall i :: 0 <= i < |digits| ==> 0 <= digits[i].frame <= AnimationFrames) ==> 0.0 <= p <= 1.0
      ensures !AnyAnimating(digits) ==> p == 1.0
    {
      FlippingCounts(digits);
      MeanProgress(digits)
    }
  }
}

=== FILE: spotify.dfy ===
/**
 * `SpotifyManager` (managers/spotify_manager.py): the Spotify Connect state kept
 * from librespot's event hook. Each event updates the playing / connected flags
 * and the current track, may stop local audio and video, and may broadcast a
 * message to the browser. The clock reading is an input; saving the state file,
 * downloading cover art and the Home Assistant notification are not modelled.
 */
module Spotify {
  import opened Wrappers
  import opened Text

  /**
   * The `track_info` dictionary, one optional entry per key it can hold
   * (None: the key is absent). `track_id` and `duration_ms` may be present with
   * a null value, hence their nested option.
   */
  datatype TrackInfo = TrackInfo(trackId: Option<Option<string>>, durationMs: Option<Option<int>>,
                                 startedAt: Option<string>, name: Option<string>, artists: Option<string>,
                                 album: Option<string>, albumArtUrl: Option<string>,
                                 spotifyId: Option<string>, spotifyUrl: Option<string>, positionMs: Option<int>)

  /** The empty dictionary. */
  const NoInfo := TrackInfo(None, None, None, None, None, None, None, None, None, None)

  const TrackUriPrefix := "spotify:track:"
  const TrackUrlPrefix := "https://open.spotify.com/track/"

  /** Python truthiness of an optional string: present and not empty. */
  predicate Given(s: Option<string>)
  {
    s.Some? && s.value != ""
  }

  /** `value if value else None`: the optional string when it is given. */
  function IfGiven(s: Option<string>): (r: Option<string>)
    ensures r.Some? <==> Given(s)
    ensures r.Some? ==> r == s
  {
    if Given(s) then s else None
  }

  /**
   * The bare track id: the text after the last ':' of a "spotify:track:" URI,
   * any other id as given.
   */
  function SpotifyId(trackId: string): (r: string)
    ensures StartsWith(trackId, TrackUriPrefix) ==> ':' !in r
    ensures !StartsWith(trackId, TrackUriPrefix) ==> r == trackId
  {
    if StartsWith(trackId, TrackUriPrefix) then
      var parts := Split(trackId, ':');
      parts[|parts| - 1]
    else trackId
  }

  /** The web link of a track: `https://open.spotify.com/track/{id}`. */
  function SpotifyUrl(trackId: string): string
  {
    TrackUrlPrefix + SpotifyId(trackId)
  }

  /** The web link of a track announced by URI is the track page of its bare id. */
  lemma SpotifyUrlOfUri(id: string)
    requires ':' !in id
    ensures SpotifyUrl(TrackUriPrefix + id) == TrackUrlPrefix + id
  {
    SpotifyIdOfUri(id);
  }

  /** A URI "spotify:track:ID" yields ID back, whatever ID is as long as it has no ':'. */
  lemma SpotifyIdOfUri(id: string)
    requires ':' !in id
    ensures SpotifyId(TrackUriPrefix + id) == id
  {
    var uri := TrackUriPrefix + id;
    assert StartsWith(uri, TrackUriPrefix) by {
      assert uri[..|TrackUriPrefix|] == TrackUriPrefix;
    }
    assert uri == "spotify" + [':'] + ("track" + [':'] + id);
    IndexOfFirst("spotify", ':', "track" + [':'] + id);
    assert uri[..|"spotify"|] == "spotify";
    assert uri[|"spotify"| + 1..] == "track" + [':'] + id;
    SplitTwo("track", ':', id);
    assert Split(uri, ':') == ["spotify"] + ["track", id];
  }

  /** `_store_spotify_url`: a given track id sets its bare id and web link; none changes nothing. */
  function StoreUrl(info: TrackInfo, trackId: Option<string>): (r: TrackInfo)
    ensures !Given(trackId) ==> r == info
    ensures Given(trackId) ==>
      r == info.(spotifyId := Some(SpotifyId(trackId.value)), spotifyUrl := Some(TrackUrlPrefix + SpotifyId(trackId.value)))
  {
    if Given(trackId) then info.(spotifyId := Some(SpotifyId(trackId.value)), spotifyUrl := Some(SpotifyUrl(trackId.value)))
    else info
  }

  /** The arguments librespot passes with an event. */
  datatype EventArgs = EventArgs(trackId: Option<string>, durationMs: Option<int>, positionMs: Option<int>,
                                 name: Option<string>, artists: Option<string>, album: Option<string>,
                                 covers: Option<string>)

  /** The manager's state between events. */
  datatype State = State(isPlaying: bool, isSessionConnected: bool, currentTrackId: Option<string>,
                         trackInfo: TrackInfo, lastEvent: Option<string>, lastEventTime: Option<string>)

  const Initial := State(false, false, None, NoInfo, None, None)

  /** A message to the browser: the new track, or whether Spotify is playing. */
  datatype Broadcast =
    | TrackChanged(name: string, artists: string, album: string, albumArtUrl: Option<string>,
                   durationMs: Option<int>, spotifyUrl: Option<string>)
    | SpotifyState(isPlaying: bool)

  /** The local players Spotify stops when it starts. */
  datatype LocalStop = StopAudioStream | StopVideoPlayback

  datatype Effects = Effects(stops: seq<LocalStop>, broadcast: Option<Broadcast>)

  /**
   * The `track_info` that `track_changed` installs: the id, duration and start
   * time, each optional field that was given, and the track's link.
   */
  function NewTrackInfo(args: EventArgs, now: string): (r: TrackInfo)
    ensures r.trackId == Some(args.trackId) && r.durationMs == Some(args.durationMs) && r.startedAt == Some(now)
    ensures r.name.Some? <==> Given(args.name)
    ensures r.artists.Some? <==> Given(args.artists)
    ensures r.album.Some? <==> Given(args.album)
    ensures r.albumArtUrl.Some? <==> Given(args.covers)
    ensures r.spotifyUrl.Some? <==> Given(args.trackId)
    ensures r.positionMs.None?
  {
    var info := TrackInfo(Some(args.trackId), Some(args.durationMs), Some(now), IfGiven(args.name), IfGiven(args.artists),
                          IfGiven(args.album), IfGiven(args.covers), None, None, None);
    StoreUrl(info, args.trackId)
  }

  /** The `track_changed` message: artists on one line, defaults for what is missing. */
  function TrackMessage(args: EventArgs): (b: Broadcast)
    requires Given(args.name)
    ensures b.TrackChanged? && b.name == args.name.value
    ensures b.artists == if Given(args.artists) then ReplaceAll(args.artists.value, "\n", ", ") else "Unknown Artist"
    ensures b.albumArtUrl.Some? <==> Given(args.covers)
    ensures b.spotifyUrl.Some? <==> Given(args.trackId)
    ensures Given(args.trackId) ==> b.spotifyUrl == Some(SpotifyUrl(args.trackId.value))
  {
    TrackChanged(args.name.value,
                 if Given(args.artists) then ReplaceAll(args.artists.value, "\n", ", ") else "Unknown Artist",
                 if args.album.Some? then args.album.value else "",
                 IfGiven(args.covers),
                 args.durationMs,
                 if Given(args.trackId) then Some(SpotifyUrl(args.trackId.value)) else None)
  }

  /** The events that change more than the last-event fields. */
  predicate Handled(event: string)
  {
    event == "session_connected" || event == "track_changed" || event == "playing" || event == "paused" || Ends(event)
  }

  /** Whether an event name ends the track. */
  predicate Ends(event: string)
  {
    event == "stopped" || event == "session_disconnected"
  }

  /**
   * `handle_event(event, ...)` at time `now`, as a transition: the new state and
   * what the handler did outside the manager. `hasAudio`, `hasPlayback` and
   * `hasWebsocket` say which other managers are attached.
   */
  function Next(st: State, event: string, args: EventArgs, now: string,
                hasAudio: bool, hasPlayback: bool, hasWebsocket: bool): (r: (State, Effects))
    ensures r.0.lastEvent == Some(event) && r.0.lastEventTime == Some(now)
    // session_connected: only the connected flag changes
    ensures event == "session_connected" ==>
      r.0 == st.(isSessionConnected := true, lastEvent := Some(event), lastEventTime := Some(now)) &&
      r.1 == Effects([], None)
    // track_changed: the track and its information are replaced, the flags kept
    ensures event == "track_changed" ==>
      r.0.currentTrackId == args.trackId && r.0.trackInfo == NewTrackInfo(args, now) &&
      r.0.isPlaying == st.isPlaying && r.0.isSessionConnected == st.isSessionConnected &&
      r.1.stops == [] &&
      (r.1.broadcast.Some? <==> hasWebsocket && Given(args.name))
    // playing: the track is never changed; local players stop only on a start
    ensures event == "playing" ==>
      r.0.isPlaying && r.0.isSessionConnected == st.isSessionConnected &&
      r.0.currentTrackId == st.currentTrackId &&
      (st.isPlaying ==> r.1.stops == []) &&
      (!st.isPlaying ==> (StopAudioStream in r.1.stops <==> hasAudio) && (StopVideoPlayback in r.1.stops <==> hasPlayback)) &&
      (r.1.broadcast.Some? <==> hasWebsocket) && (hasWebsocket ==> r.1.broadcast == Some(SpotifyState(true)))
    // paused: the track data is kept
    ensures event == "paused" ==>
      !r.0.isPlaying && r.0.currentTrackId == st.currentTrackId && r.0.trackInfo == st.trackInfo &&
      r.0.isSessionConnected == st.isSessionConnected &&
      (hasWebsocket ==> r.1.broadcast == Some(SpotifyState(false)))
    // stopped / session_disconnected: the track is forgotten
    ensures Ends(event) ==>
      !r.0.isPlaying && r.0.currentTrackId.None? && r.0.trackInfo == NoInfo &&
      r.0.isSessionConnected == (event == "stopped" && st.isSessionConnected) &&
      r.1.stops == [] && (hasWebsocket ==> r.1.broadcast == Some(SpotifyState(false)))
    // anything else (volume_changed included): only the last-event fields change
    ensures !Handled(event) ==>
      r.0 == st.(lastEvent := Some(event), lastEventTime := Some(now)) && r.1 == Effects([], None)
  {
    var st' := st.(lastEvent := Some(event), lastEventTime := Some(now));
    if event == "session_connected" then
      (st'.(isSessionConnected := true), Effects([], None))
    else if event == "track_changed" then
      (st'.(currentTrackId := args.trackId, trackInfo := NewTrackInfo(args, now)),
       Effects([], if Given(args.name) && hasWebsocket then Some(TrackMessage(args)) else None))
    else if event == "playing" then
      var info := if Given(args.trackId) && args.positionMs.Some? then st.trackInfo.(positionMs := args.positionMs) else st.trackInfo;
      var stops := if st.isPlaying then [] else (if hasAudio then [StopAudioStream] else []) + (if hasPlayback then [StopVideoPlayback] else []);
      (st'.(isPlaying := true, trackInfo := info), Effects(stops, if hasWebsocket then Some(SpotifyState(true)) else None))
    else if event == "paused" then
      (st'.(isPlaying := false), Effects([], if hasWebsocket then Some(SpotifyState(false)) else None))
    else if Ends(event) then
      (st'.(isPlaying := false,
            isSessionConnected := if event == "session_disconnected" then false else st.isSessionConnected,
            currentTrackId := None, trackInfo := NoInfo),
       Effects([], if hasWebsocket then Some(SpotifyState(false)) else None))
    else (st', Effects([], None))
  }

  /** `is_active`: playing or connected. */
  predicate Active(st: State)
  {
    st.isPlaying || st.isSessionConnected
  }

  /** A track announced by URI is linked, stored and broadcast with its bare id. */
  lemma TrackChangedLink(st: State, id: string, args: EventArgs, now: string,
                         hasAudio: bool, hasPlayback: bool, hasWebsocket: bool)
    requires ':' !in id && args.trackId == Some(TrackUriPrefix + id)
    ensures var r := Next(st, "track_changed", args, now, hasAudio, hasPlayback, hasWebsocket);
      r.0.trackInfo.spotifyId == Some(id) &&
      r.0.trackInfo.spotifyUrl == Some(TrackUrlPrefix + id) &&
      (r.1.broadcast.Some? ==> r.1.broadcast.value.spotifyUrl == Some(TrackUrlPrefix + id))
  {
    SpotifyIdOfUri(id);
    var uri := TrackUriPrefix + id;
    assert Given(args.trackId);
  }

  /** Connecting makes Spotify active; a disconnect ends it. */
  lemma ActiveAcrossSession(st: State, args: EventArgs, now: string, hasAudio: bool, hasPlayback: bool, hasWebsocket: bool)
    ensures Active(Next(st, "session_connected", args, now, hasAudio, hasPlayback, hasWebsocket).0)
    ensures !Active(Next(st, "session_disconnected", args, now, hasAudio, hasPlayback, hasWebsocket).0)
    ensures Active(Next(st, "stopped", args, now, hasAudio, hasPlayback, hasWebsocket).0) <==> st.isSessionConnected
  {
  }

  /** What `get_status` reports. */
  datatype Status = Status(isPlaying: bool, isSessionConnected: bool, currentTrackId: Option<string>,
                           trackInfo: Option<TrackInfo>, lastEvent: Option<string>, lastEventTime: Option<string>,
                           deviceName: string)

  class Manager {
    const hasAudio: bool
    const hasPlayback: bool
    const hasWebsocket: bool
    var isPlaying: bool
    var isSessionConnected: bool
    var currentTrackId: Option<string>
    var trackInfo: TrackInfo
    var lastEvent: Option<string>
    var lastEventTime: Option<string>

    function Snapshot(): State
      reads this
    {
      State(isPlaying, isSessionConnected, currentTrackId, trackInfo, lastEvent, lastEventTime)
    }

    constructor (audio: bool, playback: bool, websocket: bool)
      ensures Snapshot() == Initial
      ensures hasAudio == audio && hasPlayback == playback && hasWebsocket == websocket
    {
      hasAudio, hasPlayback, hasWebsocket := audio, playback, websocket;
      isPlaying, isSessionConnected, currentTrackId := false, false, None;
      trackInfo, lastEvent, lastEventTime := NoInfo, None, None;
    }

    /** `handle_event`: the state moves by `Next` and the handler reports success. */
    method HandleEvent(event: string, args: EventArgs, now: string) returns (ok: bool, effects: Effects)
      modifies this
      ensures ok
      ensures (Snapshot(), effects) == Next(old(Snapshot()), event, args, now, hasAudio, hasPlayback, hasWebsocket)
    {
      var r := Next(Snapshot(), event, args, now, hasAudio, hasPlayback, hasWebsocket);
      isPlaying, isSessionConnected, currentTrackId := r.0.isPlaying, r.0.isSessionConnected, r.0.currentTrackId;
      trackInfo, lastEvent, lastEventTime := r.0.trackInfo, r.0.lastEvent, r.0.lastEventTime;
      effects := r.1;
      ok := true;
    }

    /** `is_active`. */
    function IsActive(): (b: bool)
      reads this
      ensures b <==> Active(Snapshot())
    {
      isPlaying || isSessionConnected
    }

    /** `get_status`: an empty `track_info` is reported as absent. */
    function GetStatus(): (s: Status)
      reads this
      ensures s.trackInfo.None? <==> trackInfo == NoInfo
      ensures s.trackInfo.Some? ==> s.trackInfo.value == trackInfo
      ensures s.isPlaying == isPlaying && s.isSessionConnected == isSessionConnected
      ensures s.deviceName == "HSG Canvas"
    {
      Status(isPlaying, isSessionConnected, currentTrackId, if trackInfo == NoInfo then None else Some(trackInfo),
             lastEvent, lastEventTime, "HSG Canvas")
    }
  }
}

=== FILE: srsserver.dfy ===
/**
 * The parts of the older single-file server (srsserver.py) that are not copies
 * of the core modules: the player-command fallback chain, the caption wrap of
 * the QR-code screen, its own start/stop of stream playback, the volume
 * endpoints, the recognition of internet-radio sources and the summary of the
 * DRM self-test. Its process pool is `MpvPools.Pool.Legacy`.
 */
module SrsServer {
  import opened Wrappers
  import opened Text
  import opened Numeric
  import Display
  import Audio
  import Stream

  // ---------------------------------------------------------------------------
  // get_optimal_player_command
  // ---------------------------------------------------------------------------

  /** The resolutions tried, largest first, when the display's own has no command. */
  const FallbackResolutions: seq<(int, int)> :=
    [(3840, 2160), (2560, 1440), (1920, 1080), (1280, 720), (1024, 768), (800, 600), (640, 480)]

  /** The command used when no table has one. */
  const FinalCommand: seq<string> := ["mpv", "--vo=drm", "--fs", "--quiet"]

  /** `f"{player}_{width}x{height}_{hz}hz"`. */
  function CommandKey(player: string, width: int, height: int, hz: int): string
  {
    player + "_" + IntToString(width) + "x" + IntToString(height) + "_" + IntToString(hz) + "hz"
  }

  /** Fallback `k` is offered by the display at 60 Hz and has a command. */
  predicate FallbackUsable(player: string, k: nat, available: seq<Display.Mode>, table: map<string, seq<string>>)
    requires k < |FallbackResolutions|
  {
    var (w, h) := FallbackResolutions[k];
    Display.Mode(w, h, 60.0) in available && CommandKey(player, w, h, 60) in table
  }

  /** The first usable fallback from `k` on. */
  function FirstFallback(player: string, available: seq<Display.Mode>, table: map<string, seq<string>>, k: nat): (r: Option<nat>)
    requires k <= |FallbackResolutions|
    ensures r.Some? ==> k <= r.value < |FallbackResolutions| && FallbackUsable(player, r.value, available, table)
    ensures r.Some? ==> forall j :: k <= j < r.value ==> !FallbackUsable(player, j, available, table)
    ensures r.None? ==> forall j :: k <= j < |FallbackResolutions| ==> !FallbackUsable(player, j, available, table)
    decreases |FallbackResolutions| - k
  {
    if k == |FallbackResolutions| then None
    else if FallbackUsable(player, k, available, table) then Some(k)
    else FirstFallback(player, available, table, k + 1)
  }

  /**
   * The command chosen for `player` on a display in `mode`: the exact key, the
   * key at 60 Hz, the largest usable fallback, the player's basic command, its
   * "optimized" entry in the older table, and last a fixed mpv command.
   */
  function PlayerCommand(player: string, mode: Display.Mode, available: seq<Display.Mode>,
                         table: map<string, seq<string>>, legacy: map<string, map<string, seq<string>>>): seq<string>
  {
    var exact := CommandKey(player, mode.width, mode.height, Trunc(mode.refresh));
    var at60 := CommandKey(player, mode.width, mode.height, 60);
    if exact in table then table[exact]
    else if at60 in table then table[at60]
    else match FirstFallback(player, available, table, 0)
      case Some(k) => table[CommandKey(player, FallbackResolutions[k].0, FallbackResolutions[k].1, 60)]
      case None =>
        if player + "_basic" in table then table[player + "_basic"]
        else if player in legacy && "optimized" in legacy[player] then legacy[player]["optimized"]
        else FinalCommand
  }

  /** The loop of `get_optimal_player_command` over the fallback resolutions. */
  method ScanFallbacks(player: string, available: seq<Display.Mode>, table: map<string, seq<string>>)
    returns (r: Option<nat>)
    ensures r == FirstFallback(player, available, table, 0)
  {
    var k := 0;
    while k < |FallbackResolutions|
      invariant 0 <= k <= |FallbackResolutions|
      invariant FirstFallback(player, available, table, 0) == FirstFallback(player, available, table, k)
    {
      var (w, h) := FallbackResolutions[k];
      if Display.Mode(w, h, 60.0) in available && CommandKey(player, w, h, 60) in table {
        return Some(k);
      }
      k := k + 1;
    }
    return None;
  }

  /**
   * `get_optimal_player_command`; `mode` is what the display detector gives for
   * the content type, `table` and `legacy` the two command tables.
   */
  method OptimalPlayerCommand(player: string, mode: Display.Mode, available: seq<Display.Mode>,
                              table: map<string, seq<string>>, legacy: map<string, map<string, seq<string>>>)
    returns (cmd: seq<string>)
    ensures cmd == PlayerCommand(player, mode, available, table, legacy)
  {
    var exact := CommandKey(player, mode.width, mode.height, Trunc(mode.refresh));
    if exact in table {
      return table[exact];
    }
    var at60 := CommandKey(player, mode.width, mode.height, 60);
    if at60 in table {
      return table[at60];
    }
    var fallback := ScanFallbacks(player, available, table);
    if fallback.Some? {
      var (w, h) := FallbackResolutions[fallback.value];
      return table[CommandKey(player, w, h, 60)];
    }
    if player + "_basic" in table {
      return table[player + "_basic"];
    }
    if player in legacy && "optimized" in legacy[player] {
      return legacy[player]["optimized"];
    }
    return FinalCommand;
  }

  // ---------------------------------------------------------------------------
  // The QR-code caption
  // ---------------------------------------------------------------------------

  /** `" ".join(lines)`. */
  function JoinWords(s: seq<string>): string
  {
    if |s| == 0 then "" else if |s| == 1 then s[0] else JoinWords(s[..|s| - 1]) + " " + s[|s| - 1]
  }

  /** Joining one more line adds it after a space. */
  lemma JoinAppend(s: seq<string>, x: string)
    ensures JoinWords(s + [x]) == if s == [] then x else JoinWords(s) + " " + x
  {
    assert (s + [x])[..|s|] == s;
  }

  /** The lines finished so far and the one being filled. */
  datatype WrapState = WrapState(lines: seq<string>, current: string)

  /** One word of the wrap: it joins the current line while that stays within the limit, else starts a new one. */
  function WrapStep(st: WrapState, word: string, maxChars: int): WrapState
  {
    if |st.current + " " + word| <= maxChars then
      st.(current := if st.current != "" then st.current + " " + word else word)
    else
      WrapState(if st.current != "" then st.lines + [st.current] else st.lines, word)
  }

  /** The wrap after the given words. */
  function WrapAfter(words: seq<string>, maxChars: int): WrapState
  {
    if words == [] then WrapState([], "")
    else WrapStep(WrapAfter(words[..|words| - 1], maxChars), words[|words| - 1], maxChars)
  }

  /** The lines of a wrap, the current one included when it holds anything. */
  function Flush(st: WrapState): seq<string>
  {
    if st.current != "" then st.lines + [st.current] else st.lines
  }

  /** Every line is a single word or within the limit, and none is empty. */
  predicate LinesFit(lines: seq<string>, words: seq<string>, maxChars: int)
  {
    forall l :: l in lines ==> l != "" && (l in words || |l| <= maxChars)
  }

  /** The current line is empty only before the first word. */
  lemma {:induction false} WrapCurrentEmpty(words: seq<string>, maxChars: int)
    requires forall k :: 0 <= k < |words| ==> words[k] != ""
    ensures WrapAfter(words, maxChars).current == "" <==> words == []
  {
    if words != [] {
      assert WrapAfter(words, maxChars).current in {words[|words| - 1], WrapAfter(words[..|words| - 1], maxChars).current + " " + words[|words| - 1]};
    }
  }

  /** One more word adds itself, after a space, to the joined lines of a wrap. */
  lemma StepJoin(prev: WrapState, w: string, maxChars: int)
    requires prev.current == "" ==> prev.lines == []
    requires w != ""
    ensures JoinWords(Flush(WrapStep(prev, w, maxChars))) ==
      if Flush(prev) == [] then w else JoinWords(Flush(prev)) + " " + w
  {
    var st := WrapStep(prev, w, maxChars);
    if |prev.current + " " + w| <= maxChars {
      if prev.current != "" {
        var joined := prev.current + " " + w;
        assert Flush(st) == prev.lines + [joined];
        assert Flush(prev) == prev.lines + [prev.current];
        JoinAppend(prev.lines, joined);
        JoinAppend(prev.lines, prev.current);
        if prev.lines != [] {
          assert JoinWords(prev.lines) + " " + joined == (JoinWords(prev.lines) + " " + prev.current) + " " + w;
        }
      }
    } else {
      assert Flush(st) == Flush(prev) + [w];
      JoinAppend(Flush(prev), w);
    }
  }

  /** The wrap keeps the words in order: joining its lines gives the words joined. */
  lemma {:induction false} WrapKeepsWords(words: seq<string>, maxChars: int)
    requires forall k :: 0 <= k < |words| ==> words[k] != ""
    ensures JoinWords(Flush(WrapAfter(words, maxChars))) == JoinWords(words)
  {
    if words != [] {
      var n := |words|;
      var init := words[..n - 1];
      var w := words[n - 1];
      assert words == init + [w];
      WrapKeepsWords(init, maxChars);
      WrapCurrentEmpty(init, maxChars);
      var prev := WrapAfter(init, maxChars);
      assert init == [] ==> prev == WrapState([], "");
      StepJoin(prev, w, maxChars);
      JoinAppend(init, w);
    }
  }

  /** Each line of the wrap is one word or fits the limit, and none is empty. */
  lemma {:induction false} WrapLinesFit(words: seq<string>, maxChars: int)
    requires forall k :: 0 <= k < |words| ==> words[k] != ""
    ensures LinesFit(Flush(WrapAfter(words, maxChars)), words, maxChars)
  {
    if words != [] {
      var n := |words|;
      var init := words[..n - 1];
      var w := words[n - 1];
      WrapLinesFit(init, maxChars);
      var prev := WrapAfter(init, maxChars);
      var st := WrapAfter(words, maxChars);
      assert forall l :: l in init ==> l in words;
      if |prev.current + " " + w| <= maxChars {
        if prev.current == "" {
          assert Flush(st) == prev.lines + [w];
        } else {
          assert Flush(st) == prev.lines + [prev.current + " " + w];
        }
      } else {
        assert Flush(st) == Flush(prev) + [w];
      }
    }
  }

  /** The caption lines of `words`. */
  function Wrapped(words: seq<string>, maxChars: int): seq<string>
  {
    Flush(WrapAfter(words, maxChars))
  }

  /** The wrap loop of `generate_and_display_qr_code`. */
  method WrapWords(words: seq<string>, maxChars: int) returns (lines: seq<string>)
    ensures lines == Wrapped(words, maxChars)
  {
    lines := [];
    var current := "";
    for i := 0 to |words|
      invariant WrapState(lines, current) == WrapAfter(words[..i], maxChars)
    {
      assert words[..i + 1][..i] == words[..i];
      var word := words[i];
      if |current + " " + word| <= maxChars {
        current := if current != "" then current + " " + word else word;
      } else {
        if current != "" {
          lines := lines + [current];
        }
        current := word;
      }
    }
    assert words[..|words|] == words;
    if current != "" {
      lines := lines + [current];
    }
  }

  /**
   * `max_chars_per_line`: the width over half the font size, the font being a
   * third of the caption band (an eighth of the screen); 50 without a font.
   * A half font size of 0 is the `ZeroDivisionError` that fails the request.
   */
  function MaxCharsPerLine(width: int, height: int, hasFont: bool): (r: Option<int>)
    ensures !hasFont ==> r == Some(50)
    ensures hasFont && height >= 0 ==> (r.None? <==> height < 48)
    ensures hasFont && height >= 48 ==> r.Some? && var half := (height / 8) / 3 / 2;
      half > 0 && r.value * half <= width < (r.value + 1) * half
  {
    var fontSize := (height / 8) / 3;
    if !hasFont then Some(50)
    else if fontSize / 2 == 0 then None
    else Some(width / (fontSize / 2))
  }

  /**
   * The caption of the QR-code screen: the content's words wrapped, the first
   * three lines kept; None when the line width cannot be computed.
   */
  method CaptionLines(content: string, width: int, height: int, hasFont: bool) returns (r: Option<seq<string>>)
    requires height >= 0
    ensures MaxCharsPerLine(width, height, hasFont).None? <==> r.None?
    ensures r.Some? ==> var all := Wrapped(Words(content), MaxCharsPerLine(width, height, hasFont).value);
      r.value == (if |all| > 3 then all[..3] else all)
    ensures r.Some? ==> |r.value| <= 3 && LinesFit(r.value, Words(content), MaxCharsPerLine(width, height, hasFont).value)
  {
    var maxChars := MaxCharsPerLine(width, height, hasFont);
    if maxChars.None? {
      return None;
    }
    var words := Words(content);
    var lines := WrapWords(words, maxChars.value);
    WrapLinesFit(words, maxChars.value);
    if |lines| > 3 {
      lines := lines[..3];
    }
    return Some(lines);
  }

  // ---------------------------------------------------------------------------
  // Stream playback of the older StreamManager
  // ---------------------------------------------------------------------------

  /**
   * The playback fields of the older `StreamManager`. The pool is reached
   * through its results: the slot `allocate_process` hands out (None when all
   * are busy) is an input, and the slots given back with `release_process` are
   * an output.
   */
  class Player {
    var currentProcessId: Option<nat>
    var currentStream: Option<string>
    var currentProtocol: Option<string>
    var currentPlayer: Option<string>

    constructor ()
      ensures currentProcessId == None && currentStream == None && currentProtocol == None && currentPlayer == None
    {
      currentProcessId, currentStream, currentProtocol, currentPlayer := None, None, None, None;
    }

    /**
     * `stop_playback`: with nothing playing a successful no-op; otherwise the
     * background is shown unless it was already the content, the slot is
     * released and the fields cleared. `fails` is an exception before the release,
     * which leaves everything as it was and reports failure.
     */
    method StopPlayback(fails: bool) returns (ok: bool, released: Option<nat>, showBackground: bool)
      modifies this
      ensures old(currentProcessId).None? ==>
        ok && released.None? && !showBackground &&
        currentProcessId == None && currentStream == old(currentStream) &&
        currentProtocol == old(currentProtocol) && currentPlayer == old(currentPlayer)
      ensures old(currentProcessId).Some? && fails ==>
        !ok && released.None? && !showBackground && currentProcessId == old(currentProcessId) && currentStream == old(currentStream) &&
        currentProtocol == old(currentProtocol) && currentPlayer == old(currentPlayer)
      ensures old(currentProcessId).Some? && !fails ==>
        ok && released == old(currentProcessId) && showBackground == (old(currentProtocol) != Some("background")) &&
        currentProcessId == None && currentStream == None && currentProtocol == None && currentPlayer == None
    {
      released, showBackground := None, false;
      if currentProcessId.None? {
        return true, None, false;
      }
      if fails {
        return false, None, false;
      }
      showBackground := currentProtocol != Some("background");
      released := currentProcessId;
      currentProcessId, currentStream, currentProtocol, currentPlayer := None, None, None, None;
      ok := true;
    }

    /**
     * `start_playback`: whatever plays is stopped first; an unsupported
     * protocol, no free slot, a controller that is not connected or a load that
     * fails leave nothing playing and any slot taken for it released. On success
     * the four fields name the new playback.
     */
    method StartPlayback(key: string, player: string, protocol: string, acquired: Option<nat>,
                         controllerReady: bool, loadOk: bool, stopFails: bool)
      returns (ok: bool, url: Option<string>, released: seq<nat>, showBackground: bool)
      modifies this
      ensures url == Stream.TargetUrl(key, protocol)
      ensures ok <==> url.Some? && acquired.Some? && controllerReady && loadOk
      ensures ok ==> currentProcessId == acquired && currentStream == Some(key) &&
                     currentProtocol == Some(protocol) && currentPlayer == Some(player)
      ensures !ok ==> var stopped := old(currentProcessId).Some? && !stopFails;
        currentStream == (if stopped then None else old(currentStream)) &&
        currentProtocol == (if stopped then None else old(currentProtocol)) &&
        currentPlayer == (if stopped then None else old(currentPlayer))
      ensures showBackground <==> old(currentProcessId).Some? && !stopFails && old(currentProtocol) != Some("background")
      ensures var stopped := old(currentProcessId).Some? && !stopFails;
        var stopReleased := if stopped then [old(currentProcessId).value] else [];
        (url.None? ==>
          released == stopReleased + (if !stopped && old(currentProcessId).Some? && old(currentProcessId).value != 0
                                      then [old(currentProcessId).value] else []) &&
          currentProcessId == (if !stopped && old(currentProcessId) == Some(0) then Some(0) else None)) &&
        (url.Some? && acquired.None? ==> released == stopReleased && currentProcessId == (if stopped then None else old(currentProcessId))) &&
        (url.Some? && acquired.Some? && !ok ==>
          released == stopReleased + [acquired.value] && currentProcessId == (if stopped then None else old(currentProcessId)))
    {
      var _, stopRel, show := StopPlayback(stopFails);
      showBackground := show;
      released := if stopRel.Some? then [stopRel.value] else [];
      url := Stream.TargetUrl(key, protocol);
      if url.None? {
        if currentProcessId.Some? && currentProcessId.value != 0 {
          released := released + [currentProcessId.value];
          currentProcessId := None;
        }
        return false, url, released, showBackground;
      }
      if acquired.None? {
        return false, url, released, showBackground;
      }
      if !controllerReady || !loadOk {
        released := released + [acquired.value];
        return false, url, released, showBackground;
      }
      currentProcessId, currentStream, currentProtocol, currentPlayer := acquired, Some(key), Some(protocol), Some(player);
      ok := true;
    }
  }

  // ---------------------------------------------------------------------------
  // Volume endpoints
  // ---------------------------------------------------------------------------

  /** An endpoint's answer: success with the volume applied, or an HTTP error status. */
  datatype Reply = Done(volume: int) | HttpError(status: int)

  /**
   * `POST /playback/{stream_key}/volume`: 404 unless that stream is playing on a
   * slot, 500 when its controller is gone or refuses; the volume is clamped to
   * [0, 130].
   */
  function SetPlaybackVolume(key: string, currentStream: Option<string>, currentProcess: Option<nat>,
                             controllerReady: bool, setOk: bool, volume: int): (r: Reply)
    ensures r.Done? <==> currentStream == Some(key) && currentProcess.Some? && controllerReady && setOk
    ensures currentStream != Some(key) || currentProcess.None? ==> r == HttpError(404)
    ensures r.HttpError? ==> r.status == 404 || r.status == 500
    ensures r.Done? ==> r.volume == Clamp(volume, 0, 130)
    ensures r.Done? ==> 0 <= r.volume <= 130 && (0 <= volume <= 130 ==> r.volume == volume)
  {
    if currentStream != Some(key) || currentProcess.None? then HttpError(404)
    else if !controllerReady then HttpError(500)
    else if !setOk then HttpError(500)
    else Done(Clamp(volume, 0, 130))
  }

  /**
   * `PUT /audio/volume` as written: the legacy `send_command` always answers a
   * dict carrying an "error" field, so `if success:` is always true and, with
   * an audio player, the volume is stored and reported set whatever mpv
   * answered. `answer` is that "error" field; the second component is the
   * stored `audio_volume`.
   */
  function SetAudioVolumeAsWritten(volume: int, hasController: bool, answer: string, stored: int): (r: (Reply, int))
    ensures !(0 <= volume <= 100) ==> r == (HttpError(400), stored)
    ensures r.0.Done? <==> 0 <= volume <= 100
    ensures r.0.Done? ==> r.0.volume == volume && r.1 == volume
  {
    if !(0 <= volume <= 100) then (HttpError(400), stored)
    else if hasController then
      var success := map["error" := answer];
      assert "error" in success;
      if |success| > 0 then (Done(volume), volume) else (HttpError(500), stored)
    else (Done(volume), volume)
  }

  /** A disconnected audio player answers "not_connected", yet the volume is stored and reported set. */
  lemma NotConnectedVolumeStored()
    ensures SetAudioVolumeAsWritten(50, true, "not_connected", 80) == (Done(50), 50)
  {
  }

  /**
   * `PUT /audio/volume` as its `else` branch means it: a volume outside
   * [0, 100] is a 400 and changes nothing; with an audio player it is stored
   * only when mpv answers "success", and otherwise a 500; without one it is
   * kept for the next stream.
   */
  function SetAudioVolume(volume: int, hasController: bool, answer: string, stored: int): (r: (Reply, int))
    ensures !(0 <= volume <= 100) ==> r == (HttpError(400), stored)
    ensures r.0.Done? <==> 0 <= volume <= 100 && (!hasController || answer == "success")
    ensures r.0.Done? ==> r.0.volume == volume && r.1 == volume
    ensures r.0.HttpError? ==> r.1 == stored && (r.0.status == 400 || r.0.status == 500)
  {
    if !(0 <= volume <= 100) then (HttpError(400), stored)
    else if hasController then
      if answer == "success" then (Done(volume), volume) else (HttpError(500), stored)
    else (Done(volume), volume)
  }

  /** The two agree except on a refused send to a present player. */
  lemma SetAudioVolumeDiffers(volume: int, hasController: bool, answer: string, stored: int)
    ensures SetAudioVolume(volume, hasController, answer, stored) != SetAudioVolumeAsWritten(volume, hasController, answer, stored)
      <==> 0 <= volume <= 100 && hasController && answer != "success"
  {
  }

  // ---------------------------------------------------------------------------
  // _detect_stream_type
  // ---------------------------------------------------------------------------

  /** Where the now-playing data of an audio stream comes from. */
  datatype Source = SomaFM(station: string) | RadioParadise(channel: nat) | Icecast(server: string)

  const SomaPrefix := "somafm.com/"
  const IcecastHost := "198.204.228.202:8160"

  /** A regex `\w` character, on ASCII. */
  predicate IsWordChar(c: char)
  {
    IsLetter(c) || '0' <= c <= '9' || c == '_'
  }

  /** The length of the run of word characters `s` starts with. */
  function WordRun(s: string): (n: nat)
    ensures n <= |s|
    ensures forall i :: 0 <= i < n ==> IsWordChar(s[i])
    ensures n == |s| || !IsWordChar(s[n])
  {
    if s == [] || !IsWordChar(s[0]) then 0 else 1 + WordRun(s[1..])
  }

  /**
   * The station `somafm\.com/(\w+)\.pls` captures in a match starting at
   * offset `i`: the whole word run after the prefix, which must be followed by
   * ".pls" (a shorter run would be followed by a word character, not a dot).
   */
  function SomaAt(url: string, i: nat): (r: Option<string>)
    requires i <= |url|
    ensures r.Some? ==> r.value != "" && (forall k :: 0 <= k < |r.value| ==> IsWordChar(r.value[k])) &&
                        OccursAt(url, SomaPrefix + r.value + ".pls", i)
  {
    var rest := url[i..];
    if !StartsWith(rest, SomaPrefix) then None
    else
      var tail := rest[|SomaPrefix|..];
      var n := WordRun(tail);
      if n > 0 && StartsWith(tail[n..], ".pls") then
        assert rest[..|SomaPrefix| + n + 4] == SomaPrefix + tail[..n] + ".pls";
        Some(tail[..n])
      else None
  }

  /** A word run followed by a character outside `\w` is the whole run. */
  lemma {:induction false} WordRunOf(t: string, w: string)
    requires forall k :: 0 <= k < |w| ==> IsWordChar(w[k])
    requires |w| < |t| && t[..|w|] == w && !IsWordChar(t[|w|])
    ensures WordRun(t) == |w|
  {
    if w != [] {
      assert t[1..][..|w| - 1] == w[1..];
      WordRunOf(t[1..], w[1..]);
    }
  }

  /** Conversely, `somafm.com/<w>.pls` at offset `i`, with `w` a non-empty word, is matched there and captures `w`. */
  lemma SomaAtFinds(url: string, i: nat, w: string)
    requires i <= |url|
    requires w != "" && forall k :: 0 <= k < |w| ==> IsWordChar(w[k])
    requires OccursAt(url, SomaPrefix + w + ".pls", i)
    ensures SomaAt(url, i) == Some(w)
  {
    var rest := url[i..];
    var m := SomaPrefix + w + ".pls";
    assert rest[..|m|] == m;
    assert rest[..|SomaPrefix|] == SomaPrefix;
    var tail := rest[|SomaPrefix|..];
    assert tail[..|w| + 4] == w + ".pls";
    assert tail[..|w|] == w && tail[|w|] == '.';
    WordRunOf(tail, w);
    assert tail[|w|..][..4] == ".pls";
    assert StartsWith(rest, SomaPrefix) && StartsWith(tail[|w|..], ".pls");
  }

  /** `re.search`: the leftmost match from offset `i` on. */
  function SomaSearch(url: string, i: nat): (r: Option<string>)
    requires i <= |url|
    ensures r.Some? ==> exists j :: (i <= j <= |url| && SomaAt(url, j) == r &&
                                     forall k :: i <= k < j ==> SomaAt(url, k).None?)
    ensures r.None? <==> forall j :: i <= j <= |url| ==> SomaAt(url, j).None?
    decreases |url| - i
  {
    if SomaAt(url, i).Some? then
      SomaAt(url, i)
    else if i == |url| then None
    else
      var r := SomaSearch(url, i + 1);
      if r.Some? then
        var j :| i + 1 <= j <= |url| && SomaAt(url, j) == r && forall k :: i + 1 <= k < j ==> SomaAt(url, k).None?;
        assert i <= j <= |url| && SomaAt(url, j) == r && forall k :: i <= k < j ==> SomaAt(url, k).None?;
        r
      else r
  }

  /**
   * `_detect_stream_type`: a SomaFM playlist, then Radio Paradise, then the one
   * known Icecast server; anything else, and the empty URL, has no source.
   */
  function DetectStreamType(url: string): (r: Option<Source>)
    ensures url == "" ==> r.None?
    ensures url != "" && SomaSearch(url, 0).Some? ==> r == Some(SomaFM(SomaSearch(url, 0).value))
    ensures r.Some? && r.value.SomaFM? ==>
      r.value.station != "" && (forall k :: 0 <= k < |r.value.station| ==> IsWordChar(r.value.station[k])) &&
      exists j :: OccursAt(url, SomaPrefix + r.value.station + ".pls", j)
    ensures r.Some? && r.value.RadioParadise? ==>
      SomaSearch(url, 0).None? && Contains(Lower(url), "radioparadise.com") &&
      r.value.channel == Audio.ParadiseChannel(Lower(url))
    ensures r.Some? && r.value.Icecast? ==>
      SomaSearch(url, 0).None? && !Contains(Lower(url), "radioparadise.com") && Contains(url, IcecastHost) &&
      r.value.server == "http://" + IcecastHost
    ensures r.None? && url != "" ==>
      SomaSearch(url, 0).None? && !Contains(Lower(url), "radioparadise.com") && !Contains(url, IcecastHost)
  {
    if url == "" then None
    else match SomaSearch(url, 0)
      case Some(station) => Some(SomaFM(station))
      case None =>
        if Contains(Lower(url), "radioparadise.com") then Some(RadioParadise(Audio.ParadiseChannel(Lower(url))))
        else if Contains(url, IcecastHost) then Some(Icecast("http://" + IcecastHost))
        else None
  }

  // ---------------------------------------------------------------------------
  // The /test/drm summary
  // ---------------------------------------------------------------------------

  /** How many tests passed. */
  function PassedCount(statuses: seq<string>): (n: nat)
    ensures n <= |statuses|
    ensures n == |statuses| <==> forall k :: 0 <= k < |statuses| ==> statuses[k] == "pass"
  {
    if statuses == [] then 0
    else PassedCount(statuses[..|statuses| - 1]) + (if statuses[|statuses| - 1] == "pass" then 1 else 0)
  }

  /**
   * `overall_status`: "pass" from 80 % of the tests passed, "warning" from
   * 50 %, "fail" below; on whole numbers these are 5p >= 4t and 2p >= t.
   */
  function OverallStatus(passed: nat, total: nat): (r: string)
    ensures r == "pass" <==> 5 * passed >= 4 * total
    ensures r == "warning" <==> 5 * passed < 4 * total && 2 * passed >= total
    ensures r == "fail" <==> 2 * passed < total
  {
    if passed as real >= total as real * 0.8 then "pass"
    else if passed as real >= total as real * 0.5 then "warning"
    else "fail"
  }

  datatype Summary = Summary(passed: nat, total: nat, overall: string)

  /** The summary of the self-test from the status of each test run. */
  function TestSummary(statuses: seq<string>): (r: Summary)
    ensures r.total == |statuses| && r.passed <= r.total
    ensures r.overall == "pass" <==> 5 * r.passed >= 4 * r.total
    ensures (forall k :: 0 <= k < |statuses| ==> statuses[k] == "pass") ==> r.overall == "pass"
  {
    var p := PassedCount(statuses);
    Summary(p, |statuses|, OverallStatus(p, |statuses|))
  }
}

=== FILE: stream.dfy ===
/**
 * `StreamManager` (managers/stream_manager.py): republishing a source to the
 * local SRS server through ffmpeg. The ffmpeg process is named by its pid, given
 * as an input (None when it could not be started), as are whether stopping it
 * raises, whether it is still running and the start time.
 */
module Stream {
  import opened Wrappers
  import opened Text

  /** SRS endpoints from config.py, with HOST = "localhost". */
  const SrsRtmpUrl := "rtmp://localhost:1935/live"
  const SrsHttpFlvUrl := "http://localhost:8080/live"
  const SrsHlsUrl := "http://localhost:8080/live"

  /** Where a stream key is published for a protocol; None for an unsupported protocol. */
  function TargetUrl(key: string, protocol: string): (r: Option<string>)
    ensures r.Some? <==> protocol == "rtmp" || protocol == "http_flv" || protocol == "hls"
    ensures protocol == "rtmp" ==> r == Some(SrsRtmpUrl + "/" + key)
    ensures protocol == "http_flv" ==> r == Some(SrsHttpFlvUrl + "/" + key + ".flv")
    ensures protocol == "hls" ==> r == Some(SrsHlsUrl + "/" + key + ".m3u8")
  {
    if protocol == "rtmp" then Some(SrsRtmpUrl + "/" + key)
    else if protocol == "http_flv" then Some(SrsHttpFlvUrl + "/" + key + ".flv")
    else if protocol == "hls" then Some(SrsHlsUrl + "/" + key + ".m3u8")
    else None
  }

  /** `pre + k + post` determines `k` when `pre` and `post` are fixed. */
  lemma Unwrap(pre: string, k1: string, k2: string, post: string)
    requires pre + k1 + post == pre + k2 + post
    ensures k1 == k2
  {
    var s := pre + k1 + post;
    assert |k1| == |k2|;
    assert k1 == s[|pre|..|pre| + |k1|];
    assert k2 == (pre + k2 + post)[|pre|..|pre| + |k2|];
  }

  /** Two keys published with the same protocol never share a target URL. */
  lemma TargetUrlInjective(k1: string, k2: string, protocol: string)
    requires TargetUrl(k1, protocol).Some? && TargetUrl(k1, protocol) == TargetUrl(k2, protocol)
    ensures k1 == k2
  {
    if protocol == "rtmp" {
      assert SrsRtmpUrl + "/" + k1 + "" == SrsRtmpUrl + "/" + k2 + "";
      Unwrap(SrsRtmpUrl + "/", k1, k2, "");
    } else if protocol == "http_flv" {
      Unwrap(SrsHttpFlvUrl + "/", k1, k2, ".flv");
    } else {
      Unwrap(SrsHlsUrl + "/", k1, k2, ".m3u8");
    }
  }

  /** The arguments every ffmpeg command starts with. */
  function BaseCmd(source: string): (r: seq<string>)
    ensures |r| == 8 && r[0] == "ffmpeg" && r[6..] == ["-i", source]
    ensures "-re" in r && "v4l2m2m" in r
  {
    ["ffmpeg", "-re", "-hwaccel", "v4l2m2m", "-hwaccel_output_format", "drm_prime", "-i", source]
  }

  /**
   * `_build_ffmpeg_cmd`: the common input part, then the encoder settings (the
   * richer set for RTMP), then FLV output to the target.
   */
  function FfmpegCmd(source: string, target: string, protocol: string): (r: seq<string>)
    ensures |r| > 11 && r[..8] == BaseCmd(source)
    ensures r[|r| - 3..] == ["-f", "flv", target]
    ensures |r| == (if protocol == "rtmp" then 37 else 19)
  {
    BaseCmd(source) +
    (if protocol == "rtmp" then
       ["-c:v", "h264_v4l2m2m", "-b:v", "4M", "-maxrate", "4.5M", "-bufsize", "8M",
        "-profile:v", "high", "-level:v", "4.1", "-keyint_min", "30", "-g", "60", "-sc_threshold", "0",
        "-preset", "fast", "-c:a", "aac", "-b:a", "256k", "-ar", "48000"]
     else
       ["-c:v", "h264_v4l2m2m", "-b:v", "3M", "-c:a", "aac", "-b:a", "192k"]) +
    ["-f", "flv", target]
  }

  /** One `active_streams` entry; `status` is always "active" when stored. */
  datatype StreamEntry = StreamEntry(pid: nat, sourceUrl: string, protocol: string, targetUrl: string,
                                     startedAt: string, status: string)

  /** One entry of `get_active_streams`. */
  datatype StreamInfo = StreamInfo(sourceUrl: string, protocol: string, targetUrl: string,
                                   startedAt: string, status: string, pid: nat)

  /** How `get_active_streams` reports an entry, given whether its process still runs. */
  function Info(e: StreamEntry, running: bool): (r: StreamInfo)
    ensures r.pid == e.pid && r.targetUrl == e.targetUrl
    ensures r.status == (if running then "active" else "stopped")
  {
    StreamInfo(e.sourceUrl, e.protocol, e.targetUrl, e.startedAt, if running then "active" else "stopped", e.pid)
  }

  class Manager {
    var activeStreams: map<string, StreamEntry>

    constructor ()
      ensures activeStreams == map[]
    {
      activeStreams := map[];
    }

    /**
     * `start_stream`: an unsupported protocol or a process that fails to start
     * changes nothing; otherwise the key is (re)bound to the new process.
     */
    method StartStream(key: string, source: string, protocol: string, pid: Option<nat>, now: string)
      returns (ok: bool, cmd: seq<string>)
      modifies this
      ensures ok <==> TargetUrl(key, protocol).Some? && pid.Some?
      ensures TargetUrl(key, protocol).Some? ==> cmd == FfmpegCmd(source, TargetUrl(key, protocol).value, protocol)
      ensures TargetUrl(key, protocol).None? ==> cmd == []
      ensures ok ==>
        activeStreams == old(activeStreams)[key := StreamEntry(pid.value, source, protocol, TargetUrl(key, protocol).value, now, "active")]
      ensures !ok ==> activeStreams == old(activeStreams)
    {
      var target := TargetUrl(key, protocol);
      if target.None? {
        return false, [];
      }
      cmd := FfmpegCmd(source, target.value, protocol);
      if pid.None? {
        return false, cmd;
      }
      activeStreams := activeStreams[key := StreamEntry(pid.value, source, protocol, target.value, now, "active")];
      ok := true;
    }

    /** `stop_stream`: an unknown key fails; the entry is deleted only when stopping succeeds. */
    method StopStream(key: string, stopFails: bool) returns (ok: bool)
      modifies this
      ensures ok <==> key in old(activeStreams) && !stopFails
      ensures activeStreams == if ok then old(activeStreams) - {key} else old(activeStreams)
    {
      if key !in activeStreams {
        return false;
      }
      if stopFails {
        return false;
      }
      activeStreams := activeStreams - {key};
      ok := true;
    }

    /** `get_active_streams`: one report per stored key; `running` holds the pids still alive. */
    function GetActiveStreams(running: set<nat>): (r: map<string, StreamInfo>)
      reads this
      ensures r.Keys == activeStreams.Keys
      ensures forall k :: k in r ==> r[k] == Info(activeStreams[k], activeStreams[k].pid in running)
    {
      map k | k in activeStreams :: Info(activeStreams[k], activeStreams[k].pid in running)
    }

    /**
     * `cleanup`: every key is stopped once; the ones whose stop raised stay.
     * `attempted` is the set of keys tried.
     */
    method Cleanup(failing: set<string>) returns (attempted: set<string>)
      modifies this
      ensures attempted == old(activeStreams).Keys
      ensures activeStreams == map k | k in old(activeStreams) && k in failing :: old(activeStreams)[k]
    {
      var keys := activeStreams.Keys;
      ghost var start := activeStreams;
      attempted := {};
      while keys != {}
        invariant keys + attempted == start.Keys && keys !! attempted
        invariant activeStreams == map k | k in start && (k in keys || k in failing) :: start[k]
        decreases keys
      {
        var k :| k in keys;
        var _ := StopStream(k, k in failing);
        keys := keys - {k};
        attempted := attempted + {k};
      }
    }
  }
}

=== FILE: text.dfy ===
/**
 * The handful of Python `str` operations the server relies on, over
 * `string == seq<char>`: `in`, `startswith`, `endswith`, `lower`, `strip`,
 * `split`, `find` and the decimal conversions behind `int(...)` and f-strings.
 */
module Text {
  import opened Wrappers

  /** `p` is a prefix of `s` (Python `s.startswith(p)`). */
  predicate StartsWith(s: string, p: string)
  {
    |p| <= |s| && s[..|p|] == p
  }

  /** `s.endswith(p)`. */
  predicate EndsWith(s: string, p: string)
  {
    |p| <= |s| && s[|s| - |p|..] == p
  }

  /** `sub in s`, scanning from the left. */
  predicate Contains(s: string, sub: string)
    decreases |s|
  {
    StartsWith(s, sub) || (|s| > 0 && Contains(s[1..], sub))
  }

  /** `sub` occurs in `s` starting at offset `i`. */
  predicate OccursAt(s: string, sub: string, i: int)
  {
    0 <= i <= |s| - |sub| && s[i..i + |sub|] == sub
  }

  /** `sub in s` holds exactly when `sub` occurs at some offset of `s`. */
  lemma {:induction false} ContainsAt(s: string, sub: string)
    ensures Contains(s, sub) <==> exists i :: OccursAt(s, sub, i)
    decreases |s|
  {
    if StartsWith(s, sub) {
      assert OccursAt(s, sub, 0);
    } else if |s| == 0 {
    } else {
      ContainsAt(s[1..], sub);
      if Contains(s[1..], sub) {
        var i :| OccursAt(s[1..], sub, i);
        assert s[1..][i..i + |sub|] == s[i + 1..i + 1 + |sub|];
        assert OccursAt(s, sub, i + 1);
      }
      if exists i :: OccursAt(s, sub, i) {
        var i :| OccursAt(s, sub, i);
        assert s[1..][i - 1..i - 1 + |sub|] == s[i..i + |sub|];
        assert OccursAt(s[1..], sub, i - 1);
      }
    }
  }

  /** A string lacking the first character of `sub` does not contain `sub`. */
  lemma {:induction false} NotContainsFirst(s: string, sub: string)
    requires sub != [] && sub[0] !in s
    ensures !Contains(s, sub)
  {
    ContainsAt(s, sub);
  }

  /** A string contains itself wherever it sits inside a larger one. */
  lemma {:induction false} ContainsConcat(a: string, sub: string, b: string)
    ensures Contains(a + sub + b, sub)
    decreases |a|
  {
    if a == [] {
      assert (a + sub + b)[..|sub|] == sub;
    } else {
      assert (a + sub + b)[1..] == a[1..] + sub + b;
      ContainsConcat(a[1..], sub, b);
    }
  }

  function LowerChar(c: char): (r: char)
    ensures 'A' <= c <= 'Z' ==> 'a' <= r <= 'z'
    ensures !('A' <= c <= 'Z') ==> r == c
  {
    if 'A' <= c <= 'Z' then (c as int + 32) as char else c
  }

  function UpperChar(c: char): (r: char)
    ensures 'a' <= c <= 'z' ==> 'A' <= r <= 'Z'
    ensures !('a' <= c <= 'z') ==> r == c
  {
    if 'a' <= c <= 'z' then (c as int - 32) as char else c
  }

  predicate IsLetter(c: char)
  {
    'a' <= c <= 'z' || 'A' <= c <= 'Z'
  }

  /**
   * Character `i` of `s.title()` on ASCII: a letter is upper-cased when it starts
   * a word (the character before it, or `afterLetter` for the first, is not a
   * letter) and lower-cased otherwise; other characters are kept.
   */
  function TitleChar(s: string, i: int, afterLetter: bool): char
    requires 0 <= i < |s|
  {
    var c := s[i];
    var inWord := if i == 0 then afterLetter else IsLetter(s[i - 1]);
    if !IsLetter(c) then c else if inWord then LowerChar(c) else UpperChar(c)
  }

  /** `s.title()`, one character at a time from the left. */
  function TitleFrom(s: string, afterLetter: bool): (r: string)
    ensures |r| == |s|
    ensures forall i :: 0 <= i < |s| ==> r[i] == TitleChar(s, i, afterLetter)
  {
    if s == [] then []
    else
      var rest := TitleFrom(s[1..], IsLetter(s[0]));
      assert forall i :: 1 <= i < |s| ==> TitleChar(s[1..], i - 1, IsLetter(s[0])) == TitleChar(s, i, afterLetter);
      [TitleChar(s, 0, afterLetter)] + rest
  }

  function Title(s: string): string
  {
    TitleFrom(s, false)
  }

  /** `s.lower()` on ASCII letters. */
  function Lower(s: string): (r: string)
    ensures |r| == |s|
    ensures forall i :: 0 <= i < |s| ==> r[i] == LowerChar(s[i])
  {
    if s == [] then [] else [LowerChar(s[0])] + Lower(s[1..])
  }

  /** The ASCII characters `str.isspace` accepts: space, tab, the line breaks and the separators U+001C to U+001F. */
  predicate IsSpace(c: char)
  {
    c == ' ' || c == '\t' || c == '\n' || c == '\r' || c == '\U{000B}' || c == '\U{000C}' ||
    ('\U{001C}' <= c <= '\U{001F}')
  }

  /** `s.lstrip()`. */
  function LStrip(s: string): (r: string)
    ensures |r| <= |s| && r == s[|s| - |r|..]
    ensures r == [] || !IsSpace(r[0])
  {
    if s != [] && IsSpace(s[0]) then LStrip(s[1..]) else s
  }

  /** `s.rstrip()`. */
  function RStrip(s: string): (r: string)
    ensures |r| <= |s| && r == s[..|r|]
    ensures r == [] || !IsSpace(r[|r| - 1])
  {
    if s != [] && IsSpace(s[|s| - 1]) then RStrip(s[..|s| - 1]) else s
  }

  /** `s.strip()`: no surrounding whitespace is left. */
  function Strip(s: string): (r: string)
    ensures |r| <= |s|
    ensures r == [] || (!IsSpace(r[0]) && !IsSpace(r[|r| - 1]))
  {
    if s != [] && IsSpace(s[0]) then Strip(s[1..]) else RStrip(s)
  }

  /** A string with no whitespace at either end is its own `strip()`. */
  lemma StripUnchanged(s: string)
    requires s == [] || (!IsSpace(s[0]) && !IsSpace(s[|s| - 1]))
    ensures Strip(s) == s
  {
    assert RStrip(s) == s;
  }

  /** Every character is whitespace, so `s.strip()` is empty (see `StripEmpty`). */
  predicate AllSpace(s: string)
  {
    forall i :: 0 <= i < |s| ==> IsSpace(s[i])
  }

  lemma {:induction false} LStripEmpty(s: string)
    ensures LStrip(s) == [] <==> AllSpace(s)
    decreases |s|
  {
    if s != [] && IsSpace(s[0]) {
      LStripEmpty(s[1..]);
      assert AllSpace(s) <==> AllSpace(s[1..]) by {
        if AllSpace(s[1..]) {
          forall i | 0 <= i < |s| ensures IsSpace(s[i]) {
            if i > 0 { assert s[i] == s[1..][i - 1]; }
          }
        }
      }
    }
  }

  /** `s.strip()` is empty exactly when `s` is all whitespace. */
  lemma StripEmpty(s: string)
    ensures Strip(s) == [] <==> AllSpace(s)
  {
    var t := RStrip(s);
    if t == [] {
      assert forall i :: 0 <= i < |s| ==> IsSpace(s[i]) by {
        assert RStrip(s) == [];
        RStripAllSpace(s);
      }
    } else {
      LStripEmpty(t);
      assert !IsSpace(t[|t| - 1]) && s[|t| - 1] == t[|t| - 1];
    }
  }

  lemma {:induction false} RStripAllSpace(s: string)
    requires RStrip(s) == []
    ensures AllSpace(s)
    decreases |s|
  {
    if s != [] {
      RStripAllSpace(s[..|s| - 1]);
      forall i | 0 <= i < |s| ensures IsSpace(s[i]) {
        if i < |s| - 1 { assert s[i] == s[..|s| - 1][i]; }
      }
    }
  }

  /** `s.rstrip(c)` for one character `c`. */
  function RStripChar(s: string, c: char): (r: string)
    ensures |r| <= |s| && r == s[..|r|]
    ensures r == [] || r[|r| - 1] != c
    ensures forall i :: |r| <= i < |s| ==> s[i] == c
  {
    if s != [] && s[|s| - 1] == c then RStripChar(s[..|s| - 1], c) else s
  }

  /** `s.find(c)` as an option: the first index of `c`. */
  function IndexOf(s: string, c: char): (r: Option<nat>)
    ensures r.None? <==> c !in s
    ensures r.Some? ==> r.value < |s| && s[r.value] == c && c !in s[..r.value]
  {
    if s == [] then None
    else if s[0] == c then Some(0)
    else
      var t := IndexOf(s[1..], c);
      if t.None? then None
      else
        assert s[..t.value + 1] == [s[0]] + s[1..][..t.value];
        Some(t.value + 1)
  }

  /** `s.split(c)`: the pieces between occurrences of `c`, empty pieces included. */
  function Split(s: string, c: char): (r: seq<string>)
    ensures |r| >= 1
    ensures forall k :: 0 <= k < |r| ==> c !in r[k]
    decreases |s|
  {
    match IndexOf(s, c)
    case None => [s]
    case Some(i) => [s[..i]] + Split(s[i + 1..], c)
  }

  /** The length of the run of non-space characters `s` starts with. */
  function WordLength(s: string): (n: nat)
    ensures n <= |s|
    ensures forall i :: 0 <= i < n ==> !IsSpace(s[i])
    ensures n == |s| || IsSpace(s[n])
  {
    if s == [] || IsSpace(s[0]) then 0 else 1 + WordLength(s[1..])
  }

  /** `s.split()` with no separator: the maximal runs of non-space characters, in order. */
  function Words(s: string): (r: seq<string>)
    ensures forall k :: 0 <= k < |r| ==> r[k] != [] && forall i :: 0 <= i < |r[k]| ==> !IsSpace(r[k][i])
    decreases |s|
  {
    if s == [] then []
    else if IsSpace(s[0]) then Words(s[1..])
    else
      var n := WordLength(s);
      [s[..n]] + Words(s[n..])
  }

  /** The inverse of `Split`: `c.join(parts)`. */
  function Join(parts: seq<string>, c: char): string
    requires |parts| >= 1
  {
    if |parts| == 1 then parts[0] else parts[0] + [c] + Join(parts[1..], c)
  }

  /** Joining the pieces of a split gives the original string back. */
  lemma {:induction false} JoinSplit(s: string, c: char)
    ensures Join(Split(s, c), c) == s
    decreases |s|
  {
    match IndexOf(s, c)
    case None =>
    case Some(i) =>
      var rest := Split(s[i + 1..], c);
      var parts := [s[..i]] + rest;
      assert Split(s, c) == parts;
      assert |parts| >= 2 && parts[0] == s[..i] && parts[1..] == rest;
      JoinSplit(s[i + 1..], c);
      assert Join(Split(s, c), c) == s[..i] + [c] + Join(rest, c);
      assert s == s[..i] + [c] + s[i + 1..];
  }

  /** The first `c` of `a + [c] + b` is the one after `a` when `a` has none. */
  lemma {:induction false} IndexOfFirst(a: string, c: char, b: string)
    requires c !in a
    ensures IndexOf(a + [c] + b, c) == Some(|a|)
  {
    var s := a + [c] + b;
    assert s[|a|] == c;
    assert s[..|a|] == a;
  }

  /** Splitting at the only separator gives the two sides. */
  lemma SplitTwo(a: string, c: char, b: string)
    requires c !in a && c !in b
    ensures Split(a + [c] + b, c) == [a, b]
  {
    var s := a + [c] + b;
    IndexOfFirst(a, c, b);
    assert s[..|a|] == a && s[|a| + 1..] == b;
  }

  function DigitChar(d: nat): (r: char)
    requires d < 10
    ensures '0' <= r <= '9'
  {
    ('0' as int + d) as char
  }

  /** `str(n)` for a natural number. */
  function NatToString(n: nat): (r: string)
    ensures |r| >= 1
    ensures forall i :: 0 <= i < |r| ==> '0' <= r[i] <= '9'
    decreases n
  {
    if n < 10 then [DigitChar(n)] else NatToString(n / 10) + [DigitChar(n % 10)]
  }

  /** `str(i)` for any integer. */
  function IntToString(i: int): (r: string)
    ensures |r| >= 1
  {
    if i < 0 then "-" + NatToString(-i) else NatToString(i)
  }

  predicate IsDigits(s: string)
  {
    |s| > 0 && forall i :: 0 <= i < |s| ==> '0' <= s[i] <= '9'
  }

  function DigitsValue(s: string): nat
    requires forall i :: 0 <= i < |s| ==> '0' <= s[i] <= '9'
  {
    if s == [] then 0 else 10 * DigitsValue(s[..|s| - 1]) + (s[|s| - 1] as int - '0' as int)
  }

  /** `int(s)` restricted to plain decimal digits; anything else is the `ValueError` path. */
  function ParseNat(s: string): (r: Option<nat>)
    ensures r.Some? <==> IsDigits(s)
  {
    if IsDigits(s) then Some(DigitsValue(s)) else None
  }

  /** Reading back a printed number gives the number. */
  lemma {:induction false} ParseNatToString(n: nat)
    ensures ParseNat(NatToString(n)) == Some(n)
    decreases n
  {
    if n >= 10 {
      ParseNatToString(n / 10);
      var s := NatToString(n);
      assert s == NatToString(n / 10) + [DigitChar(n % 10)];
      assert s[..|s| - 1] == NatToString(n / 10);
      assert DigitsValue(NatToString(n / 10)) == n / 10;
      assert DigitsValue(s) == 10 * (n / 10) + n % 10;
    }
  }

  /** `int(s)`: surrounding whitespace, an optional sign, then decimal digits. */
  function ParseInt(s: string): (r: Option<int>)
    ensures IsDigits(Strip(s)) ==> r.Some? && r.value >= 0
  {
    var t := Strip(s);
    if IsDigits(t) then Some(DigitsValue(t))
    else if t != [] && (t[0] == '-' || t[0] == '+') then
      match ParseNat(t[1..])
      case None => None
      case Some(n) => Some(if t[0] == '-' then 0 - n as int else n as int)
    else None
  }

  /** `s.replace(pat, rep)`: every non-overlapping occurrence, left to right. */
  function ReplaceAll(s: string, pat: string, rep: string): (r: string)
    requires |pat| > 0
    ensures !Contains(s, pat) ==> r == s
    decreases |s|
  {
    if s == [] then []
    else if StartsWith(s, pat) then rep + ReplaceAll(s[|pat|..], pat, rep)
    else [s[0]] + ReplaceAll(s[1..], pat, rep)
  }

  /** Replacing a one-character pattern by text without it leaves none of it behind. */
  lemma {:induction false} ReplaceCharGone(s: string, c: char, rep: string)
    requires c !in rep
    ensures c !in ReplaceAll(s, [c], rep)
    decreases |s|
  {
    if s != [] {
      if StartsWith(s, [c]) {
        ReplaceCharGone(s[1..], c, rep);
      } else {
        assert s[0] != c;
        ReplaceCharGone(s[1..], c, rep);
      }
    }
  }
}

=== FILE: url.dfy ===
/**
 * The part of Python's `urllib.parse` that the server uses: `urlsplit`'s
 * scheme / netloc / path / query / fragment split, `urlparse`'s removal of
 * `;params` from the last path segment, and `parse_qs` reduced to "the first
 * value of one key", with its '+' and `%XX` decoding.
 */
module Url {
  import opened Wrappers
  import opened Text

  datatype UrlParts = UrlParts(scheme: string, netloc: string, path: string, query: string, fragment: string)

  /** The index of the first character of `s` that belongs to `cs`. */
  function IndexOfAny(s: string, cs: set<char>): (r: Option<nat>)
    ensures r.None? <==> forall k :: 0 <= k < |s| ==> s[k] !in cs
    ensures r.Some? ==> r.value < |s| && s[r.value] in cs
    ensures r.Some? ==> forall k :: 0 <= k < r.value ==> s[k] !in cs
  {
    if s == [] then None
    else if s[0] in cs then Some(0)
    else
      var t := IndexOfAny(s[1..], cs);
      if t.None? then None else Some(t.value + 1)
  }

  predicate IsAsciiAlpha(c: char)
  {
    'a' <= c <= 'z' || 'A' <= c <= 'Z'
  }

  predicate IsSchemeChar(c: char)
  {
    IsAsciiAlpha(c) || '0' <= c <= '9' || c == '+' || c == '-' || c == '.'
  }

  /** Where the scheme ends: the first ':' after a letter and scheme characters only. */
  function SchemeColon(u: string): (r: Option<nat>)
    ensures r.Some? ==> 0 < r.value < |u| && u[r.value] == ':'
  {
    match IndexOf(u, ':')
    case None => None
    case Some(i) =>
      if i > 0 && IsAsciiAlpha(u[0]) && forall k :: 0 <= k < i ==> IsSchemeChar(u[k]) then Some(i) else None
  }

  /** Split `s` at the first `c`, dropping the `c` (`s.split(c, 1)`), or keep it whole. */
  function SplitFirst(s: string, c: char): (r: (string, Option<string>))
    ensures r.1.None? ==> r.0 == s && c !in s
    ensures r.1.Some? ==> s == r.0 + [c] + r.1.value && c !in r.0
  {
    match IndexOf(s, c)
    case None => (s, None)
    case Some(i) =>
      assert s == s[..i] + [c] + s[i + 1..];
      (s[..i], Some(s[i + 1..]))
  }

  /** Lower-casing twice is lower-casing once. */
  lemma LowerLower(s: string)
    ensures Lower(Lower(s)) == Lower(s)
  {
    assert forall i :: 0 <= i < |s| ==> Lower(Lower(s))[i] == Lower(s)[i];
  }

  /** The scheme (lower-cased) and what follows its ':'; no scheme leaves `u` whole. */
  function SplitScheme(u: string): (r: (string, string))
    ensures Lower(r.0) == r.0
    ensures r.0 == [] ==> r.1 == u
    ensures r.0 != [] ==> |r.0| + 1 + |r.1| == |u| && u[|r.0|] == ':' && r.1 == u[|r.0| + 1..]
  {
    match SchemeColon(u)
    case None => ("", u)
    case Some(i) =>
      LowerLower(u[..i]);
      (Lower(u[..i]), u[i + 1..])
  }

  /** After the scheme, `//host` runs up to the first '/', '?' or '#'. */
  function SplitNetloc(rest: string): (r: (string, string))
    ensures forall k :: 0 <= k < |r.0| ==> r.0[k] !in {'/', '?', '#'}
    ensures !StartsWith(rest, "//") ==> r == ("", rest)
    ensures StartsWith(rest, "//") ==> rest == "//" + r.0 + r.1
  {
    if StartsWith(rest, "//") then
      var tail := rest[2..];
      assert rest == "//" + tail;
      match IndexOfAny(tail, {'/', '?', '#'})
      case None => (tail, "")
      case Some(d) =>
        assert tail == tail[..d] + tail[d..];
        (tail[..d], tail[d..])
    else ("", rest)
  }

  /** `urlsplit(u)`. */
  function UrlSplit(u: string): (r: UrlParts)
    ensures forall k :: 0 <= k < |r.netloc| ==> r.netloc[k] !in {'/', '?', '#'}
    ensures '?' !in r.path && '#' !in r.path && '#' !in r.query
    ensures Lower(r.scheme) == r.scheme
  {
    var (scheme, rest) := SplitScheme(u);
    var (netloc, rest2) := SplitNetloc(rest);
    var (beforeFrag, frag) := SplitFirst(rest2, '#');
    var (path, query) := SplitFirst(beforeFrag, '?');
    UrlParts(scheme, netloc, path, query.UnwrapOr(""), frag.UnwrapOr(""))
  }

  /** The schemes whose URLs `urlparse` splits `;params` off (`uses_params`). */
  const ParamSchemes: set<string> := {"", "ftp", "hdl", "prospero", "http", "imap", "https", "shttp",
                                      "rtsp", "rtspu", "sip", "sips", "mms", "sftp", "tel"}

  /** The index of the last `c` in `s`. */
  function LastIndexOf(s: string, c: char): (r: Option<nat>)
    ensures r.None? <==> c !in s
    ensures r.Some? ==> r.value < |s| && s[r.value] == c && forall k :: r.value < k < |s| ==> s[k] != c
  {
    if s == [] then None
    else if s[|s| - 1] == c then Some(|s| - 1)
    else LastIndexOf(s[..|s| - 1], c)
  }

  /**
   * `_splitparams(path)[0]`: the path without its parameters, cut at the first ';'
   * that follows the last '/' (at the first ';' when there is no '/').
   */
  function CutParams(path: string): (r: string)
    ensures |r| <= |path| && path[..|r|] == r
    ensures r == path || path[|r|] == ';'
    ensures forall k :: |r| <= k < |path| ==> path[k] != '/'
    ensures forall k :: 0 <= k < |r| && r[k] == ';' ==> exists m :: k < m < |r| && r[m] == '/'
  {
    match LastIndexOf(path, '/')
    case None =>
      (match IndexOf(path, ';')
       case None => path
       case Some(i) => path[..i])
    case Some(j) =>
      match IndexOf(path[j..], ';')
      case None => path
      case Some(i) =>
        assert path[j + i] == ';';
        assert forall k :: j <= k < j + i ==> path[k] == path[j..][k - j];
        path[..j + i]
  }

  /** `urlparse(u)` without its `params` field: `urlsplit`, then the parameters cut off the path. */
  function UrlParse(u: string): (r: UrlParts)
    ensures var p := UrlSplit(u);
      r.scheme == p.scheme && r.netloc == p.netloc && r.query == p.query && r.fragment == p.fragment
    ensures UrlSplit(u).scheme in ParamSchemes ==> r.path == CutParams(UrlSplit(u).path)
    ensures UrlSplit(u).scheme !in ParamSchemes ==> r.path == UrlSplit(u).path
  {
    var p := UrlSplit(u);
    if p.scheme in ParamSchemes && ';' in p.path then p.(path := CutParams(p.path)) else p
  }

  predicate IsHexDigit(c: char)
  {
    '0' <= c <= '9' || 'a' <= c <= 'f' || 'A' <= c <= 'F'
  }

  function HexValue(c: char): (v: nat)
    requires IsHexDigit(c)
    ensures v < 16
  {
    if '0' <= c <= '9' then c as int - '0' as int
    else if 'a' <= c <= 'f' then c as int - 'a' as int + 10
    else c as int - 'A' as int + 10
  }

  /** `s` starts with `%XX`, two hex digits naming a byte below 0x80. */
  predicate AsciiEscapeAt(s: string)
  {
    |s| >= 3 && s[0] == '%' && IsHexDigit(s[1]) && IsHexDigit(s[2]) && HexValue(s[1]) < 8
  }

  function EscapedChar(s: string): (c: char)
    requires AsciiEscapeAt(s)
    ensures (c as int) < 0x80
  {
    (HexValue(s[1]) * 16 + HexValue(s[2])) as char
  }

  /**
   * `unquote(s)`: left to right, each `%XX` naming an ASCII byte becomes that
   * character and every other character, a stray '%' included, stays.
   */
  function Unquote(s: string): (r: string)
    ensures |r| <= |s|
    ensures s != [] ==> r != []
    ensures '%' !in s ==> r == s
    decreases |s|
  {
    if s == [] then []
    else if AsciiEscapeAt(s) then [EscapedChar(s)] + Unquote(s[3..])
    else [s[0]] + Unquote(s[1..])
  }

  /** `s.replace('+', ' ')`. */
  function PlusToSpace(s: string): (r: string)
    ensures |r| == |s| && '+' !in r
    ensures forall k :: 0 <= k < |s| ==> r[k] == (if s[k] == '+' then ' ' else s[k])
  {
    seq(|s|, k requires 0 <= k < |s| => if s[k] == '+' then ' ' else s[k])
  }

  /** How `parse_qs` decodes a name or a value: '+' to a space, then `unquote`. */
  function DecodeComponent(s: string): (r: string)
    ensures |r| <= |s| && (s != [] ==> r != [])
    ensures '%' !in s && '+' !in s ==> r == s
  {
    var t := PlusToSpace(s);
    assert '+' !in s ==> t == s;
    Unquote(t)
  }

  const HexDigits := "0123456789ABCDEF"

  /** `quote(s, safe='')` for ASCII text: every character as `%XX`. */
  function QuoteAll(s: string): (r: string)
    requires forall k :: 0 <= k < |s| ==> (s[k] as int) < 0x80
    ensures |r| == 3 * |s|
  {
    if s == [] then []
    else ['%', HexDigits[s[0] as int / 16], HexDigits[s[0] as int % 16]] + QuoteAll(s[1..])
  }

  /** Percent-encoding ASCII text and decoding it gives the text back. */
  lemma {:induction false} UnquoteQuoteAll(s: string)
    requires forall k :: 0 <= k < |s| ==> (s[k] as int) < 0x80
    ensures Unquote(QuoteAll(s)) == s
  {
    if s != [] {
      var q := QuoteAll(s);
      var n := s[0] as int;
      assert q[0] == '%' && q[1] == HexDigits[n / 16] && q[2] == HexDigits[n % 16];
      assert IsHexDigit(q[1]) && HexValue(q[1]) == n / 16;
      assert IsHexDigit(q[2]) && HexValue(q[2]) == n % 16;
      assert AsciiEscapeAt(q) && EscapedChar(q) == s[0];
      assert q[3..] == QuoteAll(s[1..]);
      UnquoteQuoteAll(s[1..]);
    }
  }

  /**
   * One `name=value` piece of a query as `parse_qs` reads it: split at the first
   * '=', kept when the raw value is non-empty, and its decoded value given when
   * its decoded name is `key`.
   */
  function PairValue(pair: string, key: string): (r: Option<string>)
    ensures '=' !in pair ==> r.None?
    ensures forall i :: 0 <= i < |pair| && pair[i] == '=' && '=' !in pair[..i] ==>
      (r.Some? <==> i + 1 < |pair| && DecodeComponent(pair[..i]) == key) &&
      (r.Some? ==> r.value == DecodeComponent(pair[i + 1..]))
  {
    match IndexOf(pair, '=')
    case None => None
    case Some(i) =>
      if i + 1 < |pair| && DecodeComponent(pair[..i]) == key then Some(DecodeComponent(pair[i + 1..])) else None
  }

  /** `parse_qs(query)[key][0]`: the decoded value of the first `&`-separated piece naming `key` with a non-empty value. */
  function QueryFirst(query: string, key: string): (r: Option<string>)
    ensures r.Some? ==> r.value != []
    ensures r == FirstValue(Split(query, '&'), key)
  {
    FirstValue(Split(query, '&'), key)
  }

  /** The first value `PairValue` finds among `pairs` (parse_qs keeps values in order). */
  function FirstValue(pairs: seq<string>, key: string): (r: Option<string>)
    ensures r.Some? ==> r.value != []
    ensures r.Some? ==> exists k :: (0 <= k < |pairs| && PairValue(pairs[k], key) == r &&
                                     forall j :: 0 <= j < k ==> PairValue(pairs[j], key).None?)
    ensures r.None? <==> forall k :: 0 <= k < |pairs| ==> PairValue(pairs[k], key).None?
  {
    if pairs == [] then None
    else if PairValue(pairs[0], key).Some? then
      var v := PairValue(pairs[0], key);
      assert v.value != [] by {
        var i := IndexOf(pairs[0], '=').value;
        assert pairs[0][i + 1..] != [];
      }
      v
    else
      var r := FirstValue(pairs[1..], key);
      if r.Some? then
        var k :| 0 <= k < |pairs[1..]| && PairValue(pairs[1..][k], key) == r &&
          forall j :: 0 <= j < k ==> PairValue(pairs[1..][j], key).None?;
        assert PairValue(pairs[k + 1], key) == r;
        assert forall j :: 1 <= j < k + 1 ==> PairValue(pairs[j], key) == PairValue(pairs[1..][j - 1], key);
        r
      else
        assert forall k :: 1 <= k < |pairs| ==> pairs[k] == pairs[1..][k - 1];
        r
  }

  /** The parameters of the last segment go, so an extension before them ends the path (`/a.mp3;s=1` is `/a.mp3`). */
  lemma {:induction false} CutParamsSegment(dir: string, name: string, params: string)
    requires '/' !in name && ';' !in name && '/' !in params
    ensures CutParams(dir + "/" + name + ";" + params) == dir + "/" + name
  {
    var head := dir + "/" + name;
    var seg := "/" + name;
    var tail := name + ";" + params;
    var path := head + ";" + params;
    assert path == dir + "/" + name + ";" + params;
    assert path == dir + ['/'] + tail;
    LastIndexOfAt(dir, '/', tail);
    assert path[|dir|..] == seg + [';'] + params;
    IndexOfFirst(seg, ';', params);
    CutAt(path, |dir|, |seg|);
    assert path[..|head|] == head;
  }

  /** With its last '/' at `j` and the first ';' after it at `j + i`, the path is cut at `j + i`. */
  lemma CutAt(path: string, j: nat, i: nat)
    requires j <= |path| && LastIndexOf(path, '/') == Some(j) && IndexOf(path[j..], ';') == Some(i)
    ensures CutParams(path) == path[..j + i]
  {
  }

  /** The last `c` of `a + [c] + b` is the one after `a` when `b` holds none. */
  lemma {:induction false} LastIndexOfAt(a: string, c: char, b: string)
    requires c !in b
    ensures LastIndexOf(a + [c] + b, c) == Some(|a|)
    decreases |b|
  {
    var s := a + [c] + b;
    if b != [] {
      assert s[|s| - 1] == b[|b| - 1];
      assert s[..|s| - 1] == a + [c] + b[..|b| - 1];
      LastIndexOfAt(a, c, b[..|b| - 1]);
    }
  }

  /** `partition` at a first occurrence found by the caller. */
  lemma SplitFirstAt(a: string, c: char, b: string)
    requires c !in a
    ensures SplitFirst(a + [c] + b, c) == (a, Some(b))
  {
    var s := a + [c] + b;
    assert s[|a|] == c;
    var i := IndexOf(s, c);
    assert i.Some?;
    assert s[..|a|] == a && s[|a| + 1..] == b;
  }
}

=== FILE: webcast.dfy ===
/**
 * `WebcastManager` (webcast_manager.py): a web page shown on the canvas as a
 * series of screenshots taken while scrolling down it. The browser is not
 * modelled: the page height, whether the browser could be started and whether
 * a screenshot fails are inputs; the scroll positions, the screenshot cache and
 * the scroll/loop bookkeeping are the state.
 */
module Webcast {
  import opened Wrappers
  import opened Text
  import opened Numeric

  /** `WebcastConfig`; floats are reals. */
  datatype Config = Config(url: string, viewportWidth: int, viewportHeight: int, scrollDelay: real,
                           scrollPercentage: real, overlapPercentage: real, loopCount: int,
                           zoomLevel: real, waitForLoad: real, screenshotPath: string,
                           bufferPath: string, preloadTime: real)

  /** A config with every field but the URL at its default. */
  function DefaultConfig(url: string): (c: Config)
    ensures c.url == url && c.viewportHeight == 1080 && c.loopCount == 3
    ensures c.scrollPercentage == 30.0 && c.overlapPercentage == 5.0
  {
    Config(url, 1920, 1080, 5.0, 30.0, 5.0, 3, 1.0, 3.0, "/tmp/webcast_screenshot.png",
           "/tmp/webcast_buffer.png", 0.5)
  }

  /** How far one automatic scroll moves: the scroll share of the viewport less the overlap share. */
  function EffectiveStep(c: Config): int
  {
    Trunc(c.viewportHeight as real * (c.scrollPercentage / 100.0)) -
    Trunc(c.viewportHeight as real * (c.overlapPercentage / 100.0))
  }

  /** The furthest the page scrolls. */
  function MaxScroll(totalHeight: int, viewportHeight: int): (r: nat)
    ensures r == 0 <==> totalHeight <= viewportHeight
  {
    if totalHeight - viewportHeight > 0 then totalHeight - viewportHeight else 0
  }

  // ---------------------------------------------------------------------------
  // Scroll positions of the screenshot cache
  // ---------------------------------------------------------------------------

  /** The multiples of `step` from `cur` that stay below `maxPos`. */
  function Ramp(cur: int, step: int, maxPos: int): (r: seq<int>)
    requires step > 0
    ensures forall k :: 0 <= k < |r| ==> cur <= r[k] < maxPos
    ensures r != [] ==> r[0] == cur
    decreases maxPos - cur
  {
    if cur >= maxPos then [] else [cur] + Ramp(cur + step, step, maxPos)
  }

  /** The positions the cache is built from: [0, 0] for a page that does not scroll. */
  function ScrollPositions(step: int, maxPos: nat): seq<int>
    requires maxPos > 0 ==> step > 0
  {
    if maxPos == 0 then [0, 0] else Ramp(0, step, maxPos) + [maxPos]
  }

  /** Whether the position loop of `_generate_screenshot_cache` comes to an end. */
  predicate Terminates(step: int, maxPos: nat)
  {
    step >= 0 && (maxPos > 0 ==> step > 0)
  }

  predicate StrictlyIncreasing(s: seq<int>)
  {
    forall i, j :: 0 <= i < j < |s| ==> s[i] < s[j]
  }

  lemma {:induction false} RampIncreasing(cur: int, step: int, maxPos: int)
    requires step > 0
    ensures StrictlyIncreasing(Ramp(cur, step, maxPos))
    decreases maxPos - cur
  {
    if cur < maxPos {
      RampIncreasing(cur + step, step, maxPos);
    }
  }

  /**
   * On a page that scrolls, the positions start at the top, increase strictly,
   * never pass the end, end at the end, and no two are further apart than one step.
   */
  lemma ScrollPositionsShape(step: int, maxPos: nat)
    requires maxPos > 0 && step > 0
    ensures var p := ScrollPositions(step, maxPos);
      p[0] == 0 && p[|p| - 1] == maxPos && StrictlyIncreasing(p) &&
      (forall k :: 0 <= k < |p| ==> 0 <= p[k] <= maxPos) &&
      (forall k :: 0 < k < |p| ==> p[k] - p[k - 1] <= step)
  {
    var r := Ramp(0, step, maxPos);
    RampIncreasing(0, step, maxPos);
    RampGaps(0, step, maxPos);
    RampLast(0, step, maxPos);
    var p := r + [maxPos];
    assert p[0] == 0;
    forall i, j | 0 <= i < j < |p| ensures p[i] < p[j] {
      if j < |r| {
        assert p[i] == r[i] && p[j] == r[j];
      } else {
        assert p[i] == r[i];
      }
    }
    forall k | 0 < k < |p| ensures p[k] - p[k - 1] <= step {
      if k < |r| {
        assert p[k] == r[k] && p[k - 1] == r[k - 1];
      }
    }
  }

  /** The last position below the end is less than one step from it. */
  lemma {:induction false} RampLast(cur: int, step: int, maxPos: int)
    requires step > 0 && cur < maxPos
    ensures var r := Ramp(cur, step, maxPos); r != [] && maxPos <= r[|r| - 1] + step
    decreases maxPos - cur
  {
    if cur + step < maxPos {
      RampLast(cur + step, step, maxPos);
    }
  }

  /** Each element is one step past the one before it. */
  predicate Steps(r: seq<int>, step: int)
  {
    forall k :: 0 < k < |r| ==> r[k] == r[k - 1] + step
  }

  /** Consecutive positions below the end are exactly one step apart. */
  lemma {:induction false} RampGaps(cur: int, step: int, maxPos: int)
    requires step > 0
    ensures Steps(Ramp(cur, step, maxPos), step)
    decreases maxPos - cur
  {
    if cur < maxPos {
      var r := Ramp(cur, step, maxPos);
      var rest := Ramp(cur + step, step, maxPos);
      RampGaps(cur + step, step, maxPos);
      assert r == [cur] + rest;
      forall k | 0 < k < |r| ensures r[k] == r[k - 1] + step {
        if k > 1 {
          assert r[k] == rest[k - 1] && r[k - 1] == rest[k - 2];
        }
      }
    }
  }

  /** The state of the position loop at its head: what is left to append is a ramp from `cur`. */
  predicate PositionsSoFar(positions: seq<int>, cur: int, step: int, maxPos: nat)
    requires Terminates(step, maxPos)
  {
    0 <= cur <= maxPos &&
    (maxPos == 0 ==> cur == 0 && (positions == [] || positions == [0])) &&
    (maxPos > 0 && cur < maxPos ==> positions + Ramp(cur, step, maxPos) == Ramp(0, step, maxPos)) &&
    (maxPos > 0 && cur == maxPos ==> positions == [0] && Ramp(0, step, maxPos) == [0])
  }

  /** One turn of the position loop keeps its state, or leaves with every position below the end. */
  lemma PositionsStep(positions: seq<int>, cur: int, step: int, maxPos: nat)
    requires Terminates(step, maxPos) && PositionsSoFar(positions, cur, step, maxPos)
    ensures var next := if cur + step < maxPos then cur + step else maxPos;
      var ps := positions + [cur];
      if next == maxPos && |ps| > 1 then
        ps == (if maxPos == 0 then [0, 0] else Ramp(0, step, maxPos)) ||
        (maxPos > 0 && ps == [0, maxPos] && Ramp(0, step, maxPos) == [0])
      else PositionsSoFar(ps, next, step, maxPos)
  {
    var next := if cur + step < maxPos then cur + step else maxPos;
    if maxPos > 0 && cur < maxPos {
      assert Ramp(cur, step, maxPos) == [cur] + Ramp(cur + step, step, maxPos);
      if next == maxPos {
        assert Ramp(cur + step, step, maxPos) == [];
        if positions == [] {
          assert Ramp(0, step, maxPos) == [0];
        }
      } else {
        assert positions + [cur] + Ramp(next, step, maxPos) == positions + Ramp(cur, step, maxPos);
      }
    }
  }

  /**
   * The position loop of `_generate_screenshot_cache`, run only when it
   * terminates: positions are appended while they do not pass the end, the step
   * is capped at the end, and the loop leaves at the end once it holds two
   * positions; the end is then appended if it is missing.
   */
  method GenerateScrollPositions(step: int, maxPos: nat) returns (positions: seq<int>)
    requires Terminates(step, maxPos)
    ensures positions == ScrollPositions(step, maxPos)
  {
    positions := [];
    var cur := 0;
    while cur <= maxPos
      invariant PositionsSoFar(positions, cur, step, maxPos)
      decreases maxPos + 2 - cur - (if cur == maxPos then |positions| else 0)
    {
      PositionsStep(positions, cur, step, maxPos);
      positions := positions + [cur];
      cur := if cur + step < maxPos then cur + step else maxPos;
      if cur == maxPos && |positions| > 1 {
        break;
      }
    }
    if maxPos > 0 {
      if positions[|positions| - 1] != maxPos {
        positions := positions + [maxPos];
      }
    }
  }

  /** `f"{i:04d}"` for the indices a cache can hold. */
  function Pad4(s: string): (r: string)
    ensures |s| >= 4 ==> r == s
    ensures |s| < 4 ==> |r| == 4 && r[4 - |s|..] == s
  {
    if |s| >= 4 then s else seq(4 - |s|, _ => '0') + s
  }

  /** Where the i-th cached screenshot is written. */
  function CachePath(i: nat): string
  {
    "/tmp/webcast_cache/screenshot_" + Pad4(NatToString(i)) + ".png"
  }

  /** The first `n` cache paths, in order. */
  function CachePaths(n: nat): (r: seq<string>)
    ensures |r| == n
    ensures forall i :: 0 <= i < n ==> r[i] == CachePath(i)
  {
    seq(n, i requires 0 <= i => CachePath(i))
  }

  // ---------------------------------------------------------------------------
  // Scrolling and looping
  // ---------------------------------------------------------------------------

  /** `_calculate_next_scroll_position` with a config: one step on, capped at the end. */
  function NextPosition(cur: int, step: int, maxPos: nat): (r: int)
    ensures r <= maxPos
    ensures r == cur + step || r == maxPos
    ensures 0 <= cur && 0 <= step ==> 0 <= r
  {
    if cur + step < maxPos then cur + step else maxPos
  }

  /**
   * One turn of `_auto_scroll_loop`: at the end of the page the loop count goes
   * up and scrolling restarts at the top, the count going back to 0 once it
   * reaches `loop_count`; elsewhere one step is taken. Returns (position, loop).
   */
  function AutoScrollStep(cur: int, loop: int, loopCount: int, step: int, maxPos: nat): (r: (int, int))
    ensures cur >= maxPos ==> r.0 == 0 && r.1 == (if loop + 1 >= loopCount then 0 else loop + 1)
    ensures cur < maxPos ==> r == (NextPosition(cur, step, maxPos), loop)
  {
    if cur >= maxPos then (0, if loop + 1 >= loopCount then 0 else loop + 1)
    else (NextPosition(cur, step, maxPos), loop)
  }

  /** The auto-scroll loop counter stays within [0, loop_count) once it is there. */
  lemma AutoScrollLoopBound(cur: int, loop: int, loopCount: int, step: int, maxPos: nat)
    requires 0 <= loop < loopCount
    ensures 0 <= AutoScrollStep(cur, loop, loopCount, step, maxPos).1 < loopCount
  {
  }

  /**
   * `_fast_display_loop` over a ready cache: passes over the cache are counted
   * and the loop stops after `loop_count` of them when that is positive, and
   * otherwise only when the webcast is stopped, here during pass `stopIn`
   * (None: never). Returns the passes completed and the last index shown.
   */
  method FastDisplayLoop(cacheSize: nat, loopCount: int, stopIn: Option<nat>, bound: nat) returns (passes: nat, lastIndex: int)
    requires loopCount <= 0 ==> stopIn.Some?
    requires stopIn.Some? ==> stopIn.value <= bound
    requires loopCount > 0 ==> loopCount <= bound
    ensures loopCount > 0 && (stopIn.None? || loopCount <= stopIn.value) ==> passes == loopCount
    ensures stopIn.Some? && (loopCount <= 0 || stopIn.value < loopCount) ==> passes == stopIn.value
    ensures passes > 0 && cacheSize > 0 ==> lastIndex == cacheSize - 1
  {
    passes := 0;
    lastIndex := -1;
    while stopIn != Some(passes)
      invariant passes <= bound
      invariant stopIn.Some? ==> passes <= stopIn.value
      invariant loopCount > 0 ==> passes < loopCount || passes == 0
      invariant passes > 0 && cacheSize > 0 ==> lastIndex == cacheSize - 1
      decreases bound - passes
    {
      var i := 0;
      while i < cacheSize
        invariant 0 <= i <= cacheSize
        invariant i > 0 ==> lastIndex == i - 1
        invariant i == 0 && passes > 0 && cacheSize > 0 ==> lastIndex == cacheSize - 1
      {
        lastIndex := i;
        i := i + 1;
      }
      passes := passes + 1;
      if loopCount > 0 && passes >= loopCount {
        break;
      }
    }
  }

  // ---------------------------------------------------------------------------
  // The manager
  // ---------------------------------------------------------------------------

  /** The fields `update_config` may change, each None when absent from the request. */
  datatype ConfigUpdate = ConfigUpdate(scrollDelay: Option<real>, scrollPercentage: Option<real>,
                                       overlapPercentage: Option<real>, loopCount: Option<int>)

  /** `update_config` on a config. */
  function Updated(c: Config, u: ConfigUpdate): (r: Config)
    ensures r.scrollDelay == u.scrollDelay.UnwrapOr(c.scrollDelay)
    ensures r.scrollPercentage == u.scrollPercentage.UnwrapOr(c.scrollPercentage)
    ensures r.overlapPercentage == u.overlapPercentage.UnwrapOr(c.overlapPercentage)
    ensures r.loopCount == u.loopCount.UnwrapOr(c.loopCount)
    ensures r.(scrollDelay := c.scrollDelay, scrollPercentage := c.scrollPercentage,
               overlapPercentage := c.overlapPercentage, loopCount := c.loopCount) == c
  {
    c.(scrollDelay := u.scrollDelay.UnwrapOr(c.scrollDelay),
       scrollPercentage := u.scrollPercentage.UnwrapOr(c.scrollPercentage),
       overlapPercentage := u.overlapPercentage.UnwrapOr(c.overlapPercentage),
       loopCount := u.loopCount.UnwrapOr(c.loopCount))
  }

  /** What `get_status` reports. */
  datatype Status =
    | Stopped
    | Running(url: string, position: int, totalHeight: int, currentLoop: int, maxLoops: int,
              scrollPercentage: real, cacheIndex: int, cacheTotal: nat, cacheReady: bool)

  /** How `start_webcast` ends. */
  datatype StartOutcome =
    | Started(totalHeight: int, screenshots: nat, ready: bool)
    | Raised(message: string)
    /** The position loop never ends: the effective step does not advance. */
    | Hangs

  const NoPlaywright := "Playwright not available. Install with: pip install playwright && playwright install chromium"

  class Manager {
    var config: Option<Config>
    var isRunning: bool
    var pageOpen: bool
    var currentScrollPosition: int
    var totalHeight: int
    var currentLoop: int
    var screenshotCache: seq<string>
    var cacheIndex: int
    var screenshotsReady: bool

    /** A running webcast has a config. */
    predicate Valid()
      reads this
    {
      isRunning ==> config.Some?
    }

    constructor ()
      ensures Valid() && config.None? && !isRunning && !pageOpen
      ensures currentScrollPosition == 0 && totalHeight == 0 && currentLoop == 0
      ensures screenshotCache == [] && cacheIndex == 0 && !screenshotsReady
    {
      config, isRunning, pageOpen := None, false, false;
      currentScrollPosition, totalHeight, currentLoop := 0, 0, 0;
      screenshotCache, cacheIndex, screenshotsReady := [], 0, false;
    }

    /** `stop_webcast`: not running, no page, an empty cache; the config stays. */
    method StopWebcast()
      modifies this
      ensures Valid() && !isRunning && !pageOpen && screenshotCache == []
      ensures config == old(config) && currentScrollPosition == old(currentScrollPosition)
      ensures totalHeight == old(totalHeight) && currentLoop == old(currentLoop)
      ensures cacheIndex == old(cacheIndex) && screenshotsReady == old(screenshotsReady)
    {
      isRunning := false;
      screenshotCache := [];
      pageOpen := false;
    }

    /**
     * `_generate_screenshot_cache` with a page open: one screenshot per scroll
     * position, the first failing one (`failAt`) ending the run unready.
     */
    method GenerateScreenshotCache(failAt: Option<nat>) returns (hangs: bool)
      requires Valid() && config.Some?
      modifies this
      ensures Valid()
      ensures var step := EffectiveStep(old(config).value);
        var maxPos := MaxScroll(old(totalHeight), old(config).value.viewportHeight);
        hangs <==> !Terminates(step, maxPos)
      ensures !hangs ==>
        var n := |ScrollPositions(EffectiveStep(old(config).value), MaxScroll(old(totalHeight), old(config).value.viewportHeight))|;
        var done := if failAt.Some? && failAt.value < n then failAt.value else n;
        screenshotCache == CachePaths(done) && (screenshotsReady <==> failAt.None? || failAt.value >= n)
      ensures config == old(config) && isRunning == old(isRunning) && pageOpen == old(pageOpen)
      ensures totalHeight == old(totalHeight) && currentScrollPosition == old(currentScrollPosition)
      ensures currentLoop == old(currentLoop) && cacheIndex == old(cacheIndex)
    {
      var c := config.value;
      var step := EffectiveStep(c);
      var maxPos := MaxScroll(totalHeight, c.viewportHeight);
      if !Terminates(step, maxPos) {
        return true;
      }
      hangs := false;
      screenshotCache := [];
      var positions := GenerateScrollPositions(step, maxPos);
      var done := if failAt.Some? && failAt.value < |positions| then failAt.value else |positions|;
      var cache: seq<string> := [];
      for i := 0 to done
        invariant cache == CachePaths(i)
      {
        cache := cache + [CachePath(i)];
      }
      screenshotCache := cache;
      screenshotsReady := done == |positions|;
    }

    /**
     * `start_webcast`: without Playwright it raises before doing anything;
     * otherwise it stops the previous webcast, loads the page (`loadError`: the
     * browser raised, which stops the webcast again), resets the scroll state
     * and builds the cache.
     */
    method StartWebcast(c: Config, playwright: bool, loadError: bool, pageHeight: int, failAt: Option<nat>)
      returns (outcome: StartOutcome)
      requires Valid()
      modifies this
      ensures Valid()
      ensures !playwright ==> outcome == Raised(NoPlaywright) && isRunning == old(isRunning) && config == old(config)
      ensures playwright && loadError ==> outcome.Raised? && !isRunning && !pageOpen && screenshotCache == []
      ensures playwright && !loadError ==>
        config == Some(c) && isRunning && pageOpen && totalHeight == pageHeight &&
        currentScrollPosition == 0 && currentLoop == 0 && cacheIndex == 0 &&
        (outcome.Hangs? <==> !Terminates(EffectiveStep(c), MaxScroll(pageHeight, c.viewportHeight))) &&
        (outcome.Started? ==> outcome == Started(pageHeight, |screenshotCache|, screenshotsReady))
    {
      if !playwright {
        return Raised(NoPlaywright);
      }
      StopWebcast();
      config := Some(c);
      if loadError {
        StopWebcast();
        return Raised("browser error");
      }
      pageOpen := true;
      totalHeight := pageHeight;
      currentScrollPosition, currentLoop, cacheIndex := 0, 0, 0;
      isRunning := true;
      var hangs := GenerateScreenshotCache(failAt);
      if hangs {
        return Hangs;
      }
      outcome := Started(totalHeight, |screenshotCache|, screenshotsReady);
    }

    /** `_calculate_next_scroll_position`: unchanged without a config. */
    function NextScrollPosition(): (r: int)
      reads this
      ensures config.None? ==> r == currentScrollPosition
      ensures config.Some? ==>
        r == NextPosition(currentScrollPosition, EffectiveStep(config.value), MaxScroll(totalHeight, config.value.viewportHeight))
    {
      if config.None? then currentScrollPosition
      else NextPosition(currentScrollPosition, EffectiveStep(config.value), MaxScroll(totalHeight, config.value.viewportHeight))
    }

    /**
     * `manual_scroll(direction, amount)`: only on a running webcast with a page;
     * the default amount is a tenth of the viewport; "up" stops at the top,
     * "down" at the end, and any other direction raises without moving.
     */
    method ManualScroll(direction: string, amount: Option<int>) returns (r: Result<Status>)
      requires Valid()
      modifies this
      ensures Valid()
      ensures !(pageOpen && isRunning) || !(direction == "up" || direction == "down") ==>
        r.Failure? && currentScrollPosition == old(currentScrollPosition)
      ensures pageOpen && isRunning && direction == "up" ==>
        var a := amount.UnwrapOr(Trunc(config.value.viewportHeight as real * 0.1));
        r.Success? && currentScrollPosition == (if old(currentScrollPosition) - a > 0 then old(currentScrollPosition) - a else 0)
      ensures pageOpen && isRunning && direction == "down" ==>
        var a := amount.UnwrapOr(Trunc(config.value.viewportHeight as real * 0.1));
        var m := MaxScroll(totalHeight, config.value.viewportHeight);
        r.Success? && currentScrollPosition == (if old(currentScrollPosition) + a < m then old(currentScrollPosition) + a else m)
      ensures config == old(config) && isRunning == old(isRunning) && pageOpen == old(pageOpen)
      ensures totalHeight == old(totalHeight) && currentLoop == old(currentLoop)
      ensures screenshotCache == old(screenshotCache) && cacheIndex == old(cacheIndex)
      ensures screenshotsReady == old(screenshotsReady)
      ensures r.Success? ==> r.value == GetStatus()
    {
      if !pageOpen || !isRunning {
        return Failure("No active webcast");
      }
      var a := amount.UnwrapOr(Trunc(config.value.viewportHeight as real * 0.1));
      if direction == "up" {
        currentScrollPosition := if currentScrollPosition - a > 0 then currentScrollPosition - a else 0;
      } else if direction == "down" {
        var m := MaxScroll(totalHeight, config.value.viewportHeight);
        currentScrollPosition := if currentScrollPosition + a < m then currentScrollPosition + a else m;
      } else {
        return Failure("Direction must be 'up' or 'down'");
      }
      r := Success(GetStatus());
    }

    /**
     * `jump_to_position(percent)`: the percent is clamped to [0, 100], so the
     * new position always lies between the top and the end of the page.
     */
    method JumpToPosition(percent: real) returns (r: Result<Status>)
      requires Valid()
      modifies this
      ensures Valid()
      ensures !(pageOpen && isRunning) ==> r.Failure? && currentScrollPosition == old(currentScrollPosition)
      ensures pageOpen && isRunning ==>
        var m := MaxScroll(totalHeight, config.value.viewportHeight);
        var p := if percent < 0.0 then 0.0 else if percent > 100.0 then 100.0 else percent;
        r.Success? && currentScrollPosition == Trunc(m as real * (p / 100.0)) &&
        0 <= currentScrollPosition <= m
      ensures config == old(config) && isRunning == old(isRunning) && pageOpen == old(pageOpen)
      ensures totalHeight == old(totalHeight) && currentLoop == old(currentLoop)
      ensures screenshotCache == old(screenshotCache) && cacheIndex == old(cacheIndex)
      ensures screenshotsReady == old(screenshotsReady)
    {
      if !pageOpen || !isRunning {
        return Failure("No active webcast");
      }
      var m := MaxScroll(totalHeight, config.value.viewportHeight);
      var p := if percent < 0.0 then 0.0 else if percent > 100.0 then 100.0 else percent;
      ScaleWithin(m, p / 100.0);
      currentScrollPosition := Trunc(m as real * (p / 100.0));
      r := Success(GetStatus());
    }

    /** `update_config`: raises without a config; otherwise changes only the four scroll fields. */
    method UpdateConfig(u: ConfigUpdate) returns (r: Result<Status>)
      requires Valid()
      modifies this
      ensures Valid()
      ensures old(config).None? ==> r.Failure? && config.None?
      ensures old(config).Some? ==> config == Some(Updated(old(config).value, u)) && r == Success(GetStatus())
      ensures isRunning == old(isRunning) && pageOpen == old(pageOpen) && totalHeight == old(totalHeight)
      ensures currentScrollPosition == old(currentScrollPosition) && currentLoop == old(currentLoop)
      ensures screenshotCache == old(screenshotCache) && cacheIndex == old(cacheIndex)
      ensures screenshotsReady == old(screenshotsReady)
    {
      if config.None? {
        return Failure("No active webcast to update");
      }
      config := Some(Updated(config.value, u));
      r := Success(GetStatus());
    }

    /** `get_status`: only "stopped" while not running. */
    function GetStatus(): (st: Status)
      requires Valid()
      reads this
      ensures !isRunning <==> st.Stopped?
      ensures st.Running? ==>
        st.url == config.value.url && st.position == currentScrollPosition &&
        st.maxLoops == config.value.loopCount && st.cacheTotal == |screenshotCache| &&
        st.totalHeight == totalHeight && st.currentLoop == currentLoop &&
        st.cacheIndex == cacheIndex && st.cacheReady == screenshotsReady
      ensures st.Running? && cacheIndex == 0 ==> st.scrollPercentage == 0.0
      ensures st.Running? && |screenshotCache| > 1 && cacheIndex == |screenshotCache| - 1 ==> st.scrollPercentage == 100.0
      ensures st.Running? && screenshotCache == [] ==> st.scrollPercentage == 0.0
      ensures st.Running? && |screenshotCache| > 1 && 0 <= cacheIndex < |screenshotCache| ==>
        0.0 <= st.scrollPercentage <= 100.0
    {
      if !isRunning then Stopped
      else
        var last := if |screenshotCache| - 1 > 1 then |screenshotCache| - 1 else 1;
        var pct := if screenshotCache == [] then 0.0 else (cacheIndex as real / last as real) * 100.0;
        assert |screenshotCache| > 1 && cacheIndex == |screenshotCache| - 1 ==> cacheIndex as real / last as real == 1.0;
        Running(config.value.url, currentScrollPosition, totalHeight, currentLoop, config.value.loopCount,
                pct, cacheIndex, |screenshotCache|, screenshotsReady)
    }
  }

  /** A share in [0, 1] of a non-negative length stays within it, after truncation. */
  lemma ScaleWithin(m: nat, share: real)
    requires 0.0 <= share <= 1.0
    ensures 0 <= Trunc(m as real * share) <= m
  {
    assert m as real * share <= m as real * 1.0;
  }
}

=== FILE: websocket.dfy ===
/**
 * `WebSocketManager` (managers/websocket_manager.py): the set of open browser
 * sockets and the broadcast of real-time events to them. A socket is named by a
 * number; whether a send raises is an input (the set of sockets whose send fails),
 * and the JSON text of a message is left abstract as its event name and data.
 */
module WebSocket {

  /** A connected client. */
  type Socket = nat

  /** The `{"event": ..., "data": ...}` object one broadcast sends. */
  datatype Message = Message(event: string, data: map<string, string>)

  class Manager {
    var connections: set<Socket>

    constructor ()
      ensures connections == {}
    {
      connections := {};
    }

    /**
     * `connect`: the socket is registered; the initial state is sent only when
     * one is given and is non-empty, and a failed send is only logged.
     */
    method Connect(ws: Socket, initial: map<string, string>, sendFails: bool) returns (sentInitial: bool)
      modifies this
      ensures connections == old(connections) + {ws}
      ensures sentInitial <==> initial != map[] && !sendFails
    {
      connections := connections + {ws};
      sentInitial := initial != map[] && !sendFails;
    }

    /** `disconnect`: the socket is discarded, whether or not it was registered. */
    method Disconnect(ws: Socket)
      modifies this
      ensures connections == old(connections) - {ws}
      ensures ws !in old(connections) ==> connections == old(connections)
    {
      connections := connections - {ws};
    }

    /**
     * `broadcast(event, data)`: the one message goes to every registered socket;
     * the sockets whose send raised are collected and removed only after every
     * socket was tried. `sent` maps each socket tried to what it was sent.
     */
    method Broadcast(event: string, data: map<string, string>, failing: set<Socket>)
      returns (sent: map<Socket, Message>, dead: set<Socket>)
      modifies this
      ensures sent.Keys == old(connections)
      ensures forall ws :: ws in sent ==> sent[ws] == Message(event, data)
      ensures dead == old(connections) * failing
      ensures connections == old(connections) - failing
    {
      sent, dead := map[], {};
      if connections == {} {
        return;
      }
      var message := Message(event, data);
      var remaining := connections;
      while remaining != {}
        invariant remaining <= connections
        invariant sent.Keys == connections - remaining
        invariant forall ws :: ws in sent ==> sent[ws] == message
        invariant dead == (connections - remaining) * failing
        decreases remaining
      {
        var ws :| ws in remaining;
        sent := sent[ws := message];
        if ws in failing {
          dead := dead + {ws};
        }
        remaining := remaining - {ws};
      }
      ghost var before := connections;
      var toDrop := dead;
      while toDrop != {}
        invariant toDrop <= dead
        invariant connections == before - (dead - toDrop)
        decreases toDrop
      {
        var ws :| ws in toDrop;
        connections := connections - {ws};
        toDrop := toDrop - {ws};
      }
    }

    /** `get_connection_count`. */
    function ConnectionCount(): (n: nat)
      reads this
      ensures n == |connections|
      ensures n == 0 <==> connections == {}
    {
      |connections|
    }
  }
}

=== FILE: wrappers.dfy ===
/**
 * Optional values, used wherever the Python source returns `None`, and results,
 * used wherever it raises an exception instead of returning.
 */
module Wrappers {
  datatype Option<T> = None | Some(value: T)
  {
    function UnwrapOr(default: T): T
    {
      if Some? then value else default
    }
  }

  datatype Result<T> = Success(value: T) | Failure(error: string)
}
